=== FILE: README.md ===
# halp hypergraph core, modelled in Dafny

This project models the core of `halp`, a Python library for directed and
undirected hypergraphs. The model covers:

- **The two registries.** `DirectedHypergraph` (`directed_hypergraph.dfy`, with
  `directed_index.dfy` and `stars.dfy`) keeps nodes, hyperedges (a tail set and
  a head set), the forward and backward stars of every node, and the
  successor and predecessor maps keyed by node sets. `UndirectedHypergraph`
  (`undirected_hypergraph.dfy`) keeps one node set per hyperedge, a star per
  node, and a map from node set to id. Both issue ids from a counter that only
  grows. The id of hyperedge `n` is rendered `"e"` followed by the decimal
  digits of `n` (`edge_ids.dfy`).
- **The consistency of each registry.** The directed `Valid` is the checks of
  `_check_consistency`, with checks 4.1 and 4.2 corrected (see Findings). The
  undirected `Valid` is exact stars, an exact node-set map and issued ids.
  Every mutator except the as-written undirected `remove_node` (Findings row
  2) is proved to preserve its registry's `Valid`.
- **The traversals** of `directed_paths.py` (`traversal.dfy`): `visit`, the
  B-visit and F-visit of `_x_visit`, and the connectivity tests. Each visit's
  reached set is proved to be the least set closed under its firing rule.
- **The shortest B-tree and F-tree relaxation** (`shortest_tree.dfy`). Tail
  weights come from the sum, distance (max) and gap (min) functions in
  `tail_weights.dfy`.
- **Rebuilding a hypertree or a hyperpath** from a predecessor function
  (`hyperpaths.dfy`).
- **The lazy-deletion priority queue** (`priority_queue.dfy`, on `heapq.dfy`).
  It is modelled as a store of `(priority, count, element)` entries, the heap
  as the list of slots that Python's `heapq` keeps, and the finder map.
  `heappush` and `heappop` are modelled with heapq's sift-down and sift-up,
  so the heap's layout is the one Python builds. Entries compare as Python's
  lists do: by priority, then count, then element under Python's `<`, which
  is a parameter `less`. Deleting or reprioritizing sets an entry's count to
  0 in place and does not re-sift, so only the priority order of the heap
  survives. Among several valid entries of least priority, the layout decides
  which one `peek` and `get_top_priority` return.
- **The k shortest hyperpaths algorithm** (`k_shortest.dfy`): argument checks,
  the branching step, the lower bound and the main loop. The main loop
  extracts each path with the corrected `ExtractPath` of Findings row 3, so
  where the source raises ValueError from its path extraction the model
  returns the path. A candidate whose recomputed shortest B-tree does not
  reach the destination is dropped, as the first tree is at the start
  (Findings row 4); the source keeps it, and popping it later raises
  ValueError.
- **The degree and cardinality statistics** (`directed_statistics.dfy`).
- **The graph decompositions** of both registries
  (`directed_graph_transformations.dfy`, `undirected_graph_transformations.dfy`).
- **The legacy value classes** `Node` and `Hyperedge`/`DirectedHyperedge`/
  `BHyperedge`/`FHyperedge`/`UndirectedHyperedge` (`legacy_node.dfy`,
  `legacy_hyperedge.dfy`).

Modelling conventions:

- Nodes are any equality type, assumed not to be tuples (see Left out). Hyperedge ids are naturals. Attributes are maps
  from strings to naturals, of which the algorithms read only `"weight"`.
- Tails, heads and node sets are sets, so repeated nodes in a user's container
  do not arise.
- Weights are naturals. Infinity is `Inf` of `ExtNat`.
- Exceptions are the `Err` arm of a `Result` carrying the Python exception
  class.
- Python's set and dict iteration order is unspecified. It is modelled by a
  free choice (`:|`), or by quantifying over every order: `Enumerates` in the
  statistics, `LeastBClosedUnique` for the traversals. So every property
  proved holds for every iteration order.
- `isinstance` checks that the Python code makes are modelled as a `Checked`
  argument (`Instance` or `NotInstance`) where the code raises `TypeError`.

## Model

| member | source | states |
|---|---|---|
| EdgeIds.EdgeIdText | halp/directed_hypergraph.py:396-403 | an id is the letter `e` followed by the decimal rendering of the counter, which has at least one digit |
| EdgeIds.DecimalInjective | halp/directed_hypergraph.py:396-403 | distinct counter values have distinct decimal renderings |
| EdgeIds.EdgeIdTextInjective | halp/directed_hypergraph.py:396-403 | distinct counter values give distinct id strings, so a growing counter never repeats an id |
| Attributes.CombineAttributes | halp/directed_hypergraph.py:169-193 | the combined dictionary has the keys of both arguments; a keyword attribute overrides the `attr_dict` entry, and an `attr_dict` entry is kept where no keyword names it |
| DirectedHypergraph.Empty | halp/directed_hypergraph.py:58-167 | a new registry has no nodes or hyperedges, counter 0, and is consistent |
| DirectedHypergraph.PredSuccSymmetric | halp/directed_hypergraph.py:1276-1289 | in a consistent registry the successor map has (T, H) exactly when the predecessor map has (H, T), with the same id |
| DirectedHypergraph.PairsUnique | halp/directed_hypergraph.py:1291-1364 | in a consistent registry no two hyperedges have the same tail and head |
| DirectedHypergraph.AddNode | halp/directed_hypergraph.py:204-234 | a new node gets the given attributes and empty forward and backward stars; an existing node has its attributes updated, the new values winning; no other node, hyperedge or index changes |
| DirectedHypergraph.AddNodeValid | halp/directed_hypergraph.py:204-234 | `add_node` keeps the registry consistent |
| DirectedHypergraph.AddNodes | halp/directed_hypergraph.py:236-278 | the nodes afterwards are the old ones plus every node named, with the attribute table `Attributes.AddAllToTable` gives, so `Attributes.AddAllToTableAttrs` describes each node's attributes; hyperedges and the counter are unchanged |
| DirectedHypergraph.AddNodesValid | halp/directed_hypergraph.py:236-278 | `add_nodes` keeps the registry consistent |
| Attributes.AddAllToTableAttrs | halp/directed_hypergraph.py:236-278 | for the node table of either registry after `add_nodes`, key by key, a node named by the arguments ends with the value set by the last argument naming it that sets the key (its own dictionary over the shared one), and otherwise keeps its old value; a node left absent is set by no argument |
| DirectedHypergraph.HasHyperedgeMeaning | halp/directed_hypergraph.py:621-636 | `has_hyperedge(tail, head)` holds exactly when some hyperedge has exactly that tail and head |
| DirectedHypergraph.GetHyperedgeId | halp/directed_hypergraph.py:664-693 | ValueError exactly when no hyperedge has that tail and head; otherwise, in a consistent registry, the id of the hyperedge with exactly that tail and head |
| DirectedHypergraph.AddHyperedge | halp/directed_hypergraph.py:405-488 | both sides empty is a ValueError; on success the returned id names a hyperedge of the result |
| DirectedHypergraph.AddHyperedgeNew | halp/directed_hypergraph.py:456-481 | a new (tail, head) pair gets id counter + 1, which becomes the counter; the missing nodes are added with empty attributes; the old nodes keep theirs; every other hyperedge is unchanged |
| DirectedHypergraph.AddHyperedgeNewAttrs | halp/directed_hypergraph.py:456-481 | a new hyperedge carries the given attributes, and weight 1 unless a weight is given |
| DirectedHypergraph.AddHyperedgeExisting | halp/directed_hypergraph.py:453-487 | re-adding an existing pair returns its id, adds no hyperedge or node, and only merges attributes, the new values winning |
| DirectedHypergraph.AddHyperedgeValid | halp/directed_hypergraph.py:405-488 | in a consistent registry `add_hyperedge` fails exactly when both sides are empty (one empty side is accepted), and keeps the registry consistent |
| DirectedHypergraph.AddHyperedges | halp/directed_hypergraph.py:490-546 | on success, one id per element and no element with both sides empty |
| DirectedHypergraph.AddHyperedgesValid | halp/directed_hypergraph.py:490-546 | in a consistent registry `add_hyperedges` fails exactly when some element has both sides empty, and otherwise keeps the registry consistent |
| DirectedHypergraph.AddHyperedgeSides | halp/directed_hypergraph.py:405-488 | on success the returned id names a hyperedge with exactly the given tail and head, and every hyperedge already present keeps its tail and head |
| DirectedHypergraph.AddHyperedgesIds | halp/directed_hypergraph.py:490-546 | on success, the i-th returned id names a hyperedge whose tail and head are those of the i-th element, and every hyperedge already present keeps its tail and head |
| DirectedHypergraph.RemoveHyperedge | halp/directed_hypergraph.py:548-594 | ValueError exactly for an unknown id; otherwise exactly that hyperedge is gone, the others and the nodes and counter are unchanged, and its pair is no longer present |
| DirectedHypergraph.RemoveHyperedgeValid | halp/directed_hypergraph.py:548-594 | `remove_hyperedge` of a hyperedge keeps the registry consistent |
| DirectedHypergraph.RemoveHyperedgeStars | halp/directed_hypergraph.py:565-594 | the removed id leaves every forward and backward star, and the stars are otherwise unchanged |
| DirectedHypergraph.RemoveHyperedges | halp/directed_hypergraph.py:596-619 | on success the hyperedges left are the old ones minus those listed; nodes and counter are unchanged |
| DirectedHypergraph.RemoveHyperedgesSucceeds | halp/directed_hypergraph.py:596-619 | in a consistent registry `remove_hyperedges` succeeds exactly when the ids are distinct hyperedges, and then keeps the registry consistent |
| DirectedHypergraph.RemoveNode | halp/directed_hypergraph.py:280-315 | ValueError exactly for an absent node; otherwise the result is consistent and lacks the node and exactly the hyperedges with the node in tail or head; every other node and hyperedge is unchanged |
| DirectedHypergraph.RemovedEdgesTouchNode | halp/directed_hypergraph.py:295-315 | after the forward-star loop and the backward-star loop, no hyperedge left touches the node, and dropping the node completes the removal |
| DirectedHypergraph.RemoveNodes | halp/directed_hypergraph.py:317-344 | succeeds exactly when the nodes are distinct nodes of the registry; then the result is consistent and lacks them and exactly the hyperedges touching them |
| DirectedHypergraph.RemoveNodesFails | halp/directed_hypergraph.py:317-344 | `remove_nodes` stops at a node only when the nodes are not distinct nodes of the registry |
| DirectedHypergraph.InducedSubhypergraph | halp/directed_hypergraph.py:986-1003 | the result is consistent; its nodes are the given ones that exist, with their attributes; its hyperedges are exactly those with tail and head inside the given nodes, unchanged; the id counter is the original's |
| DirectedHypergraph.ForwardStar | halp/directed_hypergraph.py:773-784 | ValueError for an absent node; in a consistent registry, exactly the hyperedges with the node in the tail |
| DirectedHypergraph.BackwardStar | halp/directed_hypergraph.py:786-797 | ValueError for an absent node; in a consistent registry, exactly the hyperedges with the node in the head |
| DirectedHypergraph.Successors | halp/directed_hypergraph.py:799-815 | in a consistent registry, exactly the hyperedges whose tail is the given set |
| DirectedHypergraph.Predecessors | halp/directed_hypergraph.py:817-835 | in a consistent registry, exactly the hyperedges whose head is the given set |
| DirectedHypergraph.IsBHypergraph | halp/directed_hypergraph.py:836-851 | true exactly when no head has more than one node |
| DirectedHypergraph.IsFHypergraph | halp/directed_hypergraph.py:852-867 | true exactly when no tail has more than one node |
| DirectedHypergraph.IsBFHypergraph | halp/directed_hypergraph.py:868-881 | true exactly when no hyperedge has more than one node on both sides |
| DirectedHypergraph.Copy | halp/directed_hypergraph.py:883-950 | the copy has the same nodes, hyperedges, stars, pair maps and id counter as the original |
| DirectedHypergraph.SymmetricImage | halp/directed_hypergraph.py:952-984 | same nodes, ids and counter; every hyperedge has tail and head exchanged and keeps its attributes |
| DirectedHypergraph.SymmetricImageValid | halp/directed_hypergraph.py:952-984 | the symmetric image of a consistent registry is consistent |
| DirectedHypergraph.SymmetricImageInvolution | halp/directed_hypergraph.py:952-984 | taking the symmetric image twice gives back the registry |
| DirectedHypergraph.SymmetricImageSwapsBF | halp/directed_hypergraph.py:836-867 | every head of a registry has at most one node exactly when every tail of its symmetric image does, and the same with tails and heads exchanged: B-hypergraphs and F-hypergraphs swap |
| DirectedHypergraph.OneSidedEdgeFailsCheck | halp/directed_hypergraph.py:1291-1364 | adding a new hyperedge with an empty tail to a consistent registry succeeds and gives a consistent registry, which the consistency check as written rejects |
| DirectedHypergraph.ValidCoversNonEmptySides | halp/directed_hypergraph.py:1291-1364 | in a consistent registry, every hyperedge with a non-empty tail is in some forward star and every one with a non-empty head is in some backward star |
| DirectedHypergraph.IdsNeverReused | halp/directed_hypergraph.py:396-403 | after a hyperedge is removed, adding any pair never gets its id back |
| DirectedHypergraph.RunFresh | halp/directed_hypergraph.py:396-403 | over any sequence of `add_node`, `add_hyperedge` and `remove_hyperedge` calls the registry stays consistent, the id counter never goes back, and every hyperedge not present at the start has an id above the starting counter, so no id issued earlier, removed or not, comes back |
| UndirectedHypergraph.Empty | halp/undirected_hypergraph.py:59-135 | a new registry has no nodes or hyperedges, counter 0, and is consistent |
| UndirectedHypergraph.MembersRegistered | halp/undirected_hypergraph.py:384-447 | in a consistent registry every node of a hyperedge is a registered node |
| UndirectedHypergraph.NodeSetsUnique | halp/undirected_hypergraph.py:384-447 | in a consistent registry no two hyperedges have the same node set |
| UndirectedHypergraph.AddNode | halp/undirected_hypergraph.py:174-209 | a new node gets the given attributes and an empty star; an existing node has its attributes updated, the new values winning; nothing else changes |
| UndirectedHypergraph.AddNodeValid | halp/undirected_hypergraph.py:174-209 | `add_node` keeps the registry consistent |
| UndirectedHypergraph.AddNodes | halp/undirected_hypergraph.py:211-254 | the nodes afterwards are the old ones plus every node named, with the attribute table `Attributes.AddAllToTable` gives, the same fold as the directed registry's; hyperedges, node-set map and counter unchanged |
| UndirectedHypergraph.AddNodesValid | halp/undirected_hypergraph.py:211-254 | `add_nodes` keeps the registry consistent |
| UndirectedHypergraph.HasHyperedgeMeaning | halp/undirected_hypergraph.py:550-561 | in a consistent registry `has_hyperedge` holds exactly when some hyperedge has exactly that node set |
| UndirectedHypergraph.GetHyperedgeId | halp/undirected_hypergraph.py:592-618 | ValueError exactly when no hyperedge has that node set; otherwise, in a consistent registry, the id of the hyperedge with exactly that node set |
| UndirectedHypergraph.GetStar | halp/undirected_hypergraph.py:691-703 | ValueError exactly for an absent node; in a consistent registry, exactly the ids of the hyperedges containing the node |
| UndirectedHypergraph.GetNodeAttribute | halp/undirected_hypergraph.py:336-355 | the attribute's value when the node has it; ValueError for an absent node or attribute |
| UndirectedHypergraph.GetHyperedgeAttribute | halp/undirected_hypergraph.py:620-649 | the attribute's value when the hyperedge has it; ValueError for an unknown id or attribute |
| UndirectedHypergraph.GetHyperedgeWeight | halp/undirected_hypergraph.py:680-689 | the hyperedge's weight; in a consistent registry it fails, with ValueError, exactly for an unknown id |
| UndirectedHypergraph.GetHyperedgeNodes | halp/undirected_hypergraph.py:670-678 | ValueError exactly for an unknown id; in a consistent registry, a non-empty node set whose id lookup gives the hyperedge back |
| UndirectedHypergraph.AddHyperedge | halp/undirected_hypergraph.py:384-447 | an empty node set is a ValueError; on success the returned id names a hyperedge of the result |
| UndirectedHypergraph.AddHyperedgeNew | halp/undirected_hypergraph.py:420-440 | a new node set gets id counter + 1, which becomes the counter; weight 1 unless given; the given attributes; the missing nodes with empty attributes; every other hyperedge unchanged |
| UndirectedHypergraph.AddHyperedgeExisting | halp/undirected_hypergraph.py:420-446 | re-adding an existing node set returns its id, creates nothing, and only merges attributes: given values, weight included, overwrite, other keys are kept |
| UndirectedHypergraph.AddHyperedgeValid | halp/undirected_hypergraph.py:384-447 | in a consistent registry `add_hyperedge` fails exactly for an empty node set and keeps the registry consistent |
| UndirectedHypergraph.AddHyperedges | halp/undirected_hypergraph.py:449-487 | on success, one id per node set and no empty node set |
| UndirectedHypergraph.AddHyperedgesValid | halp/undirected_hypergraph.py:449-487 | in a consistent registry `add_hyperedges` fails exactly when some node set is empty, and keeps the registry consistent |
| UndirectedHypergraph.AddHyperedgeMembers | halp/undirected_hypergraph.py:384-447 | on success the returned id names a hyperedge with exactly the given node set, and every hyperedge already present keeps its node set |
| UndirectedHypergraph.AddHyperedgesIds | halp/undirected_hypergraph.py:449-487 | on success, the i-th returned id names a hyperedge whose node set is the i-th set, the node-set map sends that set to that id, and every hyperedge already present keeps its node set |
| UndirectedHypergraph.FreshIdsConsecutive | halp/undirected_hypergraph.py:374-382 | distinct new node sets added in one call get consecutive ids counter + 1, counter + 2, … in order |
| UndirectedHypergraph.RemoveHyperedge | halp/undirected_hypergraph.py:489-522 | ValueError exactly for an unknown id; otherwise exactly that hyperedge is gone, its node set is no longer present, nodes and counter are unchanged |
| UndirectedHypergraph.RemoveHyperedgeValid | halp/undirected_hypergraph.py:489-522 | `remove_hyperedge` of a hyperedge keeps the registry consistent |
| UndirectedHypergraph.RemoveHyperedges | halp/undirected_hypergraph.py:524-548 | on success the hyperedges left are the old ones minus those listed; nodes and counter unchanged |
| UndirectedHypergraph.RemoveHyperedgesSucceeds | halp/undirected_hypergraph.py:524-548 | in a consistent registry `remove_hyperedges` succeeds exactly when the ids are distinct hyperedges, and keeps the registry consistent |
| UndirectedHypergraph.RemoveNodeAsWritten | halp/undirected_hypergraph.py:256-288 | `remove_node` as written: ValueError exactly for an absent node; otherwise the node is gone and every remaining star is the star it was before |
| UndirectedHypergraph.RemoveNodeAsWrittenKeepsStars | halp/undirected_hypergraph.py:256-288 | as written, the result has the same nodes, hyperedges and node-set map as the corrected form; its stars still cover every hyperedge and its ids are still issued, only the stars are no longer exact |
| UndirectedHypergraph.StaleStar | halp/undirected_hypergraph.py:276-288 | for any two nodes sharing a hyperedge, removing one leaves the hyperedge's id in the other's star, the registry is no longer consistent, and removing the other node next raises KeyError |
| UndirectedHypergraph.StaleStarCounterexample | halp/undirected_hypergraph.py:276-288 | on the one-hyperedge registry {a, b}: as written, `get_star(b)` still reports hyperedge 1 after `a` is removed, and removing `b` raises KeyError; the corrected form leaves `b` an empty star and removes it |
| UndirectedHypergraph.RemoveNode | halp/undirected_hypergraph.py:256-288 | the corrected `remove_node`: ValueError exactly for an absent node; otherwise the node is gone and the counter is kept |
| UndirectedHypergraph.RemoveNodeValid | halp/undirected_hypergraph.py:256-288 | the corrected `remove_node` of a present node succeeds and keeps the registry consistent |
| UndirectedHypergraph.RemoveNodeRemovesContaining | halp/undirected_hypergraph.py:256-288 | removing a node deletes exactly the hyperedges containing it and keeps every other node and hyperedge as it was |
| UndirectedHypergraph.CorrectedEmptiesStar | halp/undirected_hypergraph.py:256-288 | in a two-node registry whose hyperedges all contain `a`, the corrected removal of `a` leaves `b` with an empty star, and `b` can then be removed |
| UndirectedHypergraph.RemoveNodesMeaning | halp/undirected_hypergraph.py:290-318 | over the corrected `remove_node` of Findings row 2: `remove_nodes` succeeds exactly when the nodes are distinct registered nodes; then the result is consistent and lacks them and exactly the hyperedges touching them |
| UndirectedHypergraph.RunValid | halp/undirected_hypergraph.py:384-522 | any sequence of `add_node`, `add_hyperedge`, `remove_hyperedge` and corrected `remove_node` calls keeps the registry consistent and never lowers the id counter |
| UndirectedHypergraph.StarExactAfterAnyRun | halp/undirected_hypergraph.py:691-703 | after any such sequence on a new registry, `get_star(n)` is exactly the ids of the hyperedges containing `n`, and fails exactly for an absent node |
| UndirectedHypergraph.IdsNeverReused | halp/undirected_hypergraph.py:374-382 | after a hyperedge is removed, adding any node set never gets its id back |
| UndirectedHypergraph.Copy | halp/undirected_hypergraph.py:705-770 | the copy has the same nodes, hyperedges, stars, node-set map and id counter |
| UndirectedHypergraph.CopyContinuesIds | halp/undirected_hypergraph.py:705-770 | the next new hyperedge of a copy gets the id the original would have issued next |
| Traversal.Visit | halp/algorithms/directed_paths.py:23-81 | ValueError exactly for a source outside the hypergraph; the reached set is the least set containing the source and closed under "one tail node reached ⇒ the head reached"; `Pv[source]` is None; a hyperedge is recorded in `Pe` exactly when a tail node is reached, with a reached tail node |
| Traversal.IsConnected | halp/algorithms/directed_paths.py:84-98 | true exactly when the target is connected to the source |
| Traversal.XVisit | halp/algorithms/directed_paths.py:101-187 | ValueError exactly for a missing source; the reached set is the least set containing the source and closed under "whole tail reached ⇒ head reached"; `Pe[e]` is set exactly for the hyperedges with a non-empty tail all reached; distances and predecessors follow the firing hyperedges |
| Traversal.BVisit | halp/algorithms/directed_paths.py:190-212 | the B-visited set is the least B-closed set of the source, `v[source]` is 0, and exactly the unreached nodes keep infinity |
| Traversal.FVisit | halp/algorithms/directed_paths.py:237-260 | the F-visited set is the least B-closed set of the source in the symmetric image, with `v[source]` 0 |
| Traversal.IsBConnected | halp/algorithms/directed_paths.py:215-234 | true exactly when the target is B-connected to the source; always true for the source itself |
| Traversal.IsFConnected | halp/algorithms/directed_paths.py:263-276 | true exactly when the target is F-connected to the source, which is B-connectivity in the symmetric image |
| Traversal.LeastBClosedImage | halp/algorithms/directed_paths.py:133-137 | the least F-closed set in a hypergraph is the least B-closed set in its symmetric image |
| Traversal.BClosedImage | halp/algorithms/directed_paths.py:133-137 | a set is closed under the F-rule exactly when it is closed under the B-rule of the symmetric image |
| Traversal.LeastBClosedUnique | halp/algorithms/directed_paths.py:101-187 | the reached set does not depend on the order stars are iterated in |
| Traversal.BVisitWithinVisit | halp/algorithms/directed_paths.py:190-212 | the B-visited set is contained in the visited set |
| Traversal.BConnectedConnected | halp/algorithms/directed_paths.py:215-234 | B-connected implies connected |
| Traversal.FVisitNotSuperset | halp/algorithms/directed_paths.py:237-260 | on the one-arrow hypergraph 1 → 2, B-visit from 1 reaches {1, 2} and F-visit only {1}, so the F-visited set need not contain the B-visited one |
| TailWeights.Sum | halp/algorithms/directed_paths.py:279-289 | the sum of the tail weights, in any order; KeyError exactly when a tail node has no weight |
| TailWeights.Distance | halp/algorithms/directed_paths.py:292-303 | the greatest tail weight; ValueError for an empty tail, KeyError when a tail node has no weight |
| TailWeights.Gap | halp/algorithms/directed_paths.py:306-316 | the least tail weight; ValueError for an empty tail, KeyError when a tail node has no weight |
| TailWeights.FoldRemove | halp/algorithms/directed_paths.py:279-316 | the tail function does not depend on the order the tail is iterated in |
| TailWeights.FoldMono | halp/algorithms/directed_paths.py:279-316 | lowering tail weights never raises the tail function's value |
| TailWeights.FoldExtreme | halp/algorithms/directed_paths.py:292-316 | the distance function is the weight of a tail node bounding all others from above, the gap function one bounding them from below |
| TailWeights.FoldSingle | halp/algorithms/directed_paths.py:279-316 | for a one-node tail each tail function gives that node's weight |
| TailWeights.FoldFinite | halp/algorithms/directed_paths.py:279-303 | a finite sum or maximum means every tail weight is finite |
| TailWeights.Apply | halp/algorithms/directed_paths.py:396 | calling a tail function on a hyperedge tail: KeyError when a tail node has no weight, ValueError for an empty tail under max or min, otherwise the order-independent value |
| ShortestTree.ShortestXTree | halp/algorithms/directed_paths.py:319-417 | ValueError exactly for a missing source; `W[source]` is 0 and the source has no predecessor; every other node has a predecessor exactly when its weight is finite; each predecessor has the node on its far side, and its weight plus the tail function of its near side is at most the node's weight; under sum and distance a finite weight means B-connected; the valid ordering starts with the source and lists only nodes of finite weight |
| ShortestTree.Round | halp/algorithms/directed_paths.py:384-412 | one pop of the queue keeps the loop invariant and moves down in the termination order |
| ShortestTree.ShortestBTree | halp/algorithms/directed_paths.py:420-447 | the same guarantees along forward stars; the ordering is returned exactly when asked for |
| ShortestTree.ShortestFTree | halp/algorithms/directed_paths.py:450-471 | the same guarantees along backward stars; a finite weight means B-connected in the symmetric image |
| Hyperpaths.HypertreeFromPredecessors | halp/algorithms/directed_paths.py:474-528 | the nodes are the source and every node with a predecessor, each with its weight when weights are given; the hyperedges are exactly the predecessor hyperedges; KeyError for a missing weight, ValueError for a predecessor that is not a copyable hyperedge |
| Hyperpaths.CountRoots | halp/algorithms/directed_paths.py:562-575 | KeyError exactly when a key is not a node or a predecessor is not a hyperedge; otherwise the number of nodes without a predecessor |
| Hyperpaths.Walk | halp/algorithms/directed_paths.py:576-602 | KeyError exactly when the walk back from the destination meets a tail node without an entry; otherwise the path holds exactly the predecessor hyperedges of the nodes behind the destination and the root among them |
| Hyperpaths.HyperpathFromPredecessors | halp/algorithms/directed_paths.py:531-602 | KeyError for an unknown key or hyperedge; ValueError unless exactly one node has no predecessor; otherwise the predecessor hyperedges reached backwards through tail nodes |
| Hyperpaths.DestinationIsRoot | halp/algorithms/directed_paths.py:576-602 | a destination without predecessor gives the path of that node alone |
| Hyperpaths.PathTailsBehind | halp/algorithms/directed_paths.py:576-602 | every hyperedge of the path has its whole tail among the nodes behind the destination |
| Hyperpaths.PathWithinTree | halp/algorithms/directed_paths.py:474-602 | the hyperpath to any destination is part of the hypertree of the same predecessor function |
| Hyperpaths.TreeRoots | halp/algorithms/directed_paths.py:319-417 | the nodes without predecessor in a shortest tree are the source and the unreached nodes |
| Hyperpaths.TreePredecessorsKnown | halp/algorithms/directed_paths.py:555-575 | a shortest tree's predecessor function passes the node-key and hyperedge checks of the path extraction |
| Heapq.Swap | halp/utilities/priority_queue.py:52 | exchanging two positions of the heap list keeps its slots as a multiset and changes nothing else |
| Heapq.Push | halp/utilities/priority_queue.py:52 | `heappush` adds exactly the new slot to the heap's slots |
| Heapq.PushOrders | halp/utilities/priority_queue.py:52 | `heappush` keeps every parent's priority at most its children's |
| Heapq.Pop | halp/utilities/priority_queue.py:63 | `heappop` returns `heap[0]` and the heap loses exactly that slot |
| Heapq.PopOrders | halp/utilities/priority_queue.py:63 | `heappop` keeps every parent's priority at most its children's |
| Heapq.SiftDownOrders | halp/utilities/priority_queue.py:52 | sifting a slot up from a hole restores the heap order on priorities |
| Heapq.SiftToLeafHole | halp/utilities/priority_queue.py:63 | moving the hole from the root to a leaf along the smaller children keeps every other edge ordered |
| Heapq.RootLeast | halp/utilities/priority_queue.py:100 | in an ordered heap, `heap[0]` has the least priority of all queued slots |
| Heapq.OrderedSamePriorities | halp/utilities/priority_queue.py:77 | rewriting counts in place or appending entries keeps the heap order, because it is an order on priorities only |
| Heapq.SiftDownOneLevel | halp/utilities/priority_queue.py:52 | a slot less than its parent but not than its grandparent rises exactly one level |
| PriorityQueue.Empty | halp/utilities/priority_queue.py:21-39 | a new queue holds no valid entry |
| PriorityQueue.PopTop | halp/utilities/priority_queue.py:63-65 | popping the top keeps the invariant and the entries, removes exactly slot `heap[0]`, and deletes only its element's finder entry |
| PriorityQueue.AddElement | halp/utilities/priority_queue.py:41-52 | `add_element` keeps the invariant and queues exactly one new slot besides the old ones |
| PriorityQueue.AddElementFresh | halp/utilities/priority_queue.py:41-52 | the new entry carries the priority and element and a count above every valid entry's; the element is contained; no other finder entry changes |
| PriorityQueue.AddNoLessStaysLast | halp/utilities/priority_queue.py:41-52 | a fresh entry whose priority is no less than its parent slot's stays at the end of the heap |
| PriorityQueue.AddRisesOneLevel | halp/utilities/priority_queue.py:41-52 | a fresh entry less than its parent but not than its grandparent rises one level |
| PriorityQueue.ReAddKeepsOldEntry | halp/utilities/priority_queue.py:41-52 | re-adding a contained element leaves its old entry valid beside the new one |
| PriorityQueue.AddAllEntries | halp/utilities/priority_queue.py:41-52 | adding distinct elements one after another into a new queue stores the i-th as an entry with its priority, count i+1 and element at slot i, points its finder entry at slot i, and leaves the counter one past the number added |
| PriorityQueue.IsEmpty | halp/utilities/priority_queue.py:111-125 | true exactly when no valid entry is queued; the purge keeps every valid entry |
| PriorityQueue.Purge | halp/utilities/priority_queue.py:111-125 | popping invalid entries off the top keeps every valid entry and the store, drops finder entries only, and stops with a valid top or an empty heap, the latter exactly when no valid entry is queued |
| PriorityQueue.DeleteElementSpec | halp/utilities/priority_queue.py:68-77 | ValueError exactly for an element without finder entry; otherwise exactly its entry is invalidated and it is no longer contained |
| PriorityQueue.ReprioritizeSpec | halp/utilities/priority_queue.py:79-89 | ValueError exactly for an element without finder entry; otherwise a new entry with the new priority and the old count is appended, the old entry is invalid, other entries keep element and priority, and containment is unchanged |
| PriorityQueue.PurgedTopLeast | halp/utilities/priority_queue.py:111-125 | after the purge the top entry is valid and its priority is least among the valid entries |
| PriorityQueue.GetTopPrioritySpec | halp/utilities/priority_queue.py:54-66 | IndexError exactly when nothing valid is queued; otherwise the element of a valid entry of least priority leaves the queue and is no longer contained |
| PriorityQueue.PeekSpec | halp/utilities/priority_queue.py:91-100 | IndexError exactly when nothing valid is queued; otherwise the element of a valid entry of least priority, which stays queued |
| PriorityQueue.UniqueLeastComesFirst | halp/utilities/priority_queue.py:54-100 | a valid entry whose priority is strictly least among the valid entries is what `peek` and `get_top_priority` return |
| PriorityQueue.PeekThenPop | halp/utilities/priority_queue.py:54-100 | `peek` and a following `get_top_priority` give the same element, which is then not contained |
| PriorityQueue.PurgePopsStale | halp/utilities/priority_queue.py:111-125 | an invalid entry whose priority is strictly least among all queued slots is on top, and the purge pops it and deletes its element's finder entry |
| PriorityQueue.StaleThenLeast | halp/utilities/priority_queue.py:91-125 | when the strictly least slot is invalid and the strictly least of the rest is valid, the purge pops exactly the first and `peek` returns the second |
| PriorityQueue.ReprioritizeMinLosesElement | halp/utilities/priority_queue.py:79-125 | reprioritizing upwards the element whose priority is strictly least among the queued slots, then peeking, deletes its finder entry although its new entry stays queued; it is then not contained and cannot be deleted or reprioritized |
| PriorityQueue.FiveAddedPeek | tests/test_priority_queue.py:4-21 | after adding a to e with priorities 3, 2, 4, 1, 5, `peek` gives d and all five are contained |
| PriorityQueue.FiveAddedLosesD | halp/utilities/priority_queue.py:79-125 | in that queue, reprioritizing d to 6 and peeking leaves d not contained although its new entry is still queued |
| PriorityQueue.TestReprioritized | tests/test_priority_queue.py:21-27 | after d is reprioritized to 6, 7 and 8, the stale entry of d is on top; the purge pops just it and `peek` gives b |
| PriorityQueue.TestReprioritizedLosesD | tests/test_priority_queue.py:21-27 | after that `peek`, d is no longer contained though its newest entry is queued and valid |
| PriorityQueue.TestDeleteB | tests/test_priority_queue.py:29-31 | deleting b invalidates exactly its entry; b is no longer contained and a still is |
| PriorityQueue.TestPeekAfterDelete | tests/test_priority_queue.py:29-32 | `peek` then gives a and drops b's finder entry |
| PriorityQueue.TestPopA | tests/test_priority_queue.py:32-47 | `get_top_priority` gives a, which is then not contained; deleting or reprioritizing b raises ValueError |
| PriorityQueue.EmptyRaises | halp/utilities/priority_queue.py:54-100 | `peek` and `get_top_priority` of a new queue raise IndexError |
| PriorityQueue.TiedStaleEntryStaysBelow | halp/utilities/priority_queue.py:41-125 | adding y and then x with priority 1 and reprioritizing x to 5 leaves y on top: `peek` gives y, pops nothing, and x stays contained |
| PriorityQueue.FourAddedShape | halp/utilities/priority_queue.py:41-52 | adding a at 9 and r, c, e at 5 gives the heap layout r, e, c, a |
| PriorityQueue.SixAddedShape | halp/utilities/priority_queue.py:41-52 | adding f and g at 6 next appends them at the end |
| PriorityQueue.LayoutDecidesTies | halp/utilities/priority_queue.py:54-89 | after deleting c and reprioritizing a to 5 there, `get_top_priority` gives r, although a's new entry (5, 1) compares less than r's (5, 2) |
| KShortest.CheckArgs | halp/algorithms/k_shortest_hyperpaths.py:45-63 | TypeError unless a B-hypergraph, then ValueError for a missing source or destination, then TypeError for a non-integer k, then ValueError for k ≤ 0, in that order |
| KShortest.Branch | halp/algorithms/k_shortest_hyperpaths.py:126-148 | branch i is a consistent copy lacking exactly the predecessor of `ordering[i+1]` and, for every later position j, the hyperedges into `ordering[j]` other than its predecessor; it fails exactly when one of those removals fails |
| KShortest.BranchingStep | halp/algorithms/k_shortest_hyperpaths.py:126-148 | fails exactly when some branch fails; otherwise one branch per position but the last (`len(ordering) - 1` branches), each consistent and lacking exactly its cut |
| KShortest.BranchKeepsLaterPreds | halp/algorithms/k_shortest_hyperpaths.py:138-146 | in a B-hypergraph, branch i keeps the predecessor of every position after i + 1 |
| KShortest.LaterBranchKeepsCut | halp/algorithms/k_shortest_hyperpaths.py:138-146 | the predecessor of `ordering[i+1]` is missing from branch i but kept by every later branch |
| KShortest.LowerBound | halp/algorithms/k_shortest_hyperpaths.py:151-188 | ValueError when `ordering[i+1]` is not in the branch; infinity when no hyperedge enters it; an error when a hyperedge entering it has a tail weight missing; otherwise that node takes the least weight the entering hyperedges offer, later positions follow their predecessors, and the bound is the weight reached at the destination |
| KShortest.BranchBoundUnique | halp/algorithms/k_shortest_hyperpaths.py:151-188 | the lower bound of a branch is determined: two values that both satisfy its definition are equal |
| KShortest.BranchCandidate | halp/algorithms/k_shortest_hyperpaths.py:106-113 | a branch becomes a candidate exactly when its lower bound is finite: the candidate is the branch itself with no tree and the weights `{t: bound}`; an infinite bound gives no candidate; ValueError when `ordering[j+1]` is not in the branch |
| KShortest.LowerBoundAboveParent | halp/algorithms/k_shortest_hyperpaths.py:151-188 | when the parent's weights satisfy the Bellman inequalities, the bound of a branch is never below the parent's weight of the destination |
| KShortest.ExtractAsWritten | halp/algorithms/k_shortest_hyperpaths.py:88-91 | as written, extracting the path from a shortest B-tree raises ValueError whenever some node is unreached, even when the destination is reached; it succeeds when every node is reached (under sum or distance) |
| KShortest.ReachedClosed | halp/algorithms/k_shortest_hyperpaths.py:88-91 | the tree's predecessors restricted to the reached nodes pass the key and hyperedge checks, have the source as their only root, and hold every node behind a reached destination |
| KShortest.ExtractPath | halp/algorithms/k_shortest_hyperpaths.py:88-91 | the corrected extraction succeeds whenever the destination is reached (under sum or distance); the path is the predecessor hyperedges of the reached nodes behind the destination, all of them hyperedges of the hypergraph |
| KShortest.Cheapest | halp/algorithms/k_shortest_hyperpaths.py:85-86 | the first candidate with the least destination weight, as `min` and `index` pick it |
| KShortest.CandidatesOf | halp/algorithms/k_shortest_hyperpaths.py:104-113 | the candidates added are, in branch order, exactly the branches with a finite lower bound, each with its bound at `t` and no tree; each is a sound candidate |
| KShortest.TakePath | halp/algorithms/k_shortest_hyperpaths.py:87-114 | with the corrected path extraction of Findings row 3 and the corrected refresh of Findings row 4: taking a candidate with a known tree adds exactly one path and keeps the loop invariant, stopping once k paths are found; under sum or distance the extraction never fails, so exactly one path is appended to the earlier ones |
| KShortest.Refresh | halp/algorithms/k_shortest_hyperpaths.py:116-121 | a candidate without a tree gets a shortest B-tree of its own hypergraph computed with the sum function, whatever `F` is; the result is a sound candidate exactly when that tree reaches the destination |
| KShortest.RefreshThenTakeAsWritten | halp/algorithms/k_shortest_hyperpaths.py:80-121 | as written, a refreshed candidate is kept whatever its tree reaches; popping it raises ValueError exactly when some node of its tree is unreached, so always when the destination is |
| KShortest.MissedRefreshExample | halp/algorithms/k_shortest_hyperpaths.py:104-121 | on the input of Findings row 4, branch 0 has the finite lower bound 4, so it becomes a candidate, yet every shortest B-tree of it leaves the destination at infinity and has more than one root |
| KShortest.Round | halp/algorithms/k_shortest_hyperpaths.py:84-121 | with the corrected path extraction of Findings row 3 and the corrected refresh of Findings row 4: one pass of the main loop keeps its invariant and either adds a path, or gives one candidate its tree, or drops a candidate whose tree misses the destination, leaving one candidate fewer without a tree; under sum or distance an error comes only after a path is appended |
| KShortest.KShortestHyperpaths | halp/algorithms/k_shortest_hyperpaths.py:15-123 | with the corrected path extraction of Findings row 3 and the corrected refresh of Findings row 4: the argument errors in the source's order; on success at most k paths, each made of hyperedges of the hypergraph; under sum or distance no path at all when the destination is not B-connected to the source |
| DirectedStatistics.NumberOfNodes | halp/utilities/directed_statistics.py:12-23 | the number of nodes; TypeError for anything but a directed hypergraph |
| DirectedStatistics.NumberOfHyperedges | halp/utilities/directed_statistics.py:26-37 | the number of hyperedges; TypeError for anything but a directed hypergraph |
| DirectedStatistics.DegreesMeaning | halp/utilities/directed_statistics.py:40-133 | for any iteration order of the nodes, the out- (in-)degree list has one entry per node, the number of hyperedges with the node in the tail (head) |
| DirectedStatistics.DegreeListMeaning | halp/utilities/directed_statistics.py:40-68 | for nodes of the registry, the degree list holds, position by position, the number of hyperedges with that node on the side |
| DirectedStatistics.DegreeListUnknown | halp/utilities/directed_statistics.py:40-54 | a name outside the node set makes the degree lookup raise ValueError |
| DirectedStatistics.ExtremeDegreeMeaning | halp/utilities/directed_statistics.py:71-155 | the min/max degree is the degree of some node and bounds every node's degree; ValueError without nodes |
| DirectedStatistics.CardinalitiesMeaning | halp/utilities/directed_statistics.py:170-271 | for any iteration order of the ids, the tail (head) cardinality list has one entry per hyperedge |
| DirectedStatistics.CardinalityList | halp/directed_hypergraph.py:714-720 | one side size per id, in order; ValueError exactly when some id names no hyperedge, as `get_hyperedge_attribute` raises |
| DirectedStatistics.ExtremeCardinalityMeaning | halp/utilities/directed_statistics.py:204-296 | the min/max cardinality is the side size of some hyperedge and bounds every hyperedge's; ValueError without hyperedges |
| DirectedStatistics.CardinalityPairs | halp/utilities/directed_statistics.py:311-326 | one pair (size of tail, size of head) per id, in order; TypeError for anything but a directed hypergraph |
| DirectedStatistics.ByNodesIsByEdges | halp/utilities/directed_statistics.py:40-271 | counting node-hyperedge incidences node by node or hyperedge by hyperedge gives the same number |
| DirectedStatistics.DegreeSum | halp/utilities/directed_statistics.py:40-68 | the degree list sums to the incidences counted node by node |
| DirectedStatistics.CardinalitySum | halp/utilities/directed_statistics.py:170-225 | the cardinality list sums to the incidences counted hyperedge by hyperedge |
| DirectedStatistics.DegreesSumToCardinalities | halp/utilities/directed_statistics.py:40-271 | the out-degrees sum to the tail cardinalities, and the in-degrees to the head cardinalities |
| DirectedGraphTransformations.ToGraphDecomposition | halp/utilities/directed_graph_transformations.py:13-44 | TypeError exactly for a non-hypergraph; otherwise a consistent registry whose hyperedges are one-tail, one-head arcs of weight 1, with the arc (t, h) exactly when some hyperedge has t in its tail and h in its head, and whose nodes, without attributes, are exactly the ends of those arcs |
| UndirectedGraphTransformations.ToGraphDecomposition | halp/utilities/undirected_graph_transformations.py:13-45 | TypeError exactly for a non-hypergraph; otherwise a consistent registry whose hyperedges are two-node pairs with default attributes, with the pair {a, b} exactly when a ≠ b share a hyperedge, and whose nodes are exactly those in such a pair |
| LegacyNode.NewNode | hypergraph/node.py:17-33 | TypeError exactly for an unhashable name; otherwise a node with that name |
| LegacyNode.DefaultNode | hypergraph/node.py:17-33 | the default name is the empty string |
| LegacyNode.EqualsMeaning | hypergraph/node.py:82-89 | a node equals exactly the instances of the class with the same name |
| LegacyNode.EqualsHashes | hypergraph/node.py:91-98 | equal nodes hash alike, whatever the string hash |
| LegacyNode.CopyEquals | hypergraph/node.py:54-61 | a copy equals its original |
| LegacyNode.Str | hypergraph/node.py:63-71 | the string form is `<Node name=`, the name, then `>` |
| LegacyNode.ReprIsStr | hypergraph/node.py:73-80 | `repr` is `str` |
| LegacyNode.StrRoundTrip | hypergraph/node.py:63-71 | the name can be read back from the string form |
| LegacyNode.NameOfRoundTrip | hypergraph/node.py:63-71 | every string of the node shape is the string form of the node it names |
| LegacyNode.StrInjective | hypergraph/node.py:63-80 | distinct nodes have distinct string forms |
| LegacyHyperedge.SingleSide | hypergraph/hyperedge.py:278-317 | `None` becomes the empty set, another iterable is converted to a set; ValueError unless the result has at most one node |
| LegacyHyperedge.SingleSideList | hypergraph/hyperedge.py:278-285 | a list is accepted exactly when all its entries are the same node |
| LegacyHyperedge.SingleSideAccepts | hypergraph/hyperedge.py:278-285 | `None` is accepted as the empty side; a set is accepted, unchanged, exactly when all its members are one node; a non-iterable is rejected |
| LegacyHyperedge.NewB | hypergraph/hyperedge.py:266-287 | a `BHyperedge` has a head of at most one node, the given tail and weight; ValueError exactly when the head is rejected |
| LegacyHyperedge.NewF | hypergraph/hyperedge.py:298-319 | an `FHyperedge` has a tail of at most one node, the given head and weight; ValueError exactly when the tail is rejected |
| LegacyHyperedge.NewUndirected | hypergraph/hyperedge.py:336-369 | an `UndirectedHyperedge` keeps its nodes as the head, has an empty tail, and reports them as its nodes |
| LegacyHyperedge.UndirectedCardinality | hypergraph/hyperedge.py:105-130 | the cardinality of an undirected hyperedge is its number of nodes |
| LegacyHyperedge.EqualsMeaning | hypergraph/hyperedge.py:236-245 | directed hyperedges are equal exactly when heads and tails are, whatever their weights and subclasses |
| LegacyHyperedge.UndirectedEqualsMeaning | hypergraph/hyperedge.py:411-420 | undirected hyperedges are equal exactly when nodes and weights are |
| LegacyHyperedge.EqualsSymmetric | hypergraph/hyperedge.py:236-420 | equality is symmetric, errors included |
| LegacyHyperedge.EqualsHashes | hypergraph/hyperedge.py:247-430 | equal hyperedges hash alike |
| LegacyHyperedge.ContainsNever | hypergraph/hyperedge.py:141-152 | `n in e` is False for every head-and-tail hyperedge, even for a node of its head |
| LegacyHyperedge.OrderByWeight | hypergraph/hyperedge.py:177-212 | `<` is a strict order on weights, `<=` its reversed complement, `>` and `>=` the mirrors, and any two hyperedges compare |
| LegacyHyperedge.OrderIgnoresEquality | hypergraph/hyperedge.py:177-255 | any two directed hyperedges with the same sides are equal, and still the lighter one is strictly below the heavier |

## Left out

- File reading and writing of both registries (`read`/`write`): I/O.
- The mean and ratio statistics: floating point.
- The NetworkX converters of the transformation modules: foreign library.
- `signaling_hypergraph.py`, `directed_hyperedge.py` and the legacy `hypergraph/` algorithm and graph modules: they cannot run as written. `hypergraph/directed_hypergraph.py` is not part of this model.
- Attribute values other than naturals: only the `"weight"` attribute is read by the algorithms. Attribute dictionaries are values here, so neither the shallow copies of `copy` nor any sharing of a dictionary object between the caller and a registry is modelled.
- DirectedHypergraph.AddNode / UndirectedHypergraph.AddNode: a new node stores the caller's dictionary object itself (halp/directed_hypergraph.py:229, halp/undirected_hypergraph.py:205), and `_combine_attribute_arguments` writes the keyword attributes into that same object (halp/directed_hypergraph.py:181-190, halp/undirected_hypergraph.py:158). So a later `add_node("C", attributes, root=True)` also gives the earlier node `root`. The model stores a copy, and in-place changes through the caller's dictionary are not modelled.
- DirectedHypergraph.AddHyperedges: when an element fails, the source has already added the hyperedges of the earlier elements (halp/directed_hypergraph.py:529-546), and they stay. The model returns the error and no registry, so it does not state the registry left after a failure.
- DirectedHypergraph.RemoveHyperedges: on an unknown or repeated id the source keeps the removals already made (halp/directed_hypergraph.py:596-619). The model returns the error and no registry.
- DirectedHypergraph.RemoveNodes: on an absent or repeated node the source keeps the nodes already removed (halp/directed_hypergraph.py:317-344). The model returns the error and no registry.
- UndirectedHypergraph.AddHyperedges: when a node set fails, the source keeps the hyperedges already added (halp/undirected_hypergraph.py:483-485). The model returns the error and no registry.
- UndirectedHypergraph.RemoveHyperedges: on an unknown or repeated id the source keeps the removals already made (halp/undirected_hypergraph.py:524-548). The model returns the error and no registry.
- UndirectedHypergraph.RemoveNodesMeaning: on an absent or repeated node the source keeps the nodes already removed (halp/undirected_hypergraph.py:290-318). The model returns the error and no registry.
- UndirectedHypergraph.GetHyperedgeAttribute / DirectedHypergraph.AddHyperedge / UndirectedHypergraph.AddHyperedge: in the source a hyperedge's sides are stored in its attribute dictionary:
  - `"tail"`, `"head"`, `"__frozen_tail"` and `"__frozen_head"` in the directed registry (halp/directed_hypergraph.py:478-481);
  - `"nodes"` and `"__frozen_nodes"` in the undirected one (halp/undirected_hypergraph.py:440);
  - `get_hyperedge_tail`, `get_hyperedge_head` and `get_hyperedge_nodes` read them back as attributes (halp/directed_hypergraph.py:752, halp/undirected_hypergraph.py:678).
  The model keeps the sides apart from the user attributes:
  - `get_hyperedge_attribute(id, "nodes")` is ValueError here, where the source returns the node container;
  - user attributes named with these reserved keys are assumed absent, although `.update(attr_dict)` (halp/directed_hypergraph.py:487, halp/undirected_hypergraph.py:446) would let them overwrite a side.
- The `isinstance` checks of the registry methods and algorithms other than those listed above: the Dafny types enforce them.
- Hyperedge `__str__`/`__repr__` and the `Hyperedge` setters: they depend on Python's rendering of sets and on mutation.
- LegacyHyperedge.Equals: plain `Hyperedge` values use identity equality and the identity hash, which have no counterpart here, so equality and hash are stated for the subclasses only.
- LegacyNode.Str: names are strings, so `str(name)` is the name itself.
- The concrete test graphs of the shortest-tree, branching and lower-bound tests (weights 8, 5, 4; 6, 7 and 8 of 9 hyperedges; bound 12): the general contracts state what those tests check, but the values on those graphs are not computed.
- ShortestTree.ShortestXTree: states soundness (every predecessor hyperedge justifies its head's weight; finite weight implies B-connected) but not that the weights are least.
- ShortestTree.ShortestBTree: same limitation as `ShortestXTree`.
- ShortestTree.ShortestFTree: same limitation as `ShortestXTree`.
- ShortestTree.ShortestXTree: under the gap function a finite weight is not shown to mean B-connected. The gap function lets a node be popped twice, so a hyperedge's counter can count a tail node twice.
- KShortest.KShortestHyperpaths: does not state that the paths come in ascending weight order or that each is a hyperpath from source to destination, because that needs the optimality of the shortest B-tree, which is not proved. The lower-bound lemma takes the Bellman inequalities as a hypothesis.
- KShortest.Round: a refreshed candidate whose tree misses the destination is dropped (Findings row 4). The source keeps it and raises ValueError when it is popped; only `RefreshThenTakeAsWritten` models that.
- Tuple nodes: `add_nodes` reads a tuple element as a (node, attribute dictionary) pair (halp/directed_hypergraph.py:266-275, halp/undirected_hypergraph.py:242-254), and `add_hyperedge` adds its nodes through `add_nodes` (halp/directed_hypergraph.py:456-457, halp/undirected_hypergraph.py:423). Nodes are assumed not to be tuples, because `add_nodes` would unpack them; the two forms are the constructors of `NodeArg`.
- Python's `<` on queue elements is the parameter `less` of the priority queue and of the shortest-tree and k-shortest procedures; the `TypeError` Python raises when two tied entries hold elements without `<` is not modelled.
- Traversal.Visit: the order of `Pv` and `Pe` entries depends on set iteration order; only order-independent properties are stated.
- DirectedGraphTransformations.ToGraphDecomposition: the ids of the arcs depend on the iteration order and are not stated.
- UndirectedGraphTransformations.ToGraphDecomposition: the ids of the pairs depend on the iteration order and are not stated.

## Findings

| source | as written | input that shows it | evidently intended | confidence | as-written member | corrected member |
|---|---|---|---|---|---|---|
| halp/directed_hypergraph.py:1310-1326 | checks 4.1 and 4.2 require every hyperedge id to be in some forward star and in some backward star | `add_hyperedge(set(), {"a"})`, which `add_hyperedge` accepts, then `_check_consistency()` | only a hyperedge with a non-empty tail (head) needs to be in some forward (backward) star | high, not executed | DirectedHypergraph.OneSidedEdgeFailsCheck | DirectedHypergraph.ValidCoversNonEmptySides |
| halp/undirected_hypergraph.py:276-288 | `remove_node` deletes the hyperedges in the node's star but leaves their ids in the stars of the other members | one hyperedge {a, b}; `remove_node(a)`; then `get_star(b)` still gives {e1} and `remove_node(b)` raises KeyError | the removed ids also leave the other members' stars | high, not executed | UndirectedHypergraph.StaleStarCounterexample | UndirectedHypergraph.CorrectedEmptiesStar |
| halp/algorithms/k_shortest_hyperpaths.py:88-91 | the path is extracted with the whole predecessor function of the shortest B-tree, in which every unreached node has `None`, so `get_hyperpath_from_predecessors` sees several roots | nodes s, t, u; one hyperedge {s} → {t}; `k_shortest_hyperpaths(H, s, t, 1)` raises ValueError | the path from the reached nodes' predecessors is extracted, whose only root is the source | medium, not executed | KShortest.ExtractAsWritten | KShortest.ExtractPath |
| halp/algorithms/k_shortest_hyperpaths.py:116-121 | a candidate without a tree is put back with its recomputed shortest B-tree whatever weight that tree gives the destination | nodes s, a, t, x; hyperedges e1 {s} → {a}, e2 {a} → {t}, e3 {x} → {a}, e4 {a} → {x}, weight 1; `k_shortest_hyperpaths(H, s, t, 2)`: branch 0 drops e1 and has bound 4, but its tree reaches neither a, x nor t, so the next pop raises ValueError (lemma `MissedRefreshExample`) | a candidate whose tree misses the destination is dropped, as the first tree is at line 80 | medium, not executed | KShortest.RefreshThenTakeAsWritten | KShortest.Round |

=== FILE: attributes.dfy ===
/**
 Attribute dictionaries and the argument forms shared by both registries. Only
 the "weight" entry is ever read by the algorithms, so values are naturals.
 */
module Attributes {
  import opened Wrappers

  type Attrs = map<string, nat>

  const WeightKey: string := "weight"

  /** The attributes a freshly created hyperedge starts with. */
  const DefaultEdgeAttrs: Attrs := map[WeightKey := 1]

  /** An element of the container given to `add_nodes`: a bare node or a node with its own attributes. */
  datatype NodeArg<N> = Plain(node: N) | WithAttrs(node: N, attrs: Attrs)

  /** `_combine_attribute_arguments`: keyword attributes win over the dictionary argument. */
  function CombineAttributes(attrDict: Option<Attrs>, attr: Attrs): (r: Attrs)
    ensures forall k :: k in r <==> k in attr || (attrDict.Some? && k in attrDict.value)
    ensures forall k :: k in attr ==> r[k] == attr[k]
    ensures attrDict.Some? ==> forall k :: k in attrDict.value && k !in attr ==> r[k] == attrDict.value[k]
  {
    match attrDict
    case None => attr
    case Some(d) => d + attr
  }

  function NodeOf<N>(a: NodeArg<N>): N {
    match a
    case Plain(n) => n
    case WithAttrs(n, _) => n
  }

  /** The attributes `add_nodes` gives the node of one argument: the shared ones, overridden by its own. */
  function NodeArgAttrs<N>(a: NodeArg<N>, shared: Attrs): Attrs {
    match a
    case Plain(_) => shared
    case WithAttrs(_, d) => shared + d
  }

  /**
   The value key `k` of node `n` holds after `add_nodes(args, shared)` when the
   node started with attributes `base`: the last argument naming `n` that sets
   `k` decides; when none does, `base` does.
   */
  function LastSetting<N(==)>(base: Attrs, args: seq<NodeArg<N>>, shared: Attrs, n: N, k: string): Option<nat>
    decreases |args|
  {
    if args == [] then (if k in base then Some(base[k]) else None)
    else if NodeOf(args[|args| - 1]) == n && k in NodeArgAttrs(args[|args| - 1], shared) then
      Some(NodeArgAttrs(args[|args| - 1], shared)[k])
    else LastSetting(base, args[..|args| - 1], shared, n, k)
  }

  /** The attributes a node has before `add_nodes` touches it: none when it is new. */
  function StartAttrs<N(==)>(nodes: map<N, Attrs>, n: N): Attrs {
    if n in nodes then nodes[n] else map[]
  }

  /** The node table after `add_node(n, attrs)`: a new node takes `attrs`, an existing one has them laid over its own. */
  function AddToTable<N>(nodes: map<N, Attrs>, n: N, attrs: Attrs): map<N, Attrs> {
    nodes[n := StartAttrs(nodes, n) + attrs]
  }

  /** A table that agrees with `add_node` key by key is its table. */
  lemma AddToTableIntro<N>(nodes: map<N, Attrs>, r: map<N, Attrs>, n: N, attrs: Attrs)
    requires r.Keys == nodes.Keys + {n} && r[n] == StartAttrs(nodes, n) + attrs
    requires forall m :: m in nodes && m != n ==> r[m] == nodes[m]
    ensures r == AddToTable(nodes, n, attrs)
  {
  }

  /** The node table after `add_nodes(args, shared)`, the same fold for both registries. */
  function AddAllToTable<N>(nodes: map<N, Attrs>, args: seq<NodeArg<N>>, shared: Attrs): map<N, Attrs>
    decreases |args|
  {
    if args == [] then nodes
    else AddToTable(AddAllToTable(nodes, args[..|args| - 1], shared), NodeOf(args[|args| - 1]), NodeArgAttrs(args[|args| - 1], shared))
  }

  /**
   `add_nodes` merges attributes key by key: a node named by the arguments ends
   up with each key set by the last argument naming it that sets that key, and
   otherwise keeps what it had; a node that ends up absent is set by nothing.
   */
  lemma {:induction false} AddAllToTableAttrs<N>(nodes: map<N, Attrs>, args: seq<NodeArg<N>>, shared: Attrs, n: N, k: string)
    ensures var r := AddAllToTable(nodes, args, shared);
      && (n in r ==>
            && (k in r[n] <==> LastSetting(StartAttrs(nodes, n), args, shared, n, k).Some?)
            && (k in r[n] ==> r[n][k] == LastSetting(StartAttrs(nodes, n), args, shared, n, k).value))
      && (n !in r ==> LastSetting(StartAttrs(nodes, n), args, shared, n, k) == None)
    decreases |args|
  {
    if args != [] {
      AddAllToTableAttrs(nodes, args[..|args| - 1], shared, n, k);
    }
  }

  /** The nodes named by an `add_nodes` argument. */
  function ArgNodes<N>(args: seq<NodeArg<N>>): set<N>
    decreases |args|
  {
    if args == [] then {} else ArgNodes(args[..|args| - 1]) + {NodeOf(args[|args| - 1])}
  }

  /** The node table with every node of `ns` not yet present added with no attributes. */
  function WithNodes<N>(nodes: map<N, Attrs>, ns: set<N>): map<N, Attrs> {
    nodes + map n | n in ns - nodes.Keys :: map[]
  }

  lemma WithNodesFacts<N>(nodes: map<N, Attrs>, ns: set<N>)
    ensures var r := WithNodes(nodes, ns);
      && r.Keys == nodes.Keys + ns
      && (forall n :: n in nodes ==> r[n] == nodes[n])
      && (forall n :: n in ns && n !in nodes ==> r[n] == map[])
  {
  }
}

=== FILE: collections.dfy ===
/** Small facts about sequences and sets used by the loops of the library. */
module Collections {

  /** The elements of a sequence, built from the front as the loops of the library consume it. */
  function Elems<T>(s: seq<T>): set<T>
    decreases |s|
  {
    if s == [] then {} else Elems(s[..|s| - 1]) + {s[|s| - 1]}
  }

  lemma ElemsSnoc<T>(s: seq<T>)
    requires |s| > 0
    ensures Elems(s) == Elems(s[..|s| - 1]) + {s[|s| - 1]}
  {
  }

  /** Growing a union by one element, in the terms an induction over a prefix uses. */
  lemma UnionStep<T>(k2: set<T>, k1: set<T>, k0: set<T>, e: set<T>, e': set<T>, x: T)
    requires k1 == k0 + e && k2 == k1 + {x} && e' == e + {x}
    ensures k2 == k0 + e'
  {
  }

  /** A run of consecutive numbers from `base + 1` stays one when the next number is appended. */
  lemma ConsecutiveSnoc(ids: seq<nat>, base: nat, next: nat)
    requires forall i :: 0 <= i < |ids| ==> ids[i] == base + 1 + i
    requires next == base + 1 + |ids|
    ensures forall i :: 0 <= i < |ids| + 1 ==> (ids + [next])[i] == base + 1 + i
  {
  }

  lemma {:induction false} ElemsMeaning<T>(s: seq<T>)
    ensures forall x :: x in Elems(s) <==> x in s
    decreases |s|
  {
    if s != [] {
      ElemsMeaning(s[..|s| - 1]);
      assert s == s[..|s| - 1] + [s[|s| - 1]];
    }
  }

  /** No element occurs twice. */
  predicate Distinct<T(==)>(s: seq<T>) {
    forall i, j :: 0 <= i < j < |s| ==> s[i] != s[j]
  }

  /** A sequence is free of repeats exactly when its prefix is and its last element is new. */
  lemma DistinctSnoc<T>(s: seq<T>)
    requires |s| > 0
    ensures Distinct(s) <==> Distinct(s[..|s| - 1]) && s[|s| - 1] !in s[..|s| - 1]
    ensures forall x :: x in s <==> x in s[..|s| - 1] || x == s[|s| - 1]
  {
    var init := s[..|s| - 1];
    assert s == init + [s[|s| - 1]];
    if s[|s| - 1] in init {
      var i :| 0 <= i < |init| && init[i] == s[|s| - 1];
      assert s[i] == s[|s| - 1];
    }
  }

  /** One more element of `done` processed: the remainder shrinks by it. */
  lemma SetRemoveStep<T>(k: set<T>, k0: set<T>, ids: set<T>, todo: set<T>, x: T)
    requires k == k0 - (ids - todo) && x in todo && todo <= ids
    ensures k - {x} == k0 - (ids - (todo - {x}))
  {
  }

  lemma SetMinusStep<T>(k: set<T>, k0: set<T>, done: set<T>, x: T)
    requires k == k0 - done
    ensures k - {x} == k0 - (done + {x})
  {
  }

  /** Extending a prefix by one element, in the terms the loops over a sequence use. */
  lemma PrefixStep<T>(s: seq<T>, i: nat)
    requires i < |s|
    ensures Elems(s[..i + 1]) == Elems(s[..i]) + {s[i]}
    ensures forall x :: x in Elems(s[..i]) <==> x in s[..i]
    ensures forall x :: x in s[..i + 1] <==> x in s[..i] || x == s[i]
    ensures Distinct(s[..i + 1]) <==> Distinct(s[..i]) && s[i] !in s[..i]
    ensures s[i] in s[..i] ==> !Distinct(s)
  {
    assert s[..i + 1][..i] == s[..i];
    ElemsMeaning(s[..i]);
    DistinctSnoc(s[..i + 1]);
    if s[i] in s[..i] {
      var a :| 0 <= a < i && s[..i][a] == s[i];
      assert s[a] == s[i];
    }
  }

  lemma PrefixAll<T>(s: seq<T>)
    ensures s[..|s|] == s
    ensures forall x :: x in Elems(s) <==> x in s
  {
    ElemsMeaning(s);
  }

  lemma IntersectAsMinus<T>(k: set<T>, given: set<T>, done: set<T>)
    requires done == k - given
    ensures k - done == k * given
  {
  }

  /** A subset is no larger than its superset, and a proper subset is strictly smaller. */
  lemma {:induction false} SubsetCard<T>(a: set<T>, b: set<T>)
    requires a <= b
    ensures |a| <= |b|
    ensures a != b ==> |a| < |b|
    decreases |b|
  {
    if b != {} {
      var x :| x in b;
      if x in a {
        SubsetCard(a - {x}, b - {x});
        assert a == (a - {x}) + {x};
        assert a != b ==> a - {x} != b - {x};
      } else {
        SubsetCard(a, b - {x});
      }
    }
  }

  /** Processing one more element: the processed part of `side` grows by it exactly when it belongs to `side`. */
  lemma IntersectGrow<T>(side: set<T>, done: set<T>, x: T)
    ensures x in side && x !in done ==> |side * (done + {x})| == |side * done| + 1
    ensures x !in side ==> side * (done + {x}) == side * done
  {
    if x in side && x !in done {
      assert side * (done + {x}) == side * done + {x};
    }
  }

  /** The processed part of `side` is as large as `side` exactly when all of `side` is processed. */
  lemma FullPart<T>(side: set<T>, done: set<T>)
    ensures |side * done| == |side| <==> side <= done
  {
    SubsetCard(side * done, side);
    if side <= done {
      assert side * done == side;
    }
  }

  /** A loop adding the elements of `all` to `v0` one at a time: taking `x` from the remainder `todo`. */
  lemma AddOneMore<T>(v: set<T>, v0: set<T>, all: set<T>, todo: set<T>, x: T)
    requires v == v0 + (all - todo) && x in todo && todo <= all
    ensures v + {x} == v0 + (all - (todo - {x}))
    ensures x in v ==> v == v0 + (all - (todo - {x}))
  {
  }

  /** Adding `x` and then the rest of `todo` adds all of `todo`. */
  lemma AddThenRest<T>(v0: set<T>, v1: set<T>, v2: set<T>, todo: set<T>, x: T)
    requires x in todo && v1 == v0 + {x} && v2 == v1 + (todo - {x})
    ensures v2 == v0 + todo
  {
  }

  /** A sequence without repeats has as many elements as positions. */
  lemma {:induction false} DistinctCard<T>(s: seq<T>)
    requires Distinct(s)
    ensures |Elems(s)| == |s|
    decreases |s|
  {
    if s != [] {
      DistinctSnoc(s);
      DistinctCard(s[..|s| - 1]);
      ElemsMeaning(s[..|s| - 1]);
    }
  }

  /** Adding a member of a set leaves it unchanged. */
  lemma AddPresent<T>(s: set<T>, x: T)
    requires x in s
    ensures s + {x} == s
  {
  }
}

=== FILE: directed_graph_transformations.dfy ===
/**
 `to_graph_decomposition` of `halp/utilities/directed_graph_transformations.py`:
 every hyperedge of a directed hypergraph is replaced by the arcs from each of
 its tail nodes to each of its head nodes, entered with `add_hyperedge` into a
 fresh registry, so repeated arcs collapse into one hyperedge.

 The node list the function builds iterates the new, still empty registry, so
 it adds no node: the result's nodes are exactly the ends of the arcs, with no
 attributes. The order in which the sets are iterated is left to the method.
 */
module DirectedGraphTransformations {
  import opened Wrappers
  import opened Collections
  import opened Attributes
  import opened DirectedIndex
  import opened DirectedHypergraph

  /** Some hyperedge of `g` has `t` in its tail and `h` in its head. */
  ghost predicate Joins<N>(g: Graph<N>, t: N, h: N) {
    exists e :: e in g.edges && t in g.edges[e].tail && h in g.edges[e].head
  }

  /** The (tail node, head node) pairs of the hyperedges `ids`. */
  ghost function PairsOf<N>(g: Graph<N>, ids: set<nat>): set<(N, N)> {
    set e, t, h | e in ids && e in g.edges && t in g.edges[e].tail && h in g.edges[e].head :: (t, h)
  }

  /** Every pair of a tail node in `ts` and a head node in `hs`. */
  ghost function Cross<N>(ts: set<N>, hs: set<N>): set<(N, N)> {
    set t, h | t in ts && h in hs :: (t, h)
  }

  /** The nodes at either end of a pair of `pairs`. */
  ghost function Ends<N>(pairs: set<(N, N)>): set<N> {
    (set p | p in pairs :: p.0) + (set p | p in pairs :: p.1)
  }

  /** The hyperedge is the arc of a pair of `pairs`. */
  ghost predicate ArcIn<N>(x: Edge<N>, pairs: set<(N, N)>) {
    exists p :: p in pairs && x.tail == {p.0} && x.head == {p.1}
  }

  /** Every hyperedge of `r` is the arc of a pair of `pairs`, with the default attributes. */
  ghost predicate ArcEdges<N>(r: Graph<N>, pairs: set<(N, N)>) {
    forall e :: e in r.edges ==> ArcIn(r.edges[e], pairs) && r.edges[e].attrs == DefaultEdgeAttrs
  }

  /** Every pair of `pairs` is an arc of `r`. */
  ghost predicate ArcsPresent<N>(r: Graph<N>, pairs: set<(N, N)>) {
    forall p :: p in pairs ==> HasHyperedge(r, {p.0}, {p.1})
  }

  /** The nodes of `r` are the ends of the arcs, without attributes. */
  ghost predicate ArcNodes<N>(r: Graph<N>, pairs: set<(N, N)>) {
    r.nodes.Keys == Ends(pairs) && forall n :: n in r.nodes ==> r.nodes[n] == map[]
  }

  /** `r` holds exactly the arcs `pairs`, each once with the default attributes, and their ends as its nodes. */
  ghost predicate ArcsOf<N>(r: Graph<N>, pairs: set<(N, N)>) {
    ArcEdges(r, pairs) && ArcsPresent(r, pairs) && ArcNodes(r, pairs)
  }

  lemma ArcsOfEmpty<N>()
    ensures ArcsOf(Empty<N>(), {})
  {
    assert Ends<N>({}) == {};
  }

  /** Merging no attributes is the identity. */
  lemma MergeNothing<N>(g: Graph<N>, id: nat)
    requires id in g.edges
    ensures MergeEdgeAttrs(g, id, map[]) == g
  {
    var x := g.edges[id];
    assert x.attrs + map[] == x.attrs;
    assert x.(attrs := x.attrs + map[]) == x;
    assert g.edges[id := x] == g.edges;
  }

  /** An arc already present in a registry of arcs is one of its arcs, and adding it again changes nothing. */
  lemma ArcStepExisting<N>(r: Graph<N>, pairs: set<(N, N)>, t: N, h: N)
    requires ArcEdges(r, pairs) && IndexSound(r.edges, r.succ, true) && HasHyperedge(r, {t}, {h})
    ensures AddHyperedge(r, {t}, {h}, map[]).Ok? && AddHyperedge(r, {t}, {h}, map[]).value.graph == r
    ensures (t, h) in pairs
  {
    AddHyperedgeExisting(r, {t}, {h}, map[]);
    var id := r.succ[{t}][{h}];
    MergeNothing(r, id);
    var x := r.edges[id];
    assert ArcIn(x, pairs);
    var p :| p in pairs && x.tail == {p.0} && x.head == {p.1};
    assert p == (t, h);
  }

  /** The new hyperedge is the arc (t, h) with the default attributes. */
  lemma NewArcEdges<N>(r: Graph<N>, edges': map<nat, Edge<N>>, pairs: set<(N, N)>, id: nat, t: N, h: N)
    requires ArcEdges(r, pairs)
    requires edges' == r.edges[id := Edge({t}, {h}, DefaultEdgeAttrs + map[])]
    ensures forall e :: e in edges' ==> ArcIn(edges'[e], pairs + {(t, h)}) && edges'[e].attrs == DefaultEdgeAttrs
  {
    assert DefaultEdgeAttrs + map[] == DefaultEdgeAttrs;
    forall e | e in edges'
      ensures ArcIn(edges'[e], pairs + {(t, h)}) && edges'[e].attrs == DefaultEdgeAttrs
    {
      if e == id {
        assert (t, h) in pairs + {(t, h)};
      } else {
        var p :| p in pairs && r.edges[e].tail == {p.0} && r.edges[e].head == {p.1};
        assert p in pairs + {(t, h)};
      }
    }
  }

  /** An arc of `r` stays an arc once another hyperedge is inserted. */
  lemma OldArcKept<N>(r: Graph<N>, r': Graph<N>, id: nat, x: Edge<N>, t: N, h: N)
    requires IndexSound(r.edges, r.succ, true) && IndexCovers(r'.edges, r'.succ, true)
    requires id !in r.edges && r'.edges == r.edges[id := x]
    requires HasHyperedge(r, {t}, {h})
    ensures HasHyperedge(r', {t}, {h})
  {
    var e := r.succ[{t}][{h}];
    assert e in r.edges && e != id;
    var y := r'.edges[e];
    assert Side(y, true) == {t} && Side(y, false) == {h};
  }

  /** The old arcs stay and the new one joins them. */
  lemma NewArcsPresent<N>(r: Graph<N>, r': Graph<N>, pairs: set<(N, N)>, id: nat, t: N, h: N)
    requires ArcsPresent(r, pairs) && IndexExact(r.edges, r.succ, true) && IndexExact(r'.edges, r'.succ, true)
    requires id !in r.edges && r'.edges == r.edges[id := Edge({t}, {h}, DefaultEdgeAttrs + map[])]
    ensures ArcsPresent(r', pairs + {(t, h)})
  {
    forall p | p in pairs + {(t, h)}
      ensures HasHyperedge(r', {p.0}, {p.1})
    {
      if p in pairs {
        OldArcKept(r, r', id, Edge({t}, {h}, DefaultEdgeAttrs + map[]), p.0, p.1);
      } else {
        HasHyperedgeMeaning(r', {t}, {h});
        assert r'.edges[id].tail == {t} && r'.edges[id].head == {h};
      }
    }
  }

  /** The ends of the new arc join the nodes, without attributes. */
  lemma NewArcNodes<N>(r: Graph<N>, r': Graph<N>, pairs: set<(N, N)>, t: N, h: N)
    requires ArcNodes(r, pairs)
    requires r'.nodes.Keys == r.nodes.Keys + {t} + {h}
    requires forall n :: n in r.nodes ==> r'.nodes[n] == r.nodes[n]
    requires forall n :: n in {t} + {h} && n !in r.nodes ==> r'.nodes[n] == map[]
    ensures ArcNodes(r', pairs + {(t, h)})
  {
    EndsAdd(pairs, t, h);
  }

  lemma EndsAdd<N>(pairs: set<(N, N)>, t: N, h: N)
    ensures Ends(pairs + {(t, h)}) == Ends(pairs) + {t} + {h}
  {
    assert (t, h) in pairs + {(t, h)};
  }

  /** Adding a new arc enters one hyperedge with the default attributes and adds its missing ends. */
  lemma ArcStepNew<N>(r: Graph<N>, pairs: set<(N, N)>, t: N, h: N)
    requires ArcsOf(r, pairs) && IndexExact(r.edges, r.succ, true) && !HasHyperedge(r, {t}, {h})
    requires r.counter + 1 !in r.edges
    requires AddHyperedge(r, {t}, {h}, map[]).Ok?
    requires IndexExact(AddHyperedge(r, {t}, {h}, map[]).value.graph.edges, AddHyperedge(r, {t}, {h}, map[]).value.graph.succ, true)
    ensures ArcsOf(AddHyperedge(r, {t}, {h}, map[]).value.graph, pairs + {(t, h)})
  {
    var id := r.counter + 1;
    var x := Edge({t}, {h}, DefaultEdgeAttrs + map[]);
    AddHyperedgeInserts(r, {t}, {h}, map[]);
    InsertEdgeFacts(r, id, x);
    var r' := InsertEdge(r, id, x);
    assert r'.edges == r.edges[id := x];
    NewArcEdges(r, r'.edges, pairs, id, t, h);
    NewArcsPresent(r, r', pairs, id, t, h);
    NewArcNodes(r, r', pairs, t, h);
  }

  /** One arc, whichever way it goes in: the registry stays consistent and holds the arc. */
  lemma ArcStep<N>(r: Graph<N>, pairs: set<(N, N)>, t: N, h: N)
    requires Valid(r) && ArcsOf(r, pairs)
    ensures AddHyperedge(r, {t}, {h}, map[]).Ok?
    ensures Valid(AddHyperedge(r, {t}, {h}, map[]).value.graph)
    ensures ArcsOf(AddHyperedge(r, {t}, {h}, map[]).value.graph, pairs + {(t, h)})
  {
    AddHyperedgeValid(r, {t}, {h}, map[]);
    if HasHyperedge(r, {t}, {h}) {
      ArcStepExisting(r, pairs, t, h);
      AddPresent(pairs, (t, h));
    } else {
      ArcStepNew(r, pairs, t, h);
    }
  }

  lemma CrossStep<N>(pairs: set<(N, N)>, ts: set<N>, hs: set<N>, todo: set<N>, t: N, h: N)
    requires ts == {t} && h in todo && todo <= hs
    ensures pairs + Cross(ts, hs - todo) + {(t, h)} == pairs + Cross(ts, hs - (todo - {h}))
  {
    assert Cross(ts, hs - (todo - {h})) == Cross(ts, hs - todo) + {(t, h)};
  }

  lemma CrossNone<N>(pairs: set<(N, N)>, ts: set<N>, hs: set<N>)
    ensures pairs == pairs + Cross(ts - ts, hs) && pairs == pairs + Cross(ts, hs - hs)
  {
    assert Cross(ts - ts, hs) == {};
    assert Cross(ts, hs - hs) == {};
  }

  lemma CrossAll<N>(pairs: set<(N, N)>, ts: set<N>, hs: set<N>, todo: set<N>)
    requires todo == {}
    ensures pairs + Cross(ts, hs - todo) == pairs + Cross(ts, hs)
  {
    assert hs - todo == hs;
  }

  lemma CrossAllRows<N>(pairs: set<(N, N)>, ts: set<N>, hs: set<N>, todo: set<N>)
    requires todo == {}
    ensures pairs + Cross(ts - todo, hs) == pairs + Cross(ts, hs)
  {
    assert ts - todo == ts;
  }

  lemma CrossRow<N>(pairs: set<(N, N)>, ts: set<N>, hs: set<N>, todo: set<N>, t: N)
    requires t in todo && todo <= ts
    ensures pairs + Cross(ts - todo, hs) + Cross({t}, hs) == pairs + Cross(ts - (todo - {t}), hs)
  {
    assert Cross(ts - (todo - {t}), hs) == Cross(ts - todo, hs) + Cross({t}, hs);
  }

  /** A consistent registry holding exactly the arcs `pairs`: the state of the decomposition between two arcs. */
  ghost predicate Decomposing<N>(r: Graph<N>, pairs: set<(N, N)>) {
    Valid(r) && ArcsOf(r, pairs)
  }

  /** One arc entered with `add_hyperedge`. */
  method AddArc<N>(r: Graph<N>, ghost pairs: set<(N, N)>, t: N, h: N) returns (r': Graph<N>)
    requires Decomposing(r, pairs)
    ensures Decomposing(r', pairs + {(t, h)})
  {
    ArcStep(r, pairs, t, h);
    var added := AddHyperedge(r, {t}, {h}, map[]);
    r' := added.value.graph;
  }

  /** The arcs from tail node `t` to every head node of `hs`. */
  method AddArcsFrom<N>(r: Graph<N>, ghost pairs: set<(N, N)>, t: N, hs: set<N>) returns (r': Graph<N>)
    requires Decomposing(r, pairs)
    ensures Decomposing(r', pairs + Cross({t}, hs))
  {
    r' := r;
    ghost var done := pairs;
    var todo := hs;
    CrossNone(pairs, {t}, hs);
    while todo != {}
      invariant todo <= hs
      invariant done == pairs + Cross({t}, hs - todo)
      invariant Decomposing(r', done)
      decreases todo
    {
      var h :| h in todo;
      r' := AddArc(r', done, t, h);
      CrossStep(pairs, {t}, hs, todo, t, h);
      done := done + {(t, h)};
      todo := todo - {h};
    }
    CrossAll(pairs, {t}, hs, todo);
  }

  /** The arcs from every tail node of `ts` to every head node of `hs`. */
  method AddArcs<N>(r: Graph<N>, ghost pairs: set<(N, N)>, ts: set<N>, hs: set<N>) returns (r': Graph<N>)
    requires Decomposing(r, pairs)
    ensures Decomposing(r', pairs + Cross(ts, hs))
  {
    r' := r;
    ghost var done := pairs;
    var todo := ts;
    CrossNone(pairs, ts, hs);
    while todo != {}
      invariant todo <= ts
      invariant done == pairs + Cross(ts - todo, hs)
      invariant Decomposing(r', done)
      decreases todo
    {
      var t :| t in todo;
      r' := AddArcsFrom(r', done, t, hs);
      CrossRow(pairs, ts, hs, todo, t);
      done := done + Cross({t}, hs);
      todo := todo - {t};
    }
    CrossAllRows(pairs, ts, hs, todo);
  }

  /** The pairs of one more hyperedge. */
  lemma PairsOfStep<N>(g: Graph<N>, todo: set<nat>, e: nat)
    requires e in todo && todo <= g.edges.Keys
    ensures PairsOf(g, g.edges.Keys - todo) + Cross(g.edges[e].tail, g.edges[e].head) == PairsOf(g, g.edges.Keys - (todo - {e}))
  {
    assert g.edges.Keys - (todo - {e}) == g.edges.Keys - todo + {e};
  }

  lemma PairsOfNone<N>(g: Graph<N>)
    ensures PairsOf(g, g.edges.Keys - g.edges.Keys) == {}
  {
  }

  lemma PairsOfAllIds<N>(g: Graph<N>, todo: set<nat>)
    requires todo == {}
    ensures PairsOf(g, g.edges.Keys - todo) == PairsOf(g, g.edges.Keys)
  {
    assert g.edges.Keys - todo == g.edges.Keys;
  }

  /** The pairs of all hyperedges are the joined pairs; their ends are the nodes on an arc. */
  lemma PairsOfAll<N>(g: Graph<N>)
    ensures forall t, h :: (t, h) in PairsOf(g, g.edges.Keys) <==> Joins(g, t, h)
    ensures forall n :: n in Ends(PairsOf(g, g.edges.Keys)) <==> exists m :: Joins(g, n, m) || Joins(g, m, n)
  {
    var all := PairsOf(g, g.edges.Keys);
    forall t, h | Joins(g, t, h)
      ensures (t, h) in all
    {
      var e :| e in g.edges && t in g.edges[e].tail && h in g.edges[e].head;
    }
    forall n | n in Ends(all)
      ensures exists m :: Joins(g, n, m) || Joins(g, m, n)
    {
      var p :| p in all && (p.0 == n || p.1 == n);
      assert Joins(g, p.0, p.1);
    }
    forall n | exists m :: Joins(g, n, m) || Joins(g, m, n)
      ensures n in Ends(all)
    {
      var m :| Joins(g, n, m) || Joins(g, m, n);
      if Joins(g, n, m) {
        assert (n, m) in all;
      } else {
        assert (m, n) in all;
      }
    }
  }

  /**
   `to_graph_decomposition`: TypeError for anything but a directed
   hypergraph; otherwise a consistent registry whose hyperedges are exactly
   the arcs (t, h) with t and h in the tail and head of one hyperedge of the
   input, each once and of weight 1, and whose nodes are the arcs' ends.
   */
  method ToGraphDecomposition<N(!new)>(a: Checked<Graph<N>>) returns (r: Result<Graph<N>>)
    ensures r.Err? <==> a.NotInstance?
    ensures r.Err? ==> r.error == TypeError
    ensures r.Ok? ==> Valid(r.value) && Decomposes(a.value, r.value)
  {
    if a.NotInstance? {
      return Err(TypeError);
    }
    var g := a.value;
    var out := Empty<N>();
    ArcsOfEmpty<N>();
    ghost var done: set<(N, N)> := {};
    var todo := g.edges.Keys;
    PairsOfNone(g);
    while todo != {}
      invariant todo <= g.edges.Keys
      invariant done == PairsOf(g, g.edges.Keys - todo)
      invariant Decomposing(out, done)
      decreases todo
    {
      var e :| e in todo;
      out := AddArcs(out, done, g.edges[e].tail, g.edges[e].head);
      PairsOfStep(g, todo, e);
      done := done + Cross(g.edges[e].tail, g.edges[e].head);
      todo := todo - {e};
    }
    PairsOfAllIds(g, todo);
    Finish(g, out);
    return Ok(out);
  }

  /**
   `out` is the graph decomposition of `g`: its hyperedges are arcs of weight
   1, it has the arc (t, h) exactly when some hyperedge of `g` joins t to h,
   and its nodes, without attributes, are exactly the nodes on such an arc.
   */
  ghost predicate Decomposes<N(!new)>(g: Graph<N>, out: Graph<N>) {
    UnitArcs(out) && ArcsJoin(g, out) && NodesOnArcs(g, out)
  }

  /** Every hyperedge has one tail node, one head node and weight 1. */
  ghost predicate UnitArcs<N>(out: Graph<N>) {
    forall e :: e in out.edges ==> |out.edges[e].tail| == 1 && |out.edges[e].head| == 1 && Weight(out, e) == 1
  }

  /** `out` has the arc (t, h) exactly when some hyperedge of `g` joins t to h. */
  ghost predicate ArcsJoin<N(!new)>(g: Graph<N>, out: Graph<N>) {
    forall t, h :: HasHyperedge(out, {t}, {h}) <==> Joins(g, t, h)
  }

  /** The nodes of `out`, without attributes, are exactly the nodes on an arc of `g`. */
  ghost predicate NodesOnArcs<N(!new)>(g: Graph<N>, out: Graph<N>) {
    && (forall n :: n in out.nodes <==> exists m :: Joins(g, n, m) || Joins(g, m, n))
    && (forall n :: n in out.nodes ==> out.nodes[n] == map[])
  }

  /** The arcs of all hyperedges: the guarantees of the decomposition. */
  lemma Finish<N(!new)>(g: Graph<N>, out: Graph<N>)
    requires ArcsOf(out, PairsOf(g, g.edges.Keys)) && IndexExact(out.edges, out.succ, true)
    ensures Decomposes(g, out)
  {
    var all := PairsOf(g, g.edges.Keys);
    PairsOfAll(g);
    FinishEdges(out, all);
    FinishArcs(g, out, all);
    FinishNodes(g, out, all);
  }

  lemma FinishEdges<N>(out: Graph<N>, pairs: set<(N, N)>)
    requires ArcEdges(out, pairs)
    ensures UnitArcs(out)
  {
    forall e | e in out.edges
      ensures |out.edges[e].tail| == 1 && |out.edges[e].head| == 1 && Weight(out, e) == 1
    {
      assert ArcIn(out.edges[e], pairs);
    }
  }

  lemma FinishArcs<N(!new)>(g: Graph<N>, out: Graph<N>, pairs: set<(N, N)>)
    requires ArcEdges(out, pairs) && ArcsPresent(out, pairs) && IndexExact(out.edges, out.succ, true)
    requires forall t, h :: (t, h) in pairs <==> Joins(g, t, h)
    ensures ArcsJoin(g, out)
  {
    forall t, h
      ensures HasHyperedge(out, {t}, {h}) <==> (t, h) in pairs
    {
      if HasHyperedge(out, {t}, {h}) {
        ArcSound(out, pairs, t, h);
      }
    }
  }

  /** An arc of `out` is one of `pairs`. */
  lemma ArcSound<N>(out: Graph<N>, pairs: set<(N, N)>, t: N, h: N)
    requires ArcEdges(out, pairs) && IndexExact(out.edges, out.succ, true)
    requires HasHyperedge(out, {t}, {h})
    ensures (t, h) in pairs
  {
    HasHyperedgeMeaning(out, {t}, {h});
    var e :| e in out.edges && out.edges[e].tail == {t} && out.edges[e].head == {h};
    assert ArcIn(out.edges[e], pairs);
    var p :| p in pairs && out.edges[e].tail == {p.0} && out.edges[e].head == {p.1};
    assert p.0 in {t} && p.1 in {h};
  }

  lemma FinishNodes<N(!new)>(g: Graph<N>, out: Graph<N>, pairs: set<(N, N)>)
    requires ArcNodes(out, pairs)
    requires forall n :: n in Ends(pairs) <==> exists m :: Joins(g, n, m) || Joins(g, m, n)
    ensures NodesOnArcs(g, out)
  {
  }
}

=== FILE: directed_hypergraph.dfy ===
/**
 The directed hypergraph registry. A hyperedge is a (tail set, head set) pair
 with a numeric id issued by a counter that only grows. Besides the hyperedge
 table the registry keeps four redundant indices: the forward star and
 backward star of every node, and successor/predecessor maps keyed by tail set
 and head set. `Valid` is the consistency the registry keeps between them.
 */
module DirectedHypergraph {
  import opened Wrappers
  import opened DirectedIndex
  import opened Collections
  import opened Attributes
  import opened Stars

  datatype Graph<N> = Graph(
    nodes: map<N, Attrs>,
    edges: map<nat, Edge<N>>,
    fstar: map<N, set<nat>>,
    bstar: map<N, set<nat>>,
    succ: map<set<N>, map<set<N>, nat>>,
    pred: map<set<N>, map<set<N>, nat>>,
    counter: nat)

  /** Result of adding a hyperedge: the new registry and the id of the hyperedge. */
  datatype Added<N> = Added(graph: Graph<N>, id: nat)

  /** An element of the container given to `add_hyperedges`. */
  datatype EdgeArg<N> = Pair(tail: set<N>, head: set<N>) | Triple(tail: set<N>, head: set<N>, attrs: Attrs)

  function Empty<N>(): (g: Graph<N>)
    ensures Valid(g) && g.nodes == map[] && g.edges == map[] && g.counter == 0
  {
    Graph(map[], map[], map[], map[], map[], map[], 0)
  }

  /**
   The "weight" attribute of a hyperedge. Every hyperedge is created with one
   and no operation here removes it, so the fallback to 1 is never taken on a
   registry built by these operations; `get_hyperedge_weight` would raise
   ValueError instead.
   */
  function Weight<N>(g: Graph<N>, e: nat): nat
    requires e in g.edges
  {
    if WeightKey in g.edges[e].attrs then g.edges[e].attrs[WeightKey] else 1
  }

  // ---------------------------------------------------------------------------
  // Consistency
  // ---------------------------------------------------------------------------

  /** Check 5.3 and the id discipline: hyperedges mention only nodes, and every id was issued by the counter. */
  ghost predicate EdgesClosed<N>(g: Graph<N>) {
    && SidesWithin(g.nodes.Keys, g.edges)
    && (forall e :: e in g.edges ==> 1 <= e <= g.counter)
  }

  /**
   The registry's consistency: checks 1.4-1.7 and 2.1-2.4 (the stars are
   exact), 3.1-3.3 and 4.3-4.4 (the pair maps are exact and agree), 5.1-5.5
   (every referenced node exists). Checks 4.1 and 4.2 are stated separately in
   `PassesConsistencyCheck`.
   */
  ghost predicate Valid<N>(g: Graph<N>) {
    && StarExact(g.nodes.Keys, g.edges, g.fstar, true)
    && StarExact(g.nodes.Keys, g.edges, g.bstar, false)
    && EdgesClosed(g)
    && IndexExact(g.edges, g.succ, true)
    && IndexExact(g.edges, g.pred, false)
  }

  /** Checks 4.1 and 4.2 as written: every hyperedge id occurs in some forward star and in some backward star. */
  ghost predicate StarUnionsCoverIds<N>(g: Graph<N>) {
    && (forall e :: e in g.edges ==> exists n :: n in g.fstar && e in g.fstar[n])
    && (forall e :: e in g.edges ==> exists n :: n in g.bstar && e in g.bstar[n])
  }

  /** The full consistency check as written, checks 1.1 through 5.5. */
  ghost predicate PassesConsistencyCheck<N>(g: Graph<N>) {
    Valid(g) && StarUnionsCoverIds(g)
  }

  /** Check 3.3: predecessors and successors name the same pairs with the same ids. */
  lemma PredSuccSymmetric<N>(g: Graph<N>, t: set<N>, h: set<N>)
    requires Valid(g)
    ensures (t in g.succ && h in g.succ[t]) <==> (h in g.pred && t in g.pred[h])
    ensures t in g.succ && h in g.succ[t] ==> g.succ[t][h] == g.pred[h][t]
  {
    IndicesAgree(g.edges, g.succ, g.pred, true, t, h);
  }

  /** No two hyperedges share a (tail, head) pair. */
  lemma PairsUnique<N>(g: Graph<N>, e1: nat, e2: nat)
    requires Valid(g)
    requires e1 in g.edges && e2 in g.edges
    requires g.edges[e1].tail == g.edges[e2].tail && g.edges[e1].head == g.edges[e2].head
    ensures e1 == e2
  {
    assert g.succ[Side(g.edges[e1], true)][Side(g.edges[e1], false)] == e1;
  }

  /** Assembles `Valid` from its parts, each proved separately. */
  lemma ValidIntro<N>(g: Graph<N>)
    requires StarExact(g.nodes.Keys, g.edges, g.fstar, true)
    requires StarExact(g.nodes.Keys, g.edges, g.bstar, false)
    requires EdgesClosed(g)
    requires IndexExact(g.edges, g.succ, true) && IndexExact(g.edges, g.pred, false)
    ensures Valid(g)
  {
  }

  lemma EdgesClosedGrow<N>(g: Graph<N>, r: Graph<N>)
    requires EdgesClosed(g)
    requires g.nodes.Keys <= r.nodes.Keys && g.counter <= r.counter
    requires r.edges.Keys <= g.edges.Keys
    requires forall e :: e in r.edges ==> r.edges[e].tail == g.edges[e].tail && r.edges[e].head == g.edges[e].head
    ensures EdgesClosed(r)
  {
  }

  // ---------------------------------------------------------------------------
  // Nodes
  // ---------------------------------------------------------------------------

  /** `add_node`: a new node gets its attributes and empty stars; an existing node only has its attributes updated. */
  function AddNode<N>(g: Graph<N>, n: N, attrs: Attrs): (r: Graph<N>)
    ensures r.nodes.Keys == g.nodes.Keys + {n}
    ensures n !in g.nodes ==> r.nodes[n] == attrs && n in r.fstar && r.fstar[n] == {} && n in r.bstar && r.bstar[n] == {}
    ensures n in g.nodes ==> r.nodes[n] == g.nodes[n] + attrs && r.fstar == g.fstar && r.bstar == g.bstar
    ensures forall m :: m in g.fstar && m != n ==> m in r.fstar && r.fstar[m] == g.fstar[m]
    ensures forall m :: m in g.bstar && m != n ==> m in r.bstar && r.bstar[m] == g.bstar[m]
    ensures forall m :: m in g.nodes && m != n ==> r.nodes[m] == g.nodes[m]
    ensures r.edges == g.edges && r.succ == g.succ && r.pred == g.pred && r.counter == g.counter
  {
    if n !in g.nodes then EnterNode(g, n, attrs) else UpdateNode(g, n, attrs)
  }

  /** The new-node branch of `add_node`. */
  function EnterNode<N>(g: Graph<N>, n: N, attrs: Attrs): (r: Graph<N>)
    requires n !in g.nodes
    ensures r.nodes.Keys == g.nodes.Keys + {n} && r.nodes[n] == attrs
    ensures n in r.fstar && r.fstar[n] == {} && n in r.bstar && r.bstar[n] == {}
    ensures forall m :: m in g.fstar && m != n ==> m in r.fstar && r.fstar[m] == g.fstar[m]
    ensures forall m :: m in g.bstar && m != n ==> m in r.bstar && r.bstar[m] == g.bstar[m]
    ensures forall m :: m in g.nodes && m != n ==> r.nodes[m] == g.nodes[m]
    ensures r.edges == g.edges && r.succ == g.succ && r.pred == g.pred && r.counter == g.counter
  {
    g.(nodes := g.nodes[n := attrs], fstar := g.fstar[n := {}], bstar := g.bstar[n := {}])
  }

  /** The existing-node branch of `add_node`: the given attributes override the node's. */
  function UpdateNode<N>(g: Graph<N>, n: N, attrs: Attrs): (r: Graph<N>)
    requires n in g.nodes
    ensures r.nodes.Keys == g.nodes.Keys && r.nodes[n] == g.nodes[n] + attrs
    ensures forall m :: m in g.nodes && m != n ==> r.nodes[m] == g.nodes[m]
    ensures r.fstar == g.fstar && r.bstar == g.bstar
    ensures r.edges == g.edges && r.succ == g.succ && r.pred == g.pred && r.counter == g.counter
  {
    g.(nodes := g.nodes[n := g.nodes[n] + attrs])
  }

  lemma AddNodeValid<N>(g: Graph<N>, n: N, attrs: Attrs)
    requires Valid(g)
    ensures Valid(AddNode(g, n, attrs))
  {
    var r := AddNode(g, n, attrs);
    if n !in g.nodes {
      AddEmptyStarsOne(g.fstar, n);
      AddEmptyStarsOne(g.bstar, n);
      StarAddNodes(g.nodes.Keys, g.edges, g.fstar, true, {n});
      StarAddNodes(g.nodes.Keys, g.edges, g.bstar, false, {n});
    }
    EdgesClosedGrow(g, r);
    ValidIntro(r);
  }

  /** `add_nodes`: `add_node` for each element in order; a per-node dictionary overrides the shared one. */
  function AddNodes<N>(g: Graph<N>, args: seq<NodeArg<N>>, shared: Attrs): (r: Graph<N>)
    ensures r.nodes.Keys == g.nodes.Keys + ArgNodes(args)
    ensures r.edges == g.edges && r.counter == g.counter
    ensures r.nodes == AddAllToTable(g.nodes, args, shared)
    decreases |args|
  {
    if args == [] then g
    else
      var g1 := AddNodes(g, args[..|args| - 1], shared);
      var a := args[|args| - 1];
      var r := AddNode(g1, NodeOf(a), NodeArgAttrs(a, shared));
      AddToTableIntro(g1.nodes, r.nodes, NodeOf(a), NodeArgAttrs(a, shared));
      r
  }

  lemma {:induction false} AddNodesValid<N>(g: Graph<N>, args: seq<NodeArg<N>>, shared: Attrs)
    requires Valid(g)
    ensures Valid(AddNodes(g, args, shared))
    decreases |args|
  {
    if args != [] {
      AddNodesValid(g, args[..|args| - 1], shared);
      var a := args[|args| - 1];
      AddNodeValid(AddNodes(g, args[..|args| - 1], shared), NodeOf(a), NodeArgAttrs(a, shared));
    }
  }

  // ---------------------------------------------------------------------------
  // Hyperedges
  // ---------------------------------------------------------------------------

  predicate HasHyperedge<N>(g: Graph<N>, tail: set<N>, head: set<N>) {
    tail in g.succ && head in g.succ[tail]
  }

  /** `has_hyperedge` answers from the successor map; in a valid registry that is the hyperedge table. */
  lemma HasHyperedgeMeaning<N>(g: Graph<N>, tail: set<N>, head: set<N>)
    requires IndexExact(g.edges, g.succ, true)
    ensures HasHyperedge(g, tail, head) <==>
      exists e :: e in g.edges && g.edges[e].tail == tail && g.edges[e].head == head
  {
    if HasHyperedge(g, tail, head) {
      var e := g.succ[tail][head];
      assert e in g.edges && Side(g.edges[e], true) == tail && Side(g.edges[e], false) == head;
    }
    if exists e :: e in g.edges && g.edges[e].tail == tail && g.edges[e].head == head {
      var e :| e in g.edges && g.edges[e].tail == tail && g.edges[e].head == head;
      assert Side(g.edges[e], true) == tail && Side(g.edges[e], false) == head;
    }
  }

  /** `get_hyperedge_id`: the id of the hyperedge with exactly this tail and head, or a ValueError. */
  function GetHyperedgeId<N>(g: Graph<N>, tail: set<N>, head: set<N>): (r: Result<nat>)
    ensures r.Err? <==> !HasHyperedge(g, tail, head)
    ensures r.Err? ==> r.error == ValueError
    ensures Valid(g) && r.Ok? ==>
      r.value in g.edges && g.edges[r.value].tail == tail && g.edges[r.value].head == head
  {
    if !HasHyperedge(g, tail, head) then Err(ValueError) else Ok(g.succ[tail][head])
  }

  /** The registry after entering a new hyperedge `x` under id `id`, its missing nodes added first. */
  function InsertEdge<N>(g: Graph<N>, id: nat, x: Edge<N>): Graph<N> {
    var missing := (x.head + x.tail) - g.nodes.Keys;
    Graph(
      WithNodes(g.nodes, missing),
      g.edges[id := x],
      AddToStar(AddEmptyStars(g.fstar, missing), x.tail, id),
      AddToStar(AddEmptyStars(g.bstar, missing), x.head, id),
      PutEntry(g.succ, x.tail, x.head, id),
      PutEntry(g.pred, x.head, x.tail, id),
      id)
  }

  /** The registry with the attributes of hyperedge `id` updated by `attrs`, the new values winning. */
  function MergeEdgeAttrs<N>(g: Graph<N>, id: nat, attrs: Attrs): Graph<N>
    requires id in g.edges
  {
    var x := g.edges[id];
    g.(edges := g.edges[id := x.(attrs := x.attrs + attrs)])
  }

  /** Merging attributes touches only the attributes of hyperedge `id`; the new values win. */
  lemma MergeEdgeAttrsFacts<N>(g: Graph<N>, id: nat, attrs: Attrs)
    requires id in g.edges
    ensures var r := MergeEdgeAttrs(g, id, attrs);
      && r.nodes == g.nodes && r.counter == g.counter
      && r.fstar == g.fstar && r.bstar == g.bstar && r.succ == g.succ && r.pred == g.pred
      && r.edges.Keys == g.edges.Keys
      && (forall e :: e in g.edges && e != id ==> r.edges[e] == g.edges[e])
      && r.edges[id].tail == g.edges[id].tail && r.edges[id].head == g.edges[id].head
      && r.edges[id].attrs.Keys == g.edges[id].attrs.Keys + attrs.Keys
      && (forall k :: k in attrs ==> r.edges[id].attrs[k] == attrs[k])
      && (forall k :: k in g.edges[id].attrs && k !in attrs ==> r.edges[id].attrs[k] == g.edges[id].attrs[k])
  {
  }

  /**
   `add_hyperedge`: both sides empty is a ValueError; an existing (tail, head)
   pair keeps its id and only merges attributes; a new pair adds the missing
   nodes, takes the next id and is entered in every index.
   */
  function AddHyperedge<N>(g: Graph<N>, tail: set<N>, head: set<N>, attrs: Attrs): (r: Result<Added<N>>)
    ensures tail == {} && head == {} ==> r == Err(ValueError)
    ensures r.Ok? ==> r.value.id in r.value.graph.edges
  {
    if tail == {} && head == {} then
      Err(ValueError)
    else if HasHyperedge(g, tail, head) then
      var id := g.succ[tail][head];
      if id !in g.edges then Err(KeyError) else Ok(Added(MergeEdgeAttrs(g, id, attrs), id))
    else
      var id := g.counter + 1;
      Ok(Added(InsertEdge(g, id, Edge(tail, head, DefaultEdgeAttrs + attrs)), id))
  }

  /** What entering a new hyperedge changes: its id is issued, its missing nodes are added, nothing else moves. */
  lemma InsertEdgeFacts<N>(g: Graph<N>, id: nat, x: Edge<N>)
    ensures var r := InsertEdge(g, id, x);
      && r.counter == id
      && r.edges.Keys == g.edges.Keys + {id}
      && r.edges[id] == x
      && (forall e :: e in g.edges && e != id ==> r.edges[e] == g.edges[e])
      && r.nodes.Keys == g.nodes.Keys + x.tail + x.head
      && (forall n :: n in g.nodes ==> r.nodes[n] == g.nodes[n])
      && (forall n :: n in x.tail + x.head && n !in g.nodes ==> r.nodes[n] == map[])
  {
    var missing := (x.head + x.tail) - g.nodes.Keys;
    WithNodesFacts(g.nodes, missing);
    assert g.nodes.Keys + missing == g.nodes.Keys + x.tail + x.head;
  }

  /** A new (tail, head) pair: the next id, the missing nodes added with empty attributes, nothing else changed. */
  lemma AddHyperedgeNew<N>(g: Graph<N>, tail: set<N>, head: set<N>, attrs: Attrs)
    requires !(tail == {} && head == {}) && !HasHyperedge(g, tail, head)
    ensures var r := AddHyperedge(g, tail, head, attrs);
      && r.Ok?
      && r.value.id == g.counter + 1 == r.value.graph.counter
      && r.value.graph.edges.Keys == g.edges.Keys + {r.value.id}
      && r.value.graph.edges[r.value.id].tail == tail && r.value.graph.edges[r.value.id].head == head
      && (forall e :: e in g.edges && e != r.value.id ==> r.value.graph.edges[e] == g.edges[e])
      && r.value.graph.nodes.Keys == g.nodes.Keys + tail + head
      && (forall n :: n in g.nodes ==> r.value.graph.nodes[n] == g.nodes[n])
      && (forall n :: n in tail + head && n !in g.nodes ==> r.value.graph.nodes[n] == map[])
  {
    InsertEdgeFacts(g, g.counter + 1, Edge(tail, head, DefaultEdgeAttrs + attrs));
  }

  /** A new hyperedge carries the given attributes, and weight 1 unless a weight is given. */
  lemma AddHyperedgeNewAttrs<N>(g: Graph<N>, tail: set<N>, head: set<N>, attrs: Attrs)
    requires !(tail == {} && head == {}) && !HasHyperedge(g, tail, head)
    ensures var r := AddHyperedge(g, tail, head, attrs);
      && r.Ok?
      && r.value.graph.edges[r.value.id].attrs.Keys == attrs.Keys + {WeightKey}
      && (forall k :: k in attrs ==> r.value.graph.edges[r.value.id].attrs[k] == attrs[k])
      && Weight(r.value.graph, r.value.id) == (if WeightKey in attrs then attrs[WeightKey] else 1)
  {
    var x := Edge(tail, head, DefaultEdgeAttrs + attrs);
    InsertEdgeFacts(g, g.counter + 1, x);
    NewEdgeAttrs(InsertEdge(g, g.counter + 1, x), g.counter + 1, attrs);
  }

  lemma NewEdgeAttrs<N>(g: Graph<N>, id: nat, attrs: Attrs)
    requires id in g.edges && g.edges[id].attrs == DefaultEdgeAttrs + attrs
    ensures g.edges[id].attrs.Keys == attrs.Keys + {WeightKey}
    ensures forall k :: k in attrs ==> g.edges[id].attrs[k] == attrs[k]
    ensures Weight(g, id) == (if WeightKey in attrs then attrs[WeightKey] else 1)
  {
  }

  /** An existing (tail, head) pair: the same id, no new hyperedge or node, only its attributes merged with the new ones winning. */
  lemma AddHyperedgeExisting<N>(g: Graph<N>, tail: set<N>, head: set<N>, attrs: Attrs)
    requires IndexSound(g.edges, g.succ, true)
    requires !(tail == {} && head == {}) && HasHyperedge(g, tail, head)
    ensures var r := AddHyperedge(g, tail, head, attrs);
      var id := g.succ[tail][head];
      && id in g.edges
      && r.Ok? && r.value.id == id && r.value.graph == MergeEdgeAttrs(g, id, attrs)
      && g.edges[id].tail == tail && g.edges[id].head == head
  {
    var id := g.succ[tail][head];
    assert id in g.edges && Side(g.edges[id], true) == tail && Side(g.edges[id], false) == head;
  }

  /** In a valid registry `add_hyperedge` fails only when both sides are empty, and keeps the registry valid. */
  lemma AddHyperedgeValid<N>(g: Graph<N>, tail: set<N>, head: set<N>, attrs: Attrs)
    requires Valid(g)
    ensures AddHyperedge(g, tail, head, attrs).Ok? <==> !(tail == {} && head == {})
    ensures AddHyperedge(g, tail, head, attrs).Ok? ==> Valid(AddHyperedge(g, tail, head, attrs).value.graph)
  {
    if tail == {} && head == {} {
    } else if HasHyperedge(g, tail, head) {
      AddHyperedgeExisting(g, tail, head, attrs);
      MergeAttrsValid(g, g.succ[tail][head], attrs);
    } else {
      AddHyperedgeInserts(g, tail, head, attrs);
      InsertEdgeValid(g, g.counter + 1, Edge(tail, head, DefaultEdgeAttrs + attrs));
    }
  }

  /** The new-pair branch of `add_hyperedge` enters the hyperedge under the next id. */
  lemma AddHyperedgeInserts<N>(g: Graph<N>, tail: set<N>, head: set<N>, attrs: Attrs)
    requires !(tail == {} && head == {}) && !HasHyperedge(g, tail, head)
    ensures AddHyperedge(g, tail, head, attrs) == Ok(Added(InsertEdge(g, g.counter + 1, Edge(tail, head, DefaultEdgeAttrs + attrs)), g.counter + 1))
  {
  }

  /** Changing only hyperedge attributes keeps the registry valid. */
  lemma MergeAttrsValid<N>(g: Graph<N>, id: nat, attrs: Attrs)
    requires Valid(g) && id in g.edges
    ensures Valid(MergeEdgeAttrs(g, id, attrs))
  {
    MergeAttrsStar(g, id, attrs, true);
    MergeAttrsStar(g, id, attrs, false);
    MergeAttrsIndex(g, id, attrs, true);
    MergeAttrsIndex(g, id, attrs, false);
    MergeAttrsClosed(g, id, attrs);
    ValidIntro(MergeEdgeAttrs(g, id, attrs));
  }

  lemma MergeAttrsSides<N>(g: Graph<N>, id: nat, attrs: Attrs)
    requires id in g.edges
    ensures forall e :: e in g.edges ==>
      MergeEdgeAttrs(g, id, attrs).edges[e].tail == g.edges[e].tail && MergeEdgeAttrs(g, id, attrs).edges[e].head == g.edges[e].head
  {
    MergeEdgeAttrsFacts(g, id, attrs);
  }

  lemma MergeAttrsStar<N>(g: Graph<N>, id: nat, attrs: Attrs, f: bool)
    requires id in g.edges && StarExact(g.nodes.Keys, g.edges, if f then g.fstar else g.bstar, f)
    ensures var r := MergeEdgeAttrs(g, id, attrs);
      StarExact(r.nodes.Keys, r.edges, if f then r.fstar else r.bstar, f)
  {
    MergeAttrsSides(g, id, attrs);
    StarKeysFrame(g.nodes.Keys, g.edges, if f then g.fstar else g.bstar, f, MergeEdgeAttrs(g, id, attrs).edges);
  }

  lemma MergeAttrsIndex<N>(g: Graph<N>, id: nat, attrs: Attrs, f: bool)
    requires id in g.edges && IndexExact(g.edges, if f then g.succ else g.pred, f)
    ensures var r := MergeEdgeAttrs(g, id, attrs);
      IndexExact(r.edges, if f then r.succ else r.pred, f)
  {
    MergeAttrsSides(g, id, attrs);
    IndexKeysFrame(g.edges, if f then g.succ else g.pred, f, MergeEdgeAttrs(g, id, attrs).edges);
  }

  lemma MergeAttrsClosed<N>(g: Graph<N>, id: nat, attrs: Attrs)
    requires id in g.edges && EdgesClosed(g)
    ensures EdgesClosed(MergeEdgeAttrs(g, id, attrs))
  {
    MergeAttrsSides(g, id, attrs);
    EdgesClosedGrow(g, MergeEdgeAttrs(g, id, attrs));
  }

  lemma InsertEdgeValid<N>(g: Graph<N>, id: nat, x: Edge<N>)
    requires Valid(g) && id == g.counter + 1
    requires !(x.tail in g.succ && x.head in g.succ[x.tail])
    ensures Valid(InsertEdge(g, id, x))
  {
    var r := InsertEdge(g, id, x);
    assert id !in g.edges;
    InsertEdgeStars(g, id, x, true);
    InsertEdgeStars(g, id, x, false);
    InsertEdgeClosed(g, id, x);
    IndexAddEdge(g.edges, g.succ, true, id, x);
    IndicesAgree(g.edges, g.succ, g.pred, true, x.tail, x.head);
    IndexAddEdge(g.edges, g.pred, false, id, x);
    ValidIntro(r);
  }

  lemma InsertEdgeStars<N>(g: Graph<N>, id: nat, x: Edge<N>, f: bool)
    requires StarExact(g.nodes.Keys, g.edges, if f then g.fstar else g.bstar, f)
    requires id !in g.edges
    ensures StarExact(InsertEdge(g, id, x).nodes.Keys, g.edges[id := x],
      if f then InsertEdge(g, id, x).fstar else InsertEdge(g, id, x).bstar, f)
  {
    var missing := (x.head + x.tail) - g.nodes.Keys;
    var star := if f then g.fstar else g.bstar;
    WithNodesFacts(g.nodes, missing);
    StarAddNodes(g.nodes.Keys, g.edges, star, f, missing);
    StarAddEdge(g.nodes.Keys + missing, g.edges, AddEmptyStars(star, missing), f, id, x);
  }

  lemma InsertEdgeClosed<N>(g: Graph<N>, id: nat, x: Edge<N>)
    requires EdgesClosed(g) && id == g.counter + 1
    ensures EdgesClosed(InsertEdge(g, id, x))
  {
    WithNodesFacts(g.nodes, (x.head + x.tail) - g.nodes.Keys);
  }

  function TailOf<N>(a: EdgeArg<N>): set<N> {
    match a
    case Pair(t, _) => t
    case Triple(t, _, _) => t
  }

  function HeadOf<N>(a: EdgeArg<N>): set<N> {
    match a
    case Pair(_, h) => h
    case Triple(_, h, _) => h
  }

  function ArgAttrs<N>(a: EdgeArg<N>, shared: Attrs): Attrs {
    match a
    case Pair(_, _) => shared
    case Triple(_, _, d) => shared + d
  }

  /** `add_hyperedges`: `add_hyperedge` for each element in order, a per-edge dictionary overriding the shared one. */
  function AddHyperedges<N>(g: Graph<N>, args: seq<EdgeArg<N>>, shared: Attrs): (r: Result<(Graph<N>, seq<nat>)>)
    ensures r.Ok? ==> |r.value.1| == |args|
    ensures r.Ok? ==> forall i :: 0 <= i < |args| ==> TailOf(args[i]) + HeadOf(args[i]) != {}
    decreases |args|
  {
    if args == [] then Ok((g, []))
    else
      match AddHyperedges(g, args[..|args| - 1], shared)
      case Err(err) => Err(err)
      case Ok((g1, ids)) =>
        var a := args[|args| - 1];
        match AddHyperedge(g1, TailOf(a), HeadOf(a), ArgAttrs(a, shared))
        case Err(err) => Err(err)
        case Ok(added) =>
          assert forall i :: 0 <= i < |args| - 1 ==> args[..|args| - 1][i] == args[i];
          Ok((added.graph, ids + [added.id]))
  }

  /** In a valid registry `add_hyperedges` fails exactly when some element has both sides empty. */
  lemma {:induction false} AddHyperedgesValid<N>(g: Graph<N>, args: seq<EdgeArg<N>>, shared: Attrs)
    requires Valid(g)
    ensures AddHyperedges(g, args, shared).Ok? <==> forall i :: 0 <= i < |args| ==> TailOf(args[i]) + HeadOf(args[i]) != {}
    ensures AddHyperedges(g, args, shared).Ok? ==> Valid(AddHyperedges(g, args, shared).value.0)
    decreases |args|
  {
    if args != [] {
      var init := args[..|args| - 1];
      AddHyperedgesValid(g, init, shared);
      assert forall i :: 0 <= i < |init| ==> init[i] == args[i];
      match AddHyperedges(g, init, shared)
      case Err(_) =>
      case Ok((g1, ids)) =>
        var a := args[|args| - 1];
        AddHyperedgeValid(g1, TailOf(a), HeadOf(a), ArgAttrs(a, shared));
    }
  }

  /** Every hyperedge of `g` is in `g'` under the same id with the same tail and head. */
  ghost predicate SidesKept<N>(g: Graph<N>, g': Graph<N>) {
    forall e :: e in g.edges ==> e in g'.edges && g'.edges[e].tail == g.edges[e].tail && g'.edges[e].head == g.edges[e].head
  }

  /** An added hyperedge's id names its (tail, head) pair, and every hyperedge already there keeps its id and sides. */
  lemma AddHyperedgeSides<N>(g: Graph<N>, tail: set<N>, head: set<N>, attrs: Attrs)
    requires IndexSound(g.edges, g.succ, true) && forall e :: e in g.edges ==> e <= g.counter
    ensures var r := AddHyperedge(g, tail, head, attrs);
      r.Ok? ==>
        && r.value.graph.edges[r.value.id].tail == tail && r.value.graph.edges[r.value.id].head == head
        && SidesKept(g, r.value.graph)
  {
    if tail == {} && head == {} {
    } else if HasHyperedge(g, tail, head) {
      ExistingSidesKept(g, tail, head, attrs);
    } else {
      NewSidesKept(g, tail, head, attrs);
    }
  }

  lemma ExistingSidesKept<N>(g: Graph<N>, tail: set<N>, head: set<N>, attrs: Attrs)
    requires IndexSound(g.edges, g.succ, true) && !(tail == {} && head == {}) && HasHyperedge(g, tail, head)
    ensures var r := AddHyperedge(g, tail, head, attrs).value;
      r.graph.edges[r.id].tail == tail && r.graph.edges[r.id].head == head && SidesKept(g, r.graph)
  {
    AddHyperedgeExisting(g, tail, head, attrs);
    MergeEdgeAttrsFacts(g, g.succ[tail][head], attrs);
  }

  lemma NewSidesKept<N>(g: Graph<N>, tail: set<N>, head: set<N>, attrs: Attrs)
    requires (forall e :: e in g.edges ==> e <= g.counter) && !(tail == {} && head == {}) && !HasHyperedge(g, tail, head)
    ensures var r := AddHyperedge(g, tail, head, attrs).value;
      r.graph.edges[r.id].tail == tail && r.graph.edges[r.id].head == head && SidesKept(g, r.graph)
  {
    AddHyperedgeNew(g, tail, head, attrs);
    var r := AddHyperedge(g, tail, head, attrs).value;
    forall e | e in g.edges
      ensures e in r.graph.edges && r.graph.edges[e] == g.edges[e]
    {
      assert e != r.id;
    }
  }

  /**
   `add_hyperedges` returns the ids in the order of its arguments: the i-th
   id names a hyperedge with the i-th tail and head, whether it was new or
   already registered; hyperedges already there keep their ids and sides.
   */
  lemma {:induction false} AddHyperedgesIds<N>(g: Graph<N>, args: seq<EdgeArg<N>>, shared: Attrs)
    requires Valid(g)
    ensures var r := AddHyperedges(g, args, shared);
      r.Ok? ==>
        && (forall i :: 0 <= i < |args| ==>
              (r.value.1[i] in r.value.0.edges
               && r.value.0.edges[r.value.1[i]].tail == TailOf(args[i]) && r.value.0.edges[r.value.1[i]].head == HeadOf(args[i])))
        && SidesKept(g, r.value.0)
    decreases |args|
  {
    if args != [] {
      var init := args[..|args| - 1];
      AddHyperedgesIds(g, init, shared);
      AddHyperedgesValid(g, init, shared);
      var prev := AddHyperedges(g, init, shared);
      if prev.Ok? {
        var g1 := prev.value.0;
        assert IndexSound(g1.edges, g1.succ, true) && EdgesClosed(g1);
        IdsStep(g, args, shared, g1, prev.value.1);
      }
    }
  }

  /** One more argument: its id joins the ids so far, which stay right. */
  lemma IdsStep<N>(g: Graph<N>, args: seq<EdgeArg<N>>, shared: Attrs, g1: Graph<N>, ids: seq<nat>)
    requires |args| > 0 && AddHyperedges(g, args[..|args| - 1], shared) == Ok((g1, ids))
    requires IndexSound(g1.edges, g1.succ, true) && forall e :: e in g1.edges ==> e <= g1.counter
    requires forall i :: 0 <= i < |args| - 1 ==>
      (ids[i] in g1.edges
       && g1.edges[ids[i]].tail == TailOf(args[..|args| - 1][i]) && g1.edges[ids[i]].head == HeadOf(args[..|args| - 1][i]))
    requires SidesKept(g, g1)
    ensures var r := AddHyperedges(g, args, shared);
      r.Ok? ==>
        && (forall i :: 0 <= i < |args| ==>
              (r.value.1[i] in r.value.0.edges
               && r.value.0.edges[r.value.1[i]].tail == TailOf(args[i]) && r.value.0.edges[r.value.1[i]].head == HeadOf(args[i])))
        && SidesKept(g, r.value.0)
  {
    var a := args[|args| - 1];
    AddHyperedgeSides(g1, TailOf(a), HeadOf(a), ArgAttrs(a, shared));
    var added := AddHyperedge(g1, TailOf(a), HeadOf(a), ArgAttrs(a, shared));
    if added.Ok? {
      assert AddHyperedges(g, args, shared) == Ok((added.value.graph, ids + [added.value.id]));
      assert forall i :: 0 <= i < |args| - 1 ==> args[..|args| - 1][i] == args[i];
      IdsExtend(args, ids, g1, added.value.graph, added.value.id);
    }
  }

  /** The ids of all but the last argument stay right when the last one's id is appended. */
  lemma IdsExtend<N>(args: seq<EdgeArg<N>>, ids: seq<nat>, g1: Graph<N>, g2: Graph<N>, id: nat)
    requires |args| > 0 && |ids| == |args| - 1
    requires forall i :: 0 <= i < |ids| ==>
      (ids[i] in g1.edges && g1.edges[ids[i]].tail == TailOf(args[i]) && g1.edges[ids[i]].head == HeadOf(args[i]))
    requires SidesKept(g1, g2) && id in g2.edges
    requires g2.edges[id].tail == TailOf(args[|args| - 1]) && g2.edges[id].head == HeadOf(args[|args| - 1])
    ensures forall i :: 0 <= i < |args| ==>
      ((ids + [id])[i] in g2.edges && g2.edges[(ids + [id])[i]].tail == TailOf(args[i]) && g2.edges[(ids + [id])[i]].head == HeadOf(args[i]))
  {
  }

  /**
   `remove_hyperedge`: an unknown id is a ValueError; otherwise the hyperedge
   leaves the table, both stars and both pair maps, and nothing else changes.
   The source raises KeyError when a star or pair map lacks the entry; that
   happens only in an inconsistent registry (see `RemoveHyperedgeValid`), so
   the model does not distinguish it.
   */
  function RemoveHyperedge<N>(g: Graph<N>, id: nat): (r: Result<Graph<N>>)
    ensures id !in g.edges <==> r == Err(ValueError)
    ensures r.Ok? ==> r.value.edges.Keys == g.edges.Keys - {id}
    ensures r.Ok? ==> forall e :: e in r.value.edges ==> r.value.edges[e] == g.edges[e]
    ensures r.Ok? ==> r.value.nodes == g.nodes && r.value.counter == g.counter
    ensures r.Ok? ==> !HasHyperedge(r.value, g.edges[id].tail, g.edges[id].head)
  {
    if id !in g.edges then
      Err(ValueError)
    else
      var x := g.edges[id];
      DropEntryFacts(g.succ, x.tail, x.head);
      Ok(Graph(
        g.nodes,
        g.edges - {id},
        RemoveFromStar(g.fstar, x.tail, id),
        RemoveFromStar(g.bstar, x.head, id),
        DropEntry(g.succ, x.tail, x.head),
        DropEntry(g.pred, x.head, x.tail),
        g.counter))
  }

  /** Removing a hyperedge keeps the registry valid. */
  lemma RemoveHyperedgeValid<N>(g: Graph<N>, id: nat)
    requires Valid(g) && id in g.edges
    ensures Valid(RemoveHyperedge(g, id).value)
  {
    var r := RemoveHyperedge(g, id).value;
    StarRemoveEdge(g.nodes.Keys, g.edges, g.fstar, true, id);
    StarRemoveEdge(g.nodes.Keys, g.edges, g.bstar, false, id);
    IndexRemoveEdge(g.edges, g.succ, true, id);
    IndexRemoveEdge(g.edges, g.pred, false, id);
    EdgesClosedGrow(g, r);
    ValidIntro(r);
  }

  /** Removing a hyperedge takes its id out of every star and leaves the stars otherwise unchanged. */
  lemma RemoveHyperedgeStars<N>(g: Graph<N>, id: nat)
    requires id in g.edges
    requires StarExact(g.nodes.Keys, g.edges, g.fstar, true) && StarExact(g.nodes.Keys, g.edges, g.bstar, false)
    ensures forall n :: n in g.nodes ==>
      && n in RemoveHyperedge(g, id).value.fstar && RemoveHyperedge(g, id).value.fstar[n] == g.fstar[n] - {id}
      && n in RemoveHyperedge(g, id).value.bstar && RemoveHyperedge(g, id).value.bstar[n] == g.bstar[n] - {id}
  {
    var x := g.edges[id];
    RemoveFromStarFacts(g.fstar, x.tail, id);
    RemoveFromStarFacts(g.bstar, x.head, id);
    forall n | n in g.nodes
      ensures n !in x.tail ==> id !in g.fstar[n]
      ensures n !in x.head ==> id !in g.bstar[n]
    {
      if id in g.fstar[n] {
        assert n in Side(g.edges[id], true);
      }
      if id in g.bstar[n] {
        assert n in Side(g.edges[id], false);
      }
    }
  }

  /** `remove_hyperedges`: `remove_hyperedge` for each element in order. */
  function RemoveHyperedges<N>(g: Graph<N>, ids: seq<nat>): (r: Result<Graph<N>>)
    ensures r.Ok? ==> r.value.nodes == g.nodes && r.value.counter == g.counter
    ensures r.Ok? ==> r.value.edges.Keys == g.edges.Keys - Elems(ids)
    decreases |ids|
  {
    if ids == [] then Ok(g)
    else
      match RemoveHyperedges(g, ids[..|ids| - 1])
      case Err(err) => Err(err)
      case Ok(g1) => RemoveHyperedge(g1, ids[|ids| - 1])
  }

  /** `remove_hyperedges` succeeds exactly when the ids are distinct hyperedges of the registry. */
  lemma {:induction false} RemoveHyperedgesSucceeds<N>(g: Graph<N>, ids: seq<nat>)
    requires Valid(g)
    ensures RemoveHyperedges(g, ids).Ok? <==> (forall e :: e in ids ==> e in g.edges) && Distinct(ids)
    ensures RemoveHyperedges(g, ids).Ok? ==> Valid(RemoveHyperedges(g, ids).value)
    decreases |ids|
  {
    if ids != [] {
      var init := ids[..|ids| - 1];
      var last := ids[|ids| - 1];
      RemoveHyperedgesSucceeds(g, init);
      DistinctSnoc(ids);
      ElemsMeaning(init);
      var rest := RemoveHyperedges(g, init);
      if rest.Ok? {
        var g1 := rest.value;
        assert last in g1.edges <==> last in g.edges && last !in init;
        if last in g1.edges {
          RemoveHyperedgeValid(g1, last);
        }
      }
    }
  }

  /** `r` is `g` with exactly the hyperedges `removed` taken out and nothing else changed. */
  ghost predicate RemovedFrom<N>(g: Graph<N>, r: Graph<N>, removed: set<nat>) {
    && r.edges.Keys == g.edges.Keys - removed
    && (forall e :: e in r.edges ==> r.edges[e] == g.edges[e])
    && r.nodes == g.nodes && r.counter == g.counter
  }

  /** Removes a set of hyperedges one at a time, in an unspecified order. */
  method RemoveEdgeSet<N>(g: Graph<N>, ids: set<nat>) returns (r: Graph<N>)
    requires Valid(g) && ids <= g.edges.Keys
    ensures Valid(r) && RemovedFrom(g, r, ids)
  {
    r := g;
    var todo := ids;
    RemovedNothing(g, ids);
    while todo != {}
      invariant Valid(r) && todo <= ids && todo <= r.edges.Keys
      invariant RemovedFrom(g, r, ids - todo)
      decreases todo
    {
      var id :| id in todo;
      RemoveEdgeSetStep(g, r, ids, todo, id);
      RemoveHyperedgeValid(r, id);
      r := RemoveHyperedge(r, id).value;
      todo := todo - {id};
    }
    RemovedAll(g, r, ids, todo);
  }

  lemma RemovedNothing<N>(g: Graph<N>, ids: set<nat>)
    requires ids <= g.edges.Keys
    ensures RemovedFrom(g, g, ids - ids)
  {
  }

  lemma RemovedAll<N>(g: Graph<N>, r: Graph<N>, ids: set<nat>, todo: set<nat>)
    requires todo == {} && RemovedFrom(g, r, ids - todo)
    ensures RemovedFrom(g, r, ids)
  {
  }

  /** One pass of the loop of `RemoveEdgeSet`, apart from validity. */
  lemma RemoveEdgeSetStep<N>(g: Graph<N>, r: Graph<N>, ids: set<nat>, todo: set<nat>, id: nat)
    requires id in todo && todo <= ids && todo <= r.edges.Keys
    requires RemovedFrom(g, r, ids - todo)
    ensures id in r.edges
    ensures RemoveHyperedge(r, id).Ok?
    ensures todo - {id} <= RemoveHyperedge(r, id).value.edges.Keys
    ensures RemovedFrom(g, RemoveHyperedge(r, id).value, ids - (todo - {id}))
  {
    SetRemoveStep(r.edges.Keys, g.edges.Keys, ids, todo, id);
  }

  /**
   `r` is `g` without the nodes `gone`: the other nodes keep their attributes,
   exactly the hyperedges that avoid `gone` remain, unchanged, and the id
   counter is kept.
   */
  ghost predicate WithoutNodes<N>(g: Graph<N>, r: Graph<N>, gone: set<N>) {
    && r.nodes.Keys == g.nodes.Keys - gone
    && (forall n :: n in r.nodes ==> r.nodes[n] == g.nodes[n])
    && (forall e :: e in r.edges <==> e in g.edges && Avoids(g.edges[e], gone))
    && (forall e :: e in r.edges ==> r.edges[e] == g.edges[e])
    && r.counter == g.counter
  }

  /** The registry with `node` and its (empty) stars dropped. */
  function DropNode<N>(g: Graph<N>, node: N): Graph<N> {
    g.(nodes := g.nodes - {node}, fstar := g.fstar - {node}, bstar := g.bstar - {node})
  }

  /** Dropping a node that lies on no hyperedge keeps the registry valid. */
  lemma DropIsolatedNodeValid<N>(g: Graph<N>, node: N)
    requires Valid(g) && node in g.nodes
    requires forall e :: e in g.edges ==> node !in g.edges[e].tail && node !in g.edges[e].head
    ensures Valid(DropNode(g, node))
  {
    IsolatedStarEmpty(g.nodes.Keys, g.edges, g.fstar, true, node);
    IsolatedStarEmpty(g.nodes.Keys, g.edges, g.bstar, false, node);
    DropIsolatedNodeStars(g, node);
    DropIsolatedNodeClosed(g, node);
    ValidIntro(DropNode(g, node));
  }

  lemma IsolatedStarEmpty<N>(keys: set<N>, edges: map<nat, Edge<N>>, star: map<N, set<nat>>, f: bool, node: N)
    requires StarExact(keys, edges, star, f) && node in keys
    requires forall e :: e in edges ==> node !in Side(edges[e], f)
    ensures star[node] == {}
  {
  }

  lemma DropIsolatedNodeStars<N>(g: Graph<N>, node: N)
    requires StarExact(g.nodes.Keys, g.edges, g.fstar, true) && StarExact(g.nodes.Keys, g.edges, g.bstar, false)
    requires node in g.nodes && g.fstar[node] == {} && g.bstar[node] == {}
    ensures StarExact(DropNode(g, node).nodes.Keys, g.edges, DropNode(g, node).fstar, true)
    ensures StarExact(DropNode(g, node).nodes.Keys, g.edges, DropNode(g, node).bstar, false)
  {
    StarRemoveNode(g.nodes.Keys, g.edges, g.fstar, true, node);
    StarRemoveNode(g.nodes.Keys, g.edges, g.bstar, false, node);
    assert DropNode(g, node).nodes.Keys == g.nodes.Keys - {node};
  }

  lemma DropIsolatedNodeClosed<N>(g: Graph<N>, node: N)
    requires EdgesClosed(g)
    requires forall e :: e in g.edges ==> node !in g.edges[e].tail && node !in g.edges[e].head
    ensures EdgesClosed(DropNode(g, node))
  {
  }

  /**
   `remove_node`: an absent node is a ValueError; otherwise the hyperedges of
   its forward star are removed, then those of its backward star not already
   removed, then the node with its stars.
   */
  method RemoveNode<N>(g: Graph<N>, node: N) returns (r: Result<Graph<N>>)
    requires Valid(g)
    ensures node !in g.nodes <==> r.Err?
    ensures r.Err? ==> r.error == ValueError
    ensures r.Ok? ==> Valid(r.value) && WithoutNodes(g, r.value, {node})
  {
    if node !in g.nodes {
      return Err(ValueError);
    }
    var forward := g.fstar[node];
    var h1 := RemoveEdgeSet(g, forward);
    var backward := h1.bstar[node] - forward;
    var h2 := RemoveEdgeSet(h1, backward);
    RemovedEdgesTouchNode(g, h1, h2, node);
    DropIsolatedNodeValid(h2, node);
    return Ok(DropNode(h2, node));
  }

  /** After both loops of `remove_node`, exactly the hyperedges touching the node are gone. */
  lemma RemovedEdgesTouchNode<N>(g: Graph<N>, h1: Graph<N>, h2: Graph<N>, node: N)
    requires StarExact(g.nodes.Keys, g.edges, g.fstar, true) && node in g.fstar && node in g.nodes
    requires StarExact(h1.nodes.Keys, h1.edges, h1.bstar, false) && node in h1.bstar
    requires RemovedFrom(g, h1, g.fstar[node])
    requires RemovedFrom(h1, h2, h1.bstar[node] - g.fstar[node])
    ensures node in h2.nodes
    ensures forall e :: e in h2.edges ==> node !in h2.edges[e].tail && node !in h2.edges[e].head
    ensures WithoutNodes(g, DropNode(h2, node), {node})
  {
    forall e | e in g.edges
      ensures e in h2.edges <==> node !in g.edges[e].tail && node !in g.edges[e].head
    {
      if node in g.edges[e].tail {
        assert node in Side(g.edges[e], true);
      } else if node in g.edges[e].head {
        assert node in Side(h1.edges[e], false);
      }
      if e in g.fstar[node] {
        assert node in Side(g.edges[e], true);
      } else if e in h1.bstar[node] {
        assert node in Side(h1.edges[e], false);
      }
    }
    assert DropNode(h2, node).nodes.Keys == g.nodes.Keys - {node};
  }

  /** Removing one more node: the removals compose. */
  lemma WithoutNodesStep<N>(g: Graph<N>, h: Graph<N>, h': Graph<N>, done: set<N>, n: N)
    requires WithoutNodes(g, h, done) && WithoutNodes(h, h', {n})
    ensures WithoutNodes(g, h', done + {n})
  {
    SetMinusStep(h.nodes.Keys, g.nodes.Keys, done, n);
    AvoidsStep(g.edges, h.edges, h'.edges, done, n);
  }

  lemma WithoutNothing<N>(g: Graph<N>)
    ensures WithoutNodes(g, g, {})
  {
  }

  /** `remove_nodes`: `remove_node` for each element in order; an absent or repeated node fails. */
  method RemoveNodes<N>(g: Graph<N>, ns: seq<N>) returns (r: Result<Graph<N>>)
    requires Valid(g)
    ensures r.Ok? <==> (forall n :: n in ns ==> n in g.nodes) && Distinct(ns)
    ensures r.Ok? ==> Valid(r.value) && WithoutNodes(g, r.value, Elems(ns))
  {
    var h := g;
    var i := 0;
    WithoutNothing(g);
    assert ns[..0] == [];
    while i < |ns|
      invariant 0 <= i <= |ns| && Valid(h)
      invariant (forall n :: n in ns[..i] ==> n in g.nodes) && Distinct(ns[..i])
      invariant WithoutNodes(g, h, Elems(ns[..i]))
    {
      PrefixStep(ns, i);
      var step := RemoveNode(h, ns[i]);
      if step.Err? {
        RemoveNodesFails(g, h, ns, i);
        return Err(ValueError);
      }
      WithoutNodesStep(g, h, step.value, Elems(ns[..i]), ns[i]);
      h := step.value;
      i := i + 1;
    }
    PrefixAll(ns);
    return Ok(h);
  }

  /** Why `remove_nodes` stops: the node is absent, either from the start or removed earlier in the sequence. */
  lemma RemoveNodesFails<N>(g: Graph<N>, h: Graph<N>, ns: seq<N>, i: nat)
    requires i < |ns| && WithoutNodes(g, h, Elems(ns[..i])) && ns[i] !in h.nodes
    ensures !((forall n :: n in ns ==> n in g.nodes) && Distinct(ns))
  {
    PrefixStep(ns, i);
    if ns[i] in g.nodes {
      assert ns[i] in ns[..i];
      assert ns[..i] == ns[..|ns|][..i];
      PrefixStep(ns, i);
    }
  }

  /**
   `get_induced_subhypergraph`: a copy with every node outside `given`
   removed, so exactly the hyperedges inside `given` remain.
   */
  method InducedSubhypergraph<N>(g: Graph<N>, given: set<N>) returns (r: Graph<N>)
    requires Valid(g)
    ensures Valid(r)
    ensures r.nodes.Keys == g.nodes.Keys * given
    ensures forall e :: e in r.edges <==> e in g.edges && g.edges[e].tail + g.edges[e].head <= given
    ensures forall e :: e in r.edges ==> r.edges[e] == g.edges[e]
    ensures forall n :: n in r.nodes ==> r.nodes[n] == g.nodes[n]
    ensures r.counter == g.counter
  {
    r := Copy(g);
    var outside := g.nodes.Keys - given;
    var todo := outside;
    ghost var done: set<N> := {};
    WithoutNothing(g);
    while todo != {}
      invariant Valid(r) && todo <= r.nodes.Keys
      invariant todo !! done && todo + done == outside
      invariant WithoutNodes(g, r, done)
      decreases todo
    {
      var n :| n in todo;
      var step := RemoveNode(r, n);
      InducedStep(g, r, step.value, todo, done, n);
      r := step.value;
      todo := todo - {n};
      done := done + {n};
    }
    InducedFinish(g, r, given, done);
  }

  lemma InducedStep<N>(g: Graph<N>, r: Graph<N>, r': Graph<N>, todo: set<N>, done: set<N>, n: N)
    requires n in todo && todo <= r.nodes.Keys && todo !! done
    requires WithoutNodes(g, r, done) && WithoutNodes(r, r', {n})
    ensures todo - {n} <= r'.nodes.Keys && (todo - {n}) !! (done + {n})
    ensures (todo - {n}) + (done + {n}) == todo + done
    ensures WithoutNodes(g, r', done + {n})
  {
    WithoutNodesStep(g, r, r', done, n);
  }

  lemma InducedFinish<N>(g: Graph<N>, r: Graph<N>, given: set<N>, done: set<N>)
    requires SidesWithin(g.nodes.Keys, g.edges)
    requires {} + done == g.nodes.Keys - given && WithoutNodes(g, r, done)
    ensures r.nodes.Keys == g.nodes.Keys * given
    ensures forall e :: e in r.edges <==> e in g.edges && g.edges[e].tail + g.edges[e].head <= given
    ensures forall e :: e in r.edges ==> r.edges[e] == g.edges[e]
    ensures forall n :: n in r.nodes ==> r.nodes[n] == g.nodes[n]
    ensures r.counter == g.counter
  {
    AvoidsOutside(g.nodes.Keys, g.edges, given);
    IntersectAsMinus(g.nodes.Keys, given, done);
  }

  // ---------------------------------------------------------------------------
  // Queries
  // ---------------------------------------------------------------------------

  function ForwardStar<N>(g: Graph<N>, n: N): (r: Result<set<nat>>)
    ensures n !in g.nodes ==> r == Err(ValueError)
    ensures Valid(g) && n in g.nodes ==> r.Ok? && forall e :: e in r.value <==> e in g.edges && n in g.edges[e].tail
  {
    if n !in g.nodes then Err(ValueError) else if n !in g.fstar then Err(KeyError) else Ok(g.fstar[n])
  }

  function BackwardStar<N>(g: Graph<N>, n: N): (r: Result<set<nat>>)
    ensures n !in g.nodes ==> r == Err(ValueError)
    ensures Valid(g) && n in g.nodes ==> r.Ok? && forall e :: e in r.value <==> e in g.edges && n in g.edges[e].head
  {
    if n !in g.nodes then Err(ValueError) else if n !in g.bstar then Err(KeyError) else Ok(g.bstar[n])
  }

  /** `get_successors`: the hyperedges whose tail is exactly `tail` (empty if none). */
  function Successors<N>(g: Graph<N>, tail: set<N>): (r: set<nat>)
    ensures Valid(g) ==> forall e :: e in r <==> e in g.edges && g.edges[e].tail == tail
  {
    if tail !in g.succ then {} else set h | h in g.succ[tail] :: g.succ[tail][h]
  }

  /** `get_predecessors`: the hyperedges whose head is exactly `head` (empty if none). */
  function Predecessors<N>(g: Graph<N>, head: set<N>): (r: set<nat>)
    ensures Valid(g) ==> forall e :: e in r <==> e in g.edges && g.edges[e].head == head
  {
    if head !in g.pred then {} else set t | t in g.pred[head] :: g.pred[head][t]
  }

  /** `is_B_hypergraph`: scans the hyperedges and stops at the first head with more than one node. */
  method IsBHypergraph<N>(g: Graph<N>) returns (b: bool)
    ensures b <==> forall e :: e in g.edges ==> |g.edges[e].head| <= 1
  {
    var todo := g.edges.Keys;
    while todo != {}
      invariant todo <= g.edges.Keys
      invariant forall e :: e in g.edges && e !in todo ==> |g.edges[e].head| <= 1
      decreases todo
    {
      var e :| e in todo;
      if |g.edges[e].head| > 1 {
        return false;
      }
      todo := todo - {e};
    }
    return true;
  }

  /** `is_F_hypergraph`: scans the hyperedges and stops at the first tail with more than one node. */
  method IsFHypergraph<N>(g: Graph<N>) returns (b: bool)
    ensures b <==> forall e :: e in g.edges ==> |g.edges[e].tail| <= 1
  {
    var todo := g.edges.Keys;
    while todo != {}
      invariant todo <= g.edges.Keys
      invariant forall e :: e in g.edges && e !in todo ==> |g.edges[e].tail| <= 1
      decreases todo
    {
      var e :| e in todo;
      if |g.edges[e].tail| > 1 {
        return false;
      }
      todo := todo - {e};
    }
    return true;
  }

  /** `is_BF_hypergraph`: no hyperedge has more than one node on both sides. */
  method IsBFHypergraph<N>(g: Graph<N>) returns (b: bool)
    ensures b <==> forall e :: e in g.edges ==> |g.edges[e].tail| <= 1 || |g.edges[e].head| <= 1
  {
    var todo := g.edges.Keys;
    while todo != {}
      invariant todo <= g.edges.Keys
      invariant forall e :: e in g.edges && e !in todo ==> |g.edges[e].tail| <= 1 || |g.edges[e].head| <= 1
      decreases todo
    {
      var e :| e in todo;
      if |g.edges[e].tail| > 1 && |g.edges[e].head| > 1 {
        return false;
      }
      todo := todo - {e};
    }
    return true;
  }

  // ---------------------------------------------------------------------------
  // Copies and the symmetric image
  // ---------------------------------------------------------------------------

  /** `copy`: the same nodes, hyperedges, indices and id counter (attribute values are copied shallowly). */
  function Copy<N>(g: Graph<N>): (r: Graph<N>)
    ensures r == g
  {
    Graph(g.nodes, g.edges, g.fstar, g.bstar, g.succ, g.pred, g.counter)
  }

  /** `get_symmetric_image`: every hyperedge reversed, stars and pair maps exchanged. */
  function SymmetricImage<N>(g: Graph<N>): (r: Graph<N>)
    ensures r.nodes == g.nodes && r.edges.Keys == g.edges.Keys && r.counter == g.counter
    ensures forall e :: e in g.edges ==>
      r.edges[e].tail == g.edges[e].head && r.edges[e].head == g.edges[e].tail && r.edges[e].attrs == g.edges[e].attrs
  {
    Graph(g.nodes, SwapAll(g.edges), g.bstar, g.fstar, g.pred, g.succ, g.counter)
  }

  lemma SymmetricImageValid<N>(g: Graph<N>)
    requires Valid(g)
    ensures Valid(SymmetricImage(g))
  {
    StarSwap(g.nodes.Keys, g.edges, g.bstar, false);
    StarSwap(g.nodes.Keys, g.edges, g.fstar, true);
    IndexSwap(g.edges, g.pred, false);
    IndexSwap(g.edges, g.succ, true);
    EdgesClosedSwap(g);
    ValidIntro(SymmetricImage(g));
  }

  lemma EdgesClosedSwap<N>(g: Graph<N>)
    requires EdgesClosed(g)
    ensures EdgesClosed(SymmetricImage(g))
  {
  }

  lemma SymmetricImageInvolution<N>(g: Graph<N>)
    ensures SymmetricImage(SymmetricImage(g)) == g
  {
    var r := SymmetricImage(SymmetricImage(g));
    assert r.edges == g.edges;
  }

  /** A B-hypergraph's symmetric image is an F-hypergraph and conversely. */
  lemma SymmetricImageSwapsBF<N>(g: Graph<N>)
    ensures (forall e :: e in g.edges ==> |g.edges[e].head| <= 1) <==>
            (forall e :: e in SymmetricImage(g).edges ==> |SymmetricImage(g).edges[e].tail| <= 1)
    ensures (forall e :: e in g.edges ==> |g.edges[e].tail| <= 1) <==>
            (forall e :: e in SymmetricImage(g).edges ==> |SymmetricImage(g).edges[e].head| <= 1)
  {
    var r := SymmetricImage(g);
    assert forall e :: e in r.edges <==> e in g.edges;
    assert forall e :: e in g.edges ==> |r.edges[e].tail| == |g.edges[e].head| && |r.edges[e].head| == |g.edges[e].tail|;
  }

  /** A hyperedge with an empty tail sits in no forward star of a registry whose forward stars are exact, so check 4.1 as written fails. */
  lemma EmptyTailUncovered<N>(g: Graph<N>, e: nat)
    requires StarExact(g.nodes.Keys, g.edges, g.fstar, true)
    requires e in g.edges && g.edges[e].tail == {}
    ensures !StarUnionsCoverIds(g)
  {
  }

  /**
   The consistency check as written rejects every registry `add_hyperedge`
   produces from a new pair with an empty tail, though the registry is valid.
   */
  lemma OneSidedEdgeFailsCheck<N>(g: Graph<N>, head: set<N>, attrs: Attrs)
    requires Valid(g) && head != {} && !HasHyperedge(g, {}, head)
    ensures AddHyperedge(g, {}, head, attrs).Ok?
    ensures Valid(AddHyperedge(g, {}, head, attrs).value.graph)
    ensures !PassesConsistencyCheck(AddHyperedge(g, {}, head, attrs).value.graph)
  {
    var id := g.counter + 1;
    var x := Edge({}, head, DefaultEdgeAttrs + attrs);
    AddHyperedgeInserts(g, {}, head, attrs);
    AddHyperedgeValid(g, {}, head, attrs);
    InsertEdgeFacts(g, id, x);
    EmptyTailUncovered(InsertEdge(g, id, x), id);
  }

  /** The corrected form of checks 4.1 and 4.2: every hyperedge with a non-empty tail (head) appears in some forward (backward) star. */
  lemma ValidCoversNonEmptySides<N>(g: Graph<N>, e: nat)
    requires Valid(g) && e in g.edges
    ensures g.edges[e].tail != {} ==> exists n :: n in g.fstar && e in g.fstar[n]
    ensures g.edges[e].head != {} ==> exists n :: n in g.bstar && e in g.bstar[n]
  {
    if g.edges[e].tail != {} {
      var n :| n in g.edges[e].tail;
      assert n in g.fstar && e in g.fstar[n];
    }
    if g.edges[e].head != {} {
      var n :| n in g.edges[e].head;
      assert n in g.bstar && e in g.bstar[n];
    }
  }

  /** Ids are never reused: after removing a hyperedge, re-adding any pair gets a different id. */
  lemma IdsNeverReused<N>(g: Graph<N>, id: nat, tail: set<N>, head: set<N>, attrs: Attrs)
    requires Valid(g) && id in g.edges
    requires AddHyperedge(RemoveHyperedge(g, id).value, tail, head, attrs).Ok?
    ensures AddHyperedge(RemoveHyperedge(g, id).value, tail, head, attrs).value.id != id
  {
    var g1 := RemoveHyperedge(g, id).value;
    RemoveHyperedgeValid(g, id);
    if HasHyperedge(g1, tail, head) {
      assert g1.succ[tail][head] in g1.edges;
    }
  }
  // ---------------------------------------------------------------------------
  // Sequences of operations
  // ---------------------------------------------------------------------------

  /** One call of a method of the registry that adds or removes by id. */
  datatype Op<N> =
    | AddNodeOp(node: N, attrs: Attrs)
    | AddEdgeOp(tail: set<N>, head: set<N>, attrs: Attrs)
    | RemoveEdgeOp(id: nat)

  function ApplyOp<N>(g: Graph<N>, op: Op<N>): Result<Graph<N>> {
    match op
    case AddNodeOp(n, a) => Ok(AddNode(g, n, a))
    case AddEdgeOp(t, h, a) =>
      var r := AddHyperedge(g, t, h, a);
      if r.Err? then Err(r.error) else Ok(r.value.graph)
    case RemoveEdgeOp(id) => RemoveHyperedge(g, id)
  }

  /** The registry after the calls `ops` in order; the first exception ends the run. */
  function RunOps<N>(g: Graph<N>, ops: seq<Op<N>>): Result<Graph<N>>
    decreases |ops|
  {
    if ops == [] then Ok(g)
    else
      var prev := RunOps(g, ops[..|ops| - 1]);
      if prev.Err? then prev else ApplyOp(prev.value, ops[|ops| - 1])
  }

  /** `r` is a valid registry reached from `g` whose counter has not gone back and whose new hyperedges all have ids above `g`'s counter. */
  ghost predicate FreshAfter<N>(g: Graph<N>, r: Graph<N>) {
    && Valid(r) && r.counter >= g.counter
    && forall e :: e in r.edges && e !in g.edges ==> g.counter < e
  }

  lemma ApplyFresh<N>(g: Graph<N>, op: Op<N>)
    requires Valid(g)
    ensures ApplyOp(g, op).Ok? ==> FreshAfter(g, ApplyOp(g, op).value)
  {
    match op
    case AddNodeOp(n, a) => AddNodeValid(g, n, a);
    case AddEdgeOp(t, h, a) => AddEdgeFresh(g, t, h, a);
    case RemoveEdgeOp(id) =>
      if id in g.edges {
        RemoveHyperedgeValid(g, id);
      }
  }

  lemma AddEdgeFresh<N>(g: Graph<N>, tail: set<N>, head: set<N>, attrs: Attrs)
    requires Valid(g)
    ensures var r := AddHyperedge(g, tail, head, attrs);
      r.Ok? ==> FreshAfter(g, r.value.graph)
  {
    AddHyperedgeValid(g, tail, head, attrs);
    if tail == {} && head == {} {
    } else if HasHyperedge(g, tail, head) {
      AddHyperedgeExisting(g, tail, head, attrs);
      MergeEdgeAttrsFacts(g, g.succ[tail][head], attrs);
      SameIdsFresh(g, MergeEdgeAttrs(g, g.succ[tail][head], attrs));
    } else {
      AddHyperedgeNew(g, tail, head, attrs);
      var r := AddHyperedge(g, tail, head, attrs).value.graph;
      NewIdFresh(g, r, g.counter + 1);
    }
  }

  lemma SameIdsFresh<N>(g: Graph<N>, r: Graph<N>)
    requires Valid(r) && r.counter == g.counter && r.edges.Keys == g.edges.Keys
    ensures FreshAfter(g, r)
  {
  }

  lemma NewIdFresh<N>(g: Graph<N>, r: Graph<N>, id: nat)
    requires Valid(r) && id == g.counter + 1 == r.counter && r.edges.Keys == g.edges.Keys + {id}
    ensures FreshAfter(g, r)
  {
  }

  lemma FreshAfterTrans<N>(g: Graph<N>, h: Graph<N>, r: Graph<N>)
    requires FreshAfter(g, h) && FreshAfter(h, r)
    ensures FreshAfter(g, r)
  {
  }

  /**
   Ids are never reused over any run of `add_node`, `add_hyperedge` and
   `remove_hyperedge` calls: the registry stays valid, the counter never goes
   back, and every hyperedge that was not there at the start has an id above
   the starting counter, hence above every id issued before, removed or not.
   */
  lemma {:induction false} RunFresh<N>(g: Graph<N>, ops: seq<Op<N>>)
    requires Valid(g)
    ensures RunOps(g, ops).Ok? ==> FreshAfter(g, RunOps(g, ops).value)
    decreases |ops|
  {
    if ops != [] {
      RunFresh(g, ops[..|ops| - 1]);
      var prev := RunOps(g, ops[..|ops| - 1]);
      if prev.Ok? {
        ApplyFresh(prev.value, ops[|ops| - 1]);
        if ApplyOp(prev.value, ops[|ops| - 1]).Ok? {
          FreshAfterTrans(g, prev.value, ApplyOp(prev.value, ops[|ops| - 1]).value);
        }
      }
    }
  }
}

=== FILE: directed_index.dfy ===
/**
 The redundant indices of the directed hypergraph registry, stated once for
 either side of a hyperedge. With `forward` true a "side" is the tail, the star
 is the forward star and the pair index is the successor map
 (successors[tail][head] = id); with `forward` false they are the head, the
 backward star and the predecessor map (predecessors[head][tail] = id).
 */
module DirectedIndex {
  import opened Attributes
  import opened Stars

  datatype Edge<N> = Edge(tail: set<N>, head: set<N>, attrs: Attrs)

  function Side<N>(e: Edge<N>, forward: bool): set<N> {
    if forward then e.tail else e.head
  }

  function SwapEdge<N>(e: Edge<N>): (r: Edge<N>)
    ensures forall f :: Side(r, f) == Side(e, !f)
  {
    Edge(e.head, e.tail, e.attrs)
  }

  /** Every hyperedge reversed. */
  function SwapAll<N>(edges: map<nat, Edge<N>>): (r: map<nat, Edge<N>>)
    ensures r.Keys == edges.Keys
    ensures forall e :: e in edges ==> r[e] == SwapEdge(edges[e])
  {
    map e | e in edges :: SwapEdge(edges[e])
  }

  /** A star map has one entry per node, holding exactly the hyperedges with that node on its side. */
  ghost predicate StarExact<N>(keys: set<N>, edges: map<nat, Edge<N>>, star: map<N, set<nat>>, forward: bool) {
    && star.Keys == keys
    && (forall n, e {:trigger e in star[n]} :: n in star && e in star[n] ==> e in edges && n in Side(edges[e], forward))
    && (forall e, n {:trigger n in Side(edges[e], forward)} :: e in edges && n in Side(edges[e], forward) ==> n in star && e in star[n])
  }

  /** Every hyperedge is entered in a pair index under (its side, its other side). */
  ghost predicate IndexCovers<N>(edges: map<nat, Edge<N>>, idx: map<set<N>, map<set<N>, nat>>, forward: bool) {
    forall e :: e in edges ==>
      Side(edges[e], forward) in idx && Side(edges[e], !forward) in idx[Side(edges[e], forward)]
      && idx[Side(edges[e], forward)][Side(edges[e], !forward)] == e
  }

  /** Every entry of a pair index names a hyperedge with exactly those sides. */
  ghost predicate IndexSound<N>(edges: map<nat, Edge<N>>, idx: map<set<N>, map<set<N>, nat>>, forward: bool) {
    forall a, b :: a in idx && b in idx[a] ==>
      idx[a][b] in edges && Side(edges[idx[a][b]], forward) == a && Side(edges[idx[a][b]], !forward) == b
  }

  /** A pair index maps (this side, other side) to the id of the one hyperedge with those sides, and keeps no empty bucket. */
  ghost predicate IndexExact<N>(edges: map<nat, Edge<N>>, idx: map<set<N>, map<set<N>, nat>>, forward: bool) {
    && IndexCovers(edges, idx, forward)
    && IndexSound(edges, idx, forward)
    && (forall a :: a in idx ==> idx[a] != map[])
  }

  /** Every hyperedge's nodes are registered nodes. */
  ghost predicate SidesWithin<N>(keys: set<N>, edges: map<nat, Edge<N>>) {
    forall e :: e in edges ==> edges[e].tail <= keys && edges[e].head <= keys
  }

  lemma StarAddNodes<N>(keys: set<N>, edges: map<nat, Edge<N>>, star: map<N, set<nat>>, f: bool, missing: set<N>)
    requires StarExact(keys, edges, star, f)
    requires missing !! keys
    ensures StarExact(keys + missing, edges, AddEmptyStars(star, missing), f)
  {
    AddEmptyStarsFacts(star, missing);
  }

  lemma StarAddEdge<N>(keys: set<N>, edges: map<nat, Edge<N>>, star: map<N, set<nat>>, f: bool, id: nat, x: Edge<N>)
    requires StarExact(keys, edges, star, f)
    requires id !in edges && Side(x, f) <= keys
    ensures StarExact(keys, edges[id := x], AddToStar(star, Side(x, f), id), f)
  {
    var edges' := edges[id := x];
    var star' := AddToStar(star, Side(x, f), id);
    AddToStarFacts(star, Side(x, f), id);
    forall n, e {:trigger e in star'[n]} | n in star' && e in star'[n]
      ensures e in edges' && n in Side(edges'[e], f)
    {
      if e != id {
        assert e in star[n];
      }
    }
  }

  lemma StarRemoveEdge<N>(keys: set<N>, edges: map<nat, Edge<N>>, star: map<N, set<nat>>, f: bool, id: nat)
    requires StarExact(keys, edges, star, f)
    requires id in edges
    ensures StarExact(keys, edges - {id}, RemoveFromStar(star, Side(edges[id], f), id), f)
  {
    var star' := RemoveFromStar(star, Side(edges[id], f), id);
    RemoveFromStarFacts(star, Side(edges[id], f), id);
    forall n, e {:trigger e in star'[n]} | n in star' && e in star'[n]
      ensures e in edges - {id} && n in Side(edges[e], f)
    {
      assert e in star[n];
    }
  }

  /** A node whose star is empty lies on that side of no hyperedge, and can be dropped from the map. */
  lemma StarRemoveNode<N>(keys: set<N>, edges: map<nat, Edge<N>>, star: map<N, set<nat>>, f: bool, n: N)
    requires StarExact(keys, edges, star, f)
    requires n in star && star[n] == {}
    ensures forall e :: e in edges ==> n !in Side(edges[e], f)
    ensures StarExact(keys - {n}, edges, star - {n}, f)
  {
  }

  lemma StarKeysFrame<N>(keys: set<N>, edges: map<nat, Edge<N>>, star: map<N, set<nat>>, f: bool, edges': map<nat, Edge<N>>)
    requires StarExact(keys, edges, star, f)
    requires edges'.Keys == edges.Keys
    requires forall e :: e in edges ==> Side(edges'[e], f) == Side(edges[e], f)
    ensures StarExact(keys, edges', star, f)
  {
  }

  lemma StarSwap<N>(keys: set<N>, edges: map<nat, Edge<N>>, star: map<N, set<nat>>, f: bool)
    requires StarExact(keys, edges, star, f)
    ensures StarExact(keys, SwapAll(edges), star, !f)
  {
  }

  // ---------------------------------------------------------------------------
  // Updates of a pair index
  // ---------------------------------------------------------------------------

  /** Sets `m[outer][inner] := id`, creating the bucket if needed. */
  function PutEntry<K>(m: map<K, map<K, nat>>, outer: K, inner: K, id: nat): map<K, map<K, nat>> {
    m[outer := (if outer in m then m[outer] else map[])[inner := id]]
  }

  lemma PutEntryFacts<K>(m: map<K, map<K, nat>>, outer: K, inner: K, id: nat)
    ensures var r := PutEntry(m, outer, inner, id);
      && r.Keys == m.Keys + {outer}
      && inner in r[outer] && r[outer][inner] == id
      && (forall k :: k in m && k != outer ==> r[k] == m[k])
      && (forall k :: k in r[outer] && k != inner ==> outer in m && k in m[outer] && r[outer][k] == m[outer][k])
      && (outer in m ==> m[outer].Keys <= r[outer].Keys)
  {
  }

  /** Removes `m[outer][inner]`, dropping the bucket `m[outer]` once it is empty. */
  function DropEntry<K>(m: map<K, map<K, nat>>, outer: K, inner: K): map<K, map<K, nat>> {
    if outer !in m then m
    else
      var b := m[outer] - {inner};
      if b == map[] then m - {outer} else m[outer := b]
  }

  lemma DropEntryFacts<K>(m: map<K, map<K, nat>>, outer: K, inner: K)
    ensures var r := DropEntry(m, outer, inner);
      && (outer !in r || inner !in r[outer])
      && (forall k :: k in m && k != outer ==> k in r && r[k] == m[k])
      && r.Keys <= m.Keys
      && (outer in r ==> outer in m && r[outer] == m[outer] - {inner} && r[outer] != map[])
      && (outer in m && m[outer] - {inner} != map[] ==> outer in r)
  {
  }

  lemma IndexAddEdge<N>(edges: map<nat, Edge<N>>, idx: map<set<N>, map<set<N>, nat>>, f: bool, id: nat, x: Edge<N>)
    requires IndexExact(edges, idx, f)
    requires id !in edges
    requires !(Side(x, f) in idx && Side(x, !f) in idx[Side(x, f)])
    ensures IndexExact(edges[id := x], PutEntry(idx, Side(x, f), Side(x, !f), id), f)
  {
    PutEntryFacts(idx, Side(x, f), Side(x, !f), id);
    IndexAddEdgeCovers(edges, idx, f, id, x);
    IndexAddEdgeSound(edges, idx, f, id, x);
  }

  lemma IndexAddEdgeCovers<N>(edges: map<nat, Edge<N>>, idx: map<set<N>, map<set<N>, nat>>, f: bool, id: nat, x: Edge<N>)
    requires IndexCovers(edges, idx, f)
    requires id !in edges
    requires !(Side(x, f) in idx && Side(x, !f) in idx[Side(x, f)])
    ensures IndexCovers(edges[id := x], PutEntry(idx, Side(x, f), Side(x, !f), id), f)
  {
    var edges' := edges[id := x];
    var idx' := PutEntry(idx, Side(x, f), Side(x, !f), id);
    PutEntryFacts(idx, Side(x, f), Side(x, !f), id);
    forall e | e in edges'
      ensures Side(edges'[e], f) in idx' && Side(edges'[e], !f) in idx'[Side(edges'[e], f)]
        && idx'[Side(edges'[e], f)][Side(edges'[e], !f)] == e
    {
      if e != id {
        var a := Side(edges[e], f);
        var b := Side(edges[e], !f);
        assert idx[a][b] == e;
        if a == Side(x, f) {
          assert b != Side(x, !f);
        }
      }
    }
  }

  lemma IndexAddEdgeSound<N>(edges: map<nat, Edge<N>>, idx: map<set<N>, map<set<N>, nat>>, f: bool, id: nat, x: Edge<N>)
    requires IndexSound(edges, idx, f)
    requires id !in edges
    ensures IndexSound(edges[id := x], PutEntry(idx, Side(x, f), Side(x, !f), id), f)
  {
    var edges' := edges[id := x];
    var idx' := PutEntry(idx, Side(x, f), Side(x, !f), id);
    PutEntryFacts(idx, Side(x, f), Side(x, !f), id);
    forall a, b | a in idx' && b in idx'[a]
      ensures idx'[a][b] in edges' && Side(edges'[idx'[a][b]], f) == a && Side(edges'[idx'[a][b]], !f) == b
    {
      if a == Side(x, f) && b == Side(x, !f) {
        assert idx'[a][b] == id;
      } else {
        assert a in idx && b in idx[a] && idx'[a][b] == idx[a][b];
      }
    }
  }

  lemma IndexRemoveEdge<N>(edges: map<nat, Edge<N>>, idx: map<set<N>, map<set<N>, nat>>, f: bool, id: nat)
    requires IndexExact(edges, idx, f)
    requires id in edges
    ensures IndexExact(edges - {id}, DropEntry(idx, Side(edges[id], f), Side(edges[id], !f)), f)
  {
    DropEntryFacts(idx, Side(edges[id], f), Side(edges[id], !f));
    IndexRemoveEdgeCovers(edges, idx, f, id);
    IndexRemoveEdgeSound(edges, idx, f, id);
  }

  lemma IndexRemoveEdgeCovers<N>(edges: map<nat, Edge<N>>, idx: map<set<N>, map<set<N>, nat>>, f: bool, id: nat)
    requires IndexCovers(edges, idx, f)
    requires id in edges
    ensures IndexCovers(edges - {id}, DropEntry(idx, Side(edges[id], f), Side(edges[id], !f)), f)
  {
    var x := edges[id];
    var idx' := DropEntry(idx, Side(x, f), Side(x, !f));
    DropEntryFacts(idx, Side(x, f), Side(x, !f));
    forall e | e in edges - {id}
      ensures Side(edges[e], f) in idx' && Side(edges[e], !f) in idx'[Side(edges[e], f)]
        && idx'[Side(edges[e], f)][Side(edges[e], !f)] == e
    {
      var a := Side(edges[e], f);
      var b := Side(edges[e], !f);
      assert idx[a][b] == e;
      if a == Side(x, f) {
        assert b != Side(x, !f);
        assert b in idx[a] - {Side(x, !f)};
      }
    }
  }

  lemma IndexRemoveEdgeSound<N>(edges: map<nat, Edge<N>>, idx: map<set<N>, map<set<N>, nat>>, f: bool, id: nat)
    requires IndexSound(edges, idx, f)
    requires id in edges
    ensures IndexSound(edges - {id}, DropEntry(idx, Side(edges[id], f), Side(edges[id], !f)), f)
  {
    var x := edges[id];
    var idx' := DropEntry(idx, Side(x, f), Side(x, !f));
    DropEntryFacts(idx, Side(x, f), Side(x, !f));
    forall a, b | a in idx' && b in idx'[a]
      ensures idx'[a][b] in edges - {id} && Side(edges[idx'[a][b]], f) == a && Side(edges[idx'[a][b]], !f) == b
    {
      assert idx'[a][b] == idx[a][b];
    }
  }

  lemma IndexKeysFrame<N>(edges: map<nat, Edge<N>>, idx: map<set<N>, map<set<N>, nat>>, f: bool, edges': map<nat, Edge<N>>)
    requires IndexExact(edges, idx, f)
    requires edges'.Keys == edges.Keys
    requires forall e :: e in edges ==> edges'[e].tail == edges[e].tail && edges'[e].head == edges[e].head
    ensures IndexExact(edges', idx, f)
  {
  }

  lemma IndexSwap<N>(edges: map<nat, Edge<N>>, idx: map<set<N>, map<set<N>, nat>>, f: bool)
    requires IndexExact(edges, idx, f)
    ensures IndexExact(SwapAll(edges), idx, !f)
  {
    var edges' := SwapAll(edges);
    forall e | e in edges'
      ensures Side(edges'[e], !f) in idx && Side(edges'[e], !!f) in idx[Side(edges'[e], !f)]
        && idx[Side(edges'[e], !f)][Side(edges'[e], !!f)] == e
    {
      assert Side(edges'[e], !f) == Side(edges[e], f);
    }
    forall a, b | a in idx && b in idx[a]
      ensures idx[a][b] in edges' && Side(edges'[idx[a][b]], !f) == a && Side(edges'[idx[a][b]], !!f) == b
    {
      assert Side(edges'[idx[a][b]], !f) == Side(edges[idx[a][b]], f);
    }
  }

  /** The successor-side and predecessor-side indices name the same pairs. */
  lemma IndicesAgree<N>(edges: map<nat, Edge<N>>, i1: map<set<N>, map<set<N>, nat>>, i2: map<set<N>, map<set<N>, nat>>, f: bool, a: set<N>, b: set<N>)
    requires IndexExact(edges, i1, f) && IndexExact(edges, i2, !f)
    ensures (a in i1 && b in i1[a]) <==> (b in i2 && a in i2[b])
    ensures a in i1 && b in i1[a] ==> i1[a][b] == i2[b][a]
  {
    if a in i1 && b in i1[a] {
      var e := i1[a][b];
      assert Side(edges[e], !f) == b && Side(edges[e], !!f) == a;
    }
    if b in i2 && a in i2[b] {
      var e := i2[b][a];
      assert Side(edges[e], f) == a && Side(edges[e], !f) == b;
    }
  }

  // ---------------------------------------------------------------------------
  // Hyperedges that survive the removal of nodes
  // ---------------------------------------------------------------------------

  /** The hyperedge mentions no node of `s`. */
  predicate Avoids<N>(x: Edge<N>, s: set<N>) {
    x.tail !! s && x.head !! s
  }

  /** One more node removed: the survivors are those that also avoid it. */
  lemma AvoidsStep<N>(g0: map<nat, Edge<N>>, g1: map<nat, Edge<N>>, g2: map<nat, Edge<N>>, done: set<N>, n: N)
    requires forall e :: e in g1 <==> e in g0 && Avoids(g0[e], done)
    requires forall e :: e in g1 ==> g1[e] == g0[e]
    requires forall e :: e in g2 <==> e in g1 && n !in g1[e].tail && n !in g1[e].head
    requires forall e :: e in g2 ==> g2[e] == g1[e]
    ensures forall e :: e in g2 <==> e in g0 && Avoids(g0[e], done + {n})
    ensures forall e :: e in g2 ==> g2[e] == g0[e]
  {
  }

  /** With every node outside `given` removed, exactly the hyperedges inside `given` survive. */
  lemma AvoidsOutside<N>(keys: set<N>, edges: map<nat, Edge<N>>, given: set<N>)
    requires SidesWithin(keys, edges)
    ensures forall e :: e in edges ==> (Avoids(edges[e], keys - given) <==> edges[e].tail + edges[e].head <= given)
  {
  }
}

=== FILE: directed_statistics.dfy ===
/**
 The degree and cardinality statistics of `halp/utilities/directed_statistics.py`:
 node and hyperedge counts, the out- and in-degree of every node, the tail and
 head cardinality of every hyperedge, and their minima and maxima.

 The lists follow the iteration order of the registry's node set or id set,
 which Python leaves unspecified; it is a parameter here (`order`, `ids`), and
 the properties hold for every enumeration of the set. Every statistic first
 checks that its argument is a directed hypergraph.
 */
module DirectedStatistics {
  import opened Wrappers
  import opened Collections
  import opened DirectedIndex
  import opened DirectedHypergraph

  /** `order` lists every element of `s` exactly once: one iteration order of a Python set. */
  ghost predicate Enumerates<T>(order: seq<T>, s: set<T>) {
    Distinct(order) && Elems(order) == s
  }

  /** `number_of_nodes`: the size of the node set. */
  function NumberOfNodes<N>(a: Checked<Graph<N>>): (r: Result<nat>)
    ensures r.Err? <==> a.NotInstance?
    ensures r.Err? ==> r.error == TypeError
    ensures r.Ok? ==> r.value == |a.value.nodes.Keys|
  {
    if a.NotInstance? then Err(TypeError) else Ok(|a.value.nodes.Keys|)
  }

  /** `number_of_hyperedges`: the size of the hyperedge id set. */
  function NumberOfHyperedges<N>(a: Checked<Graph<N>>): (r: Result<nat>)
    ensures r.Err? <==> a.NotInstance?
    ensures r.Err? ==> r.error == TypeError
    ensures r.Ok? ==> r.value == |a.value.edges.Keys|
  {
    if a.NotInstance? then Err(TypeError) else Ok(|a.value.edges.Keys|)
  }

  // ---------------------------------------------------------------------------
  // Degrees
  // ---------------------------------------------------------------------------

  /** The hyperedges with `n` in their tail (`forward`) or head: what the star of `n` holds in a consistent registry. */
  ghost function EdgesWith<N>(g: Graph<N>, n: N, forward: bool): set<nat> {
    set e | e in g.edges && n in Side(g.edges[e], forward)
  }

  /** The forward star (`forward`) or the backward star of `n`. */
  function StarOf<N>(g: Graph<N>, n: N, forward: bool): Result<set<nat>> {
    if forward then ForwardStar(g, n) else BackwardStar(g, n)
  }

  /** Both star maps are exact: the part of `Valid` the statistics rely on. */
  ghost predicate StarsExact<N>(g: Graph<N>) {
    StarExact(g.nodes.Keys, g.edges, g.fstar, true) && StarExact(g.nodes.Keys, g.edges, g.bstar, false)
  }

  /** In a registry with exact stars, the star of a node is the set of hyperedges with the node on that side. */
  lemma StarOfExact<N>(g: Graph<N>, n: N, forward: bool)
    requires StarsExact(g) && n in g.nodes
    ensures StarOf(g, n, forward) == Ok(EdgesWith(g, n, forward))
  {
    var star := if forward then g.fstar else g.bstar;
    assert star[n] == EdgesWith(g, n, forward);
  }

  /** `[len(star(n)) for n in order]`, a star lookup failing as `get_forward_star`/`get_backward_star` does. */
  function DegreeList<N>(g: Graph<N>, order: seq<N>, forward: bool): (r: Result<seq<nat>>)
    ensures r.Ok? ==> |r.value| == |order|
    decreases |order|
  {
    if order == [] then Ok([])
    else
      var prev := DegreeList(g, order[..|order| - 1], forward);
      if prev.Err? then prev
      else
        var star := StarOf(g, order[|order| - 1], forward);
        if star.Err? then Err(star.error) else Ok(prev.value + [|star.value|])
  }

  /** In a consistent registry the degree list of nodes holds, position by position, the number of hyperedges with the node on the side. */
  lemma {:induction false} DegreeListMeaning<N>(g: Graph<N>, order: seq<N>, forward: bool)
    requires StarsExact(g) && forall i :: 0 <= i < |order| ==> order[i] in g.nodes
    ensures DegreeList(g, order, forward).Ok?
    ensures forall i :: 0 <= i < |order| ==> DegreeList(g, order, forward).value[i] == |EdgesWith(g, order[i], forward)|
    decreases |order|
  {
    if order != [] {
      var init := order[..|order| - 1];
      var n := order[|order| - 1];
      DegreeListMeaning(g, init, forward);
      var star := StarOf(g, n, forward);
      StarOfExact(g, n, forward);
      var r := DegreeList(g, order, forward);
      assert r.value == DegreeList(g, init, forward).value + [|star.value|];
      forall i | 0 <= i < |order|
        ensures r.value[i] == |EdgesWith(g, order[i], forward)|
      {
        if i < |init| {
          assert order[i] == init[i];
        }
      }
    }
  }

  /** A name outside the node set makes the lookup fail with ValueError, in a consistent registry. */
  lemma {:induction false} DegreeListUnknown<N>(g: Graph<N>, order: seq<N>, forward: bool, i: nat)
    requires StarsExact(g) && i < |order| && order[i] !in g.nodes
    ensures DegreeList(g, order, forward) == Err(ValueError)
    decreases |order|
  {
    var init := order[..|order| - 1];
    if i < |init| {
      assert init[i] == order[i];
      DegreeListUnknown(g, init, forward, i);
    } else if DegreeList(g, init, forward).Err? {
      var j :| 0 <= j < |init| && init[j] !in g.nodes by {
        if forall j :: 0 <= j < |init| ==> init[j] in g.nodes {
          DegreeListMeaning(g, init, forward);
        }
      }
      DegreeListUnknown(g, init, forward, j);
    }
  }

  /** In a consistent registry, an enumeration of its nodes lists every node, and only nodes. */
  lemma EnumeratedNodes<N>(g: Graph<N>, order: seq<N>)
    requires Enumerates(order, g.nodes.Keys)
    ensures |order| == |g.nodes.Keys|
    ensures forall i :: 0 <= i < |order| ==> order[i] in g.nodes
    ensures forall n :: n in g.nodes ==> exists i :: 0 <= i < |order| && order[i] == n
  {
    DistinctCard(order);
    ElemsMeaning(order);
  }

  /**
   `outdegree_list` (`forward`) and `indegree_list`: one entry per node of the
   node set, in its iteration order, each the number of hyperedges with that
   node in its tail (head); TypeError for anything but a directed hypergraph.
   */
  function Degrees<N>(a: Checked<Graph<N>>, order: seq<N>, forward: bool): (r: Result<seq<nat>>)
    ensures a.NotInstance? ==> r == Err(TypeError)
    ensures r.Ok? ==> |r.value| == |order|
  {
    if a.NotInstance? then Err(TypeError) else DegreeList(a.value, order, forward)
  }

  /** For a consistent registry and any iteration order of its nodes, the degree list has one entry per node, its degree. */
  lemma DegreesMeaning<N>(g: Graph<N>, order: seq<N>, forward: bool)
    requires StarsExact(g) && Enumerates(order, g.nodes.Keys)
    ensures Degrees(Instance(g), order, forward).Ok?
    ensures |Degrees(Instance(g), order, forward).value| == |g.nodes.Keys|
    ensures forall i :: 0 <= i < |order| ==> Degrees(Instance(g), order, forward).value[i] == |EdgesWith(g, order[i], forward)|
  {
    EnumeratedNodes(g, order);
    DegreeListMeaning(g, order, forward);
  }

  // ---------------------------------------------------------------------------
  // Minimum and maximum
  // ---------------------------------------------------------------------------

  /** Python's `min` on a list of naturals: ValueError for the empty list. */
  function Minimum(xs: seq<nat>): (r: Result<nat>)
    ensures r.Err? <==> xs == []
    ensures r.Err? ==> r.error == ValueError
    ensures r.Ok? ==> r.value in xs && forall i :: 0 <= i < |xs| ==> r.value <= xs[i]
    decreases |xs|
  {
    if xs == [] then Err(ValueError)
    else
      var rest := Minimum(xs[1..]);
      if rest.Err? || xs[0] <= rest.value then Ok(xs[0])
      else
        assert forall i :: 1 <= i < |xs| ==> xs[i] == xs[1..][i - 1];
        rest
  }

  /** Python's `max` on a list of naturals: ValueError for the empty list. */
  function Maximum(xs: seq<nat>): (r: Result<nat>)
    ensures r.Err? <==> xs == []
    ensures r.Err? ==> r.error == ValueError
    ensures r.Ok? ==> r.value in xs && forall i :: 0 <= i < |xs| ==> xs[i] <= r.value
    decreases |xs|
  {
    if xs == [] then Err(ValueError)
    else
      var rest := Maximum(xs[1..]);
      if rest.Err? || rest.value <= xs[0] then Ok(xs[0])
      else
        assert forall i :: 1 <= i < |xs| ==> xs[i] == xs[1..][i - 1];
        rest
  }

  /** The least or greatest entry of a statistic list, errors passing through. */
  function Extreme(list: Result<seq<nat>>, upper: bool): Result<nat> {
    if list.Err? then Err(list.error) else if upper then Maximum(list.value) else Minimum(list.value)
  }

  /**
   `min_outdegree`/`max_outdegree` (`forward`) and `min_indegree`/`max_indegree`:
   the degree of some node, at most (`!upper`) or at least (`upper`) that of
   every node; ValueError for a hypergraph without nodes.
   */
  function ExtremeDegree<N>(a: Checked<Graph<N>>, order: seq<N>, forward: bool, upper: bool): (r: Result<nat>)
    ensures a.NotInstance? ==> r == Err(TypeError)
    ensures r.Ok? ==> Degrees(a, order, forward).Ok? && exists i :: 0 <= i < |order| && Degrees(a, order, forward).value[i] == r.value
  {
    Extreme(Degrees(a, order, forward), upper)
  }

  /** In a consistent registry the extreme degree is the degree of a node, bounding every node's degree; ValueError without nodes. */
  lemma ExtremeDegreeMeaning<N>(g: Graph<N>, order: seq<N>, forward: bool, upper: bool)
    requires StarsExact(g) && Enumerates(order, g.nodes.Keys)
    ensures var r := ExtremeDegree(Instance(g), order, forward, upper);
      && (r.Err? <==> g.nodes == map[])
      && (r.Err? ==> r.error == ValueError)
      && (r.Ok? ==> exists n :: n in g.nodes && r.value == |EdgesWith(g, n, forward)|)
      && (r.Ok? ==> forall n :: n in g.nodes ==>
            if upper then |EdgesWith(g, n, forward)| <= r.value else r.value <= |EdgesWith(g, n, forward)|)
  {
    var list := Degrees(Instance(g), order, forward);
    DegreesMeaning(g, order, forward);
    EnumeratedNodes(g, order);
    assert g.nodes == map[] <==> |g.nodes.Keys| == 0;
    var r := ExtremeDegree(Instance(g), order, forward, upper);
    if r.Ok? {
      var i :| 0 <= i < |order| && list.value[i] == r.value;
      assert order[i] in g.nodes && r.value == |EdgesWith(g, order[i], forward)|;
    }
  }

  // ---------------------------------------------------------------------------
  // Cardinalities
  // ---------------------------------------------------------------------------

  /** The tail (`forward`) or head of hyperedge `e`, empty for an unknown id. */
  function SideOf<N>(g: Graph<N>, e: nat, forward: bool): set<N> {
    if e in g.edges then Side(g.edges[e], forward) else {}
  }

  /** `[len(side(e)) for e in ids]`; an unknown id is the ValueError `get_hyperedge_attribute` raises. */
  function CardinalityList<N>(g: Graph<N>, ids: seq<nat>, forward: bool): (r: Result<seq<nat>>)
    ensures r.Ok? <==> forall i :: 0 <= i < |ids| ==> ids[i] in g.edges
    ensures r.Err? ==> r.error == ValueError
    ensures r.Ok? ==> |r.value| == |ids| && forall i :: 0 <= i < |ids| ==> r.value[i] == |Side(g.edges[ids[i]], forward)|
    decreases |ids|
  {
    if ids == [] then Ok([])
    else
      var init := ids[..|ids| - 1];
      var prev := CardinalityList(g, init, forward);
      var e := ids[|ids| - 1];
      assert forall i :: 0 <= i < |init| ==> ids[i] == init[i];
      if prev.Err? then prev
      else if e !in g.edges then Err(ValueError)
      else Ok(prev.value + [|Side(g.edges[e], forward)|])
  }

  /**
   `hyperedge_tail_cardinality_list` (`forward`) and
   `hyperedge_head_cardinality_list`: one entry per hyperedge of the id set, in
   its iteration order, each the size of the hyperedge's tail (head).
   */
  function Cardinalities<N>(a: Checked<Graph<N>>, ids: seq<nat>, forward: bool): (r: Result<seq<nat>>)
    ensures a.NotInstance? ==> r == Err(TypeError)
    ensures a.Instance? && (forall i :: 0 <= i < |ids| ==> ids[i] in a.value.edges) ==>
      && r.Ok? && |r.value| == |ids|
      && forall i :: 0 <= i < |ids| ==> r.value[i] == |Side(a.value.edges[ids[i]], forward)|
  {
    if a.NotInstance? then Err(TypeError) else CardinalityList(a.value, ids, forward)
  }

  /** For any iteration order of the id set, the cardinality list has one entry per hyperedge. */
  lemma CardinalitiesMeaning<N>(g: Graph<N>, ids: seq<nat>, forward: bool)
    requires Enumerates(ids, g.edges.Keys)
    ensures Cardinalities(Instance(g), ids, forward).Ok?
    ensures |Cardinalities(Instance(g), ids, forward).value| == |g.edges.Keys|
    ensures forall e :: e in g.edges ==> exists i :: 0 <= i < |ids| && ids[i] == e
  {
    DistinctCard(ids);
    ElemsMeaning(ids);
  }

  /**
   `min_/max_hyperedge_tail_cardinality` (`forward`) and
   `min_/max_hyperedge_head_cardinality`: the side size of some hyperedge, at
   most (`!upper`) or at least (`upper`) that of every hyperedge; ValueError
   for a hypergraph without hyperedges.
   */
  function ExtremeCardinality<N>(a: Checked<Graph<N>>, ids: seq<nat>, forward: bool, upper: bool): (r: Result<nat>)
    ensures a.NotInstance? ==> r == Err(TypeError)
    ensures r.Ok? ==> Cardinalities(a, ids, forward).Ok? && exists i :: 0 <= i < |ids| && Cardinalities(a, ids, forward).value[i] == r.value
  {
    Extreme(Cardinalities(a, ids, forward), upper)
  }

  /** The extreme cardinality is the side size of a hyperedge, bounding every hyperedge's; ValueError without hyperedges. */
  lemma ExtremeCardinalityMeaning<N>(g: Graph<N>, ids: seq<nat>, forward: bool, upper: bool)
    requires Enumerates(ids, g.edges.Keys)
    ensures var r := ExtremeCardinality(Instance(g), ids, forward, upper);
      && (r.Err? <==> g.edges == map[])
      && (r.Err? ==> r.error == ValueError)
      && (r.Ok? ==> exists e :: e in g.edges && r.value == |Side(g.edges[e], forward)|)
      && (r.Ok? ==> forall e :: e in g.edges ==>
            if upper then |Side(g.edges[e], forward)| <= r.value else r.value <= |Side(g.edges[e], forward)|)
  {
    var list := Cardinalities(Instance(g), ids, forward);
    CardinalitiesMeaning(g, ids, forward);
    assert g.edges == map[] <==> |g.edges.Keys| == 0;
    var r := ExtremeCardinality(Instance(g), ids, forward, upper);
    if r.Ok? {
      var i :| 0 <= i < |ids| && list.value[i] == r.value;
      assert ids[i] in g.edges && r.value == |Side(g.edges[ids[i]], forward)|;
    }
  }

  /** `hyperedge_cardinality_pairs_list`: `(len(tail), len(head))` for every id, in order. */
  function CardinalityPairs<N>(a: Checked<Graph<N>>, ids: seq<nat>): (r: Result<seq<(nat, nat)>>)
    ensures a.NotInstance? ==> r == Err(TypeError)
    ensures a.Instance? ==> (r.Ok? <==> forall i :: 0 <= i < |ids| ==> ids[i] in a.value.edges)
    ensures r.Ok? ==> |r.value| == |ids|
    ensures r.Ok? ==> forall i :: 0 <= i < |ids| ==> r.value[i] == (|a.value.edges[ids[i]].tail|, |a.value.edges[ids[i]].head|)
  {
    if a.NotInstance? then Err(TypeError)
    else
      var tails := CardinalityList(a.value, ids, true);
      var heads := CardinalityList(a.value, ids, false);
      if tails.Err? then Err(tails.error)
      else Ok(seq(|ids|, i requires 0 <= i < |ids| => (tails.value[i], heads.value[i])))
  }

  // ---------------------------------------------------------------------------
  // Degrees against cardinalities
  // ---------------------------------------------------------------------------

  /** The sum of a list of naturals. */
  function Sum(xs: seq<nat>): nat
    decreases |xs|
  {
    if xs == [] then 0 else Sum(xs[..|xs| - 1]) + xs[|xs| - 1]
  }

  /** How many positions of `xs` hold an element of `s`. */
  function Hits<T>(xs: seq<T>, s: set<T>): nat
    decreases |xs|
  {
    if xs == [] then 0 else Hits(xs[..|xs| - 1], s) + if xs[|xs| - 1] in s then 1 else 0
  }

  /** Over a sequence without repeats, counting positions in `s` counts the elements of `s` the sequence lists. */
  lemma {:induction false} HitsCard<T>(xs: seq<T>, s: set<T>)
    requires Distinct(xs)
    ensures Hits(xs, s) == |s * Elems(xs)|
    decreases |xs|
  {
    if xs != [] {
      var init := xs[..|xs| - 1];
      var x := xs[|xs| - 1];
      DistinctSnoc(xs);
      ElemsMeaning(init);
      HitsCard(init, s);
      if x in s {
        assert s * Elems(xs) == s * Elems(init) + {x};
      } else {
        assert s * Elems(xs) == s * Elems(init);
      }
    }
  }

  /** The incidences (node, hyperedge) counted node by node. */
  ghost function ByNodes<N>(g: Graph<N>, forward: bool, order: seq<N>, ids: seq<nat>): nat
    decreases |order|
  {
    if order == [] then 0
    else ByNodes(g, forward, order[..|order| - 1], ids) + Hits(ids, EdgesWith(g, order[|order| - 1], forward))
  }

  /** The incidences (node, hyperedge) counted hyperedge by hyperedge. */
  ghost function ByEdges<N>(g: Graph<N>, forward: bool, order: seq<N>, ids: seq<nat>): nat
    decreases |ids|
  {
    if ids == [] then 0
    else ByEdges(g, forward, order, ids[..|ids| - 1]) + Hits(order, SideOf(g, ids[|ids| - 1], forward))
  }

  lemma {:induction false} ByNodesNoIds<N>(g: Graph<N>, forward: bool, order: seq<N>)
    ensures ByNodes(g, forward, order, []) == 0
    decreases |order|
  {
    if order != [] {
      ByNodesNoIds(g, forward, order[..|order| - 1]);
    }
  }

  /** One more hyperedge adds, node by node, the incidences of that hyperedge. */
  lemma {:induction false} ByNodesSnoc<N>(g: Graph<N>, forward: bool, order: seq<N>, ids: seq<nat>, x: nat)
    ensures ByNodes(g, forward, order, ids + [x]) == ByNodes(g, forward, order, ids) + Hits(order, SideOf(g, x, forward))
    decreases |order|
  {
    if order != [] {
      var init := order[..|order| - 1];
      var n := order[|order| - 1];
      ByNodesSnoc(g, forward, init, ids, x);
      assert (ids + [x])[..|ids|] == ids;
      assert x in EdgesWith(g, n, forward) <==> n in SideOf(g, x, forward);
    }
  }

  /** Counting incidences node by node or hyperedge by hyperedge gives the same number. */
  lemma {:induction false} ByNodesIsByEdges<N>(g: Graph<N>, forward: bool, order: seq<N>, ids: seq<nat>)
    ensures ByNodes(g, forward, order, ids) == ByEdges(g, forward, order, ids)
    decreases |ids|
  {
    if ids == [] {
      ByNodesNoIds(g, forward, order);
    } else {
      var init := ids[..|ids| - 1];
      ByNodesIsByEdges(g, forward, order, init);
      ByNodesSnoc(g, forward, order, init, ids[|ids| - 1]);
      assert init + [ids[|ids| - 1]] == ids;
    }
  }

  /** One more node appends its number of hyperedges on that side to the degree list. */
  lemma DegreeListSnoc<N>(g: Graph<N>, order: seq<N>, forward: bool)
    requires StarsExact(g) && order != [] && order[|order| - 1] in g.nodes
    requires DegreeList(g, order[..|order| - 1], forward).Ok?
    ensures DegreeList(g, order, forward).Ok?
    ensures DegreeList(g, order, forward).value
      == DegreeList(g, order[..|order| - 1], forward).value + [|EdgesWith(g, order[|order| - 1], forward)|]
  {
    StarOfExact(g, order[|order| - 1], forward);
  }

  /** Over an enumeration of the hyperedge ids, the hyperedges with `n` on a side are hit once each. */
  lemma HitsEdgesWith<N>(g: Graph<N>, forward: bool, n: N, ids: seq<nat>)
    requires Enumerates(ids, g.edges.Keys)
    ensures Hits(ids, EdgesWith(g, n, forward)) == |EdgesWith(g, n, forward)|
  {
    HitsCard(ids, EdgesWith(g, n, forward));
    assert EdgesWith(g, n, forward) * Elems(ids) == EdgesWith(g, n, forward);
  }

  /** The degree list sums to the incidences counted node by node. */
  lemma {:induction false} DegreeSum<N>(g: Graph<N>, forward: bool, order: seq<N>, ids: seq<nat>)
    requires StarsExact(g) && Enumerates(ids, g.edges.Keys)
    requires forall i :: 0 <= i < |order| ==> order[i] in g.nodes
    ensures DegreeList(g, order, forward).Ok?
    ensures Sum(DegreeList(g, order, forward).value) == ByNodes(g, forward, order, ids)
    decreases |order|
  {
    if order != [] {
      var init := order[..|order| - 1];
      var n := order[|order| - 1];
      DegreeSum(g, forward, init, ids);
      DegreeListSnoc(g, order, forward);
      var xs := DegreeList(g, order, forward).value;
      assert xs[..|xs| - 1] == DegreeList(g, init, forward).value;
      HitsEdgesWith(g, forward, n, ids);
    }
  }

  /** The cardinality list sums to the incidences counted hyperedge by hyperedge. */
  lemma {:induction false} CardinalitySum<N>(g: Graph<N>, forward: bool, order: seq<N>, ids: seq<nat>)
    requires SidesWithin(g.nodes.Keys, g.edges) && Enumerates(order, g.nodes.Keys)
    requires forall i :: 0 <= i < |ids| ==> ids[i] in g.edges
    ensures CardinalityList(g, ids, forward).Ok?
    ensures Sum(CardinalityList(g, ids, forward).value) == ByEdges(g, forward, order, ids)
    decreases |ids|
  {
    if ids != [] {
      var init := ids[..|ids| - 1];
      var e := ids[|ids| - 1];
      CardinalitySum(g, forward, order, init);
      var xs := CardinalityList(g, ids, forward).value;
      assert xs[..|xs| - 1] == CardinalityList(g, init, forward).value;
      HitsCard(order, SideOf(g, e, forward));
      assert SideOf(g, e, forward) * Elems(order) == SideOf(g, e, forward);
    }
  }

  /**
   With tails and heads as sets, the out-degrees sum to the tail
   cardinalities and the in-degrees to the head cardinalities: both count the
   pairs (node, hyperedge) with the node on that side, whatever the
   iteration orders.
   */
  lemma DegreesSumToCardinalities<N>(g: Graph<N>, forward: bool, order: seq<N>, ids: seq<nat>)
    requires StarsExact(g) && SidesWithin(g.nodes.Keys, g.edges)
    requires Enumerates(order, g.nodes.Keys) && Enumerates(ids, g.edges.Keys)
    ensures Degrees(Instance(g), order, forward).Ok? && Cardinalities(Instance(g), ids, forward).Ok?
    ensures Sum(Degrees(Instance(g), order, forward).value) == Sum(Cardinalities(Instance(g), ids, forward).value)
  {
    EnumeratedNodes(g, order);
    ElemsMeaning(ids);
    DegreeSum(g, forward, order, ids);
    CardinalitySum(g, forward, order, ids);
    ByNodesIsByEdges(g, forward, order, ids);
  }
}

=== FILE: edge_ids.dfy ===
/**
 Hyperedge identifiers. Both registries issue ids of the form "e" followed by
 the decimal value of a counter; the model keeps the counter value as the id
 and renders the text form here.
 */
module EdgeIds {

  function DigitChar(d: nat): char
    requires d < 10
  {
    "0123456789"[d]
  }

  /** Decimal rendering of a natural number, as Python's `str(n)`. */
  function Decimal(n: nat): (s: string)
    ensures |s| >= 1
    ensures n >= 10 ==> |s| >= 2
    ensures forall i :: 0 <= i < |s| ==> '0' <= s[i] <= '9'
  {
    if n < 10 then [DigitChar(n)] else Decimal(n / 10) + [DigitChar(n % 10)]
  }

  /** The text id "e<n>" of hyperedge number n. */
  function EdgeIdText(n: nat): (s: string)
    ensures |s| >= 2 && s[0] == 'e'
  {
    "e" + Decimal(n)
  }

  lemma DigitCharInjective(a: nat, b: nat)
    requires a < 10 && b < 10
    requires DigitChar(a) == DigitChar(b)
    ensures a == b
  {
  }

  /** Distinct counter values render to distinct decimal strings. */
  lemma {:induction false} DecimalInjective(a: nat, b: nat)
    requires Decimal(a) == Decimal(b)
    ensures a == b
  {
    var s := Decimal(a);
    if a < 10 && b < 10 {
      DigitCharInjective(a, b);
    } else if a >= 10 && b >= 10 {
      var pa := Decimal(a / 10);
      var pb := Decimal(b / 10);
      assert s == pa + [DigitChar(a % 10)];
      assert s == pb + [DigitChar(b % 10)];
      assert |pa| == |pb|;
      assert pa == s[..|s| - 1] == pb;
      DigitCharInjective(a % 10, b % 10);
      DecimalInjective(a / 10, b / 10);
    }
    // one side below ten: the renderings differ in length
  }

  /** Ids issued from distinct counter values are distinct strings. */
  lemma EdgeIdTextInjective(a: nat, b: nat)
    requires a != b
    ensures EdgeIdText(a) != EdgeIdText(b)
  {
    if EdgeIdText(a) == EdgeIdText(b) {
      assert Decimal(a) == EdgeIdText(a)[1..] == EdgeIdText(b)[1..] == Decimal(b);
      DecimalInjective(a, b);
    }
  }
}

=== FILE: heapq.dfy ===
/**
 Python's `heapq.heappush` and `heapq.heappop` as the priority queue of
 `halp/utilities/priority_queue.py` uses them.

 The Python heap is a list of entry lists `[priority, count, element]`. The
 priority queue changes entries in place (an invalidated entry keeps its
 position in the list), so here an entry lives in a store, indexed by slot,
 and the heap is the list of slots. The sift loops of heapq move a hole and
 write the carried entry once at the end; here the carried slot is swapped
 along instead, which yields the same list.

 Because entries are invalidated in place, the full heap order of heapq on
 (priority, count, element) does not survive; what does survive, and what
 is proved here, is the order on priorities alone.
 */
module Heapq {

  datatype Entry<T> = Entry(priority: nat, count: nat, element: T)

  /**
   Python's `<` on two entry lists: the first position where the lists
   differ decides; equal lists are not less. `less` is Python's `<` on
   elements, which is consulted only when priority and count tie.
   */
  predicate EntryLess<T(==)>(less: (T, T) -> bool, a: Entry<T>, b: Entry<T>) {
    if a.priority != b.priority then a.priority < b.priority
    else if a.count != b.count then a.count < b.count
    else a.element != b.element && less(a.element, b.element)
  }

  /** Every slot of the heap names an entry of the store. */
  predicate InStore<T>(s: seq<Entry<T>>, h: seq<nat>) {
    forall i :: 0 <= i < |h| ==> h[i] < |s|
  }

  /** No slot is in the heap twice. */
  ghost predicate NoDup(h: seq<nat>) {
    forall x :: multiset(h)[x] <= 1
  }

  function Parent(i: nat): nat
    requires i > 0
  {
    (i - 1) / 2
  }

  /** Position `i` of the heap holds a priority no smaller than its parent's. */
  ghost predicate EdgeOk<T>(s: seq<Entry<T>>, h: seq<nat>, i: nat)
    requires InStore(s, h) && 0 < i < |h|
  {
    s[h[Parent(i)]].priority <= s[h[i]].priority
  }

  /** The heap invariant on priorities: no position is above its parent. */
  ghost predicate Ordered<T>(s: seq<Entry<T>>, h: seq<nat>)
    requires InStore(s, h)
  {
    forall i :: 0 < i < |h| ==> EdgeOk(s, h, i)
  }

  /**
   While `_siftdown` carries a slot up to `pos`: every edge holds except the
   one into `pos`, and the parent of `pos` is no larger than its children.
   */
  ghost predicate HoleUp<T>(s: seq<Entry<T>>, h: seq<nat>, pos: nat)
    requires InStore(s, h) && pos < |h|
  {
    && (forall i :: 0 < i < |h| && i != pos ==> EdgeOk(s, h, i))
    && (0 < pos ==> forall i :: 0 < i < |h| && Parent(i) == pos ==> s[h[Parent(pos)]].priority <= s[h[i]].priority)
  }

  /**
   While `_siftup` carries a slot down to `pos`: every edge holds except those
   into and out of `pos`, and the parent of `pos` is no larger than its children.
   */
  ghost predicate HoleDown<T>(s: seq<Entry<T>>, h: seq<nat>, pos: nat)
    requires InStore(s, h) && pos < |h|
  {
    && (forall i :: 0 < i < |h| && i != pos && Parent(i) != pos ==> EdgeOk(s, h, i))
    && (0 < pos ==> forall i :: 0 < i < |h| && Parent(i) == pos ==> s[h[Parent(pos)]].priority <= s[h[i]].priority)
  }

  function Swap(h: seq<nat>, i: nat, j: nat): (r: seq<nat>)
    requires i < |h| && j < |h|
    ensures |r| == |h| && r[i] == h[j] && r[j] == h[i]
    ensures forall k :: 0 <= k < |h| && k != i && k != j ==> r[k] == h[k]
    ensures multiset(r) == multiset(h)
  {
    h[i := h[j]][j := h[i]]
  }

  /** `_siftdown(heap, 0, pos)`: the slot at `pos` moves up while its entry is less than its parent's. */
  function SiftDown<T(==)>(less: (T, T) -> bool, s: seq<Entry<T>>, h: seq<nat>, pos: nat): (r: seq<nat>)
    requires InStore(s, h) && pos < |h|
    ensures |r| == |h| && multiset(r) == multiset(h) && InStore(s, r)
    decreases pos
  {
    if pos == 0 then h
    else if EntryLess(less, s[h[pos]], s[h[Parent(pos)]]) then SiftDown(less, s, Swap(h, pos, Parent(pos)), Parent(pos))
    else h
  }

  /**
   The loop of `_siftup(heap, pos)`: the slot at `pos` is swapped with its
   smaller child (the right one unless the left is less) until it reaches a
   leaf; the result pairs the list with that leaf.
   */
  function SiftToLeaf<T(==)>(less: (T, T) -> bool, s: seq<Entry<T>>, h: seq<nat>, pos: nat): (r: (seq<nat>, nat))
    requires InStore(s, h) && pos < |h|
    ensures |r.0| == |h| && multiset(r.0) == multiset(h) && InStore(s, r.0)
    ensures pos <= r.1 < |h| && |h| <= 2 * r.1 + 1
    decreases |h| - pos
  {
    if 2 * pos + 1 >= |h| then (h, pos)
    else
      var m := SmallerChild(less, s, h, pos);
      SiftToLeaf(less, s, Swap(h, pos, m), m)
  }

  /** The child `_siftup` moves to: the right one unless the left one is less. */
  function SmallerChild<T(==)>(less: (T, T) -> bool, s: seq<Entry<T>>, h: seq<nat>, pos: nat): (m: nat)
    requires InStore(s, h) && 2 * pos + 1 < |h|
    ensures (m == 2 * pos + 1 || m == 2 * pos + 2) && m < |h| && Parent(m) == pos
  {
    var c := 2 * pos + 1;
    if c + 1 < |h| && !EntryLess(less, s[h[c]], s[h[c + 1]]) then c + 1 else c
  }

  /** `_siftup(heap, 0)`: down to a leaf, then `_siftdown(heap, 0, leaf)`. */
  function SiftUpRoot<T(==)>(less: (T, T) -> bool, s: seq<Entry<T>>, h: seq<nat>): (r: seq<nat>)
    requires InStore(s, h) && |h| > 0
    ensures |r| == |h| && multiset(r) == multiset(h) && InStore(s, r)
  {
    var (h1, leaf) := SiftToLeaf(less, s, h, 0);
    SiftDown(less, s, h1, leaf)
  }

  /** `heappush`: append the slot, then sift it up from the end. */
  function Push<T(==)>(less: (T, T) -> bool, s: seq<Entry<T>>, h: seq<nat>, slot: nat): (r: seq<nat>)
    requires InStore(s, h) && slot < |s|
    ensures |r| == |h| + 1 && multiset(r) == multiset(h) + multiset{slot} && InStore(s, r)
  {
    SiftDown(less, s, h + [slot], |h|)
  }

  /**
   `heappop`: the last slot is removed; if the heap is not empty then, the
   first slot is returned and the last one takes its place and sifts.
   */
  function Pop<T(==)>(less: (T, T) -> bool, s: seq<Entry<T>>, h: seq<nat>): (r: (nat, seq<nat>))
    requires InStore(s, h) && |h| > 0
    ensures r.0 == h[0] && |r.1| == |h| - 1 && InStore(s, r.1)
    ensures multiset(r.1) == multiset(h) - multiset{h[0]}
  {
    var last := h[|h| - 1];
    var rest := h[..|h| - 1];
    assert h == rest + [last];
    if rest == [] then (last, [])
    else
      var h0 := rest[0 := last];
      assert multiset(h0) == multiset(rest) - multiset{rest[0]} + multiset{last};
      (rest[0], SiftUpRoot(less, s, h0))
  }

  // ---------------------------------------------------------------------------
  // The priority order survives
  // ---------------------------------------------------------------------------

  /** Sifting up from a position whose only broken edge is the one into it restores the order. */
  lemma {:induction false} SiftDownOrders<T>(less: (T, T) -> bool, s: seq<Entry<T>>, h: seq<nat>, pos: nat)
    requires InStore(s, h) && pos < |h| && HoleUp(s, h, pos)
    ensures Ordered(s, SiftDown(less, s, h, pos))
    decreases pos
  {
    if pos > 0 {
      var p := Parent(pos);
      if EntryLess(less, s[h[pos]], s[h[p]]) {
        var h1 := Swap(h, pos, p);
        assert InStore(s, h1);
        forall i | 0 < i < |h1| && i != p
          ensures EdgeOk(s, h1, i)
        {
          if i == pos {
          } else if Parent(i) == p {
            assert EdgeOk(s, h, i);
          } else if Parent(i) == pos {
          } else {
            assert EdgeOk(s, h, i);
          }
        }
        if 0 < p {
          forall i | 0 < i < |h1| && Parent(i) == p
            ensures s[h1[Parent(p)]].priority <= s[h1[i]].priority
          {
            assert EdgeOk(s, h, p);
            if i != pos {
              assert EdgeOk(s, h, i);
            }
          }
        }
        SiftDownOrders(less, s, h1, p);
      } else {
        assert EdgeOk(s, h, pos);
      }
    }
  }

  /** Carrying a slot down to a leaf keeps every edge but those at the hole. */
  lemma {:induction false} SiftToLeafHole<T>(less: (T, T) -> bool, s: seq<Entry<T>>, h: seq<nat>, pos: nat)
    requires InStore(s, h) && pos < |h| && HoleDown(s, h, pos)
    ensures var r := SiftToLeaf(less, s, h, pos); HoleUp(s, r.0, r.1)
    decreases |h| - pos
  {
    var c := 2 * pos + 1;
    if c < |h| {
      var m := SmallerChild(less, s, h, pos);
      var h1 := Swap(h, pos, m);
      assert InStore(s, h1);
      forall i | 0 < i < |h1| && i != m && Parent(i) != m
        ensures EdgeOk(s, h1, i)
      {
        if i == pos {
        } else if Parent(i) == pos {
          assert i == c || i == c + 1;
        } else {
          assert EdgeOk(s, h, i);
        }
      }
      forall i | 0 < i < |h1| && Parent(i) == m
        ensures s[h1[Parent(m)]].priority <= s[h1[i]].priority
      {
        assert EdgeOk(s, h, i);
      }
      SiftToLeafHole(less, s, h1, m);
      assert SiftToLeaf(less, s, h, pos) == SiftToLeaf(less, s, h1, m);
    } else {
      forall i | 0 < i < |h| && i != pos
        ensures EdgeOk(s, h, i)
      {
        assert Parent(i) != pos;
      }
      forall i | 0 < i < |h| ensures Parent(i) != pos {
      }
      assert SiftToLeaf(less, s, h, pos) == (h, pos);
    }
  }

  /** `heappush` keeps the heap ordered on priorities. */
  lemma PushOrders<T>(less: (T, T) -> bool, s: seq<Entry<T>>, h: seq<nat>, slot: nat)
    requires InStore(s, h) && slot < |s| && Ordered(s, h)
    ensures Ordered(s, Push(less, s, h, slot))
  {
    var h1 := h + [slot];
    assert InStore(s, h1);
    forall i | 0 < i < |h1| && i != |h|
      ensures EdgeOk(s, h1, i)
    {
      assert EdgeOk(s, h, i);
    }
    SiftDownOrders(less, s, h1, |h|);
  }

  /** `heappop` keeps the heap ordered on priorities. */
  lemma PopOrders<T>(less: (T, T) -> bool, s: seq<Entry<T>>, h: seq<nat>)
    requires InStore(s, h) && |h| > 0 && Ordered(s, h)
    ensures Ordered(s, Pop(less, s, h).1)
  {
    var rest := h[..|h| - 1];
    if rest != [] {
      var h0 := rest[0 := h[|h| - 1]];
      assert InStore(s, h0);
      forall i | 0 < i < |h0| && i != 0 && Parent(i) != 0
        ensures EdgeOk(s, h0, i)
      {
        assert EdgeOk(s, h, i);
      }
      SiftToLeafHole(less, s, h0, 0);
      var r := SiftToLeaf(less, s, h0, 0);
      SiftDownOrders(less, s, r.0, r.1);
    }
  }

  /** After `heappop` the heap holds the same slots but the first one, each once. */
  lemma PopMembers(h: seq<nat>, h': seq<nat>)
    requires |h| > 0 && NoDup(h) && multiset(h') == multiset(h) - multiset{h[0]}
    ensures NoDup(h') && forall x :: x in h' <==> x in h && x != h[0]
  {
    assert multiset(h)[h[0]] == 1;
    forall x
      ensures multiset(h')[x] <= 1 && (x in h' <==> x in h && x != h[0])
    {
      assert x in h' <==> x in multiset(h');
      assert x in h <==> x in multiset(h);
    }
  }

  /** `_siftdown` moves a slot that is less than its parent but not than its grandparent exactly one level up. */
  lemma SiftDownOneLevel<T>(less: (T, T) -> bool, s: seq<Entry<T>>, h: seq<nat>, pos: nat)
    requires InStore(s, h) && 0 < pos < |h|
    requires EntryLess(less, s[h[pos]], s[h[Parent(pos)]])
    requires Parent(pos) > 0 ==> !EntryLess(less, s[h[pos]], s[h[Parent(Parent(pos))]])
    ensures SiftDown(less, s, h, pos) == Swap(h, pos, Parent(pos))
  {
    var h' := Swap(h, pos, Parent(pos));
    if Parent(pos) > 0 {
      assert h'[Parent(pos)] == h[pos] && h'[Parent(Parent(pos))] == h[Parent(Parent(pos))];
    }
  }

  /** `heappush` leaves a slot that is not less than the entry at the parent of the new position at the end. */
  lemma PushStaysLast<T>(less: (T, T) -> bool, s: seq<Entry<T>>, h: seq<nat>, slot: nat)
    requires InStore(s, h) && slot < |s| && |h| > 0
    requires !EntryLess(less, s[slot], s[h[Parent(|h|)]])
    ensures Push(less, s, h, slot) == h + [slot]
  {
    var h1 := h + [slot];
    assert h1[|h|] == slot && h1[Parent(|h|)] == h[Parent(|h|)];
  }

  /** After `heappush` of a slot not yet in the heap, the heap holds it once besides the old slots. */
  lemma PushMembers(h: seq<nat>, h': seq<nat>, slot: nat)
    requires NoDup(h) && slot !in h && multiset(h') == multiset(h) + multiset{slot}
    ensures NoDup(h') && forall x :: x in h' <==> x in h || x == slot
  {
    assert multiset(h)[slot] == 0;
    forall x
      ensures multiset(h')[x] <= 1 && (x in h' <==> x in h || x == slot)
    {
      assert x in h' <==> x in multiset(h');
      assert x in h <==> x in multiset(h);
    }
  }

  /** The first slot of an ordered heap has the least priority. */
  lemma {:induction false} RootLeast<T>(s: seq<Entry<T>>, h: seq<nat>, i: nat)
    requires InStore(s, h) && Ordered(s, h) && i < |h|
    ensures s[h[0]].priority <= s[h[i]].priority
    decreases i
  {
    if i > 0 {
      assert EdgeOk(s, h, i);
      RootLeast(s, h, Parent(i));
    }
  }

  /** The order holds on priorities only, so rewriting counts or appending entries keeps it. */
  lemma OrderedSamePriorities<T>(s: seq<Entry<T>>, s': seq<Entry<T>>, h: seq<nat>)
    requires InStore(s, h) && Ordered(s, h) && |s| <= |s'|
    requires forall i :: 0 <= i < |s| ==> s'[i].priority == s[i].priority
    ensures InStore(s', h) && Ordered(s', h)
  {
    assert InStore(s', h);
    forall i | 0 < i < |h|
      ensures EdgeOk(s', h, i)
    {
      assert EdgeOk(s, h, i);
    }
  }
}

=== FILE: hyperpaths.dfy ===
/**
 Reading hypertrees and hyperpaths back out of a predecessor function, as
 `get_hypertree_from_predecessors` and `get_hyperpath_from_predecessors` in
 `halp/algorithms/directed_paths.py` do after a shortest-tree run.

 The subhypergraph each of them builds is described here by what it copies
 from `g`: the ids of the hyperedges whose tail, head and weight are copied,
 and the nodes added on their own. The copy receives fresh ids of its own.
 */
module Hyperpaths {
  import opened Wrappers
  import opened Collections
  import opened Attributes
  import opened DirectedIndex
  import opened DirectedHypergraph
  import opened Traversal
  import opened TailWeights
  import ShortestTree

  /** The nodes of a predecessor function that have no predecessor. */
  function Roots<N(!new)>(Pv: map<N, Option<nat>>): set<N> {
    set n | n in Pv && Pv[n].None?
  }

  /** The hyperedges named as predecessors by the nodes of `S`. */
  function EdgesOf<N(!new)>(Pv: map<N, Option<nat>>, S: set<N>): set<nat> {
    set n | n in S && n in Pv && Pv[n].Some? :: Pv[n].value
  }

  /** The nodes of `S` without a predecessor. */
  function LoneOf<N(!new)>(Pv: map<N, Option<nat>>, S: set<N>): set<N> {
    set n | n in S && n in Pv && Pv[n].None?
  }

  /** Every key is a node of `g`. */
  ghost predicate KeysKnown<N(!new)>(g: Graph<N>, Pv: map<N, Option<nat>>) {
    forall n :: n in Pv ==> n in g.nodes
  }

  /** Every predecessor is a hyperedge of `g`. */
  ghost predicate ValuesKnown<N(!new)>(g: Graph<N>, Pv: map<N, Option<nat>>) {
    forall n :: n in Pv && Pv[n].Some? ==> Pv[n].value in g.edges
  }

  // ---------------------------------------------------------------------------
  // Validating a predecessor function
  // ---------------------------------------------------------------------------

  lemma RootsStep<N(!new)>(Pv: map<N, Option<nat>>, done: set<N>, x: N)
    requires x in Pv && x !in done
    ensures |LoneOf(Pv, done + {x})| == |LoneOf(Pv, done)| + (if Pv[x].None? then 1 else 0)
  {
    if Pv[x].None? {
      assert LoneOf(Pv, done + {x}) == LoneOf(Pv, done) + {x};
    } else {
      assert LoneOf(Pv, done + {x}) == LoneOf(Pv, done);
    }
  }

  /**
   The validation loop of `get_hyperpath_from_predecessors`: `KeyError` for a
   key that is not a node or a predecessor that is not a hyperedge; otherwise
   the number of nodes without a predecessor.
   */
  method CountRoots<N(!new)>(g: Graph<N>, Pv: map<N, Option<nat>>) returns (r: Result<nat>)
    ensures r.Err? <==> !(KeysKnown(g, Pv) && ValuesKnown(g, Pv))
    ensures r.Err? ==> r.error == KeyError
    ensures r.Ok? ==> r.value == |Roots(Pv)|
  {
    var todo := Pv.Keys;
    var count := 0;
    while todo != {}
      invariant todo <= Pv.Keys
      invariant forall n :: n in Pv.Keys - todo ==> n in g.nodes && (Pv[n].Some? ==> Pv[n].value in g.edges)
      invariant count == |LoneOf(Pv, Pv.Keys - todo)|
      decreases todo
    {
      var n :| n in todo;
      if n !in g.nodes {
        return Err(KeyError);
      }
      if Pv[n].Some? && Pv[n].value !in g.edges {
        return Err(KeyError);
      }
      RootsStep(Pv, Pv.Keys - todo, n);
      assert Pv.Keys - (todo - {n}) == (Pv.Keys - todo) + {n};
      count := count + if Pv[n].None? then 1 else 0;
      todo := todo - {n};
    }
    assert Pv.Keys - todo == Pv.Keys;
    assert LoneOf(Pv, Pv.Keys) == Roots(Pv);
    return Ok(count);
  }

  // ---------------------------------------------------------------------------
  // The backward walk
  // ---------------------------------------------------------------------------

  /** `S` is closed under the walk: a node of `S` with a predecessor brings the whole tail of that predecessor into `S`. */
  ghost predicate TailClosed<N(!new)>(g: Graph<N>, Pv: map<N, Option<nat>>, S: set<N>) {
    forall n :: n in S && n in Pv && Pv[n].Some? && Pv[n].value in g.edges ==> g.edges[Pv[n].value].tail <= S
  }

  /** `t` lies behind `d`: in every set containing `d` that is closed under the walk. */
  ghost predicate Behind<N(!new)>(g: Graph<N>, Pv: map<N, Option<nat>>, d: N, t: N) {
    forall S :: d in S && TailClosed(g, Pv, S) ==> t in S
  }

  ghost predicate AllBehind<N(!new)>(g: Graph<N>, Pv: map<N, Option<nat>>, d: N, R: set<N>) {
    forall t :: t in R ==> Behind(g, Pv, d, t)
  }

  /** The nodes the walk back from `d` reaches. */
  ghost function BehindSet<N(!new)>(g: Graph<N>, Pv: map<N, Option<nat>>, d: N): set<N> {
    set t | t in Pv.Keys + {d} && Behind(g, Pv, d, t)
  }

  /** The tail of the predecessor of a node behind `d` lies behind `d`. */
  lemma BehindTail<N(!new)>(g: Graph<N>, Pv: map<N, Option<nat>>, d: N, n: N)
    requires Behind(g, Pv, d, n) && n in Pv && Pv[n].Some? && Pv[n].value in g.edges
    ensures AllBehind(g, Pv, d, g.edges[Pv[n].value].tail)
  {
  }

  /** The walk's state: the FIFO queue, the nodes already handled, and what the path has collected from them. */
  ghost predicate WalkInv<N(!new)>(g: Graph<N>, Pv: map<N, Option<nat>>, d: N, seen: set<N>, queue: seq<N>, qi: nat, done: set<N>,
                                   edges: set<nat>, lone: set<N>) {
    && ValuesKnown(g, Pv)
    && QueueShape(seen, queue, qi, done) && d in seen && seen <= Pv.Keys + {d} && AllBehind(g, Pv, d, seen)
    && done <= Pv.Keys
    && (forall n :: n in done && Pv[n].Some? ==> g.edges[Pv[n].value].tail <= seen)
    && edges == EdgesOf(Pv, done) && lone == LoneOf(Pv, done)
  }

  /**
   The tail loop for one handled node: each tail node not yet seen is queued;
   a tail node that is not a key raises `KeyError`, as the lookup of its
   processed flag does.
   */
  method QueueTail<N(!new)>(g: Graph<N>, Pv: map<N, Option<nat>>, d: N, seen: set<N>, queue: seq<N>, qi: nat, ghost done: set<N>, tail: set<N>)
    returns (ok: bool, seen': set<N>, queue': seq<N>)
    requires QueueShape(seen, queue, qi, done) && d in seen && seen <= Pv.Keys + {d} && AllBehind(g, Pv, d, seen)
    requires AllBehind(g, Pv, d, tail)
    ensures ok ==> QueueShape(seen', queue', qi, done) && seen' <= Pv.Keys + {d} && AllBehind(g, Pv, d, seen')
    ensures ok ==> seen <= seen' && tail <= seen'
    ensures !ok ==> exists t :: Behind(g, Pv, d, t) && t !in Pv
  {
    seen', queue' := seen, queue;
    var todo := tail;
    while todo != {}
      invariant todo <= tail
      invariant QueueShape(seen', queue', qi, done) && seen' <= Pv.Keys + {d} && AllBehind(g, Pv, d, seen')
      invariant seen <= seen' && tail - todo <= seen' && d in seen'
      decreases todo
    {
      var n :| n in todo;
      if n !in Pv && n != d {
        assert Behind(g, Pv, d, n);
        return false, seen', queue';
      }
      if n !in seen' {
        Traversal.Enqueue(seen', queue', qi, done, n);
        seen', queue' := seen' + {n}, queue' + [n];
      }
      todo := todo - {n};
    }
    return true, seen', queue';
  }

  /** One dequeued node `cur` that is a key: its predecessor's tail is queued and the predecessor joins the path. */
  method WalkStep<N(!new)>(g: Graph<N>, Pv: map<N, Option<nat>>, d: N, seen: set<N>, queue: seq<N>, qi: nat, ghost done: set<N>,
                           edges: set<nat>, lone: set<N>)
    returns (ok: bool, seen': set<N>, queue': seq<N>, edges': set<nat>, lone': set<N>)
    requires WalkInv(g, Pv, d, seen, queue, qi, done, edges, lone) && qi < |queue| && queue[qi] in Pv
    ensures ok ==> WalkInv(g, Pv, d, seen', queue', qi + 1, done + {queue[qi]}, edges', lone')
    ensures !ok ==> exists t :: Behind(g, Pv, d, t) && t !in Pv
  {
    Dequeue(seen, queue, qi, done);
    var cur := queue[qi];
    seen', queue', edges', lone' := seen, queue, edges, lone;
    if Pv[cur].Some? {
      var e := Pv[cur].value;
      BehindTail(g, Pv, d, cur);
      ok, seen', queue' := QueueTail(g, Pv, d, seen, queue, qi + 1, done + {cur}, g.edges[e].tail);
      if !ok {
        return;
      }
      edges' := edges + {e};
      assert EdgesOf(Pv, done + {cur}) == EdgesOf(Pv, done) + {e};
      assert LoneOf(Pv, done + {cur}) == LoneOf(Pv, done);
    } else {
      ok := true;
      lone' := lone + {cur};
      assert EdgesOf(Pv, done + {cur}) == EdgesOf(Pv, done);
      assert LoneOf(Pv, done + {cur}) == LoneOf(Pv, done) + {cur};
    }
  }

  /** The walk starts with only the destination queued. */
  lemma WalkStart<N(!new)>(g: Graph<N>, Pv: map<N, Option<nat>>, d: N)
    requires ValuesKnown(g, Pv)
    ensures WalkInv(g, Pv, d, {d}, [d], 0, {}, {}, {})
  {
    var queue := [d];
    assert queue[0] == d;
    assert Behind(g, Pv, d, d);
    assert EdgesOf(Pv, {}) == {} && LoneOf(Pv, {}) == {};
  }

  /** A drained walk has handled exactly the nodes behind `d`. */
  lemma WalkEnd<N(!new)>(g: Graph<N>, Pv: map<N, Option<nat>>, d: N, seen: set<N>, queue: seq<N>, done: set<N>, edges: set<nat>, lone: set<N>)
    requires WalkInv(g, Pv, d, seen, queue, |queue|, done, edges, lone)
    ensures done == BehindSet(g, Pv, d)
    ensures forall t :: Behind(g, Pv, d, t) ==> t in Pv
  {
    QueueDrained(seen, queue, done);
    assert TailClosed(g, Pv, seen);
    forall t | Behind(g, Pv, d, t)
      ensures t in seen
    {
    }
  }

  /** What `get_hyperpath_from_predecessors` copies: the predecessor hyperedges met and the nodes met without one. */
  datatype Hyperpath<N> = Hyperpath(edges: set<nat>, lone: set<N>)

  /** The nodes of the path: those of its hyperedges and those added on their own. */
  ghost function PathNodes<N(!new)>(g: Graph<N>, p: Hyperpath<N>): set<N>
    requires p.edges <= g.edges.Keys
  {
    p.lone + set n, e | e in p.edges && n in g.edges[e].tail + g.edges[e].head :: n
  }

  /**
   The walk of `get_hyperpath_from_predecessors` from the destination `d`
   backwards through predecessor tails, each node queued once. `KeyError` when
   it meets a node that is not a key; otherwise the path holds the
   predecessors and the roots of exactly the nodes behind `d`.
   */
  method Walk<N(!new)>(g: Graph<N>, Pv: map<N, Option<nat>>, d: N) returns (r: Result<Hyperpath<N>>)
    requires ValuesKnown(g, Pv)
    ensures r.Err? <==> exists t :: Behind(g, Pv, d, t) && t !in Pv
    ensures r.Err? ==> r.error == KeyError
    ensures r.Ok? ==> r.value.edges == EdgesOf(Pv, BehindSet(g, Pv, d)) && r.value.lone == LoneOf(Pv, BehindSet(g, Pv, d))
  {
    var seen := {d};
    var queue := [d];
    var qi := 0;
    ghost var done: set<N> := {};
    var edges: set<nat> := {};
    var lone: set<N> := {};
    WalkStart(g, Pv, d);
    while qi < |queue|
      invariant WalkInv(g, Pv, d, seen, queue, qi, done, edges, lone)
      decreases |Pv.Keys + {d}| - qi
    {
      SubsetCard(seen, Pv.Keys + {d});
      var cur := queue[qi];
      if cur !in Pv {
        Dequeue(seen, queue, qi, done);
        return Err(KeyError);
      }
      var ok;
      ok, seen, queue, edges, lone := WalkStep(g, Pv, d, seen, queue, qi, done, edges, lone);
      if !ok {
        return Err(KeyError);
      }
      done := done + {cur};
      qi := qi + 1;
    }
    WalkEnd(g, Pv, d, seen, queue, done, edges, lone);
    return Ok(Hyperpath(edges, lone));
  }

  /**
   `get_hyperpath_from_predecessors`: `KeyError` for a key that is not a node
   or a predecessor that is not a hyperedge, `ValueError` unless exactly one
   node has no predecessor, then the backward walk from `d`. The source node
   argument is accepted and never read.
   */
  method HyperpathFromPredecessors<N(!new)>(g: Graph<N>, Pv: map<N, Option<nat>>, source: N, d: N) returns (r: Result<Hyperpath<N>>)
    ensures !(KeysKnown(g, Pv) && ValuesKnown(g, Pv)) ==> r == Err(KeyError)
    ensures KeysKnown(g, Pv) && ValuesKnown(g, Pv) && |Roots(Pv)| != 1 ==> r == Err(ValueError)
    ensures KeysKnown(g, Pv) && ValuesKnown(g, Pv) && |Roots(Pv)| == 1 ==>
      (r.Err? <==> exists t :: Behind(g, Pv, d, t) && t !in Pv) && (r.Err? ==> r.error == KeyError)
    ensures r.Ok? ==> r.value.edges == EdgesOf(Pv, BehindSet(g, Pv, d)) && r.value.lone == LoneOf(Pv, BehindSet(g, Pv, d))
  {
    var c := CountRoots(g, Pv);
    if c.Err? {
      return Err(c.error);
    }
    if c.value > 1 {
      return Err(ValueError);
    } else if c.value == 0 {
      return Err(ValueError);
    }
    r := Walk(g, Pv, d);
  }

  // ---------------------------------------------------------------------------
  // Properties of the path
  // ---------------------------------------------------------------------------

  /** When the walk succeeds, every hyperedge of the path has its whole tail among the nodes behind the destination. */
  lemma PathTailsBehind<N(!new)>(g: Graph<N>, Pv: map<N, Option<nat>>, d: N, e: nat)
    requires ValuesKnown(g, Pv) && (forall t :: Behind(g, Pv, d, t) ==> t in Pv)
    requires e in EdgesOf(Pv, BehindSet(g, Pv, d))
    ensures e in g.edges && g.edges[e].tail <= BehindSet(g, Pv, d)
  {
    var n :| n in BehindSet(g, Pv, d) && n in Pv && Pv[n].Some? && Pv[n].value == e;
    BehindTail(g, Pv, d, n);
  }

  /** A destination without predecessor is a path of that node alone (the case source = destination). */
  lemma DestinationIsRoot<N(!new)>(g: Graph<N>, Pv: map<N, Option<nat>>, d: N)
    requires d in Pv && Pv[d].None?
    ensures BehindSet(g, Pv, d) == {d}
    ensures EdgesOf(Pv, BehindSet(g, Pv, d)) == {} && LoneOf(Pv, BehindSet(g, Pv, d)) == {d}
  {
    assert TailClosed(g, Pv, {d});
    assert Behind(g, Pv, d, d);
    assert BehindSet(g, Pv, d) == {d};
  }

  // ---------------------------------------------------------------------------
  // The hypertree
  // ---------------------------------------------------------------------------

  /** What `get_hypertree_from_predecessors` copies: the nodes it adds with their attributes, and the predecessor hyperedges. */
  datatype Hypertree<N> = Hypertree(marked: map<N, Attrs>, edges: set<nat>)

  /** A predecessor hyperedge that cannot be copied: unknown to `g`, or with both sides empty. */
  predicate Uncopyable<N>(g: Graph<N>, e: nat) {
    e !in g.edges || g.edges[e].tail + g.edges[e].head == {}
  }

  /**
   `get_hypertree_from_predecessors`: the nodes with a predecessor plus the
   source, each carrying its weight under `attrName` when weights are given
   (`KeyError` when one is missing), and a copy of every predecessor
   hyperedge (`ValueError` for an id that is not a hyperedge of `g`, or one
   the new hypergraph refuses because both its sides are empty).
   */
  method HypertreeFromPredecessors<N(!new)>(g: Graph<N>, Pv: map<N, Option<nat>>, s: N, weights: Option<map<N, nat>>, attrName: string)
    returns (r: Result<Hypertree<N>>)
    ensures r.Err? <==> (weights.Some? && exists n :: n in Pv && Pv[n].Some? && n !in weights.value)
                        || (weights.Some? && s !in weights.value)
                        || (exists n :: n in Pv && Pv[n].Some? && Uncopyable(g, Pv[n].value))
    ensures r.Err? && weights.Some? && (s !in weights.value || exists n :: n in Pv && Pv[n].Some? && n !in weights.value) ==> r.error == KeyError
    ensures r.Err? && (weights.None? || (s in weights.value && forall n :: n in Pv && Pv[n].Some? ==> n in weights.value)) ==> r.error == ValueError
    ensures r.Ok? ==> forall n :: n in r.value.marked <==> n == s || (n in Pv && Pv[n].Some?)
    ensures r.Ok? ==> forall n :: n in r.value.marked ==> r.value.marked[n] == (if weights.Some? then map[attrName := weights.value[n]] else map[])
    ensures r.Ok? ==> forall e :: e in r.value.edges <==> exists n :: n in Pv && Pv[n] == Some(e)
    ensures r.Ok? ==> r.value.edges <= g.edges.Keys
  {
    var nodes := (set n | n in Pv && Pv[n].Some?) + {s};
    if weights.Some? && !(nodes <= weights.value.Keys) {
      return Err(KeyError);
    }
    var marked := map n | n in nodes :: if weights.Some? then map[attrName := weights.value[n]] else map[];
    var ids := EdgesOf(Pv, Pv.Keys);
    if exists e :: e in ids && Uncopyable(g, e) {
      return Err(ValueError);
    }
    return Ok(Hypertree(marked, ids));
  }

  /**
   With a single root `s`, the hyperpath to any destination lies inside the
   hypertree: its hyperedges are among the tree's and its lone node is `s`.
   */
  lemma PathWithinTree<N(!new)>(g: Graph<N>, Pv: map<N, Option<nat>>, s: N, d: N, p: Hyperpath<N>, t: Hypertree<N>)
    requires Roots(Pv) == {s}
    requires p.edges == EdgesOf(Pv, BehindSet(g, Pv, d)) && p.lone == LoneOf(Pv, BehindSet(g, Pv, d))
    requires forall n :: n in t.marked <==> n == s || (n in Pv && Pv[n].Some?)
    requires forall e :: e in t.edges <==> exists n :: n in Pv && Pv[n] == Some(e)
    ensures p.edges <= t.edges && p.lone <= {s} && p.lone <= t.marked.Keys
  {
    forall e | e in p.edges
      ensures e in t.edges
    {
      var n :| n in BehindSet(g, Pv, d) && n in Pv && Pv[n].Some? && Pv[n].value == e;
      assert Pv[n] == Some(e);
    }
    forall n | n in p.lone
      ensures n == s
    {
      assert n in Roots(Pv);
    }
  }

  // ---------------------------------------------------------------------------
  // Predecessor functions produced by the shortest-tree algorithm
  // ---------------------------------------------------------------------------

  /** A shortest-tree predecessor map passes the key and hyperedge checks. */
  lemma TreePredecessorsKnown<N(!new)>(g: Graph<N>, f: bool, F: TailFunction, s: N, W: map<N, ExtNat>, pv: map<N, Option<nat>>)
    requires ShortestTree.Shape(g, s, W, pv)
    requires forall n :: n in g.nodes && pv[n].Some? ==> ShortestTree.PredAt(g, f, F, W, pv, n)
    ensures KeysKnown(g, pv) && ValuesKnown(g, pv)
  {
    forall n | n in pv && pv[n].Some?
      ensures pv[n].value in g.edges
    {
      assert ShortestTree.PredAt(g, f, F, W, pv, n);
    }
  }

  /**
   The roots of a shortest-tree predecessor map are the source and every
   unreached node, so the single-root check of
   `get_hyperpath_from_predecessors` passes exactly when every node was reached.
   */
  lemma TreeRoots<N(!new)>(g: Graph<N>, s: N, W: map<N, ExtNat>, pv: map<N, Option<nat>>)
    requires ShortestTree.Shape(g, s, W, pv)
    ensures Roots(pv) == {s} + set n | n in g.nodes && W[n] == Inf
    ensures |Roots(pv)| == 1 <==> forall n :: n in g.nodes ==> W[n].Fin?
  {
    var U := set n | n in g.nodes && W[n] == Inf;
    assert Roots(pv) == {s} + U;
    assert s !in U;
    assert |Roots(pv)| == 1 + |U|;
    if |U| == 0 {
      forall n | n in g.nodes
        ensures W[n].Fin?
      {
        assert n !in U;
      }
    }
  }
}

=== FILE: k_shortest.dfy ===
/**
 The k-shortest-hyperpaths procedure of `halp/algorithms/k_shortest_hyperpaths.py`
 (after Nielsen, Andersen and Pretolani): argument validation, the branching
 step that splits a subproblem into one branch per position of a path's
 valid ordering, the lower bound on each branch, and the main loop that pops
 the cheapest candidate.
 */
module KShortest {
  import opened Wrappers
  import opened Collections
  import opened DirectedIndex
  import opened DirectedHypergraph
  import opened TailWeights
  import opened Traversal
  import Attributes
  import ShortestTree
  import Hyperpaths

  // ---------------------------------------------------------------------------
  // Validation
  // ---------------------------------------------------------------------------

  /** The `k` argument: an `int`, or a value of some other type. */
  datatype Count = Int(value: int) | NotInt

  /** Every hyperedge has at most one head node. */
  ghost predicate IsB<N>(g: Graph<N>) {
    forall e :: e in g.edges ==> |g.edges[e].head| <= 1
  }

  /** The checks at the head of `k_shortest_hyperpaths`, in the order the source makes them. */
  method CheckArgs<N>(g: Graph<N>, s: N, t: N, k: Count) returns (r: Result<nat>)
    ensures !IsB(g) ==> r == Err(TypeError)
    ensures IsB(g) && s !in g.nodes ==> r == Err(ValueError)
    ensures IsB(g) && s in g.nodes && t !in g.nodes ==> r == Err(ValueError)
    ensures IsB(g) && s in g.nodes && t in g.nodes && k.NotInt? ==> r == Err(TypeError)
    ensures IsB(g) && s in g.nodes && t in g.nodes && k.Int? && k.value <= 0 ==> r == Err(ValueError)
    ensures r.Ok? <==> IsB(g) && s in g.nodes && t in g.nodes && k.Int? && k.value > 0
    ensures r.Ok? ==> r.value == k.value
  {
    var isB := IsBHypergraph(g);
    if !isB {
      return Err(TypeError);
    }
    if s !in g.nodes || t !in g.nodes {
      return Err(ValueError);
    }
    if k.NotInt? {
      return Err(TypeError);
    }
    if k.value <= 0 {
      return Err(ValueError);
    }
    return Ok(k.value);
  }

  // ---------------------------------------------------------------------------
  // Branching
  // ---------------------------------------------------------------------------

  /** `e` is the predecessor `pred` records for `n`. */
  predicate Spared<N>(pred: map<N, Option<nat>>, n: N, e: nat) {
    n in pred && pred[n] == Some(e)
  }

  /**
   The hyperedges branch `i` has cut once it has pruned the positions before
   `j`: for each ordering node at a position from `i + 2` on, every hyperedge
   into it other than its recorded predecessor.
   */
  ghost function CutBefore<N>(g: Graph<N>, pred: map<N, Option<nat>>, ord: seq<N>, i: nat, j: nat): set<nat> {
    set e | e in g.edges && exists m :: i + 2 <= m < j && m < |ord| && ord[m] in g.edges[e].head && !Spared(pred, ord[m], e)
  }

  /** Pruning position `j` fails: its node is not in the graph, or it has no recorded predecessor while hyperedges still enter it. */
  ghost predicate StuckAt<N>(g: Graph<N>, pred: map<N, Option<nat>>, ord: seq<N>, i: nat, j: nat)
    requires j < |ord|
  {
    ord[j] !in g.nodes ||
    (ord[j] !in pred && exists e :: e in g.edges && ord[j] in g.edges[e].head && e !in CutBefore(g, pred, ord, i, j))
  }

  /** The predecessor of `ord[i + 1]` can be removed once the later positions are pruned. */
  ghost predicate Releasable<N>(g: Graph<N>, pred: map<N, Option<nat>>, ord: seq<N>, i: nat)
    requires i + 1 < |ord|
  {
    && ord[i + 1] in pred && pred[ord[i + 1]].Some?
    && pred[ord[i + 1]].value in g.edges && pred[ord[i + 1]].value !in CutBefore(g, pred, ord, i, |ord|)
  }

  /** Building branch `i` raises. */
  ghost predicate BranchFails<N>(g: Graph<N>, pred: map<N, Option<nat>>, ord: seq<N>, i: nat)
    requires i + 1 < |ord|
  {
    (exists j :: i + 2 <= j < |ord| && StuckAt(g, pred, ord, i, j)) || !Releasable(g, pred, ord, i)
  }

  /** The hyperedges missing from branch `i`. */
  ghost function BranchCut<N>(g: Graph<N>, pred: map<N, Option<nat>>, ord: seq<N>, i: nat): set<nat>
    requires i + 1 < |ord| && Releasable(g, pred, ord, i)
  {
    CutBefore(g, pred, ord, i, |ord|) + {pred[ord[i + 1]].value}
  }

  lemma CutStart<N>(g: Graph<N>, pred: map<N, Option<nat>>, ord: seq<N>, i: nat)
    ensures CutBefore(g, pred, ord, i, i + 2) == {}
  {
  }

  /** Pruning position `j` adds to the cut exactly the hyperedges into `ord[j]` that survive so far and are not its predecessor. */
  lemma CutStep<N>(g: Graph<N>, b: Graph<N>, pred: map<N, Option<nat>>, ord: seq<N>, i: nat, j: nat, drop: set<nat>)
    requires i + 2 <= j < |ord| && RemovedFrom(g, b, CutBefore(g, pred, ord, i, j))
    requires forall e :: e in drop <==> e in b.edges && ord[j] in b.edges[e].head && !Spared(pred, ord[j], e)
    requires ord[j] !in pred ==> forall e :: e in b.edges ==> ord[j] !in b.edges[e].head
    ensures CutBefore(g, pred, ord, i, j + 1) == CutBefore(g, pred, ord, i, j) + drop
  {
    var before := CutBefore(g, pred, ord, i, j);
    var after := CutBefore(g, pred, ord, i, j + 1);
    forall e | e in after
      ensures e in before + drop
    {
      var m :| i + 2 <= m < j + 1 && m < |ord| && ord[m] in g.edges[e].head && !Spared(pred, ord[m], e);
      if m < j {
        assert e in before;
      } else if e !in before {
        assert e in b.edges;
      }
    }
    forall e | e in before + drop
      ensures e in after
    {
      if e in before {
        var m :| i + 2 <= m < j && m < |ord| && ord[m] in g.edges[e].head && !Spared(pred, ord[m], e);
        assert m < j + 1;
      } else {
        assert e in b.edges && ord[j] in g.edges[e].head;
      }
    }
  }

  /** No position from `i + 2` up to `j` is stuck. */
  ghost predicate NoneStuck<N>(g: Graph<N>, pred: map<N, Option<nat>>, ord: seq<N>, i: nat, j: nat)
    requires j <= |ord|
  {
    forall m :: i + 2 <= m < j ==> !StuckAt(g, pred, ord, i, m)
  }

  /** The state of branch `i` before position `j` is pruned. */
  ghost predicate BranchInv<N>(g: Graph<N>, b: Graph<N>, pred: map<N, Option<nat>>, ord: seq<N>, i: nat, j: nat) {
    && i + 2 <= j <= |ord|
    && Valid(b) && RemovedFrom(g, b, CutBefore(g, pred, ord, i, j))
    && NoneStuck(g, pred, ord, i, j)
  }

  lemma BranchStart<N>(g: Graph<N>, pred: map<N, Option<nat>>, ord: seq<N>, i: nat)
    requires Valid(g) && i + 1 < |ord|
    ensures BranchInv(g, g, pred, ord, i, i + 2)
  {
    CutStart(g, pred, ord, i);
  }

  /** The hyperedges of `star` other than the recorded predecessor of `n`, those the inner loop removes. */
  function Drop<N>(star: set<nat>, pred: map<N, Option<nat>>, n: N): set<nat> {
    if star == {} || n !in pred then {} else set e | e in star && pred[n] != Some(e)
  }

  /**
   What the backward star of `ord[j]` in the partly pruned branch tells: the
   position is stuck exactly when the star is non-empty and `ord[j]` has no
   recorded predecessor; otherwise the hyperedges to drop are those of the
   star other than the predecessor, and dropping them extends the cut.
   */
  lemma PruneFacts<N>(g: Graph<N>, b: Graph<N>, pred: map<N, Option<nat>>, ord: seq<N>, i: nat, j: nat, star: set<nat>, drop: set<nat>)
    requires i + 2 <= j < |ord| && RemovedFrom(g, b, CutBefore(g, pred, ord, i, j)) && ord[j] in g.nodes
    requires forall e :: e in star <==> e in b.edges && ord[j] in b.edges[e].head
    requires drop == Drop(star, pred, ord[j])
    ensures StuckAt(g, pred, ord, i, j) <==> star != {} && ord[j] !in pred
    ensures !StuckAt(g, pred, ord, i, j) ==> drop <= b.edges.Keys && CutBefore(g, pred, ord, i, j + 1) == CutBefore(g, pred, ord, i, j) + drop
  {
    if star != {} {
      var e :| e in star;
      assert e in g.edges && ord[j] in g.edges[e].head && e !in CutBefore(g, pred, ord, i, j);
    }
    if !StuckAt(g, pred, ord, i, j) {
      CutStep(g, b, pred, ord, i, j, drop);
    }
  }

  lemma NoneStuckStep<N>(g: Graph<N>, pred: map<N, Option<nat>>, ord: seq<N>, i: nat, j: nat)
    requires j < |ord| && NoneStuck(g, pred, ord, i, j) && !StuckAt(g, pred, ord, i, j)
    ensures NoneStuck(g, pred, ord, i, j + 1)
  {
  }

  /** One pass of the inner loop of `_branching_step`: prune the hyperedges into `ord[j]`. */
  method PruneNode<N>(g: Graph<N>, b: Graph<N>, pred: map<N, Option<nat>>, ord: seq<N>, i: nat, j: nat) returns (r: Result<Graph<N>>)
    requires BranchInv(g, b, pred, ord, i, j) && j < |ord|
    ensures r.Err? ==> StuckAt(g, pred, ord, i, j)
    ensures r.Err? ==> r.error == (if ord[j] !in g.nodes then ValueError else KeyError)
    ensures r.Ok? ==> BranchInv(g, r.value, pred, ord, i, j + 1)
  {
    var node := ord[j];
    var star := BackwardStar(b, node);
    if star.Err? {
      return Err(star.error);
    }
    var drop := Drop(star.value, pred, node);
    PruneFacts(g, b, pred, ord, i, j, star.value, drop);
    if star.value != {} && node !in pred {
      return Err(KeyError);
    }
    var b' := RemoveEdgeSet(b, drop);
    RemovedFromCompose(g, b, b', CutBefore(g, pred, ord, i, j), drop);
    NoneStuckStep(g, pred, ord, i, j);
    return Ok(b');
  }

  /** Removing `a` and then `c` removes `a + c`. */
  lemma RemovedFromCompose<N>(g: Graph<N>, b: Graph<N>, b': Graph<N>, a: set<nat>, c: set<nat>)
    requires RemovedFrom(g, b, a) && RemovedFrom(b, b', c)
    ensures RemovedFrom(g, b', a + c)
  {
  }

  /**
   Branch `i` of `_branching_step`: a copy of `g` without, for every
   ordering position from `i + 2` on, the hyperedges into that node other than
   its predecessor, and without the predecessor of `ord[i + 1]`.
   */
  method Branch<N>(g: Graph<N>, pred: map<N, Option<nat>>, ord: seq<N>, i: nat) returns (r: Result<Graph<N>>)
    requires Valid(g) && i + 1 < |ord|
    ensures r.Err? <==> BranchFails(g, pred, ord, i)
    ensures r.Err? ==> r.error == KeyError || r.error == ValueError
    ensures r.Err? && Releasable(g, pred, ord, i) ==> exists j :: i + 2 <= j < |ord| && StuckAt(g, pred, ord, i, j)
    ensures r.Ok? ==> Valid(r.value) && RemovedFrom(g, r.value, BranchCut(g, pred, ord, i))
  {
    var b := Copy(g);
    BranchStart(g, pred, ord, i);
    var j := i + 2;
    while j < |ord|
      invariant BranchInv(g, b, pred, ord, i, j)
      decreases |ord| - j
    {
      var step := PruneNode(g, b, pred, ord, i, j);
      if step.Err? {
        return Err(step.error);
      }
      b := step.value;
      j := j + 1;
    }
    BranchEnd(g, b, pred, ord, i, j);
    if ord[i + 1] !in pred {
      return Err(KeyError);
    }
    var p := pred[ord[i + 1]];
    if p.None? {
      return Err(ValueError);
    }
    var removed := RemoveHyperedge(b, p.value);
    if removed.Err? {
      return Err(ValueError);
    }
    RemoveHyperedgeValid(b, p.value);
    RemovedFromCompose(g, b, removed.value, CutBefore(g, pred, ord, i, |ord|), {p.value});
    return Ok(removed.value);
  }

  /** Once every position is pruned, the branch fails exactly when the predecessor of `ord[i + 1]` cannot be removed. */
  lemma BranchEnd<N>(g: Graph<N>, b: Graph<N>, pred: map<N, Option<nat>>, ord: seq<N>, i: nat, j: nat)
    requires BranchInv(g, b, pred, ord, i, j) && j >= |ord|
    ensures j == |ord| && i + 1 < |ord|
    ensures BranchFails(g, pred, ord, i) <==> !Releasable(g, pred, ord, i)
    ensures Releasable(g, pred, ord, i) <==>
      ord[i + 1] in pred && pred[ord[i + 1]].Some? && pred[ord[i + 1]].value in b.edges
  {
  }

  /** `branches` are the first branches, each built without error and missing exactly its cut. */
  ghost predicate BranchesMade<N>(g: Graph<N>, pred: map<N, Option<nat>>, ord: seq<N>, branches: seq<Graph<N>>) {
    forall m :: 0 <= m < |branches| ==>
      m + 1 < |ord| && !BranchFails(g, pred, ord, m) && Valid(branches[m]) && RemovedFrom(g, branches[m], BranchCut(g, pred, ord, m))
  }

  lemma BranchesMadeSnoc<N>(g: Graph<N>, pred: map<N, Option<nat>>, ord: seq<N>, branches: seq<Graph<N>>, b: Graph<N>)
    requires BranchesMade(g, pred, ord, branches) && |branches| + 1 < |ord| && !BranchFails(g, pred, ord, |branches|)
    requires Valid(b) && RemovedFrom(g, b, BranchCut(g, pred, ord, |branches|))
    ensures BranchesMade(g, pred, ord, branches + [b])
  {
  }

  lemma BranchesDone<N>(g: Graph<N>, pred: map<N, Option<nat>>, ord: seq<N>, branches: seq<Graph<N>>)
    requires BranchesMade(g, pred, ord, branches) && |branches| + 1 >= |ord|
    ensures !exists i: nat :: i + 1 < |ord| && BranchFails(g, pred, ord, i)
  {
  }

  /** `_branching_step`: one branch for each position of the ordering but the last. */
  method BranchingStep<N>(g: Graph<N>, pred: map<N, Option<nat>>, ord: seq<N>) returns (r: Result<seq<Graph<N>>>)
    requires Valid(g)
    ensures r.Err? <==> exists i: nat :: i + 1 < |ord| && BranchFails(g, pred, ord, i)
    ensures r.Ok? ==> (ord == [] ==> r.value == []) && (ord != [] ==> |r.value| + 1 == |ord|)
    ensures r.Ok? ==> forall i :: 0 <= i < |r.value| ==>
      i + 1 < |ord| && !BranchFails(g, pred, ord, i) && Valid(r.value[i]) && RemovedFrom(g, r.value[i], BranchCut(g, pred, ord, i))
  {
    var branches: seq<Graph<N>> := [];
    while |branches| + 1 < |ord|
      invariant BranchesMade(g, pred, ord, branches)
      invariant |branches| <= |ord| && (ord != [] ==> |branches| + 1 <= |ord|)
      decreases |ord| - |branches|
    {
      var b := Branch(g, pred, ord, |branches|);
      if b.Err? {
        return Err(b.error);
      }
      BranchesMadeSnoc(g, pred, ord, branches, b.value);
      branches := branches + [b.value];
    }
    BranchesDone(g, pred, ord, branches);
    return Ok(branches);
  }

  // ---------------------------------------------------------------------------
  // What the branches keep
  // ---------------------------------------------------------------------------

  /** Every position from `lo` on names a node with a recorded predecessor, a hyperedge of `g` entering it. */
  ghost predicate PredsInto<N>(g: Graph<N>, pred: map<N, Option<nat>>, ord: seq<N>, lo: nat) {
    forall m :: lo <= m < |ord| ==>
      ord[m] in pred && pred[ord[m]].Some? && pred[ord[m]].value in g.edges && ord[m] in g.edges[pred[ord[m]].value].head
  }

  /** In a B-hypergraph, a hyperedge entering `n` has `{n}` for its head. */
  lemma HeadIsOne<N>(g: Graph<N>, e: nat, n: N)
    requires IsB(g) && e in g.edges && n in g.edges[e].head
    ensures g.edges[e].head == {n}
  {
    SubsetCard({n}, g.edges[e].head);
  }

  /** The predecessor of a position `j >= i + 1` is not cut by branch `i`. */
  lemma NotCut<N>(g: Graph<N>, pred: map<N, Option<nat>>, ord: seq<N>, i: nat, j: nat)
    requires IsB(g) && Distinct(ord) && PredsInto(g, pred, ord, i + 1)
    requires i + 1 <= j < |ord|
    ensures pred[ord[j]].value !in CutBefore(g, pred, ord, i, |ord|)
  {
    var p := pred[ord[j]].value;
    HeadIsOne(g, p, ord[j]);
    forall m | i + 2 <= m < |ord| && ord[m] in g.edges[p].head
      ensures Spared(pred, ord[m], p)
    {
      assert ord[m] == ord[j];
      assert m == j;
    }
  }

  /**
   On a B-hypergraph with a repetition-free ordering whose nodes all have
   predecessors, branch `i` keeps the predecessor of every later position:
   only the predecessor of `ord[i + 1]` and competitors of later ones are cut.
   */
  lemma BranchKeepsLaterPreds<N>(g: Graph<N>, pred: map<N, Option<nat>>, ord: seq<N>, i: nat, j: nat)
    requires IsB(g) && Distinct(ord) && PredsInto(g, pred, ord, i + 1)
    requires i + 2 <= j < |ord|
    ensures Releasable(g, pred, ord, i)
    ensures pred[ord[j]].value !in BranchCut(g, pred, ord, i)
  {
    NotCut(g, pred, ord, i, j);
    NotCut(g, pred, ord, i, i + 1);
    HeadIsOne(g, pred[ord[j]].value, ord[j]);
    HeadIsOne(g, pred[ord[i + 1]].value, ord[i + 1]);
    assert ord[j] != ord[i + 1];
  }

  /**
   Branches differ: the predecessor of `ord[i + 1]`, which branch `i` lacks,
   is present in every later branch `i2`, so no two branches hold the same
   hyperpaths through it.
   */
  lemma LaterBranchKeepsCut<N>(g: Graph<N>, pred: map<N, Option<nat>>, ord: seq<N>, i: nat, i2: nat)
    requires IsB(g) && Distinct(ord) && PredsInto(g, pred, ord, i + 1)
    requires i < i2 && i2 + 1 < |ord|
    ensures Releasable(g, pred, ord, i) && Releasable(g, pred, ord, i2)
    ensures pred[ord[i + 1]].value in BranchCut(g, pred, ord, i)
    ensures pred[ord[i + 1]].value !in BranchCut(g, pred, ord, i2)
  {
    NotCut(g, pred, ord, i, i + 1);
    NotCut(g, pred, ord, i2, i2 + 1);
    var p := pred[ord[i + 1]].value;
    HeadIsOne(g, p, ord[i + 1]);
    HeadIsOne(g, pred[ord[i2 + 1]].value, ord[i2 + 1]);
    assert ord[i2 + 1] != ord[i + 1];
    forall m | i2 + 2 <= m < |ord|
      ensures ord[m] !in g.edges[p].head
    {
      assert ord[m] != ord[i + 1];
    }
  }

  // ---------------------------------------------------------------------------
  // Lower bound of a branch
  // ---------------------------------------------------------------------------

  /** The hyperedges entering `n`. */
  function Into<N>(g: Graph<N>, n: N): set<nat> {
    set e | e in g.edges && n in g.edges[e].head
  }

  /** Every hyperedge of `S` is in `g` and the tail function is defined on its tail. */
  ghost predicate AllDefined<N>(g: Graph<N>, F: TailFunction, W: map<N, ExtNat>, S: set<nat>) {
    forall e :: e in S ==> e in g.edges && Defined(F, g.edges[e].tail, W)
  }

  /** `F(tail(e), W) + weight(e)`: the weight `e` offers its head nodes. */
  ghost function Entry<N>(g: Graph<N>, F: TailFunction, W: map<N, ExtNat>, e: nat): ExtNat
    requires e in g.edges && Defined(F, g.edges[e].tail, W)
  {
    Fin(Weight(g, e)).Plus(Fold(F, g.edges[e].tail, W))
  }

  /** `v` is the least weight the hyperedges of `S` offer. */
  ghost predicate Least<N>(g: Graph<N>, F: TailFunction, W: map<N, ExtNat>, S: set<nat>, v: ExtNat)
    requires AllDefined(g, F, W, S)
  {
    (exists e :: e in S && Entry(g, F, W, e) == v) && forall e :: e in S ==> v.Le(Entry(g, F, W, e))
  }

  /**
   The loop of `_compute_lower_bound` from position `j` on: each node takes
   the weight its recorded predecessor offers under the weights computed so
   far. `KeyError` for a node without a recorded predecessor or a tail node
   without a weight, `ValueError` for a predecessor that is absent (or `None`)
   and for an empty tail under `max`/`min`.
   */
  ghost function Chain<N>(g: Graph<N>, pred: map<N, Option<nat>>, ord: seq<N>, F: TailFunction, Wb: map<N, ExtNat>, j: nat): Result<map<N, ExtNat>>
    decreases |ord| - j
  {
    if j >= |ord| then Ok(Wb)
    else if ord[j] !in pred then Err(KeyError)
    else if pred[ord[j]].None? || pred[ord[j]].value !in g.edges then Err(ValueError)
    else
      var e := pred[ord[j]].value;
      if !(g.edges[e].tail <= Wb.Keys) then Err(KeyError)
      else if g.edges[e].tail == {} && F != SumFunction then Err(ValueError)
      else Chain(g, pred, ord, F, Wb[ord[j] := Entry(g, F, Wb, e)], j + 1)
  }

  /** Reading the weight of `t` off the final weights. */
  function At<N>(c: Result<map<N, ExtNat>>, t: N): Result<ExtNat> {
    if c.Err? then Err(c.error) else if t in c.value then Ok(c.value[t]) else Err(KeyError)
  }

  /** The state of the `min` loop: `best` is the least weight offered by the hyperedges of `done`, `arg` one offering it. */
  ghost predicate LeastSoFar<N>(g: Graph<N>, F: TailFunction, W: map<N, ExtNat>, done: set<nat>, best: ExtNat, arg: nat) {
    && AllDefined(g, F, W, done)
    && (done != {} ==> arg in done && Entry(g, F, W, arg) == best)
    && forall e :: e in done ==> best.Le(Entry(g, F, W, e))
  }

  lemma LeastStep<N>(g: Graph<N>, F: TailFunction, W: map<N, ExtNat>, done: set<nat>, best: ExtNat, arg: nat, e: nat, offer: ExtNat)
    requires LeastSoFar(g, F, W, done, best, arg) && e in g.edges && Defined(F, g.edges[e].tail, W)
    requires offer == Entry(g, F, W, e)
    ensures done == {} || offer.Lt(best) ==> LeastSoFar(g, F, W, done + {e}, offer, e)
    ensures !(done == {} || offer.Lt(best)) ==> LeastSoFar(g, F, W, done + {e}, best, arg)
  {
    if done == {} || offer.Lt(best) {
      forall x | x in done + {e}
        ensures offer.Le(Entry(g, F, W, x))
      {
        if x in done {
          LeTransitive(offer, best, Entry(g, F, W, x));
        }
      }
    }
  }

  lemma LeastEnd<N>(g: Graph<N>, F: TailFunction, W: map<N, ExtNat>, S: set<nat>, best: ExtNat, arg: nat)
    requires LeastSoFar(g, F, W, S, best, arg) && S != {}
    ensures AllDefined(g, F, W, S) && Least(g, F, W, S, best)
  {
  }

  /** The `min` over the backward star: the least offered weight, or the first error met. */
  method LeastEntry<N>(g: Graph<N>, F: TailFunction, W: map<N, ExtNat>, S: set<nat>) returns (r: Result<ExtNat>)
    requires S != {} && S <= g.edges.Keys
    ensures r.Ok? <==> AllDefined(g, F, W, S)
    ensures r.Err? ==> r.error == KeyError || r.error == ValueError
    ensures r.Ok? ==> Least(g, F, W, S, r.value)
  {
    var best := Inf;
    var done: set<nat> := {};
    ghost var arg: nat := 0;
    while done != S
      invariant done <= S && LeastSoFar(g, F, W, done, best, arg)
      decreases |S - done|
    {
      var e :| e in S - done;
      var f := Apply(F, g.edges[e].tail, W);
      if f.Err? {
        return Err(f.error);
      }
      var offer := Fin(Weight(g, e)).Plus(f.value);
      LeastStep(g, F, W, done, best, arg, e, offer);
      if done == {} || offer.Lt(best) {
        best, arg := offer, e;
      }
      SubsetCard(S - (done + {e}), S - done);
      done := done + {e};
    }
    LeastEnd(g, F, W, S, best, arg);
    return Ok(best);
  }

  /** The loop of `_compute_lower_bound`, run over the weights `Wb` from position `j` on. */
  method Propagate<N>(g: Graph<N>, pred: map<N, Option<nat>>, ord: seq<N>, F: TailFunction, Wb: map<N, ExtNat>, j: nat) returns (r: Result<map<N, ExtNat>>)
    ensures r == Chain(g, pred, ord, F, Wb, j)
  {
    var cur := Wb;
    var k := j;
    while k < |ord|
      invariant Chain(g, pred, ord, F, cur, k) == Chain(g, pred, ord, F, Wb, j)
      decreases |ord| - k
    {
      var node := ord[k];
      if node !in pred {
        return Err(KeyError);
      }
      var p := pred[node];
      if p.None? || p.value !in g.edges {
        return Err(ValueError);
      }
      var f := Apply(F, g.edges[p.value].tail, cur);
      if f.Err? {
        return Err(f.error);
      }
      cur := cur[node := Fin(Weight(g, p.value)).Plus(f.value)];
      k := k + 1;
    }
    return Ok(cur);
  }

  /** `r` is the bound reached when `ord[i + 1]` takes the weight `v`, the least its hyperedges offer. */
  ghost predicate BoundFrom<N>(b: Graph<N>, i: nat, pred: map<N, Option<nat>>, ord: seq<N>, W: map<N, ExtNat>, t: N, F: TailFunction, v: ExtNat, r: Result<ExtNat>)
    requires i + 1 < |ord| && AllDefined(b, F, W, Into(b, ord[i + 1]))
  {
    Least(b, F, W, Into(b, ord[i + 1]), v) && r == At(Chain(b, pred, ord, F, W[ord[i + 1] := v], i + 2), t)
  }

  /**
   `v` is the lower bound of branch `b` at position `i`: infinity when no
   hyperedge enters `ord[i + 1]`, otherwise the weight reached at `t` once that
   node takes the least weight its hyperedges offer.
   */
  ghost predicate BranchBound<N>(b: Graph<N>, i: nat, pred: map<N, Option<nat>>, ord: seq<N>, W: map<N, ExtNat>, t: N, F: TailFunction, v: ExtNat)
    requires i + 1 < |ord|
  {
    && ord[i + 1] in b.nodes
    && (Into(b, ord[i + 1]) == {} ==> v == Inf)
    && (Into(b, ord[i + 1]) != {} ==>
          AllDefined(b, F, W, Into(b, ord[i + 1])) && exists w :: BoundFrom(b, i, pred, ord, W, t, F, w, Ok(v)))
  }

  /** A branch has at most one lower bound. */
  lemma BranchBoundUnique<N>(b: Graph<N>, i: nat, pred: map<N, Option<nat>>, ord: seq<N>, W: map<N, ExtNat>, t: N, F: TailFunction, v1: ExtNat, v2: ExtNat)
    requires i + 1 < |ord|
    requires BranchBound(b, i, pred, ord, W, t, F, v1) && BranchBound(b, i, pred, ord, W, t, F, v2)
    ensures v1 == v2
  {
    if Into(b, ord[i + 1]) != {} {
      var w1 :| BoundFrom(b, i, pred, ord, W, t, F, w1, Ok(v1));
      var w2 :| BoundFrom(b, i, pred, ord, W, t, F, w2, Ok(v2));
      LeastUnique(b, F, W, Into(b, ord[i + 1]), w1, w2);
    }
  }

  /** The least weight a set of hyperedges offers is unique. */
  lemma LeastUnique<N>(g: Graph<N>, F: TailFunction, W: map<N, ExtNat>, S: set<nat>, w1: ExtNat, w2: ExtNat)
    requires AllDefined(g, F, W, S) && Least(g, F, W, S, w1) && Least(g, F, W, S, w2)
    ensures w1 == w2
  {
    var e1 :| e1 in S && Entry(g, F, W, e1) == w1;
    var e2 :| e2 in S && Entry(g, F, W, e2) == w2;
    assert w1.Le(w2) && w2.Le(w1);
  }

  /**
   `_compute_lower_bound` for branch `b` at position `i`: infinity when no
   hyperedge enters `ord[i + 1]` any more; otherwise that node takes the least
   weight its remaining hyperedges offer under `W`, the later positions follow
   their recorded predecessors, and the bound is the weight reached at `t`.
   */
  method LowerBound<N>(b: Graph<N>, i: nat, pred: map<N, Option<nat>>, ord: seq<N>, W: map<N, ExtNat>, t: N, F: TailFunction)
    returns (r: Result<ExtNat>)
    requires Valid(b) && i + 1 < |ord|
    ensures r.Ok? ==> BranchBound(b, i, pred, ord, W, t, F, r.value)
    ensures ord[i + 1] !in b.nodes ==> r == Err(ValueError)
    ensures ord[i + 1] in b.nodes && Into(b, ord[i + 1]) == {} ==> r == Ok(Inf)
    ensures ord[i + 1] in b.nodes && Into(b, ord[i + 1]) != {} && !AllDefined(b, F, W, Into(b, ord[i + 1])) ==>
      r.Err? && (r.error == KeyError || r.error == ValueError)
    ensures ord[i + 1] in b.nodes && Into(b, ord[i + 1]) != {} && AllDefined(b, F, W, Into(b, ord[i + 1])) ==>
      exists v :: BoundFrom(b, i, pred, ord, W, t, F, v, r)
  {
    var star := BackwardStar(b, ord[i + 1]);
    if star.Err? {
      return Err(star.error);
    }
    IntoIsStar(b, ord[i + 1], star.value);
    if star.value == {} {
      return Ok(Inf);
    }
    r := BoundOnStar(b, i, pred, ord, W, t, F);
  }

  lemma IntoIsStar<N>(g: Graph<N>, n: N, S: set<nat>)
    requires forall e :: e in S <==> e in g.edges && n in g.edges[e].head
    ensures S == Into(g, n)
  {
  }

  /** The part of `_compute_lower_bound` after a non-empty backward star is found. */
  method BoundOnStar<N>(b: Graph<N>, i: nat, pred: map<N, Option<nat>>, ord: seq<N>, W: map<N, ExtNat>, t: N, F: TailFunction)
    returns (r: Result<ExtNat>)
    requires i + 1 < |ord| && Into(b, ord[i + 1]) != {}
    ensures !AllDefined(b, F, W, Into(b, ord[i + 1])) ==> r.Err? && (r.error == KeyError || r.error == ValueError)
    ensures AllDefined(b, F, W, Into(b, ord[i + 1])) ==> exists v :: BoundFrom(b, i, pred, ord, W, t, F, v, r)
  {
    var m := LeastEntry(b, F, W, Into(b, ord[i + 1]));
    if m.Err? {
      return Err(m.error);
    }
    var c := Propagate(b, pred, ord, F, W[ord[i + 1] := m.value], i + 2);
    r := if c.Err? then Err(c.error) else if t !in c.value then Err(KeyError) else Ok(c.value[t]);
    assert BoundFrom(b, i, pred, ord, W, t, F, m.value, r);
  }

  // ---------------------------------------------------------------------------
  // Why the bound is a lower bound
  // ---------------------------------------------------------------------------

  /** Bellman's inequalities: no hyperedge offers a head node less than its weight, as at the end of a shortest-tree computation. */
  ghost predicate Bellman<N>(g: Graph<N>, F: TailFunction, W: map<N, ExtNat>) {
    forall e, n :: e in g.edges && n in g.edges[e].head && Defined(F, g.edges[e].tail, W) ==>
      n in W && W[n].Le(Entry(g, F, W, e))
  }

  /** The hyperedges of `b` are hyperedges of `g`, unchanged. */
  ghost predicate EdgesWithin<N>(b: Graph<N>, g: Graph<N>) {
    forall e :: e in b.edges ==> e in g.edges && b.edges[e] == g.edges[e]
  }

  /** Every position from `lo` on whose recorded predecessor is a hyperedge of `g` is a head node of it. */
  ghost predicate PredHeads<N>(g: Graph<N>, pred: map<N, Option<nat>>, ord: seq<N>, lo: nat) {
    forall m :: lo <= m < |ord| && ord[m] in pred && pred[ord[m]].Some? && pred[ord[m]].value in g.edges ==>
      ord[m] in g.edges[pred[ord[m]].value].head
  }

  lemma BellmanWithin<N>(b: Graph<N>, g: Graph<N>, F: TailFunction, W: map<N, ExtNat>)
    requires EdgesWithin(b, g) && Bellman(g, F, W)
    ensures Bellman(b, F, W)
  {
    forall e, n | e in b.edges && n in b.edges[e].head && Defined(F, b.edges[e].tail, W)
      ensures n in W && W[n].Le(Entry(b, F, W, e))
    {
      assert e in g.edges && n in g.edges[e].head;
    }
  }

  /** Weights no lower than `W` stay no lower than `W` through the loop. */
  lemma {:induction false} ChainAbove<N>(g: Graph<N>, pred: map<N, Option<nat>>, ord: seq<N>, F: TailFunction, W: map<N, ExtNat>, Wb: map<N, ExtNat>, j: nat)
    requires Bellman(g, F, W) && PredHeads(g, pred, ord, j)
    requires Wb.Keys == W.Keys && forall x :: x in W ==> W[x].Le(Wb[x])
    requires Chain(g, pred, ord, F, Wb, j).Ok?
    ensures Chain(g, pred, ord, F, Wb, j).value.Keys == W.Keys
    ensures forall x :: x in W ==> W[x].Le(Chain(g, pred, ord, F, Wb, j).value[x])
    decreases |ord| - j
  {
    if j < |ord| {
      var e := pred[ord[j]].value;
      var tail := g.edges[e].tail;
      FoldMono(F, tail, W, Wb);
      var offer := Entry(g, F, Wb, e);
      assert ord[j] in W && W[ord[j]].Le(Entry(g, F, W, e));
      LeTransitive(W[ord[j]], Entry(g, F, W, e), offer);
      ChainAbove(g, pred, ord, F, W, Wb[ord[j] := offer], j + 1);
    }
  }

  /**
   The bound deserves its name: if the weights `W` of the unbranched
   subproblem satisfy Bellman's inequalities there, the bound computed on any
   branch of it is never below the weight `W` gives the destination.
   */
  lemma LowerBoundAboveParent<N>(parent: Graph<N>, b: Graph<N>, i: nat, pred: map<N, Option<nat>>, ord: seq<N>, W: map<N, ExtNat>, t: N, F: TailFunction, v: ExtNat)
    requires EdgesWithin(b, parent) && Bellman(parent, F, W)
    requires i + 1 < |ord| && ord[i + 1] in W && PredHeads(b, pred, ord, i + 2)
    requires AllDefined(b, F, W, Into(b, ord[i + 1])) && Least(b, F, W, Into(b, ord[i + 1]), v)
    requires At(Chain(b, pred, ord, F, W[ord[i + 1] := v], i + 2), t).Ok?
    ensures t in W && W[t].Le(At(Chain(b, pred, ord, F, W[ord[i + 1] := v], i + 2), t).value)
  {
    BellmanWithin(b, parent, F, W);
    var e0 :| e0 in Into(b, ord[i + 1]) && Entry(b, F, W, e0) == v;
    assert ord[i + 1] in b.edges[e0].head;
    ChainAbove(b, pred, ord, F, W, W[ord[i + 1] := v], i + 2);
  }

  // ---------------------------------------------------------------------------
  // Extracting the path of a popped candidate
  // ---------------------------------------------------------------------------

  /** `pv` and `W` are the predecessors and weights a shortest B-tree from `s` under `F` leaves. */
  ghost predicate TreeFacts<N(!new)>(g: Graph<N>, s: N, F: TailFunction, W: map<N, ExtNat>, pv: map<N, Option<nat>>) {
    && ShortestTree.Shape(g, s, W, pv)
    && forall n :: n in g.nodes && pv[n].Some? ==> ShortestTree.PredAt(g, true, F, W, pv, n)
  }

  /**
   The path extraction as written: the whole predecessor function of the
   tree goes to `get_hyperpath_from_predecessors`. A node the tree leaves
   unreached keeps `None` beside the source, so the extraction raises
   `ValueError` whenever the tree misses any node.
   */
  method ExtractAsWritten<N(!new)>(g: Graph<N>, s: N, t: N, ghost F: TailFunction, W: map<N, ExtNat>, pv: map<N, Option<nat>>)
    returns (r: Result<Hyperpaths.Hyperpath<N>>)
    requires TreeFacts(g, s, F, W, pv)
    ensures (exists n :: n in g.nodes && W[n] == Inf) ==> r == Err(ValueError)
    ensures F != GapFunction && (forall n :: n in g.nodes ==> W[n].Fin?) && t in g.nodes ==> r.Ok?
  {
    Hyperpaths.TreePredecessorsKnown(g, true, F, s, W, pv);
    Hyperpaths.TreeRoots(g, s, W, pv);
    if (forall n :: n in g.nodes ==> W[n].Fin?) && t in g.nodes {
      ReachedClosed(g, s, t, F, W, pv);
      assert Reached(pv, W) == pv;
    }
    r := Hyperpaths.HyperpathFromPredecessors(g, pv, s, t);
  }

  /** The predecessor function restricted to the nodes the tree reaches: the source is its only root. */
  function Reached<N>(pv: map<N, Option<nat>>, W: map<N, ExtNat>): map<N, Option<nat>> {
    map n | n in pv && n in W && W[n].Fin? :: pv[n]
  }

  /**
   On a tree built with the sum or the maximum, the reached nodes are closed
   under the walk: the tail of a reached node's predecessor is reached, since
   a finite sum or maximum has finite terms.
   */
  lemma ReachedClosed<N(!new)>(g: Graph<N>, s: N, t: N, F: TailFunction, W: map<N, ExtNat>, pv: map<N, Option<nat>>)
    requires TreeFacts(g, s, F, W, pv)
    ensures Hyperpaths.KeysKnown(g, Reached(pv, W)) && Hyperpaths.ValuesKnown(g, Reached(pv, W))
    ensures Hyperpaths.Roots(Reached(pv, W)) == {s}
    ensures F != GapFunction && t in W && W[t].Fin? ==> forall x :: Hyperpaths.Behind(g, Reached(pv, W), t, x) ==> x in Reached(pv, W)
  {
    var R := Reached(pv, W);
    Hyperpaths.TreePredecessorsKnown(g, true, F, s, W, pv);
    assert Hyperpaths.Roots(R) == {s};
    if F != GapFunction && t in W && W[t].Fin? {
      forall n | n in R && R[n].Some? && R[n].value in g.edges
        ensures g.edges[R[n].value].tail <= R.Keys
      {
        assert ShortestTree.PredAt(g, true, F, W, pv, n);
        var tail := g.edges[pv[n].value].tail;
        forall y | y in tail
          ensures y in R
        {
          FoldFinite(F, tail, W, y);
        }
      }
      assert Hyperpaths.TailClosed(g, R, R.Keys);
    }
  }

  /**
   The path extraction the procedure needs: the predecessors of the nodes the
   tree reaches. With the sum or the maximum and a reached destination it
   always yields the tree's path, whatever other nodes the tree misses.
   */
  method ExtractPath<N(!new)>(g: Graph<N>, s: N, t: N, ghost F: TailFunction, W: map<N, ExtNat>, pv: map<N, Option<nat>>)
    returns (r: Result<Hyperpaths.Hyperpath<N>>)
    requires TreeFacts(g, s, F, W, pv)
    ensures F != GapFunction && t in W && W[t].Fin? ==> r.Ok?
    ensures r.Ok? ==> r.value.edges <= g.edges.Keys && r.value.lone <= {s}
    ensures r.Ok? ==> r.value.edges == Hyperpaths.EdgesOf(Reached(pv, W), Hyperpaths.BehindSet(g, Reached(pv, W), t))
  {
    ReachedClosed(g, s, t, F, W, pv);
    EdgesOfKnown(g, Reached(pv, W), Hyperpaths.BehindSet(g, Reached(pv, W), t));
    r := Hyperpaths.HyperpathFromPredecessors(g, Reached(pv, W), s, t);
  }

  lemma EdgesOfKnown<N(!new)>(g: Graph<N>, Pv: map<N, Option<nat>>, S: set<N>)
    requires Hyperpaths.ValuesKnown(g, Pv)
    ensures Hyperpaths.EdgesOf(Pv, S) <= g.edges.Keys
    ensures Hyperpaths.LoneOf(Pv, S) <= Hyperpaths.Roots(Pv)
  {
  }

  // ---------------------------------------------------------------------------
  // The main loop
  // ---------------------------------------------------------------------------

  /** A shortest tree's predecessor function and valid ordering. */
  datatype Tree<N> = Tree(pv: map<N, Option<nat>>, ordering: seq<N>)

  /** A candidate subproblem: a subgraph, a bound (or tree weights) keyed by node, and its tree once computed. */
  datatype Candidate<N> = Candidate(graph: Graph<N>, W: map<N, ExtNat>, tree: Option<Tree<N>>)

  /** The truth value of the candidate's tree in Python: present and non-empty. */
  predicate HasTree<N>(c: Candidate<N>) {
    c.tree.Some? && c.tree.value.pv != map[]
  }

  /**
   The subgraph is a valid registry on the nodes of `g` holding hyperedges of
   `g`; a computed tree is a shortest B-tree of it that reaches `t`.
   */
  ghost predicate CandidateOk<N(!new)>(g: Graph<N>, s: N, t: N, F: TailFunction, c: Candidate<N>) {
    && Valid(c.graph) && c.graph.nodes == g.nodes && EdgesWithin(c.graph, g) && t in c.W
    && (c.tree.Some? ==> TreeFacts(c.graph, s, F, c.W, c.tree.value.pv) || TreeFacts(c.graph, s, SumFunction, c.W, c.tree.value.pv))
    && (c.tree.Some? ==> c.W[t].Fin?)
  }

  ghost predicate CandidatesOk<N(!new)>(g: Graph<N>, s: N, t: N, F: TailFunction, cands: seq<Candidate<N>>) {
    forall i :: 0 <= i < |cands| ==> CandidateOk(g, s, t, F, cands[i])
  }

  /** The number of candidates whose tree is still to be computed. */
  function Pending<N>(cands: seq<Candidate<N>>): nat
    decreases |cands|
  {
    if cands == [] then 0 else (if HasTree(cands[0]) then 0 else 1) + Pending(cands[1..])
  }

  lemma {:induction false} PendingConcat<N>(a: seq<Candidate<N>>, b: seq<Candidate<N>>)
    ensures Pending(a + b) == Pending(a) + Pending(b)
    decreases |a|
  {
    if a == [] {
      assert a + b == b;
    } else {
      assert (a + b)[0] == a[0] && (a + b)[1..] == a[1..] + b;
      PendingConcat(a[1..], b);
    }
  }

  /**
   `candidates.index(min(candidates, key=...))`: the first candidate whose key
   at `t` is least (Python's `min` keeps the first of equal keys).
   */
  method Cheapest<N>(cands: seq<Candidate<N>>, t: N) returns (ind: nat)
    requires cands != [] && forall i :: 0 <= i < |cands| ==> t in cands[i].W
    ensures ind < |cands|
    ensures forall i :: 0 <= i < |cands| ==> cands[ind].W[t].Le(cands[i].W[t])
    ensures forall i :: 0 <= i < ind ==> cands[ind].W[t].Lt(cands[i].W[t])
  {
    ind := 0;
    var i := 1;
    while i < |cands|
      invariant ind < i <= |cands|
      invariant forall j :: 0 <= j < i ==> cands[ind].W[t].Le(cands[j].W[t])
      invariant forall j :: 0 <= j < ind ==> cands[ind].W[t].Lt(cands[j].W[t])
    {
      if cands[i].W[t].Lt(cands[ind].W[t]) {
        forall j | 0 <= j < i
          ensures cands[i].W[t].Lt(cands[j].W[t])
        {
          LeTransitive(cands[i].W[t], cands[ind].W[t], cands[j].W[t]);
        }
        ind := i;
      }
      i := i + 1;
    }
  }

  /** The nodes of a path hypergraph: those of its hyperedges and those added on their own (`get_node_set`). */
  function NodesOf<N>(g: Graph<N>, p: Hyperpaths.Hyperpath<N>): set<N> {
    p.lone + set n, e | e in p.edges && e in g.edges && n in g.edges[e].tail + g.edges[e].head :: n
  }

  /** The nodes of `ord` that `keep` holds, in order. */
  function Keep<N(!new)>(ord: seq<N>, keep: set<N>): (r: seq<N>)
    ensures forall x :: x in r <==> x in ord && x in keep
  {
    if ord == [] then []
    else
      var rest := Keep(ord[1..], keep);
      assert forall x :: x in ord <==> x == ord[0] || x in ord[1..];
      if ord[0] in keep then [ord[0]] + rest else rest
  }

  /** A branch is a valid registry on the nodes of `g` holding hyperedges of `g`. */
  ghost predicate BranchOk<N>(g: Graph<N>, b: Graph<N>) {
    Valid(b) && b.nodes == g.nodes && EdgesWithin(b, g)
  }

  lemma BranchesOk<N>(g: Graph<N>, c: Graph<N>, pred: map<N, Option<nat>>, ord: seq<N>, branches: seq<Graph<N>>)
    requires c.nodes == g.nodes && EdgesWithin(c, g)
    requires forall i :: 0 <= i < |branches| ==>
      i + 1 < |ord| && !BranchFails(c, pred, ord, i) && Valid(branches[i]) && RemovedFrom(c, branches[i], BranchCut(c, pred, ord, i))
    ensures forall i :: 0 <= i < |branches| ==> BranchOk(g, branches[i])
  {
  }

  /** One branch becomes a candidate, keyed by its lower bound, when that bound is finite. */
  method BranchCandidate<N(!new)>(g: Graph<N>, s: N, t: N, F: TailFunction, b: Graph<N>, j: nat,
                                  pv: map<N, Option<nat>>, ord: seq<N>, W: map<N, ExtNat>)
    returns (r: Result<Option<Candidate<N>>>)
    requires BranchOk(g, b) && j + 1 < |ord|
    ensures r.Ok? && r.value.Some? ==> CandidateOk(g, s, t, F, r.value.value) && r.value.value.tree.None? && r.value.value.W[t].Fin?
    ensures r.Ok? && r.value.Some? ==>
      var c := r.value.value;
      c.graph == b && c.W == map[t := c.W[t]] && BranchBound(b, j, pv, ord, W, t, F, c.W[t])
    ensures r.Ok? && r.value.None? ==> BranchBound(b, j, pv, ord, W, t, F, Inf)
    ensures ord[j + 1] !in b.nodes ==> r == Err(ValueError)
  {
    var lb := LowerBound(b, j, pv, ord, W, t, F);
    if lb.Err? {
      return Err(lb.error);
    }
    var v := lb.value;
    if v.Fin? {  // `lower_bound < inf`
      var c := Candidate(b, map[t := v], None);
      assert CandidateOk(g, s, t, F, c);
      return Ok(Some(c));
    }
    assert v == Inf;
    return Ok(None);
  }

  /** Fresh candidates: sound, without a tree, with a finite bound. */
  ghost predicate FreshCandidates<N(!new)>(g: Graph<N>, s: N, t: N, F: TailFunction, out: seq<Candidate<N>>) {
    forall i :: 0 <= i < |out| ==> CandidateOk(g, s, t, F, out[i]) && out[i].tree.None? && out[i].W[t].Fin?
  }

  /**
   The branching after a path is taken from candidate `c`: one branch per
   position of the path's ordering but the last, each kept, with its lower
   bound, when that bound is finite.
   */
  method Expand<N(!new)>(g: Graph<N>, s: N, t: N, F: TailFunction, c: Candidate<N>, path: Hyperpaths.Hyperpath<N>)
    returns (r: Result<seq<Candidate<N>>>)
    requires CandidateOk(g, s, t, F, c) && c.tree.Some?
    ensures r.Ok? ==> FreshCandidates(g, s, t, F, r.value)
  {
    var pv := c.tree.value.pv;
    var nodes := NodesOf(c.graph, path);
    var pathPred := map n | n in pv && n in nodes :: pv[n];
    var pathOrd := Keep(c.tree.value.ordering, pathPred.Keys);
    var branches := BranchingStep(c.graph, pathPred, pathOrd);
    if branches.Err? {
      return Err(branches.error);
    }
    var bs := branches.value;
    BranchesOk(g, c.graph, pathPred, pathOrd, bs);
    r := CandidatesOf(g, s, t, F, bs, pv, pathOrd, c.W);
  }

  lemma FreshSnoc<N(!new)>(g: Graph<N>, s: N, t: N, F: TailFunction, out: seq<Candidate<N>>, x: Candidate<N>)
    requires FreshCandidates(g, s, t, F, out)
    requires CandidateOk(g, s, t, F, x) && x.tree.None? && x.W[t].Fin?
    ensures FreshCandidates(g, s, t, F, out + [x])
  {
    forall i | 0 <= i < |out| + 1
      ensures CandidateOk(g, s, t, F, (out + [x])[i]) && (out + [x])[i].tree.None? && (out + [x])[i].W[t].Fin?
    {
      if i < |out| {
        assert (out + [x])[i] == out[i];
      }
    }
  }

  /**
   `out` lists, in branch order, one fresh candidate per branch of `bs` whose
   lower bound is finite (the branch with that bound at `t` and no tree), and
   nothing for the branches whose bound is infinite.
   */
  ghost predicate KeptInOrder<N>(bs: seq<Graph<N>>, out: seq<Candidate<N>>, pv: map<N, Option<nat>>, ord: seq<N>,
                                 W: map<N, ExtNat>, t: N, F: TailFunction)
    requires bs == [] || |bs| < |ord|
    decreases |bs|
  {
    if bs == [] then out == []
    else
      var j := |bs| - 1;
      || (BranchBound(bs[j], j, pv, ord, W, t, F, Inf) && KeptInOrder(bs[..j], out, pv, ord, W, t, F))
      || (&& out != []
          && var c := out[|out| - 1];
          && c.graph == bs[j] && c.tree.None? && t in c.W && c.W == map[t := c.W[t]] && c.W[t].Fin?
          && BranchBound(bs[j], j, pv, ord, W, t, F, c.W[t])
          && KeptInOrder(bs[..j], out[..|out| - 1], pv, ord, W, t, F))
  }

  lemma KeptSkip<N>(bs: seq<Graph<N>>, j: nat, out: seq<Candidate<N>>, pv: map<N, Option<nat>>, ord: seq<N>,
                    W: map<N, ExtNat>, t: N, F: TailFunction)
    requires j < |bs| < |ord| && KeptInOrder(bs[..j], out, pv, ord, W, t, F)
    requires BranchBound(bs[j], j, pv, ord, W, t, F, Inf)
    ensures KeptInOrder(bs[..j + 1], out, pv, ord, W, t, F)
  {
    assert bs[..j + 1][..j] == bs[..j] && bs[..j + 1][j] == bs[j];
  }

  lemma KeptAdd<N>(bs: seq<Graph<N>>, j: nat, out: seq<Candidate<N>>, c: Candidate<N>, pv: map<N, Option<nat>>, ord: seq<N>,
                   W: map<N, ExtNat>, t: N, F: TailFunction)
    requires j < |bs| < |ord| && KeptInOrder(bs[..j], out, pv, ord, W, t, F)
    requires c.graph == bs[j] && c.tree.None? && t in c.W && c.W == map[t := c.W[t]] && c.W[t].Fin?
    requires BranchBound(bs[j], j, pv, ord, W, t, F, c.W[t])
    ensures KeptInOrder(bs[..j + 1], out + [c], pv, ord, W, t, F)
  {
    assert bs[..j + 1][..j] == bs[..j] && bs[..j + 1][j] == bs[j];
    assert (out + [c])[..|out|] == out;
  }

  /** The loop over the branches: the lower bound of branch `j` of the path ordering `ord`. */
  method CandidatesOf<N(!new)>(g: Graph<N>, s: N, t: N, F: TailFunction, bs: seq<Graph<N>>,
                               pv: map<N, Option<nat>>, ord: seq<N>, W: map<N, ExtNat>)
    returns (r: Result<seq<Candidate<N>>>)
    requires forall j :: 0 <= j < |bs| ==> BranchOk(g, bs[j])
    requires |bs| == 0 || |bs| + 1 == |ord|
    ensures r.Ok? ==> FreshCandidates(g, s, t, F, r.value)
    ensures r.Ok? ==> KeptInOrder(bs, r.value, pv, ord, W, t, F)
  {
    var out: seq<Candidate<N>> := [];
    var j := 0;
    while j < |bs|
      invariant j <= |bs| && FreshCandidates(g, s, t, F, out)
      invariant KeptInOrder(bs[..j], out, pv, ord, W, t, F)
    {
      var x := BranchCandidate(g, s, t, F, bs[j], j, pv, ord, W);
      if x.Err? {
        return Err(x.error);
      }
      if x.value.Some? {
        FreshSnoc(g, s, t, F, out, x.value.value);
        KeptAdd(bs, j, out, x.value.value, pv, ord, W, t, F);
        out := out + [x.value.value];
      } else {
        KeptSkip(bs, j, out, pv, ord, W, t, F);
      }
      j := j + 1;
    }
    assert bs[..j] == bs;
    return Ok(out);
  }

  /**
   The other arm of the loop: compute the candidate's shortest B-tree with the
   sum, and its exact weights. The result is a sound candidate exactly when
   that tree reaches `t`.
   */
  method Refresh<N(!new)>(less: (N, N) -> bool, g: Graph<N>, s: N, t: N, F: TailFunction, c: Candidate<N>) returns (c': Candidate<N>)
    requires CandidateOk(g, s, t, F, c) && s in g.nodes && t in g.nodes
    ensures HasTree(c') && c'.graph == c.graph && t in c'.W
    ensures TreeFacts(c.graph, s, SumFunction, c'.W, c'.tree.value.pv)
    ensures CandidateOk(g, s, t, F, c') <==> c'.W[t].Fin?
  {
    ValidOriented(c.graph, true);
    var sub := ShortestTree.ShortestBTree(less, c.graph, s, SumFunction, true);
    var o := sub.value;
    c' := Candidate(c.graph, o.W, Some(Tree(o.pv, o.ordering.value)));
    assert s in o.pv;
  }

  /**
   The refresh as the source writes it (Findings row 4): the candidate is put
   back with its new tree whatever weight that tree gives `t`. When the tree
   misses `t` the candidate keeps the key infinity, and popping it later hands
   its predecessor function, with `None` at both `s` and `t`, to the path
   extraction, which raises `ValueError`.
   */
  method RefreshThenTakeAsWritten<N(!new)>(less: (N, N) -> bool, g: Graph<N>, s: N, t: N, F: TailFunction, c: Candidate<N>)
    returns (c': Candidate<N>, r: Result<Hyperpaths.Hyperpath<N>>)
    requires CandidateOk(g, s, t, F, c) && s in g.nodes && t in g.nodes
    ensures HasTree(c') && c'.graph == c.graph && t in c'.W
    ensures c'.W[t] == Inf ==> r == Err(ValueError)
    ensures r == Err(ValueError) <==> exists n :: n in c'.W && c'.W[n] == Inf
  {
    c' := Refresh(less, g, s, t, F, c);
    assert c.graph.nodes == g.nodes;
    r := ExtractAsWritten(c'.graph, s, t, SumFunction, c'.W, c'.tree.value.pv);
  }

  /** The branch of Findings row 4: the hyperedges e2 {a}→{t}, e3 {x}→{a} and e4 {a}→{x}, of weight 1, on the nodes s, a, t, x. */
  ghost predicate IsMissedBranch(b: Graph<char>) {
    && b.edges == map[2 := Edge({'a'}, {'t'}, Attributes.DefaultEdgeAttrs), 3 := Edge({'x'}, {'a'}, Attributes.DefaultEdgeAttrs),
                      4 := Edge({'a'}, {'x'}, Attributes.DefaultEdgeAttrs)]
    && b.nodes.Keys == {'s', 'a', 't', 'x'}
  }

  /**
   The input of Findings row 4: nodes `s`, `a`, `t`, `x` and the hyperedges
   e1 {s}→{a}, e2 {a}→{t}, e3 {x}→{a}, e4 {a}→{x} of weight 1, with `k = 2`.
   The first path is e1, e2 with ordering s, a, t, found in the tree with
   weights s 0, a 1, t 2, x 2. Its branch 0 drops e1 and keeps e2, e3, e4
   (the graph `b`); its lower bound is 4, since `a` is entered by e3 from `x`,
   so it becomes a candidate. Yet no shortest B-tree of `b` from `s` reaches
   `t`: `t` is entered only from `a`, and `a` and `x` only from each other. So
   the refreshed candidate has key infinity and several roots, and popping it
   raises `ValueError` as written.
   */
  lemma MissedRefreshExample(b: Graph<char>, W: map<char, ExtNat>, pv: map<char, Option<nat>>)
    requires IsMissedBranch(b)
    requires TreeFacts(b, 's', SumFunction, W, pv)
    ensures BranchBound(b, 0, map['s' := None, 'a' := Some(1), 't' := Some(2)], ['s', 'a', 't'],
                        map['s' := Fin(0), 'a' := Fin(1), 't' := Fin(2), 'x' := Fin(2)], 't', SumFunction, Fin(4))
    ensures W['t'] == Inf && |Hyperpaths.Roots(pv)| > 1
  {
    MissedBound(b, 0, map['s' := None, 'a' := Some(1), 't' := Some(2)], ['s', 'a', 't'],
                map['s' := Fin(0), 'a' := Fin(1), 't' := Fin(2), 'x' := Fin(2)]);
    MissedT(b, W, pv);
    Hyperpaths.TreeRoots(b, 's', W, pv);
    assert 's' in Hyperpaths.Roots(pv);
  }

  /** In that branch `t` is entered only from `a`, which no tree from `s` reaches. */
  lemma MissedT(b: Graph<char>, W: map<char, ExtNat>, pv: map<char, Option<nat>>)
    requires IsMissedBranch(b)
    requires TreeFacts(b, 's', SumFunction, W, pv)
    ensures W['t'] == Inf
  {
    CycleUnreached(b, W, pv);
    assert Into(b, 't') == {2} && b.edges[2].tail == {'a'};
    PredOf(b, 's', SumFunction, W, pv, 't');
    FoldSingle(SumFunction, W, 'a');
  }

  /** In that branch `a` and `x` are entered only from each other, so a tree from `s` reaches neither. */
  lemma CycleUnreached(b: Graph<char>, W: map<char, ExtNat>, pv: map<char, Option<nat>>)
    requires IsMissedBranch(b)
    requires TreeFacts(b, 's', SumFunction, W, pv)
    ensures W['a'] == Inf && W['x'] == Inf
  {
    assert Into(b, 'a') == {3} && Into(b, 'x') == {4};
    assert b.edges[3].tail == {'x'} && b.edges[4].tail == {'a'};
    FoldSingle(SumFunction, W, 'a');
    FoldSingle(SumFunction, W, 'x');
    PredOf(b, 's', SumFunction, W, pv, 'a');
    PredOf(b, 's', SumFunction, W, pv, 'x');
  }

  /** A node of finite weight other than the source has its predecessor recorded as the tree requires. */
  lemma PredOf<N(!new)>(g: Graph<N>, s: N, F: TailFunction, W: map<N, ExtNat>, pv: map<N, Option<nat>>, n: N)
    requires TreeFacts(g, s, F, W, pv) && n in g.nodes
    ensures W[n].Fin? && n != s ==> ShortestTree.PredAt(g, true, F, W, pv, n) && pv[n].value in Into(g, n)
  {
  }

  /** The lower bound of that branch: `a` takes 1 + 2 through e3, and `t` then 1 + 3 through e2. */
  lemma MissedBound(b: Graph<char>, i: nat, pred: map<char, Option<nat>>, ord: seq<char>, W: map<char, ExtNat>)
    requires IsMissedBranch(b) && i == 0 && pred == map['s' := None, 'a' := Some(1), 't' := Some(2)] && ord == ['s', 'a', 't']
    requires W == map['s' := Fin(0), 'a' := Fin(1), 't' := Fin(2), 'x' := Fin(2)]
    ensures BranchBound(b, i, pred, ord, W, 't', SumFunction, Fin(4))
  {
    MissedLeast(b, i, ord, W);
    MissedChain(b, i, pred, ord, W);
    BoundIntro(b, i, pred, ord, W, 't', SumFunction, Fin(3), Fin(4));
  }

  /** Unfolding the lower bound at position `i` when some hyperedge enters `ord[i + 1]`. */
  lemma BoundIntro<N>(b: Graph<N>, i: nat, pred: map<N, Option<nat>>, ord: seq<N>, W: map<N, ExtNat>, t: N, F: TailFunction, v: ExtNat, w: ExtNat)
    requires i + 1 < |ord| && ord[i + 1] in b.nodes
    requires AllDefined(b, F, W, Into(b, ord[i + 1])) && Least(b, F, W, Into(b, ord[i + 1]), v)
    requires At(Chain(b, pred, ord, F, W[ord[i + 1] := v], i + 2), t) == Ok(w)
    ensures BranchBound(b, i, pred, ord, W, t, F, w)
  {
    assert BoundFrom(b, i, pred, ord, W, t, F, v, Ok(w));
  }

  /** The first step of that bound: `a` is entered by e3 alone, which offers 1 + 2. */
  lemma MissedLeast(b: Graph<char>, i: nat, ord: seq<char>, W: map<char, ExtNat>)
    requires IsMissedBranch(b) && i == 0 && ord == ['s', 'a', 't'] && W == map['s' := Fin(0), 'a' := Fin(1), 't' := Fin(2), 'x' := Fin(2)]
    ensures i + 1 < |ord| && ord[i + 1] in b.nodes
    ensures AllDefined(b, SumFunction, W, Into(b, ord[i + 1])) && Least(b, SumFunction, W, Into(b, ord[i + 1]), Fin(3))
  {
    MissedEdges(b);
    assert ord[i + 1] == 'a' && W['x'] == Fin(2);
    LeastOfOne(b, SumFunction, W, Into(b, ord[i + 1]), 3, 'x');
  }

  /** The hyperedges of that branch entering `a` and `t`, with their tails and weights. */
  lemma MissedEdges(b: Graph<char>)
    requires IsMissedBranch(b)
    ensures 'a' in b.nodes && Into(b, 'a') == {3} && b.edges[3].tail == {'x'} && Weight(b, 3) == 1
    ensures Into(b, 't') == {2} && b.edges[2].tail == {'a'} && Weight(b, 2) == 1
    ensures Into(b, 'x') == {4} && b.edges[4].tail == {'a'}
  {
    assert Into(b, 'a') == {3};
    assert Into(b, 't') == {2};
    assert Into(b, 'x') == {4};
  }

  /** The least weight offered by a single hyperedge with a single tail node is what that hyperedge offers. */
  lemma LeastOfOne<N>(g: Graph<N>, F: TailFunction, W: map<N, ExtNat>, S: set<nat>, e: nat, y: N)
    requires S == {e} && e in g.edges && g.edges[e].tail == {y} && y in W
    ensures AllDefined(g, F, W, S) && Least(g, F, W, S, Fin(Weight(g, e)).Plus(W[y]))
  {
    SingleDefined(g, F, W, e, y, S);
    FoldSingle(F, W, y);
    assert Entry(g, F, W, e) == Fin(Weight(g, e)).Plus(W[y]);
  }

  /** The rest of that bound: once `a` has 3, `t` takes 1 + 3 through e2. */
  lemma MissedChain(b: Graph<char>, i: nat, pred: map<char, Option<nat>>, ord: seq<char>, W: map<char, ExtNat>)
    requires IsMissedBranch(b) && i == 0 && pred == map['s' := None, 'a' := Some(1), 't' := Some(2)] && ord == ['s', 'a', 't']
    requires W == map['s' := Fin(0), 'a' := Fin(1), 't' := Fin(2), 'x' := Fin(2)]
    ensures i + 1 < |ord| && At(Chain(b, pred, ord, SumFunction, W[ord[i + 1] := Fin(3)], i + 2), 't') == Ok(Fin(4))
  {
    var W1 := W['a' := Fin(3)];
    assert ord[i + 1] == 'a' && i + 2 == 2;
    assert b.edges[2].tail == {'a'};
    SingleDefined(b, SumFunction, W1, 2, 'a', {2});
    FoldSingle(SumFunction, W1, 'a');
    assert Entry(b, SumFunction, W1, 2) == Fin(4);
    ChainStep(b, pred, ord, SumFunction, W1, 2);
  }

  /** A hyperedge whose tail is the single node `y` of `W` is defined, and so is the set of just that hyperedge. */
  lemma SingleDefined<N>(g: Graph<N>, F: TailFunction, W: map<N, ExtNat>, e: nat, y: N, S: set<nat>)
    requires e in g.edges && g.edges[e].tail == {y} && y in W && S == {e}
    ensures Defined(F, g.edges[e].tail, W) && AllDefined(g, F, W, S)
  {
  }

  /** One step of the recomputation along the ordering: a node with a predecessor takes the weight that hyperedge offers. */
  lemma ChainStep<N>(g: Graph<N>, pred: map<N, Option<nat>>, ord: seq<N>, F: TailFunction, Wb: map<N, ExtNat>, j: nat)
    requires j < |ord| && ord[j] in pred && pred[ord[j]].Some? && pred[ord[j]].value in g.edges
    requires g.edges[pred[ord[j]].value].tail <= Wb.Keys && g.edges[pred[ord[j]].value].tail != {}
    ensures Chain(g, pred, ord, F, Wb, j) == Chain(g, pred, ord, F, Wb[ord[j] := Entry(g, F, Wb, pred[ord[j]].value)], j + 1)
  {
  }

  /** Giving a pending candidate its tree, or dropping it, leaves one candidate fewer pending. */
  lemma PendingShrinks<N>(cands: seq<Candidate<N>>, ind: nat, c': Candidate<N>)
    requires ind < |cands| && !HasTree(cands[ind]) && HasTree(c')
    ensures Pending(cands[ind := c']) == Pending(cands) - 1
    ensures Pending(cands[..ind] + cands[ind + 1..]) == Pending(cands) - 1
  {
    var pre, post := cands[..ind], cands[ind + 1..];
    assert cands == pre + [cands[ind]] + post;
    assert cands[ind := c'] == pre + [c'] + post;
    PendingConcat(pre + [cands[ind]], post);
    PendingConcat(pre, [cands[ind]]);
    PendingConcat(pre + [c'], post);
    PendingConcat(pre, [c']);
    PendingConcat(pre, post);
    assert [cands[ind]][1..] == [] && [c'][1..] == [];
  }

  /** The state of the main loop: `i` counts the paths found, every candidate is sound, every path uses hyperedges of `g`. */
  ghost predicate MainInv<N(!new)>(g: Graph<N>, s: N, t: N, F: TailFunction, kk: nat, i: nat,
                                   cands: seq<Candidate<N>>, paths: seq<Hyperpaths.Hyperpath<N>>) {
    && s in g.nodes && t in g.nodes
    && i == |paths| + 1 && |paths| <= kk
    && CandidatesOk(g, s, t, F, cands)
    && (forall j :: 0 <= j < |paths| ==> paths[j].edges <= g.edges.Keys)
    && (F != GapFunction && (cands != [] || paths != []) ==> BConnected(g, true, s, t))
  }

  lemma CandidatesJoin<N(!new)>(g: Graph<N>, s: N, t: N, F: TailFunction, cands: seq<Candidate<N>>, ind: nat, more: seq<Candidate<N>>)
    requires CandidatesOk(g, s, t, F, cands) && ind < |cands| && FreshCandidates(g, s, t, F, more)
    ensures CandidatesOk(g, s, t, F, cands[..ind] + cands[ind + 1..] + more)
  {
    var r := cands[..ind] + cands[ind + 1..] + more;
    forall i | 0 <= i < |r|
      ensures CandidateOk(g, s, t, F, r[i])
    {
      if i < ind {
        assert r[i] == cands[i];
      } else if i < |cands| - 1 {
        assert r[i] == cands[i + 1];
      } else {
        assert r[i] == more[i - (|cands| - 1)];
      }
    }
  }

  /**
   Popping a candidate whose tree is known: its path joins the paths and,
   unless `k` are found, its branches join the candidates. Under the sum or the
   maximum the path is always extracted, so an error can only come from the
   branching, after the path has joined the paths.
   */
  method TakePath<N(!new)>(g: Graph<N>, s: N, t: N, F: TailFunction, kk: nat, i: nat,
                           cands: seq<Candidate<N>>, paths: seq<Hyperpaths.Hyperpath<N>>, ind: nat)
    returns (err: Option<Error>, cands': seq<Candidate<N>>, paths': seq<Hyperpaths.Hyperpath<N>>, stop: bool)
    requires MainInv(g, s, t, F, kk, i, cands, paths) && i <= kk && ind < |cands| && HasTree(cands[ind])
    ensures err.None? ==> MainInv(g, s, t, F, kk, |paths'| + 1, cands', paths') && |paths'| == |paths| + 1
    ensures err.None? && stop ==> |paths'| == kk
    ensures F != GapFunction ==> |paths'| == |paths| + 1 && paths'[..|paths|] == paths
  {
    var c := cands[ind];
    assert CandidateOk(g, s, t, F, c);
    ghost var G := if TreeFacts(c.graph, s, SumFunction, c.W, c.tree.value.pv) then SumFunction else F;
    var path := ExtractPath(c.graph, s, t, G, c.W, c.tree.value.pv);
    if path.Err? {
      return Some(path.error), cands, paths, true;
    }
    paths' := paths + [path.value];
    if |paths'| == kk {
      cands' := cands[..ind] + cands[ind + 1..] ;
      CandidatesJoin(g, s, t, F, cands, ind, []);
      assert cands' + [] == cands';
      return None, cands', paths', true;
    }
    var more := Expand(g, s, t, F, c, path.value);
    if more.Err? {
      return Some(more.error), cands, paths', true;
    }
    CandidatesJoin(g, s, t, F, cands, ind, more.value);
    cands' := cands[..ind] + cands[ind + 1..] + more.value;
    return None, cands', paths', false;
  }

  /**
   `k_shortest_hyperpaths`: after the argument checks, the shortest B-tree of
   `g` seeds the candidates if it reaches `t`; the loop pops the cheapest
   candidate, either taking its path and branching on it, or computing its
   tree first. At most `k` paths come back, all made of hyperedges of `g`,
   and none when `t` is not B-connected to `s`.
   */
  method KShortestHyperpaths<N(!new)>(less: (N, N) -> bool, g: Graph<N>, s: N, t: N, k: Count, F: TailFunction)
    returns (r: Result<seq<Hyperpaths.Hyperpath<N>>>)
    requires Valid(g)
    ensures !IsB(g) ==> r == Err(TypeError)
    ensures IsB(g) && (s !in g.nodes || t !in g.nodes) ==> r == Err(ValueError)
    ensures IsB(g) && s in g.nodes && t in g.nodes && k.NotInt? ==> r == Err(TypeError)
    ensures IsB(g) && s in g.nodes && t in g.nodes && k.Int? && k.value <= 0 ==> r == Err(ValueError)
    ensures r.Ok? ==> k.Int? && |r.value| <= k.value
    ensures r.Ok? ==> forall j :: 0 <= j < |r.value| ==> r.value[j].edges <= g.edges.Keys
    ensures r.Ok? && F != GapFunction && !BConnected(g, true, s, t) ==> r.value == []
  {
    var args := CheckArgs(g, s, t, k);
    if args.Err? {
      return Err(args.error);
    }
    var kk := args.value;
    var cands, paths := Seed(less, g, s, t, F, kk);
    var i: nat := 1;
    while i <= kk && cands != []
      invariant MainInv(g, s, t, F, kk, i, cands, paths)
      decreases kk - |paths|, Pending(cands)
    {
      var err, cands', paths', stop := Round(less, g, s, t, F, kk, i, cands, paths);
      if err.Some? {
        return Err(err.value);
      }
      cands, paths, i := cands', paths', |paths'| + 1;
      if stop {
        break;
      }
    }
    return Ok(paths);
  }

  /** The loop makes progress: one more path, or as many paths and one candidate fewer without a tree. */
  predicate Progress<N>(kk: nat, cands: seq<Candidate<N>>, paths: seq<Hyperpaths.Hyperpath<N>>,
                        cands': seq<Candidate<N>>, paths': seq<Hyperpaths.Hyperpath<N>>) {
    (|paths'| == |paths| + 1 && |paths'| <= kk) || (|paths'| == |paths| && Pending(cands') < Pending(cands))
  }

  lemma CandidatesUpdate<N(!new)>(g: Graph<N>, s: N, t: N, F: TailFunction, cands: seq<Candidate<N>>, ind: nat, c': Candidate<N>)
    requires CandidatesOk(g, s, t, F, cands) && ind < |cands| && CandidateOk(g, s, t, F, c')
    ensures CandidatesOk(g, s, t, F, cands[ind := c'])
  {
    var u := cands[ind := c'];
    forall i | 0 <= i < |u|
      ensures CandidateOk(g, s, t, F, u[i])
    {
      if i != ind {
        assert u[i] == cands[i];
      }
    }
  }

  /**
   One round of the main loop: pop the cheapest candidate and take its path,
   or compute its tree. A computed tree that does not reach `t` drops the
   candidate (Findings row 4), as the seed is dropped when the first tree
   misses `t`. Under the sum or the maximum an error then only arises while
   branching on a path already taken.
   */
  method Round<N(!new)>(less: (N, N) -> bool, g: Graph<N>, s: N, t: N, F: TailFunction, kk: nat, i: nat,
                        cands: seq<Candidate<N>>, paths: seq<Hyperpaths.Hyperpath<N>>)
    returns (err: Option<Error>, cands': seq<Candidate<N>>, paths': seq<Hyperpaths.Hyperpath<N>>, stop: bool)
    requires MainInv(g, s, t, F, kk, i, cands, paths) && i <= kk && cands != []
    ensures err.None? ==> MainInv(g, s, t, F, kk, |paths'| + 1, cands', paths')
    ensures err.None? && stop ==> |paths'| == kk
    ensures err.None? && !stop ==> Progress(kk, cands, paths, cands', paths')
    ensures F != GapFunction && err.Some? ==> |paths'| == |paths| + 1 && paths'[..|paths|] == paths
  {
    var ind := Cheapest(cands, t);
    if HasTree(cands[ind]) {
      err, cands', paths', stop := TakePath(g, s, t, F, kk, i, cands, paths, ind);
    } else {
      assert CandidateOk(g, s, t, F, cands[ind]);
      var c' := Refresh(less, g, s, t, F, cands[ind]);
      PendingShrinks(cands, ind, c');
      if c'.W[t] == Inf {
        CandidatesJoin(g, s, t, F, cands, ind, []);
        cands' := cands[..ind] + cands[ind + 1..];
        assert cands' + [] == cands';
      } else {
        CandidatesUpdate(g, s, t, F, cands, ind, c');
        cands' := cands[ind := c'];
      }
      err, paths', stop := None, paths, false;
    }
  }

  /** The shortest B-tree of `g` under `F`, as the first candidate when it reaches `t`. */
  method Seed<N(!new)>(less: (N, N) -> bool, g: Graph<N>, s: N, t: N, F: TailFunction, kk: nat) returns (cands: seq<Candidate<N>>, paths: seq<Hyperpaths.Hyperpath<N>>)
    requires Valid(g) && s in g.nodes && t in g.nodes
    ensures MainInv(g, s, t, F, kk, 1, cands, paths) && paths == []
  {
    ValidOriented(g, true);
    var first := ShortestTree.ShortestBTree(less, g, s, F, true);
    var top := first.value;
    cands, paths := [], [];
    if top.W[t] != Inf {
      cands := [Candidate(g, top.W, Some(Tree(top.pv, top.ordering.value)))];
    }
  }
}

=== FILE: legacy_hyperedge.dfy ===
/**
 The legacy hyperedge value classes of `hypergraph/hyperedge.py`: a
 `Hyperedge` holds a head set, a tail set and a weight (0 by default);
 `DirectedHyperedge` adds equality on head and tail and a hash equal to the
 cardinality; `BHyperedge` and `FHyperedge` validate a head or a tail of at
 most one node; `UndirectedHyperedge` keeps its nodes in the head with an
 empty tail, hides the head and tail getters and compares nodes and weight.
 All of them order by weight alone.
 */
module LegacyHyperedge {
  import opened Wrappers
  import opened Collections

  /** The class a hyperedge value was built with. */
  datatype Kind = PlainKind | DirectedKind | BKind | FKind | UndirectedKind {
    /** `DirectedHyperedge` or one of its subclasses. */
    predicate IsDirected() {
      this == DirectedKind || this == BKind || this == FKind
    }
  }

  datatype Hyperedge<N> = Hyperedge(kind: Kind, head: set<N>, tail: set<N>, weight: int)

  const DefaultWeight: int := 0

  /** The head or tail argument of `BHyperedge`/`FHyperedge`: `None`, a set, another iterable, or a value `set()` rejects. */
  datatype NodesArg<N> = NoneArg | SetArg(s: set<N>) | SeqArg(xs: seq<N>) | NotIterable

  /** The node set the argument is converted to, when it converts. */
  function Converted<N>(arg: NodesArg<N>): Option<set<N>> {
    match arg
    case NoneArg => Some({})
    case SetArg(s) => Some(s)
    case SeqArg(xs) => Some(Elems(xs))
    case NotIterable => None
  }

  /** The check of `BHyperedge`/`FHyperedge`: the argument converts to a set of at most one node; otherwise ValueError. */
  function SingleSide<N>(arg: NodesArg<N>): (r: Result<set<N>>)
    ensures r.Ok? ==> |r.value| <= 1 && Some(r.value) == Converted(arg)
    ensures r.Err? ==> r.error == ValueError
    ensures r.Ok? <==> Converted(arg).Some? && |Converted(arg).value| <= 1
  {
    match Converted(arg)
    case None => Err(ValueError)
    case Some(s) => if |s| <= 1 then Ok(s) else Err(ValueError)
  }

  function NewHyperedge<N>(head: set<N>, tail: set<N>, weight: int): Hyperedge<N> {
    Hyperedge(PlainKind, head, tail, weight)
  }

  function NewDirected<N>(head: set<N>, tail: set<N>, weight: int): Hyperedge<N> {
    Hyperedge(DirectedKind, head, tail, weight)
  }

  /** `BHyperedge(head, tail, weight)`: ValueError unless the head converts to at most one node. */
  function NewB<N>(head: NodesArg<N>, tail: set<N>, weight: int): (r: Result<Hyperedge<N>>)
    ensures r.Ok? <==> SingleSide(head).Ok?
    ensures r.Err? ==> r.error == ValueError
    ensures r.Ok? ==> r.value.kind == BKind && |r.value.head| <= 1 && r.value.tail == tail && r.value.weight == weight
  {
    var h :- SingleSide(head);
    Ok(Hyperedge(BKind, h, tail, weight))
  }

  /** `FHyperedge(head, tail, weight)`: ValueError unless the tail converts to at most one node. */
  function NewF<N>(head: set<N>, tail: NodesArg<N>, weight: int): (r: Result<Hyperedge<N>>)
    ensures r.Ok? <==> SingleSide(tail).Ok?
    ensures r.Err? ==> r.error == ValueError
    ensures r.Ok? ==> r.value.kind == FKind && |r.value.tail| <= 1 && r.value.head == head && r.value.weight == weight
  {
    var t :- SingleSide(tail);
    Ok(Hyperedge(FKind, head, t, weight))
  }

  /** `UndirectedHyperedge(nodes, weight)`: the nodes are stored as the head, the tail is empty. */
  function NewUndirected<N>(nodes: set<N>, weight: int): (e: Hyperedge<N>)
    ensures Nodes(e) == Ok(nodes) && e.tail == {}
  {
    Hyperedge(UndirectedKind, nodes, {}, weight)
  }

  /** The `head` getter; the undirected class raises AttributeError. */
  function Head<N>(e: Hyperedge<N>): Result<set<N>> {
    if e.kind == UndirectedKind then Err(AttributeError) else Ok(e.head)
  }

  /** The `tail` getter; the undirected class raises AttributeError. */
  function Tail<N>(e: Hyperedge<N>): Result<set<N>> {
    if e.kind == UndirectedKind then Err(AttributeError) else Ok(e.tail)
  }

  /** The `nodes` getter, which only the undirected class has. */
  function Nodes<N>(e: Hyperedge<N>): Result<set<N>> {
    if e.kind == UndirectedKind then Ok(e.head) else Err(AttributeError)
  }

  /** `cardinality`: the sizes of head and tail added. */
  function Cardinality<N>(e: Hyperedge<N>): nat {
    |e.head| + |e.tail|
  }

  /**
   `n in e`: the membership test calls the head set, which raises a
   TypeError that is caught, so it is False; for the undirected class the
   head getter raises an AttributeError first, which is not caught.
   */
  function Contains<N>(e: Hyperedge<N>, n: N): Result<bool> {
    if e.kind == UndirectedKind then Err(AttributeError) else Ok(false)
  }

  /**
   `__eq__` of the directed classes (heads and tails) and of the undirected
   class (nodes and weights). Reading `head` of an undirected hyperedge or
   `nodes` of any other raises AttributeError.
   */
  function Equals<N>(a: Hyperedge<N>, b: Hyperedge<N>): Result<bool>
    requires a.kind != PlainKind
  {
    if a.kind == UndirectedKind then
      if b.kind == UndirectedKind then Ok(a.head == b.head && a.weight == b.weight) else Err(AttributeError)
    else
      if b.kind == UndirectedKind then Err(AttributeError) else Ok(a.head == b.head && a.tail == b.tail)
  }

  /** `__hash__`: the cardinality for the directed classes, the number of nodes for the undirected one. */
  function Hash<N>(e: Hyperedge<N>): int
    requires e.kind != PlainKind
  {
    if e.kind == UndirectedKind then |e.head| else Cardinality(e)
  }

  /** The four comparisons, on weights only. */
  predicate Lt<N>(a: Hyperedge<N>, b: Hyperedge<N>) {
    a.weight < b.weight
  }

  predicate Gt<N>(a: Hyperedge<N>, b: Hyperedge<N>) {
    a.weight > b.weight
  }

  predicate Le<N>(a: Hyperedge<N>, b: Hyperedge<N>) {
    a.weight <= b.weight
  }

  predicate Ge<N>(a: Hyperedge<N>, b: Hyperedge<N>) {
    a.weight >= b.weight
  }

  // ---------------------------------------------------------------------------
  // Properties
  // ---------------------------------------------------------------------------

  /** A set has at most one element exactly when any two of its elements are equal. */
  lemma AtMostOne<T>(s: set<T>)
    ensures |s| <= 1 <==> forall x, y :: x in s && y in s ==> x == y
  {
    if |s| > 1 {
      var x :| x in s;
      assert |s - {x}| == |s| - 1;
      var y :| y in s - {x};
      assert x in s && y in s && x != y;
    } else if s != {} {
      var x :| x in s;
      assert |s - {x}| == 0;
      assert s == {x};
    }
  }

  /** A list is accepted as a B-head or F-tail exactly when all its entries are the same node. */
  lemma SingleSideList<N>(xs: seq<N>)
    ensures SingleSide(SeqArg(xs)).Ok? <==> forall i, j :: 0 <= i < |xs| && 0 <= j < |xs| ==> xs[i] == xs[j]
  {
    var s := Elems(xs);
    ElemsMeaning(xs);
    AtMostOne(s);
    if |s| <= 1 {
      forall i, j | 0 <= i < |xs| && 0 <= j < |xs|
        ensures xs[i] == xs[j]
      {
        assert xs[i] in s && xs[j] in s;
      }
    } else {
      var x, y :| x in s && y in s && x != y;
      assert x in xs && y in xs;
      var i :| 0 <= i < |xs| && xs[i] == x;
      var j :| 0 <= j < |xs| && xs[j] == y;
    }
  }

  /** `None` is accepted as an empty side, a set exactly when it holds at most one node, and a non-iterable never. */
  lemma SingleSideAccepts<N>(s: set<N>)
    ensures SingleSide<N>(NoneArg) == Ok({})
    ensures SingleSide(SetArg(s)).Ok? <==> forall x, y :: x in s && y in s ==> x == y
    ensures SingleSide(SetArg(s)).Ok? ==> SingleSide(SetArg(s)).value == s
    ensures SingleSide<N>(NotIterable).Err?
  {
    AtMostOne(s);
  }

  /** The cardinality of an undirected hyperedge is its number of nodes. */
  lemma UndirectedCardinality<N>(nodes: set<N>, weight: int)
    ensures Cardinality(NewUndirected(nodes, weight)) == |nodes|
  {
  }

  /** Directed equality ignores the weight and the subclass; undirected equality does not ignore the weight. */
  lemma EqualsMeaning<N>(a: Hyperedge<N>, b: Hyperedge<N>)
    requires a.kind.IsDirected() && b.kind.IsDirected()
    ensures Equals(a, b) == Ok(a.head == b.head && a.tail == b.tail)
    ensures Equals(a, b) == Ok(true) <==> a.(kind := b.kind, weight := b.weight) == b
  {
  }

  lemma UndirectedEqualsMeaning<N>(a: Hyperedge<N>, b: Hyperedge<N>)
    requires a.kind == UndirectedKind && b.kind == UndirectedKind && a.tail == {} && b.tail == {}
    ensures Equals(a, b) == Ok(true) <==> a == b
  {
  }

  /** Equality is symmetric wherever both sides define it. */
  lemma EqualsSymmetric<N>(a: Hyperedge<N>, b: Hyperedge<N>)
    requires a.kind != PlainKind && b.kind != PlainKind
    ensures Equals(a, b) == Equals(b, a)
  {
  }

  /** Equal hyperedges hash alike. */
  lemma EqualsHashes<N>(a: Hyperedge<N>, b: Hyperedge<N>)
    requires a.kind != PlainKind && b.kind != PlainKind && Equals(a, b) == Ok(true)
    ensures Hash(a) == Hash(b)
  {
  }

  /** Membership never reports a node for the head-and-tail classes, whatever the sides hold. */
  lemma ContainsNever<N>(e: Hyperedge<N>, n: N)
    requires e.kind != UndirectedKind && n in e.head
    ensures Contains(e, n) == Ok(false)
  {
  }

  /** Ordering by weight: `<` is a strict order, `<=` its complement reversed, `>` and `>=` the mirrors. */
  lemma OrderByWeight<N>(a: Hyperedge<N>, b: Hyperedge<N>, c: Hyperedge<N>)
    ensures !Lt(a, a) && (Lt(a, b) && Lt(b, c) ==> Lt(a, c))
    ensures Le(a, b) <==> !Lt(b, a)
    ensures Gt(a, b) <==> Lt(b, a)
    ensures Ge(a, b) <==> Le(b, a)
    ensures Le(a, b) || Le(b, a)
  {
  }

  /** The order ignores the nodes: directed hyperedges with the same sides are equal, yet the lighter is below the heavier. */
  lemma OrderIgnoresEquality<N>(a: Hyperedge<N>, b: Hyperedge<N>)
    requires a.kind.IsDirected() && b.kind.IsDirected()
    requires a.head == b.head && a.tail == b.tail && a.weight < b.weight
    ensures Equals(a, b) == Ok(true) && Lt(a, b) && !Lt(b, a)
  {
  }
}

=== FILE: legacy_node.dfy ===
/**
 The legacy `Node` value class of `hypergraph/node.py`: a node identified by
 its name. A name must be hashable; two nodes are equal when the other value
 is a `Node` with the same name; the hash is the hash of the name; `copy` is
 an equal node, and `str` and `repr` both render `<Node name=NAME>`.

 Names are modelled as strings, so `str(name)` is the name itself.
 */
module LegacyNode {
  import opened Wrappers

  /** The name argument of the constructor: a hashable value, or one `hash` rejects. */
  datatype NameArg = Hashable(name: string) | Unhashable

  datatype Node = Node(name: string)

  const DefaultName: string := ""

  const Prefix: string := "<Node name="

  /** `Node(name)`: TypeError for an unhashable name. */
  function NewNode(arg: NameArg): (r: Result<Node>)
    ensures r.Err? <==> arg.Unhashable?
    ensures r.Err? ==> r.error == TypeError
    ensures r.Ok? ==> r.value.name == arg.name
  {
    match arg
    case Unhashable => Err(TypeError)
    case Hashable(name) => Ok(Node(name))
  }

  /** `Node()`: the default name is the empty string. */
  function DefaultNode(): (n: Node)
    ensures |n.name| == 0
  {
    Node(DefaultName)
  }

  /** `__eq__`: the other value is an instance of the class and has the same name. */
  function Equals(a: Node, other: Checked<Node>): bool {
    other.Instance? && a.name == other.value.name
  }

  /** `__hash__`: the hash of the name, for a given string hash. */
  function Hash(n: Node, hashName: string -> int): int {
    hashName(n.name)
  }

  /** `copy`: a deep copy of the node. */
  function Copy(n: Node): Node {
    Node(n.name)
  }

  /** `__str__`, and `__repr__`, which returns the same string. */
  function Str(n: Node): (s: string)
    ensures |s| == |Prefix| + |n.name| + 1
    ensures s[..|Prefix|] == Prefix && s[|s| - 1] == '>'
  {
    Prefix + n.name + ">"
  }

  function Repr(n: Node): string {
    Str(n)
  }

  /** Reading a node's name back from its string form; `None` for a string of another shape. */
  function NameOf(s: string): Option<string> {
    if |s| >= |Prefix| + 1 && s[..|Prefix|] == Prefix && s[|s| - 1] == '>' then
      Some(s[|Prefix|..|s| - 1])
    else
      None
  }

  /** Equality compares names only, and nothing but a node equals a node. */
  lemma EqualsMeaning(a: Node, other: Checked<Node>)
    ensures Equals(a, other) <==> other == Instance(a)
  {
  }

  /** Equal nodes hash alike, whatever the string hash. */
  lemma EqualsHashes(a: Node, b: Node, hashName: string -> int)
    requires Equals(a, Instance(b))
    ensures Hash(a, hashName) == Hash(b, hashName)
  {
  }

  /** A copy equals its original, and so does a node rebuilt from its name. */
  lemma CopyEquals(n: Node)
    ensures Equals(n, Instance(Copy(n)))
    ensures NewNode(Hashable(n.name)) == Ok(n)
  {
  }

  /** `repr` is `str`. */
  lemma ReprIsStr(n: Node)
    ensures Repr(n) == Str(n)
  {
  }

  /** The string form gives the name back. */
  lemma StrRoundTrip(n: Node)
    ensures NameOf(Str(n)) == Some(n.name)
  {
    var s := Str(n);
    assert s[|Prefix|..|s| - 1] == n.name;
  }

  /** A string of the node shape is the string form of the node it names. */
  lemma NameOfRoundTrip(s: string)
    requires NameOf(s).Some?
    ensures Str(Node(NameOf(s).value)) == s
  {
    var x := NameOf(s).value;
    assert s == s[..|Prefix|] + x + [s[|s| - 1]];
  }

  /** Distinct nodes have distinct string forms. */
  lemma StrInjective(a: Node, b: Node)
    requires Str(a) == Str(b)
    ensures a == b
  {
    StrRoundTrip(a);
    StrRoundTrip(b);
  }
}

=== FILE: priority_queue.dfy ===
/**
 The lazy-deletion priority queue of `halp/utilities/priority_queue.py`.

 Every entry ever pushed is kept in `store`, indexed by slot; `heap` is the
 list that heapq maintains, holding slots. An entry is invalidated in place
 by setting its count to `Invalid` (0), which the Python code does through
 the shared list object that both the heap and the finder map refer to; the
 heap is not re-sifted then. `less` is Python's `<` on elements, which heapq
 consults when two entries tie on priority and count.
 */
module PriorityQueue {
  import opened Wrappers
  import opened Heapq

  /** The count that marks an entry as deleted. */
  const Invalid: nat := 0

  /**
   `finder` maps an element to the slot of its latest entry; `next` is the
   value the count sequence (`itertools.count(1)`) yields next.
   */
  datatype PQ<T> = PQ(store: seq<Entry<T>>, heap: seq<nat>, finder: map<T, nat>, next: nat)

  /** The representation invariant that every operation preserves. */
  ghost predicate Valid<T>(q: PQ<T>) {
    && q.next >= 1
    && InStore(q.store, q.heap) && NoDup(q.heap) && Ordered(q.store, q.heap)
    && (forall x :: x in q.finder ==> q.finder[x] in q.heap && q.finder[x] < |q.store| && q.store[q.finder[x]].element == x)
    && (forall i :: 0 <= i < |q.store| ==> q.store[i].count < q.next)
  }

  /** The slots of the heap whose entries are still valid. */
  function Live<T>(q: PQ<T>): set<nat> {
    set i | i in q.heap && i < |q.store| && q.store[i].count != Invalid
  }

  /** `heap[0]`. */
  function Top<T>(q: PQ<T>): nat
    requires |q.heap| > 0
  {
    q.heap[0]
  }

  /** `heappop`, then `del element_finder[element]` when the popped element has a finder entry. */
  function PopTop<T(==)>(less: (T, T) -> bool, q: PQ<T>): (r: PQ<T>)
    requires Valid(q) && |q.heap| > 0
    ensures Valid(r) && r.store == q.store && r.next == q.next
    ensures forall i :: i in r.heap <==> i in q.heap && i != Top(q)
    ensures r.finder.Keys == q.finder.Keys - {q.store[Top(q)].element}
    ensures forall x :: x in r.finder ==> r.finder[x] == q.finder[x]
  {
    PoppedValid(less, q);
    var p := Pop(less, q.store, q.heap);
    var x := q.store[p.0].element;
    q.(heap := p.1, finder := if x in q.finder then q.finder - {x} else q.finder)
  }

  /** The queue `heappop` leaves, with the finder entry of the popped element dropped, is valid and holds the other slots. */
  lemma PoppedValid<T>(less: (T, T) -> bool, q: PQ<T>)
    requires Valid(q) && |q.heap| > 0
    ensures var p := Pop(less, q.store, q.heap);
      var x := q.store[p.0].element;
      var r := q.(heap := p.1, finder := if x in q.finder then q.finder - {x} else q.finder);
      && Valid(r) && (forall i :: i in r.heap <==> i in q.heap && i != Top(q))
      && r.finder.Keys == q.finder.Keys - {x}
      && forall y :: y in r.finder ==> r.finder[y] == q.finder[y]
  {
    var p := Pop(less, q.store, q.heap);
    PopOrders(less, q.store, q.heap);
    PopMembers(q.heap, p.1);
    var x := q.store[p.0].element;
    var r := q.(heap := p.1, finder := if x in q.finder then q.finder - {x} else q.finder);
    PopKeepsFinder(q, r);
  }

  /** The finder entries of the other elements point at slots other than the popped one, so they stay in the heap. */
  lemma PopKeepsFinder<T>(q: PQ<T>, r: PQ<T>)
    requires Valid(q) && |q.heap| > 0
    requires r.store == q.store && r.next == q.next && InStore(r.store, r.heap) && NoDup(r.heap) && Ordered(r.store, r.heap)
    requires forall i :: i in r.heap <==> i in q.heap && i != Top(q)
    requires r.finder == var x := q.store[Top(q)].element; if x in q.finder then q.finder - {x} else q.finder
    ensures Valid(r)
  {
    forall y | y in r.finder
      ensures r.finder[y] in r.heap
    {
      assert q.store[q.finder[y]].element == y;
    }
  }

  /** The loop of `is_empty`: pop while the top entry is invalid. */
  function Purge<T(==)>(less: (T, T) -> bool, q: PQ<T>): (r: PQ<T>)
    requires Valid(q)
    ensures Valid(r) && r.store == q.store && r.next == q.next
    ensures (forall i :: i in r.heap ==> i in q.heap) && Live(r) == Live(q)
    ensures r.finder.Keys <= q.finder.Keys && forall x :: x in r.finder ==> r.finder[x] == q.finder[x]
    ensures |r.heap| == 0 <==> Live(q) == {}
    ensures |r.heap| > 0 ==> Top(r) in Live(q)
    decreases |q.heap|
  {
    if |q.heap| == 0 then q
    else if q.store[Top(q)].count != Invalid then
      assert Top(q) in Live(q);
      q
    else
      var p := PopTop(less, q);
      assert Live(p) == Live(q);
      Purge(less, p)
  }

  /** `contains_element`: the element has a finder entry and that entry is valid. */
  function ContainsElement<T>(q: PQ<T>, x: T): bool
    requires Valid(q)
  {
    x in q.finder && q.store[q.finder[x]].count != Invalid
  }

  /** `is_empty`: whether no valid entry remains, together with the purged queue. */
  function IsEmpty<T(==)>(less: (T, T) -> bool, q: PQ<T>): (r: (bool, PQ<T>))
    requires Valid(q)
    ensures r.0 <==> Live(q) == {}
    ensures Valid(r.1) && Live(r.1) == Live(q) && r.1.store == q.store
  {
    var p := Purge(less, q);
    (|p.heap| == 0, p)
  }

  /** `add_element`: push a new entry, drawing a fresh count when none is given, and point the finder at it. */
  function AddElement<T(==)>(less: (T, T) -> bool, q: PQ<T>, priority: nat, x: T, count: Option<nat>): (r: PQ<T>)
    requires Valid(q)
    requires count.Some? ==> count.value < q.next
    ensures Valid(r)
    ensures forall i :: i in r.heap <==> i in q.heap || i == |q.store|
  {
    var c := if count.None? then q.next else count.value;
    var n := if count.None? then q.next + 1 else q.next;
    PushedValid(less, q, priority, x, c, n);
    var s := q.store + [Entry(priority, c, x)];
    PQ(s, Push(less, s, q.heap, |q.store|), q.finder[x := |q.store|], n)
  }

  /** Pushing a new entry with a count below the next one keeps the queue valid, and its slot joins the heap. */
  lemma PushedValid<T>(less: (T, T) -> bool, q: PQ<T>, priority: nat, x: T, c: nat, n: nat)
    requires Valid(q) && c < n && q.next <= n
    ensures var s := q.store + [Entry(priority, c, x)];
      var r := PQ(s, Push(less, s, q.heap, |q.store|), q.finder[x := |q.store|], n);
      Valid(r) && forall i :: i in r.heap <==> i in q.heap || i == |q.store|
  {
    var slot := |q.store|;
    var s := q.store + [Entry(priority, c, x)];
    OrderedSamePriorities(q.store, s, q.heap);
    var h := Push(less, s, q.heap, slot);
    PushOrders(less, s, q.heap, slot);
    assert slot !in q.heap;
    PushMembers(q.heap, h, slot);
    assert InStore(s, h);
  }

  /** Set the count of slot `i` to `Invalid`, as `entry[1] = self.INVALID` does through the shared entry. */
  function Invalidate<T>(q: PQ<T>, i: nat): (r: PQ<T>)
    requires Valid(q) && i < |q.store|
    ensures Valid(r)
  {
    var s := q.store[i := q.store[i].(count := Invalid)];
    OrderedSamePriorities(q.store, s, q.heap);
    q.(store := s)
  }

  /** `delete_element`. */
  function DeleteElement<T>(q: PQ<T>, x: T): (r: Result<PQ<T>>)
    requires Valid(q)
    ensures r.Ok? ==> Valid(r.value)
  {
    if x !in q.finder then Err(ValueError)
    else Ok(Invalidate(q, q.finder[x]))
  }

  /** `reprioritize`: push the element again with the new priority and its old count, then invalidate the old entry. */
  function Reprioritize<T(==)>(less: (T, T) -> bool, q: PQ<T>, priority: nat, x: T): (r: Result<PQ<T>>)
    requires Valid(q)
    ensures r.Ok? ==> Valid(r.value)
  {
    if x !in q.finder then Err(ValueError)
    else
      var prev := q.finder[x];
      Ok(Invalidate(AddElement(less, q, priority, x, Some(q.store[prev].count)), prev))
  }

  /** `get_top_priority`: after the purge the top entry is popped and its element returned; `IndexError` when nothing valid remains. */
  function GetTopPriority<T(==)>(less: (T, T) -> bool, q: PQ<T>): (r: (Result<T>, PQ<T>))
    requires Valid(q)
    ensures Valid(r.1) && r.1.store == q.store
  {
    var p := Purge(less, q);
    if |p.heap| == 0 then (Err(IndexError), p)
    else (Ok(p.store[Top(p)].element), PopTop(less, p))
  }

  /** `peek`: after the purge, the top element, not popped. */
  function Peek<T(==)>(less: (T, T) -> bool, q: PQ<T>): (r: (Result<T>, PQ<T>))
    requires Valid(q)
    ensures Valid(r.1)
  {
    var p := Purge(less, q);
    if |p.heap| == 0 then (Err(IndexError), p)
    else (Ok(p.store[Top(p)].element), p)
  }

  /** The queue of `PriorityQueue()`. */
  function Empty<T>(): (q: PQ<T>)
    ensures Valid(q) && Live(q) == {}
  {
    PQ([], [], map[], 1)
  }

  // ---------------------------------------------------------------------------
  // What the operations promise
  // ---------------------------------------------------------------------------

  /**
   `add_element` without a count: the new entry gets the next count, which
   exceeds every count in the queue, so among equal priorities it compares
   greater than everything already queued; nothing already queued changes.
   */
  lemma AddElementFresh<T>(less: (T, T) -> bool, q: PQ<T>, priority: nat, x: T)
    requires Valid(q)
    ensures var r := AddElement(less, q, priority, x, None);
      && Valid(r) && ContainsElement(r, x)
      && r.store[r.finder[x]].priority == priority && r.store[r.finder[x]].element == x
      && (forall j :: j in Live(q) ==> q.store[j].count < r.store[r.finder[x]].count)
      && Live(r) == Live(q) + {r.finder[x]} && r.finder[x] !in q.heap
      && (forall y :: y != x ==> (y in r.finder <==> y in q.finder))
      && (forall y :: y != x && y in q.finder ==> r.finder[y] == q.finder[y])
      && r.store == q.store + [Entry(priority, q.next, x)] && r.next == q.next + 1 && r.finder[x] == |q.store|
  {
    var r := AddElement(less, q, priority, x, None);
    assert |q.store| !in q.heap;
    assert Live(r) == Live(q) + {|q.store|};
  }

  /**
   A fresh entry draws the largest count so far, so it ties with nothing:
   when its priority is no less than that of its parent slot, `heappush`
   leaves it at the end of the heap, after every entry of equal priority.
   */
  lemma AddNoLessStaysLast<T>(less: (T, T) -> bool, q: PQ<T>, priority: nat, x: T)
    requires Valid(q) && |q.heap| > 0 && q.store[q.heap[Parent(|q.heap|)]].priority <= priority
    ensures AddElement(less, q, priority, x, None).heap == q.heap + [|q.store|]
  {
    assert q.store[q.heap[Parent(|q.heap|)]].count < q.next;
  }

  /**
   A fresh entry whose priority is less than its parent's but no less than
   its grandparent's rises exactly one level.
   */
  lemma AddRisesOneLevel<T>(less: (T, T) -> bool, q: PQ<T>, priority: nat, x: T)
    requires Valid(q) && |q.heap| > 2
    requires priority < q.store[q.heap[Parent(|q.heap|)]].priority
    requires q.store[q.heap[Parent(Parent(|q.heap|))]].priority <= priority
    ensures AddElement(less, q, priority, x, None).heap == Swap(q.heap + [|q.store|], |q.heap|, Parent(|q.heap|))
  {
    var n := |q.heap|;
    var s := q.store + [Entry(priority, q.next, x)];
    var h := q.heap + [|q.store|];
    assert AddElement(less, q, priority, x, None).heap == SiftDown(less, s, h, n);
    assert s[h[Parent(Parent(n))]] == q.store[q.heap[Parent(Parent(n))]] && s[h[Parent(Parent(n))]].count < q.next;
    assert s[h[Parent(n)]] == q.store[q.heap[Parent(n)]];
    SiftDownOneLevel(less, s, h, n);
  }

  /**
   The class note says only unique elements are allowed, but `add_element`
   does not enforce it: adding an element that is already contained leaves
   its old entry valid, so two valid entries for it are queued.
   */
  lemma ReAddKeepsOldEntry<T>(less: (T, T) -> bool, q: PQ<T>, priority: nat, x: T)
    requires Valid(q) && ContainsElement(q, x)
    ensures var r := AddElement(less, q, priority, x, None);
      && q.finder[x] in Live(r) && r.finder[x] in Live(r) && q.finder[x] != r.finder[x]
      && r.store[q.finder[x]].element == x && r.store[r.finder[x]].element == x
  {
    AddElementFresh(less, q, priority, x);
  }

  /** `delete_element`: `ValueError` exactly for an element without finder entry; otherwise its entry is invalidated and nothing else. */
  lemma DeleteElementSpec<T>(q: PQ<T>, x: T)
    requires Valid(q)
    ensures DeleteElement(q, x).Err? <==> x !in q.finder
    ensures DeleteElement(q, x).Err? ==> DeleteElement(q, x).error == ValueError
    ensures DeleteElement(q, x).Ok? ==>
      var r := DeleteElement(q, x).value;
      && Valid(r) && !ContainsElement(r, x)
      && Live(r) == Live(q) - {q.finder[x]}
      && r.finder == q.finder && r.heap == q.heap
      && (forall y :: y != x && y in q.finder ==> (ContainsElement(r, y) <==> ContainsElement(q, y)))
  {
    if x in q.finder {
      var r := Invalidate(q, q.finder[x]);
      assert Live(r) == Live(q) - {q.finder[x]};
      forall y | y != x && y in q.finder
        ensures ContainsElement(r, y) <==> ContainsElement(q, y)
      {
        assert q.store[q.finder[y]].element == y;
      }
    }
  }

  /**
   `reprioritize`: `ValueError` exactly for an element without finder entry;
   otherwise the element's new entry carries the new priority and the old
   entry's count (its tie position), the old entry is invalidated, and
   whether the element is contained does not change.
   */
  lemma ReprioritizeSpec<T>(less: (T, T) -> bool, q: PQ<T>, priority: nat, x: T)
    requires Valid(q)
    ensures Reprioritize(less, q, priority, x).Err? <==> x !in q.finder
    ensures Reprioritize(less, q, priority, x).Err? ==> Reprioritize(less, q, priority, x).error == ValueError
    ensures Reprioritize(less, q, priority, x).Ok? ==>
      var r := Reprioritize(less, q, priority, x).value;
      && Valid(r) && x in r.finder
      && r.store[r.finder[x]].priority == priority
      && r.store[r.finder[x]].count == q.store[q.finder[x]].count
      && r.store[q.finder[x]].count == Invalid
      && |r.store| == |q.store| + 1 && r.finder[x] == |q.store| && r.store[|q.store|].element == x
      && (forall i :: 0 <= i < |q.store| ==> r.store[i].element == q.store[i].element && r.store[i].priority == q.store[i].priority)
      && (ContainsElement(r, x) <==> ContainsElement(q, x))
      && (forall y :: y != x && y in q.finder ==> y in r.finder && (ContainsElement(r, y) <==> ContainsElement(q, y)))
  {
    if x in q.finder {
      var prev := q.finder[x];
      var a := AddElement(less, q, priority, x, Some(q.store[prev].count));
      var r := Invalidate(a, prev);
      assert r.finder[x] == |q.store| != prev;
      forall y | y != x && y in q.finder
        ensures y in r.finder && (ContainsElement(r, y) <==> ContainsElement(q, y))
      {
        assert q.store[q.finder[y]].element == y;
      }
    }
  }

  /** After the purge, the top entry is valid and has the least priority among the valid entries. */
  lemma PurgedTopLeast<T>(less: (T, T) -> bool, q: PQ<T>)
    requires Valid(q) && Live(q) != {}
    ensures var p := Purge(less, q);
      && |p.heap| > 0 && Top(p) in Live(q)
      && forall j :: j in Live(q) ==> q.store[Top(p)].priority <= q.store[j].priority
  {
    var p := Purge(less, q);
    forall j | j in Live(q)
      ensures q.store[Top(p)].priority <= q.store[j].priority
    {
      assert j in p.heap;
      var k :| 0 <= k < |p.heap| && p.heap[k] == j;
      RootLeast(p.store, p.heap, k);
    }
  }

  /**
   `get_top_priority`: `IndexError` exactly when no valid entry is queued;
   otherwise the element of a valid entry whose priority is least among all
   valid entries, which leaves the queue; the element is no longer contained
   afterwards. Which of several valid entries of least priority comes out is
   decided by the heap's layout.
   */
  lemma GetTopPrioritySpec<T>(less: (T, T) -> bool, q: PQ<T>, x: Result<T>, r: PQ<T>)
    requires Valid(q) && (x, r) == GetTopPriority(less, q)
    ensures x.Err? <==> Live(q) == {}
    ensures x.Err? ==> x.error == IndexError
    ensures Valid(r)
    ensures x.Ok? ==> !ContainsElement(r, x.value) && x.value !in r.finder
    ensures x.Ok? ==>
      exists t :: t in Live(q) && q.store[t].element == x.value && Live(r) == Live(q) - {t}
        && (forall j :: j in Live(q) ==> q.store[t].priority <= q.store[j].priority)
  {
    if Live(q) != {} {
      PurgedTopLeast(less, q);
      var p := Purge(less, q);
      var t := Top(p);
      assert Live(r) == Live(p) - {t};
      assert q.store[t].element == x.value;
    }
  }

  /** `peek`: `IndexError` exactly when nothing valid is queued; otherwise the element of a valid entry of least priority, nothing valid popped. */
  lemma PeekSpec<T>(less: (T, T) -> bool, q: PQ<T>, x: Result<T>, r: PQ<T>)
    requires Valid(q) && (x, r) == Peek(less, q)
    ensures x.Err? <==> Live(q) == {}
    ensures x.Err? ==> x.error == IndexError
    ensures Valid(r) && Live(r) == Live(q)
    ensures x.Ok? ==>
      exists t :: t in Live(q) && q.store[t].element == x.value
        && (forall j :: j in Live(q) ==> q.store[t].priority <= q.store[j].priority)
  {
    if Live(q) != {} {
      PurgedTopLeast(less, q);
      var t := Top(Purge(less, q));
      assert q.store[t].element == x.value;
    }
  }

  /** A valid entry whose priority is strictly less than that of every other valid entry is what `peek` and `get_top_priority` return. */
  lemma UniqueLeastComesFirst<T>(less: (T, T) -> bool, q: PQ<T>, i: nat)
    requires Valid(q) && i in Live(q)
    requires forall j :: j in Live(q) && j != i ==> q.store[i].priority < q.store[j].priority
    ensures Peek(less, q).0 == Ok(q.store[i].element) && GetTopPriority(less, q).0 == Ok(q.store[i].element)
  {
    PurgedTopLeast(less, q);
  }

  /** `peek` followed by `get_top_priority` yields the same element, which is then no longer contained. */
  lemma PeekThenPop<T>(less: (T, T) -> bool, q: PQ<T>, x: Result<T>, q1: PQ<T>, y: Result<T>, q2: PQ<T>)
    requires Valid(q) && (x, q1) == Peek(less, q) && (y, q2) == GetTopPriority(less, q1)
    ensures x == y
    ensures y.Ok? ==> !ContainsElement(q2, y.value)
  {
    var p := Purge(less, q);
    assert q1 == p;
    assert Purge(less, p) == p;
  }

  // ---------------------------------------------------------------------------
  // Stale entries and the finder
  // ---------------------------------------------------------------------------

  /**
   An invalid entry whose priority is strictly less than that of every other
   slot in the heap is on top, so the purge of `is_empty` pops it, and popping
   it deletes the finder entry of its element, whichever entry that finder
   entry points to.
   */
  lemma PurgePopsStale<T>(less: (T, T) -> bool, q: PQ<T>, i: nat)
    requires Valid(q) && i in q.heap && i < |q.store| && q.store[i].count == Invalid
    requires forall k :: 0 <= k < |q.heap| && q.heap[k] != i ==> q.store[i].priority < q.store[q.heap[k]].priority
    ensures Top(q) == i
    ensures i !in Purge(less, q).heap && q.store[i].element !in Purge(less, q).finder
  {
    var k :| 0 <= k < |q.heap| && q.heap[k] == i;
    RootLeast(q.store, q.heap, k);
  }

  /**
   When the strictly least slot of the heap is invalid and the strictly least
   of the others is valid, the purge pops exactly the first, and `peek`
   returns the element of the second.
   */
  lemma StaleThenLeast<T>(less: (T, T) -> bool, q: PQ<T>, i: nat, j: nat)
    requires Valid(q) && i in q.heap && j in q.heap && i != j && i < |q.store| && j < |q.store|
    requires q.store[i].count == Invalid && q.store[j].count != Invalid
    requires forall k :: 0 <= k < |q.heap| && q.heap[k] != i ==> q.store[i].priority < q.store[q.heap[k]].priority
    requires forall k :: 0 <= k < |q.heap| && q.heap[k] != i && q.heap[k] != j ==> q.store[j].priority < q.store[q.heap[k]].priority
    ensures |q.heap| > 0 && Top(q) == i
    ensures Purge(less, q) == PopTop(less, q)
    ensures Peek(less, q) == (Ok(q.store[j].element), PopTop(less, q))
  {
    var k :| 0 <= k < |q.heap| && q.heap[k] == i;
    RootLeast(q.store, q.heap, k);
    var p := PopTop(less, q);
    assert j in p.heap;
    var m :| 0 <= m < |p.heap| && p.heap[m] == j;
    RootLeast(p.store, p.heap, m);
    var t := p.heap[0];
    assert t in q.heap && t != i;
    var kt :| 0 <= kt < |q.heap| && q.heap[kt] == t;
    if t != j {
      assert false;
    }
    assert Purge(less, q) == Purge(less, p);
    assert Purge(less, p) == p;
  }

  /**
   `reprioritize` of the contained element whose priority is strictly least
   in the heap, to a larger priority, leaves its old entry (now invalid) on
   top; the next purge pops it and deletes the element's finder entry,
   although the new entry is still valid and queued. From then on
   `contains_element` reports the element as absent, and `delete_element` and
   `reprioritize` raise `ValueError` for it.
   */
  lemma ReprioritizeMinLosesElement<T>(less: (T, T) -> bool, q: PQ<T>, priority: nat, x: T)
    requires Valid(q) && ContainsElement(q, x)
    requires forall k :: 0 <= k < |q.heap| && q.heap[k] != q.finder[x] ==> q.store[q.finder[x]].priority < q.store[q.heap[k]].priority
    requires q.store[q.finder[x]].priority < priority
    ensures Reprioritize(less, q, priority, x).Ok?
    ensures var s := Peek(less, Reprioritize(less, q, priority, x).value).1;
      && |q.store| in Live(s) && s.store[|q.store|].element == x
      && !ContainsElement(s, x) && x !in s.finder
      && Reprioritize(less, s, priority, x).Err? && DeleteElement(s, x).Err?
  {
    ReprioritizeSpec(less, q, priority, x);
    var prev := q.finder[x];
    var r := Reprioritize(less, q, priority, x).value;
    assert r.store[prev].element == x && r.store[prev].count == Invalid;
    assert r.store[|q.store|] == Entry(priority, q.store[prev].count, x);
    assert |q.store| in Live(r);
    forall k | 0 <= k < |r.heap| && r.heap[k] != prev
      ensures r.store[prev].priority < r.store[r.heap[k]].priority
    {
      if r.heap[k] != |q.store| {
        assert r.heap[k] in q.heap;
        var k' :| 0 <= k' < |q.heap| && q.heap[k'] == r.heap[k];
      }
    }
    PurgePopsStale(less, r, prev);
  }

  // ---------------------------------------------------------------------------
  // The queue of the unit test
  // ---------------------------------------------------------------------------

  // The unit test's elements are the strings "a" to "e", here characters. Its
  // priorities never tie, so the element order `less` is never consulted and
  // every lemma below holds for any order.

  /** `add_element` without a count for each (priority, element) pair in turn. */
  function AddAll<T(==)>(less: (T, T) -> bool, q: PQ<T>, items: seq<(nat, T)>): (r: PQ<T>)
    requires Valid(q)
    ensures Valid(r)
    decreases |items|
  {
    if items == [] then q
    else
      var last := items[|items| - 1];
      AddElement(less, AddAll(less, q, items[..|items| - 1]), last.0, last.1, None)
  }

  /**
   Distinct elements added to an empty queue get the slots 0, 1, ... and the
   counts 1, 2, ... in the order they were added, and each is found at its slot.
   */
  lemma {:induction false} AddAllEntries<T>(less: (T, T) -> bool, items: seq<(nat, T)>)
    requires forall i, j :: 0 <= i < j < |items| ==> items[i].1 != items[j].1
    ensures var r := AddAll(less, Empty(), items);
      && |r.store| == |items| && r.next == |items| + 1
      && forall i :: 0 <= i < |items| ==>
           r.store[i] == Entry(items[i].0, i + 1, items[i].1) && items[i].1 in r.finder && r.finder[items[i].1] == i
    decreases |items|
  {
    if items != [] {
      var init := items[..|items| - 1];
      var last := items[|items| - 1];
      AddAllEntries(less, init);
      var q := AddAll(less, Empty(), init);
      var r := AddElement(less, q, last.0, last.1, None);
      assert r == AddAll(less, Empty(), items);
      assert r.store == q.store + [Entry(last.0, q.next, last.1)] && r.finder == q.finder[last.1 := |q.store|];
      forall i | 0 <= i < |items|
        ensures r.store[i] == Entry(items[i].0, i + 1, items[i].1) && items[i].1 in r.finder && r.finder[items[i].1] == i
      {
        if i < |init| {
          assert init[i] == items[i] && items[i].1 != last.1;
          assert r.store[i] == q.store[i];
        }
      }
    }
  }

  /** Five elements added with priorities 3, 2, 4, 1, 5. */
  function FiveAdded(less: (char, char) -> bool): (q: PQ<char>)
    ensures Valid(q)
  {
    AddAll(less, Empty(), [(3, 'a'), (2, 'b'), (4, 'c'), (1, 'd'), (5, 'e')])
  }

  /** The entries and finder after the five additions. */
  ghost predicate IsFiveAdded(q: PQ<char>) {
    && |q.store| == 5 && q.store[0] == Entry(3, 1, 'a') && q.store[1] == Entry(2, 2, 'b') && q.store[2] == Entry(4, 3, 'c')
    && q.store[3] == Entry(1, 4, 'd') && q.store[4] == Entry(5, 5, 'e')
    && 'a' in q.finder && q.finder['a'] == 0 && 'b' in q.finder && q.finder['b'] == 1 && 'c' in q.finder && q.finder['c'] == 2
    && 'd' in q.finder && q.finder['d'] == 3 && 'e' in q.finder && q.finder['e'] == 4
  }

  lemma FiveAddedShape(less: (char, char) -> bool)
    ensures IsFiveAdded(FiveAdded(less))
  {
    var items: seq<(nat, char)> := [(3, 'a'), (2, 'b'), (4, 'c'), (1, 'd'), (5, 'e')];
    assert items[0].1 == 'a' && items[1].1 == 'b' && items[2].1 == 'c' && items[3].1 == 'd' && items[4].1 == 'e';
    AddAllEntries(less, items);
    var r := AddAll(less, Empty(), items);
    assert r.store[0] == Entry(3, 1, 'a') && r.finder['a'] == 0;
    assert r.store[1] == Entry(2, 2, 'b') && r.finder['b'] == 1;
    assert r.store[2] == Entry(4, 3, 'c') && r.finder['c'] == 2;
    assert r.store[3] == Entry(1, 4, 'd') && r.finder['d'] == 3;
    assert r.store[4] == Entry(5, 5, 'e') && r.finder['e'] == 4;
  }

  /** `d`, of least priority, is what `peek` returns, and all five are contained. */
  lemma FiveAddedPeek(less: (char, char) -> bool, q: PQ<char>)
    requires Valid(q) && IsFiveAdded(q)
    ensures Peek(less, q).0 == Ok('d')
    ensures ContainsElement(q, 'a') && ContainsElement(q, 'b') && ContainsElement(q, 'c')
    ensures ContainsElement(q, 'd') && ContainsElement(q, 'e')
  {
    assert q.finder['d'] == 3 && 3 in Live(q);
    forall j | j in Live(q) && j != 3
      ensures q.store[3].priority < q.store[j].priority
    {
    }
    UniqueLeastComesFirst(less, q, 3);
  }

  /** Every slot of the heap other than `i` holds an entry of larger priority. */
  ghost predicate StrictlyLeast<T>(q: PQ<T>, i: nat)
    requires Valid(q) && i < |q.store|
  {
    forall k :: 0 <= k < |q.heap| && q.heap[k] != i ==> q.store[i].priority < q.store[q.heap[k]].priority
  }

  /**
   Reprioritizing `d` (the strict minimum) to 6 makes the next `peek` drop
   `d` from the finder: `d` is no longer contained although its new entry
   (slot 5) is queued.
   */
  lemma FiveAddedLosesD(less: (char, char) -> bool, q: PQ<char>)
    requires Valid(q) && IsFiveAdded(q)
    ensures Reprioritize(less, q, 6, 'd').Ok?
    ensures var s := Peek(less, Reprioritize(less, q, 6, 'd').value).1;
      !ContainsElement(s, 'd') && 5 in Live(s)
  {
    assert StrictlyLeast(q, 3);
    ReprioritizeMinLosesElement(less, q, 6, 'd');
  }

  /** The entries and finder after `d` is reprioritized to 6 (`n` = 6), to 6 and 7 (`n` = 7), or to 6, 7 and 8 (`n` = 8). */
  ghost predicate ReprioritizedEntries(q: PQ<char>, n: nat)
    requires 6 <= n <= 8
  {
    && |q.store| == n && q.store[0] == Entry(3, 1, 'a') && q.store[1] == Entry(2, 2, 'b') && q.store[2] == Entry(4, 3, 'c')
    && q.store[3] == Entry(1, Invalid, 'd') && q.store[4] == Entry(5, 5, 'e')
    && (forall i :: 5 <= i < n - 1 ==> q.store[i] == Entry(i + 1, Invalid, 'd'))
    && q.store[n - 1] == Entry(n, 4, 'd')
    && 'a' in q.finder && q.finder['a'] == 0 && 'b' in q.finder && q.finder['b'] == 1 && 'c' in q.finder && q.finder['c'] == 2
    && 'd' in q.finder && q.finder['d'] == n - 1 && 'e' in q.finder && q.finder['e'] == 4
  }

  /** Those entries, with the first entry of `d` (slot 3) still in the heap. */
  ghost predicate IsReprioritizedTo(q: PQ<char>, n: nat)
    requires 6 <= n <= 8
  {
    ReprioritizedEntries(q, n) && 3 in q.heap
  }

  lemma ReprioritizedToSix(less: (char, char) -> bool, q: PQ<char>)
    requires Valid(q) && IsFiveAdded(q)
    ensures Reprioritize(less, q, 6, 'd').Ok? && IsReprioritizedTo(Reprioritize(less, q, 6, 'd').value, 6)
  {
  }

  lemma ReprioritizedAgain(less: (char, char) -> bool, q: PQ<char>, n: nat)
    requires Valid(q) && 6 <= n < 8 && IsReprioritizedTo(q, n)
    ensures Reprioritize(less, q, n + 1, 'd').Ok? && IsReprioritizedTo(Reprioritize(less, q, n + 1, 'd').value, n + 1)
  {
    assert q.finder['d'] == n - 1 && |q.store| == n;
    ReprioritizeShape(less, q, n + 1, 'd');
    var r := Reprioritize(less, q, n + 1, 'd').value;
    ReprioritizedStep(q, r, n);
  }

  lemma ReprioritizedStep(q: PQ<char>, r: PQ<char>, n: nat)
    requires 6 <= n < 8 && IsReprioritizedTo(q, n)
    requires r.store == q.store[n - 1 := q.store[n - 1].(count := Invalid)] + [Entry(n + 1, q.store[n - 1].count, 'd')]
    requires r.finder == q.finder['d' := |q.store|] && forall i :: i in q.heap ==> i in r.heap
    ensures IsReprioritizedTo(r, n + 1)
  {
    forall i | 5 <= i < n
      ensures r.store[i] == Entry(i + 1, Invalid, 'd')
    {
      if i < n - 1 {
        assert r.store[i] == q.store[i];
      }
    }
  }

  /** The store, finder and heap after `reprioritize` of an element with a finder entry. */
  lemma ReprioritizeShape<T>(less: (T, T) -> bool, q: PQ<T>, priority: nat, x: T)
    requires Valid(q) && x in q.finder
    ensures Reprioritize(less, q, priority, x).Ok?
    ensures var prev := q.finder[x];
      var r := Reprioritize(less, q, priority, x).value;
      && r.store == q.store[prev := q.store[prev].(count := Invalid)] + [Entry(priority, q.store[prev].count, x)]
      && r.finder == q.finder[x := |q.store|]
      && forall i :: i in q.heap ==> i in r.heap
  {
  }

  /** A slot whose priority is strictly less than that of every other slot in the heap is on top. */
  lemma StrictlyLeastOnTop<T>(q: PQ<T>, i: nat)
    requires Valid(q) && i in q.heap && i < |q.store| && StrictlyLeast(q, i)
    ensures |q.heap| > 0 && Top(q) == i
  {
    var k :| 0 <= k < |q.heap| && q.heap[k] == i;
    RootLeast(q.store, q.heap, k);
  }

  /**
   The unit test: after `d` is reprioritized to 6, 7 and 8, the stale entry
   of `d` with priority 1 is on top and invalid, so the purge of `peek` pops
   it and stops at `b`, the least of the rest, which `peek` returns.
   */
  lemma TestReprioritized(less: (char, char) -> bool, q: PQ<char>)
    requires Valid(q) && IsReprioritizedTo(q, 8)
    ensures |q.heap| > 0 && Top(q) == 3
    ensures Purge(less, q) == PopTop(less, q)
    ensures Peek(less, q) == (Ok('b'), PopTop(less, q))
  {
    assert q.finder['b'] == 1 && 1 in q.heap;
    assert forall j :: 4 <= j < 8 ==> q.store[j].priority == j + 1;
    StaleThenLeast(less, q, 3, 1);
  }

  /**
   That `peek` dropped `d` from the finder together with the stale entry:
   `d` is no longer contained although its entry with priority 8 (slot 7)
   is still queued and valid.
   */
  lemma TestReprioritizedLosesD(less: (char, char) -> bool, q: PQ<char>)
    requires Valid(q) && IsReprioritizedTo(q, 8)
    ensures var p := Peek(less, q).1;
      && !ContainsElement(p, 'd') && 7 in Live(p) && IsPeekedOnce(p)
  {
    TestReprioritized(less, q);
    assert q.finder['d'] == 7 && 7 in Live(q);
    var p := PopTop(less, q);
    assert q.store[Top(q)].element == 'd';
    PeekedOnceFrom(q, p);
    assert 7 in p.heap;
  }

  /** What popping the stale entry of `d` leaves, stated without the heap order. */
  lemma PeekedOnceFrom(q: PQ<char>, p: PQ<char>)
    requires ReprioritizedEntries(q, 8)
    requires p.store == q.store && p.finder.Keys == q.finder.Keys - {'d'} && 3 !in p.heap
    requires forall x :: x in p.finder ==> p.finder[x] == q.finder[x]
    ensures IsPeekedOnce(p)
  {
    assert 'a' in p.finder && 'b' in p.finder && 'c' in p.finder && 'e' in p.finder;
  }

  /** The queue after that `peek`: the entries are unchanged, the stale entry of `d` in slot 3 is gone, and so is `d`'s finder entry. */
  ghost predicate IsPeekedOnce(q: PQ<char>) {
    && ReprioritizedEntries(q.(finder := q.finder['d' := 7]), 8) && 3 !in q.heap && 'd' !in q.finder
  }

  /** The unit test goes on: `b` is deleted and is no longer contained, while the other elements keep their state. */
  lemma TestDeleteB(q: PQ<char>)
    requires Valid(q) && IsPeekedOnce(q)
    ensures DeleteElement(q, 'b').Ok?
    ensures var d := DeleteElement(q, 'b').value;
      && !ContainsElement(d, 'b') && ContainsElement(d, 'a') && d.heap == q.heap
      && d.store == q.store[1 := Entry(2, Invalid, 'b')] && d.finder == q.finder
  {
    assert q.finder['b'] == 1 && q.finder['a'] == 0;
  }

  /**
   Then `peek` returns `a`: the purge popped the invalid entry of `b`, now
   of least priority, and with it `b`'s finder entry.
   */
  lemma TestPeekAfterDelete(less: (char, char) -> bool, q: PQ<char>)
    requires Valid(q) && IsPeekedOnce(q)
    ensures DeleteElement(q, 'b').Ok?
    ensures var p := Peek(less, DeleteElement(q, 'b').value);
      && p.0 == Ok('a') && 'b' !in p.1.finder && ContainsElement(p.1, 'a')
  {
    TestDeleteB(q);
    var d := DeleteElement(q, 'b').value;
    assert d.finder['b'] == 1 && d.finder['a'] == 0 && 1 in d.heap && 0 in d.heap;
    assert forall j :: 4 <= j < 8 ==> d.store[j].priority == j + 1;
    StaleThenLeast(less, d, 1, 0);
    var p := PopTop(less, d);
    assert 'a' in p.finder && p.finder['a'] == 0 && 0 in Live(p);
  }

  /**
   Then `get_top_priority` returns `a`, after which `a` is not contained, and
   deleting or reprioritizing `b` raises `ValueError`.
   */
  lemma TestPopA(less: (char, char) -> bool, q: PQ<char>)
    requires Valid(q) && ContainsElement(q, 'a') && 'b' !in q.finder
    requires Peek(less, q).0 == Ok('a')
    ensures GetTopPriority(less, q).0 == Ok('a')
    ensures var r := GetTopPriority(less, q).1;
      && !ContainsElement(r, 'a')
      && DeleteElement(r, 'b') == Err(ValueError) && Reprioritize(less, r, 1, 'b') == Err(ValueError)
  {
  }

  /** A fresh queue has nothing to peek at or pop. */
  lemma EmptyRaises<T>(less: (T, T) -> bool)
    ensures Peek(less, Empty<T>()).0 == Err(IndexError) && GetTopPriority(less, Empty<T>()).0 == Err(IndexError)
  {
  }

  // ---------------------------------------------------------------------------
  // Ties are decided by the heap's layout
  // ---------------------------------------------------------------------------

  /**
   `y` and then `x` are added with priority 1, and `x` is reprioritized to 5.
   The stale entry of `x` ties with `y` on priority but has the larger count,
   so it sits below `y`: `peek` returns `y` without popping anything, and `x`
   is still contained.
   */
  lemma TiedStaleEntryStaysBelow(less: (char, char) -> bool)
    ensures var q := AddElement(less, AddElement(less, Empty(), 1, 'y', None), 1, 'x', None);
      && Reprioritize(less, q, 5, 'x').Ok?
      && var r := Reprioritize(less, q, 5, 'x').value;
      && Peek(less, r) == (Ok('y'), r) && ContainsElement(r, 'x')
  {
    var q1 := PQ([Entry(1, 1, 'y')], [0], map['y' := 0], 2);
    assert AddElement(less, Empty(), 1, 'y', None) == q1;
    var q := PQ([Entry(1, 1, 'y'), Entry(1, 2, 'x')], [0, 1], map['y' := 0, 'x' := 1], 3);
    TiedStays(less);
    StaleBelow(less, q);
    var r := Reprioritize(less, q, 5, 'x').value;
    assert Top(r) == 0 && r.store[0].count != Invalid;
    assert Purge(less, r) == r;
  }

  /** `x`, tied with `y` on priority but with the larger count, stays below it. */
  lemma TiedStays(less: (char, char) -> bool)
    ensures AddElement(less, PQ([Entry(1, 1, 'y')], [0], map['y' := 0], 2), 1, 'x', None)
         == PQ([Entry(1, 1, 'y'), Entry(1, 2, 'x')], [0, 1], map['y' := 0, 'x' := 1], 3)
  {
    var q := PQ([Entry(1, 1, 'y')], [0], map['y' := 0], 2);
    var s := [Entry(1, 1, 'y'), Entry(1, 2, 'x')];
    assert q.store + [Entry(1, 2, 'x')] == s;
    assert AddElement(less, q, 1, 'x', None) == PQ(s, Push(less, s, [0], 1), q.finder['x' := 1], 3);
    PushStaysLast(less, s, [0], 1);
    assert [0] + [1] == [0, 1];
  }

  /** Reprioritizing `x` to 5 pushes its new entry below `y` and points the finder at it. */
  lemma StaleBelow(less: (char, char) -> bool, q: PQ<char>)
    requires Valid(q) && q.heap == [0, 1] && q.store == [Entry(1, 1, 'y'), Entry(1, 2, 'x')]
    requires 'x' in q.finder && q.finder['x'] == 1
    ensures var r := Reprioritize(less, q, 5, 'x');
      && r.Ok? && r.value.heap == [0, 1, 2] && |r.value.store| == 3
      && r.value.store[0] == Entry(1, 1, 'y') && r.value.store[2] == Entry(5, 2, 'x')
      && 'x' in r.value.finder && r.value.finder['x'] == 2
  {
    ReprioritizeShape(less, q, 5, 'x');
    var s := q.store + [Entry(5, 2, 'x')];
    var a := AddElement(less, q, 5, 'x', Some(2));
    assert a.heap == Push(less, s, q.heap, 2);
    assert Parent(|q.heap|) == 0 && s[2] == Entry(5, 2, 'x') && s[0] == Entry(1, 1, 'y');
    PushStaysLast(less, s, q.heap, 2);
    assert q.heap + [2] == [0, 1, 2];
    assert Reprioritize(less, q, 5, 'x') == Ok(Invalidate(a, 1));
  }

  /** Four elements added: `a` with priority 9, then `r`, `c` and `e` with 5. */
  function FourAdded(less: (char, char) -> bool): (q: PQ<char>)
    ensures Valid(q)
  {
    var q1 := AddElement(less, Empty(), 9, 'a', None);
    var q2 := AddElement(less, q1, 5, 'r', None);
    var q3 := AddElement(less, q2, 5, 'c', None);
    AddElement(less, q3, 5, 'e', None)
  }

  /** Then `f` and `g` with priority 6. */
  function SixAdded(less: (char, char) -> bool): (q: PQ<char>)
    ensures Valid(q)
  {
    var q4 := FourAdded(less);
    var q5 := AddElement(less, q4, 6, 'f', None);
    AddElement(less, q5, 6, 'g', None)
  }

  /** The entries, heap layout and finder after the first four additions: `r` rose to the top, `e` above `a`. */
  ghost predicate IsFourAdded(q: PQ<char>) {
    && |q.store| == 4 && q.store[0] == Entry(9, 1, 'a') && q.store[1] == Entry(5, 2, 'r') && q.store[2] == Entry(5, 3, 'c')
    && q.store[3] == Entry(5, 4, 'e') && q.heap == [1, 3, 2, 0] && q.next == 5
    && 'a' in q.finder && q.finder['a'] == 0 && 'c' in q.finder && q.finder['c'] == 2
  }

  /** After all six: `f` and `g` stay at the end. */
  ghost predicate IsSixAdded(q: PQ<char>) {
    && |q.store| == 6 && q.store[0] == Entry(9, 1, 'a') && q.store[1] == Entry(5, 2, 'r') && q.store[2] == Entry(5, 3, 'c')
    && q.store[3] == Entry(5, 4, 'e') && q.store[4] == Entry(6, 5, 'f') && q.store[5] == Entry(6, 6, 'g')
    && q.heap == [1, 3, 2, 0, 4, 5]
    && 'a' in q.finder && q.finder['a'] == 0 && 'c' in q.finder && q.finder['c'] == 2
  }

  lemma FourAddedShape(less: (char, char) -> bool)
    ensures IsFourAdded(FourAdded(less))
  {
    TwoAdded(less);
    AddTwoTied(less, AddElement(less, AddElement(less, Empty(), 9, 'a', None), 5, 'r', None));
  }

  /** `r`, added second with the smaller priority, rises above `a`. */
  lemma TwoAdded(less: (char, char) -> bool)
    ensures var q2 := AddElement(less, AddElement(less, Empty(), 9, 'a', None), 5, 'r', None);
      && q2.heap == [1, 0] && q2.store == [Entry(9, 1, 'a'), Entry(5, 2, 'r')] && q2.next == 3
      && 'a' in q2.finder && q2.finder['a'] == 0
  {
    OneAdded(less);
    AddROverA(less);
  }

  lemma OneAdded(less: (char, char) -> bool)
    ensures AddElement(less, Empty(), 9, 'a', None) == PQ([Entry(9, 1, 'a')], [0], map['a' := 0], 2)
  {
  }

  lemma AddROverA(less: (char, char) -> bool)
    ensures AddElement(less, PQ([Entry(9, 1, 'a')], [0], map['a' := 0], 2), 5, 'r', None)
         == PQ([Entry(9, 1, 'a'), Entry(5, 2, 'r')], [1, 0], map['a' := 0, 'r' := 1], 3)
  {
    var q := PQ([Entry(9, 1, 'a')], [0], map['a' := 0], 2);
    var s := [Entry(9, 1, 'a'), Entry(5, 2, 'r')];
    assert q.store + [Entry(5, 2, 'r')] == s;
    assert AddElement(less, q, 5, 'r', None) == PQ(s, Push(less, s, [0], 1), q.finder['r' := 1], 3);
    assert Push(less, s, [0], 1) == SiftDown(less, s, [0, 1], 1) by {
      assert [0] + [1] == [0, 1];
    }
    RisesOverA(less);
  }

  lemma RisesOverA(less: (char, char) -> bool)
    ensures SiftDown(less, [Entry(9, 1, 'a'), Entry(5, 2, 'r')], [0, 1], 1) == [1, 0]
  {
    var s := [Entry(9, 1, 'a'), Entry(5, 2, 'r')];
    assert EntryLess(less, s[1], s[0]);
    assert Parent(1) == 0;
    assert SiftDown(less, s, [0, 1], 1) == SiftDown(less, s, Swap([0, 1], 1, 0), 0);
  }

  lemma AddTwoTied(less: (char, char) -> bool, q2: PQ<char>)
    requires Valid(q2) && q2.heap == [1, 0] && q2.store == [Entry(9, 1, 'a'), Entry(5, 2, 'r')] && q2.next == 3
    requires 'a' in q2.finder && q2.finder['a'] == 0
    ensures IsFourAdded(AddElement(less, AddElement(less, q2, 5, 'c', None), 5, 'e', None))
  {
    AddNoLessStaysLast(less, q2, 5, 'c');
    AddElementFresh(less, q2, 5, 'c');
    AddTiedRises(less, AddElement(less, q2, 5, 'c', None));
  }

  lemma AddTiedRises(less: (char, char) -> bool, q3: PQ<char>)
    requires Valid(q3) && q3.heap == [1, 0, 2] && q3.store == [Entry(9, 1, 'a'), Entry(5, 2, 'r'), Entry(5, 3, 'c')] && q3.next == 4
    requires 'a' in q3.finder && q3.finder['a'] == 0 && 'c' in q3.finder && q3.finder['c'] == 2
    ensures IsFourAdded(AddElement(less, q3, 5, 'e', None))
  {
    AddElementFresh(less, q3, 5, 'e');
    AddRisesOneLevel(less, q3, 5, 'e');
  }

  lemma SixAddedShape(less: (char, char) -> bool)
    ensures IsSixAdded(SixAdded(less))
  {
    var q4 := FourAdded(less);
    FourAddedShape(less);
    AddTwoLast(less, q4);
  }

  lemma AddTwoLast(less: (char, char) -> bool, q4: PQ<char>)
    requires Valid(q4) && IsFourAdded(q4)
    ensures IsSixAdded(AddElement(less, AddElement(less, q4, 6, 'f', None), 6, 'g', None))
  {
    AddFLast(less, q4);
    AddGLast(less, AddElement(less, q4, 6, 'f', None));
  }

  /** After the fifth insertion, of `f` with priority 6. */
  ghost predicate IsFiveWithF(q: PQ<char>) {
    && |q.store| == 5 && q.store[0] == Entry(9, 1, 'a') && q.store[1] == Entry(5, 2, 'r') && q.store[2] == Entry(5, 3, 'c')
    && q.store[3] == Entry(5, 4, 'e') && q.store[4] == Entry(6, 5, 'f')
    && q.heap == [1, 3, 2, 0, 4] && q.next == 6
    && 'a' in q.finder && q.finder['a'] == 0 && 'c' in q.finder && q.finder['c'] == 2
  }

  lemma AddFLast(less: (char, char) -> bool, q4: PQ<char>)
    requires Valid(q4) && IsFourAdded(q4)
    ensures Valid(AddElement(less, q4, 6, 'f', None)) && IsFiveWithF(AddElement(less, q4, 6, 'f', None))
  {
    AddNoLessStaysLast(less, q4, 6, 'f');
    AddElementFresh(less, q4, 6, 'f');
  }

  lemma AddGLast(less: (char, char) -> bool, q5: PQ<char>)
    requires Valid(q5) && IsFiveWithF(q5)
    ensures IsSixAdded(AddElement(less, q5, 6, 'g', None))
  {
    AddNoLessStaysLast(less, q5, 6, 'g');
    AddElementFresh(less, q5, 6, 'g');
  }

  /**
   From there `c` is deleted and `a` reprioritized to 5. Its new entry takes
   the old count 1, so it compares less than `r`'s entry (priority 5, count
   2), yet it is pushed below the invalidated entry of `c`, whose count is
   now 0, and does not rise: `get_top_priority` returns `r`, while the entry
   of `a` stays valid and queued.
   */
  lemma LayoutDecidesTies(less: (char, char) -> bool, q: PQ<char>)
    requires Valid(q) && IsSixAdded(q)
    ensures DeleteElement(q, 'c').Ok? && Reprioritize(less, DeleteElement(q, 'c').value, 5, 'a').Ok?
    ensures var r := Reprioritize(less, DeleteElement(q, 'c').value, 5, 'a').value;
      && r.store[6] == Entry(5, 1, 'a') && r.store[1] == Entry(5, 2, 'r') && 6 in Live(r) && 1 in Live(r)
      && GetTopPriority(less, r).0 == Ok('r')
  {
    var d := DeleteElement(q, 'c').value;
    assert d == q.(store := q.store[2 := Entry(5, Invalid, 'c')]);
    ReAddBelowDeleted(less, d);
    var r := Reprioritize(less, d, 5, 'a').value;
    assert r.store[1] == Entry(5, 2, 'r');
    TopValidStays(less, r);
  }

  /** A valid entry on top is what `get_top_priority` returns. */
  lemma TopValidStays<T>(less: (T, T) -> bool, q: PQ<T>)
    requires Valid(q) && |q.heap| > 0 && q.store[Top(q)].count != Invalid
    ensures GetTopPriority(less, q).0 == Ok(q.store[Top(q)].element)
  {
    assert Purge(less, q) == q;
  }

  /** `a`'s new entry (5, 1) lands below the invalidated entry of `c` (5, 0) and stays there; `a`'s old entry is invalidated. */
  lemma ReAddBelowDeleted(less: (char, char) -> bool, d: PQ<char>)
    requires Valid(d) && d.heap == [1, 3, 2, 0, 4, 5] && |d.store| == 6
    requires d.store[0] == Entry(9, 1, 'a') && d.store[2] == Entry(5, Invalid, 'c') && 'a' in d.finder && d.finder['a'] == 0
    ensures Reprioritize(less, d, 5, 'a').Ok?
    ensures var r := Reprioritize(less, d, 5, 'a').value;
      && r.heap == [1, 3, 2, 0, 4, 5, 6] && |r.store| == 7 && r.store[6] == Entry(5, 1, 'a')
      && r.store[1] == d.store[1] && r.store[0].count == Invalid
  {
    var s := d.store + [Entry(5, 1, 'a')];
    var a := AddElement(less, d, 5, 'a', Some(1));
    assert a == PQ(s, Push(less, s, d.heap, 6), d.finder['a' := 6], d.next);
    assert s[6] == Entry(5, 1, 'a') && s[2] == Entry(5, Invalid, 'c');
    assert Parent(|d.heap|) == 2 && d.heap[2] == 2;
    assert InStore(s, d.heap) && 6 < |s|;
    PushStaysLast(less, s, d.heap, 6);
    assert d.heap + [6] == [1, 3, 2, 0, 4, 5, 6];
    assert Reprioritize(less, d, 5, 'a') == Ok(Invalidate(a, 0));
  }
}

=== FILE: shortest_tree.dfy ===
/**
 The Shortest B-Tree procedure (`_shortest_x_tree` in
 `halp/algorithms/directed_paths.py`, after Gallo, Longo, Pallottino and
 Nguyen 1993): node weights `W` start at infinity (0 at the source); nodes
 leave a priority queue by weight; each dequeued node counts once towards
 every hyperedge of its star, and a hyperedge whose count reaches its tail
 size lowers the weight of every head node that `weight(e) + F(tail, W)`
 improves, recording `e` as the node's predecessor. With `forward` false
 the same procedure runs along backward stars with tails and heads exchanged
 (the Shortest F-Tree). `less` is Python's `<` on nodes, which the queue
 consults when two of its entries tie on priority and count.

 What is proved of the result, whatever order sets are iterated in:
 - the source has weight 0 and no predecessor; a node has a predecessor
   exactly when it is not the source and its weight is finite;
 - a predecessor hyperedge contains the node in its head and certifies its
   weight: `weight(e) + F(tail(e), W) <= W[n]` with the final weights;
 - for the sum and distance functions, every node of finite weight is
   B-connected to the source.
 */
module ShortestTree {
  import opened Wrappers
  import opened DirectedIndex
  import opened DirectedHypergraph
  import opened Traversal
  import opened TailWeights
  import PQ = PriorityQueue
  import Heapq

  datatype TreeResult<N> = TreeResult(pv: map<N, Option<nat>>, W: map<N, ExtNat>, ordering: seq<N>)

  // ---------------------------------------------------------------------------
  // The loop invariant, in parts
  // ---------------------------------------------------------------------------

  /** The weight and predecessor maps cover the nodes; the source is fixed at 0; predecessor set exactly for the finite non-source nodes. */
  ghost predicate Shape<N(!new)>(g: Graph<N>, s: N, W: map<N, ExtNat>, pv: map<N, Option<nat>>) {
    && W.Keys == g.nodes.Keys && pv.Keys == g.nodes.Keys
    && s in g.nodes && W[s] == Fin(0) && pv[s] == None
    && (forall n :: n in g.nodes ==> (pv[n].Some? <==> W[n].Fin? && n != s))
  }

  /** Every entry ever queued names a node of finite weight. */
  ghost predicate QueueOk<N(!new)>(g: Graph<N>, W: map<N, ExtNat>, q: PQ.PQ<N>) {
    && PQ.Valid(q)
    && (forall i :: 0 <= i < |q.store| ==> q.store[i].element in g.nodes && q.store[i].element in W && W[q.store[i].element].Fin?)
  }

  /**
   The predecessor `e` of `n` enters `n` through its head, has a non-empty
   tail, and its weight plus `F` of its tail is at most the weight of `n`.
   */
  ghost predicate PredAt<N(!new)>(g: Graph<N>, f: bool, F: TailFunction, W: map<N, ExtNat>, pv: map<N, Option<nat>>, n: N) {
    && n in pv && pv[n].Some? && n in W
    && var e := pv[n].value;
    && e in g.edges && n in Side(g.edges[e], !f) && Side(g.edges[e], f) != {}
    && Defined(F, Side(g.edges[e], f), W)
    && Fin(Weight(g, e)).Plus(Fold(F, Side(g.edges[e], f), W)).Le(W[n])
  }

  ghost predicate Preds<N(!new)>(g: Graph<N>, f: bool, F: TailFunction, W: map<N, ExtNat>, pv: map<N, Option<nat>>) {
    forall n {:trigger PredAt(g, f, F, W, pv, n)} :: n in g.nodes && n in pv && pv[n].Some? ==> PredAt(g, f, F, W, pv, n)
  }

  /** For the sum and distance functions a finite weight means B-connected. */
  ghost predicate Sound<N(!new)>(g: Graph<N>, f: bool, F: TailFunction, s: N, W: map<N, ExtNat>) {
    F != GapFunction ==> forall n {:trigger BConnected(g, f, s, n)} :: n in g.nodes && n in W && W[n].Fin? ==> BConnected(g, f, s, n)
  }

  ghost predicate Inv<N(!new)>(g: Graph<N>, f: bool, F: TailFunction, s: N, W: map<N, ExtNat>, pv: map<N, Option<nat>>, q: PQ.PQ<N>) {
    Shape(g, s, W, pv) && QueueOk(g, W, q) && Preds(g, f, F, W, pv) && Sound(g, f, F, s, W)
  }

  /** No weight of `W1` exceeds the one in `W0`. */
  ghost predicate NoHigher<N>(S: set<N>, W1: map<N, ExtNat>, W0: map<N, ExtNat>)
    requires S <= W1.Keys && S <= W0.Keys
  {
    forall n :: n in S ==> W1[n].Le(W0[n])
  }

  /** The dequeued nodes, in order: the source first, all of finite weight. */
  ghost predicate OrderingOk<N(!new)>(g: Graph<N>, s: N, W: map<N, ExtNat>, ordering: seq<N>) {
    && (|ordering| > 0 ==> ordering[0] == s)
    && forall i :: 0 <= i < |ordering| ==> ordering[i] in g.nodes && ordering[i] in W && W[ordering[i]].Fin?
  }

  // ---------------------------------------------------------------------------
  // Termination: every lowering decreases (unreached nodes, total finite weight)
  // ---------------------------------------------------------------------------

  ghost function Unreached<N>(S: set<N>, W: map<N, ExtNat>): set<N>
    requires S <= W.Keys
  {
    set n | n in S && W[n].Inf?
  }

  /** `W` with infinite weights read as 0. */
  ghost function Finite<N>(W: map<N, ExtNat>): (r: map<N, ExtNat>)
    ensures r.Keys == W.Keys && forall n :: n in r ==> r[n].Fin?
  {
    map n | n in W :: if W[n].Fin? then W[n] else Fin(0)
  }

  lemma {:induction false} SumOfFinite<N>(S: set<N>, W: map<N, ExtNat>)
    requires S <= W.Keys && forall n :: n in S ==> W[n].Fin?
    ensures Fold(SumFunction, S, W).Fin?
    decreases S
  {
    if S != {} {
      var y :| y in S;
      FoldRemove(SumFunction, S, W, y);
      SumOfFinite(S - {y}, W);
    }
  }

  /** The sum of the finite weights over `S`. */
  ghost function FinTotal<N>(S: set<N>, W: map<N, ExtNat>): nat
    requires S <= W.Keys
  {
    SumOfFinite(S, Finite(W));
    Fold(SumFunction, S, Finite(W)).n
  }

  /** `W1` is below `W0` in the lexicographic order on (unreached count, finite total). */
  ghost predicate Lower<N>(S: set<N>, W1: map<N, ExtNat>, W0: map<N, ExtNat>)
    requires S <= W1.Keys && S <= W0.Keys
  {
    || |Unreached(S, W1)| < |Unreached(S, W0)|
    || (|Unreached(S, W1)| == |Unreached(S, W0)| && FinTotal(S, W1) < FinTotal(S, W0))
  }

  lemma LowerTrans<N>(S: set<N>, W2: map<N, ExtNat>, W1: map<N, ExtNat>, W0: map<N, ExtNat>)
    requires S <= W2.Keys && S <= W1.Keys && S <= W0.Keys
    requires Lower(S, W2, W1) && Lower(S, W1, W0)
    ensures Lower(S, W2, W0)
  {
  }

  /** Folds agree where the weights agree. */
  lemma FoldSame<N>(F: TailFunction, S: set<N>, W1: map<N, ExtNat>, W2: map<N, ExtNat>)
    requires Defined(F, S, W1) && Defined(F, S, W2) && forall n :: n in S ==> W1[n] == W2[n]
    ensures Fold(F, S, W1) == Fold(F, S, W2)
  {
    FoldMono(F, S, W1, W2);
    FoldMono(F, S, W2, W1);
  }

  /** Lowering one weight to a finite value moves down in the termination order. */
  lemma LowerOne<N>(S: set<N>, W: map<N, ExtNat>, h: N, b: nat)
    requires S <= W.Keys && h in S && Fin(b).Lt(W[h])
    ensures Lower(S, W[h := Fin(b)], W)
  {
    var W' := W[h := Fin(b)];
    if W[h].Inf? {
      assert Unreached(S, W') == Unreached(S, W) - {h};
    } else {
      assert Unreached(S, W') == Unreached(S, W);
      var F0, F1 := Finite(W), Finite(W');
      FoldRemove(SumFunction, S, F0, h);
      FoldRemove(SumFunction, S, F1, h);
      FoldSame(SumFunction, S - {h}, F0, F1);
      SumOfFinite(S - {h}, F0);
      SumOfFinite(S, F0);
      SumOfFinite(S, F1);
    }
  }

  // ---------------------------------------------------------------------------
  // One lowering
  // ---------------------------------------------------------------------------

  /** Queue `h` at priority `w`: reprioritize when contained, add otherwise. */
  function Enqueue<N(==)>(less: (N, N) -> bool, q: PQ.PQ<N>, h: N, w: nat): (r: PQ.PQ<N>)
    requires PQ.Valid(q)
    ensures PQ.Valid(r)
    ensures |r.store| == |q.store| + 1 && r.store[|q.store|].element == h
    ensures forall i :: 0 <= i < |q.store| ==> r.store[i].element == q.store[i].element
  {
    if PQ.ContainsElement(q, h) then
      PQ.ReprioritizeSpec(less, q, w, h);
      PQ.Reprioritize(less, q, w, h).value
    else
      PQ.AddElementFresh(less, q, w, h);
      PQ.AddElement(less, q, w, h, None)
  }

  lemma LowerShape<N(!new)>(g: Graph<N>, s: N, W: map<N, ExtNat>, pv: map<N, Option<nat>>, e: nat, h: N, w: nat)
    requires Shape(g, s, W, pv) && h in g.nodes && Fin(w).Lt(W[h])
    ensures h != s && Shape(g, s, W[h := Fin(w)], pv[h := Some(e)])
  {
  }

  lemma LowerQueue<N(!new)>(less: (N, N) -> bool, g: Graph<N>, W: map<N, ExtNat>, q: PQ.PQ<N>, h: N, w: nat)
    requires QueueOk(g, W, q) && h in g.nodes && h in W
    ensures QueueOk(g, W[h := Fin(w)], Enqueue(less, q, h, w))
  {
    var r := Enqueue(less, q, h, w);
    forall i | 0 <= i < |r.store|
      ensures r.store[i].element in g.nodes && r.store[i].element in W[h := Fin(w)] && W[h := Fin(w)][r.store[i].element].Fin?
    {
      if i < |q.store| {
        assert r.store[i].element == q.store[i].element;
      }
    }
  }

  lemma LowerPreds<N(!new)>(g: Graph<N>, f: bool, F: TailFunction, W: map<N, ExtNat>, pv: map<N, Option<nat>>, e: nat, h: N, w: nat, Wf: map<N, ExtNat>, fv: ExtNat)
    requires Oriented(g, f) && W.Keys == g.nodes.Keys && pv.Keys == g.nodes.Keys && Preds(g, f, F, W, pv)
    requires e in g.edges && h in Side(g.edges[e], !f) && Side(g.edges[e], f) != {}
    requires Wf.Keys == g.nodes.Keys && NoHigher(g.nodes.Keys, W, Wf)
    requires fv == Fold(F, Side(g.edges[e], f), Wf) && Fin(w) == Fin(Weight(g, e)).Plus(fv) && Fin(w).Lt(W[h])
    ensures Preds(g, f, F, W[h := Fin(w)], pv[h := Some(e)])
  {
    var W', pv' := W[h := Fin(w)], pv[h := Some(e)];
    forall n | n in g.nodes && n in pv' && pv'[n].Some?
      ensures PredAt(g, f, F, W', pv', n)
    {
      if n == h {
        var tail := Side(g.edges[e], f);
        assert tail <= g.nodes.Keys;
        FoldMono(F, tail, W', Wf);
        CombineMono(SumFunction, Fin(Weight(g, e)), Fin(Weight(g, e)), Fold(F, tail, W'), fv);
      } else {
        assert PredAt(g, f, F, W, pv, n);
        var e' := pv'[n].value;
        var tail := Side(g.edges[e'], f);
        FoldMono(F, tail, W', W);
        CombineMono(SumFunction, Fin(Weight(g, e')), Fin(Weight(g, e')), Fold(F, tail, W'), Fold(F, tail, W));
        LeTransitive(Fin(Weight(g, e')).Plus(Fold(F, tail, W')), Fin(Weight(g, e')).Plus(Fold(F, tail, W)), W[n]);
      }
    }
  }

  lemma LowerSound<N(!new)>(g: Graph<N>, f: bool, F: TailFunction, s: N, W: map<N, ExtNat>, h: N, w: nat)
    requires Sound(g, f, F, s, W) && (F != GapFunction ==> BConnected(g, f, s, h))
    ensures Sound(g, f, F, s, W[h := Fin(w)])
  {
    if F != GapFunction {
      var W' := W[h := Fin(w)];
      forall n | n in g.nodes && n in W' && W'[n].Fin?
        ensures BConnected(g, f, s, n)
      {
        if n != h {
          assert W[n].Fin?;
        }
      }
    }
  }

  /** A head of a hyperedge whose non-empty tail is B-connected is B-connected. */
  lemma BConnectedStep<N(!new)>(g: Graph<N>, f: bool, s: N, e: nat, h: N)
    requires e in g.edges && Side(g.edges[e], f) != {} && h in Side(g.edges[e], !f)
    requires forall m :: m in Side(g.edges[e], f) ==> BConnected(g, f, s, m)
    ensures BConnected(g, f, s, h)
  {
    forall S | s in S && BClosed(g, f, S)
      ensures h in S
    {
      forall m | m in Side(g.edges[e], f)
        ensures m in S
      {
        assert BConnected(g, f, s, m);
      }
    }
  }

  /** A finite sum or maximum of the tail weights reaches every head node. */
  lemma HeadsReached<N(!new)>(g: Graph<N>, f: bool, F: TailFunction, s: N, W: map<N, ExtNat>, e: nat, fv: ExtNat)
    requires Oriented(g, f) && W.Keys == g.nodes.Keys && Sound(g, f, F, s, W)
    requires e in g.edges && Side(g.edges[e], f) != {} && fv == Fold(F, Side(g.edges[e], f), W)
    ensures F != GapFunction && fv.Fin? ==> forall h :: h in Side(g.edges[e], !f) ==> BConnected(g, f, s, h)
  {
    if F != GapFunction && fv.Fin? {
      var tail := Side(g.edges[e], f);
      forall m | m in tail
        ensures BConnected(g, f, s, m)
      {
        FoldFinite(F, tail, W, m);
      }
      forall h | h in Side(g.edges[e], !f)
        ensures BConnected(g, f, s, h)
      {
        BConnectedStep(g, f, s, e, h);
      }
    }
  }

  // ---------------------------------------------------------------------------
  // The loops
  // ---------------------------------------------------------------------------

  /** The state after the queue was last popped is `W1`, `q1`; since then nothing changed, or the weights went down. */
  ghost predicate Kept<N>(S: set<N>, W1: map<N, ExtNat>, q1: PQ.PQ<N>, W: map<N, ExtNat>, q: PQ.PQ<N>)
    requires S <= W1.Keys && S <= W.Keys
  {
    (W == W1 && q == q1) || Lower(S, W, W1)
  }

  /** One lowering of `h` to `w` through `e` keeps the invariant and moves down in the termination order. */
  lemma LowerStep<N(!new)>(less: (N, N) -> bool, g: Graph<N>, f: bool, F: TailFunction, s: N, W: map<N, ExtNat>, pv: map<N, Option<nat>>, q: PQ.PQ<N>,
                           e: nat, h: N, w: nat, fv: ExtNat, Wf: map<N, ExtNat>, W0: map<N, ExtNat>, W1: map<N, ExtNat>, q1: PQ.PQ<N>)
    requires Oriented(g, f) && Inv(g, f, F, s, W, pv, q)
    requires e in g.edges && h in Side(g.edges[e], !f) && Side(g.edges[e], f) != {} && Defined(F, Side(g.edges[e], f), Wf)
    requires fv == Fold(F, Side(g.edges[e], f), Wf) && Wf.Keys == g.nodes.Keys && NoHigher(g.nodes.Keys, W, Wf)
    requires F != GapFunction && fv.Fin? ==> forall h :: h in Side(g.edges[e], !f) ==> BConnected(g, f, s, h)
    requires Fin(w) == Fin(Weight(g, e)).Plus(fv) && Fin(w).Lt(W[h])
    requires W0.Keys == g.nodes.Keys && NoHigher(g.nodes.Keys, W, W0)
    requires W1.Keys == g.nodes.Keys && Kept(g.nodes.Keys, W1, q1, W, q)
    ensures Inv(g, f, F, s, W[h := Fin(w)], pv[h := Some(e)], Enqueue(less, q, h, w))
    ensures Kept(g.nodes.Keys, W1, q1, W[h := Fin(w)], Enqueue(less, q, h, w))
    ensures NoHigher(g.nodes.Keys, W[h := Fin(w)], W0) && NoHigher(g.nodes.Keys, W[h := Fin(w)], Wf)
  {
    assert h in g.nodes;
    LowerShape(g, s, W, pv, e, h, w);
    LowerQueue(less, g, W, q, h, w);
    LowerPreds(g, f, F, W, pv, e, h, w, Wf, fv);
    LowerSound(g, f, F, s, W, h, w);
    LowerOne(g.nodes.Keys, W, h, w);
    if Lower(g.nodes.Keys, W, W1) {
      LowerTrans(g.nodes.Keys, W[h := Fin(w)], W, W1);
    }
    var W' := W[h := Fin(w)];
    forall n | n in g.nodes.Keys
      ensures W'[n].Le(W0[n]) && W'[n].Le(Wf[n])
    {
      if n == h {
        LeTransitive(W'[n], W[n], W0[n]);
        LeTransitive(W'[n], W[n], Wf[n]);
      }
    }
  }

  /** What relaxing the heads of a fired hyperedge keeps, relative to the round's starting weights `W1` and queue `q1`. */
  ghost predicate RelaxInv<N(!new)>(g: Graph<N>, f: bool, F: TailFunction, s: N, W: map<N, ExtNat>, pv: map<N, Option<nat>>, q: PQ.PQ<N>,
                                    Wf: map<N, ExtNat>, W1: map<N, ExtNat>, q1: PQ.PQ<N>) {
    && Inv(g, f, F, s, W, pv, q) && Wf.Keys == g.nodes.Keys && W1.Keys == g.nodes.Keys
    && Kept(g.nodes.Keys, W1, q1, W, q) && NoHigher(g.nodes.Keys, W, W1) && NoHigher(g.nodes.Keys, W, Wf)
  }

  /** One head `h` of a fired hyperedge `e`: lower its weight and predecessor if going through `e` is cheaper. */
  method RelaxHead<N(!new)>(less: (N, N) -> bool, g: Graph<N>, f: bool, F: TailFunction, s: N, W: map<N, ExtNat>, pv: map<N, Option<nat>>, q: PQ.PQ<N>,
                            e: nat, h: N, fv: ExtNat, ghost Wf: map<N, ExtNat>, ghost W1: map<N, ExtNat>, ghost q1: PQ.PQ<N>)
    returns (W': map<N, ExtNat>, pv': map<N, Option<nat>>, q': PQ.PQ<N>)
    requires Oriented(g, f) && RelaxInv(g, f, F, s, W, pv, q, Wf, W1, q1)
    requires e in g.edges && h in Side(g.edges[e], !f) && Side(g.edges[e], f) != {} && Defined(F, Side(g.edges[e], f), Wf)
    requires fv == Fold(F, Side(g.edges[e], f), Wf)
    requires F != GapFunction && fv.Fin? ==> forall h :: h in Side(g.edges[e], !f) ==> BConnected(g, f, s, h)
    ensures RelaxInv(g, f, F, s, W', pv', q', Wf, W1, q1)
  {
    W', pv', q' := W, pv, q;
    var nv := Fin(Weight(g, e)).Plus(fv);
    if nv.Lt(W[h]) {
      LowerStep(less, g, f, F, s, W, pv, q, e, h, nv.n, fv, Wf, W1, W1, q1);
      W', pv', q' := W[h := Fin(nv.n)], pv[h := Some(e)], Enqueue(less, q, h, nv.n);
    }
  }

  /** The head loop of one fired hyperedge `e` whose tail value `fv` was computed from the weights `Wf`. */
  method RelaxHeads<N(!new)>(less: (N, N) -> bool, g: Graph<N>, f: bool, F: TailFunction, s: N, W: map<N, ExtNat>, pv: map<N, Option<nat>>, q: PQ.PQ<N>,
                             e: nat, fv: ExtNat, ghost Wf: map<N, ExtNat>, ghost W1: map<N, ExtNat>, ghost q1: PQ.PQ<N>)
    returns (W': map<N, ExtNat>, pv': map<N, Option<nat>>, q': PQ.PQ<N>)
    requires Oriented(g, f) && RelaxInv(g, f, F, s, W, pv, q, Wf, W1, q1)
    requires e in g.edges && Side(g.edges[e], f) != {} && Defined(F, Side(g.edges[e], f), Wf)
    requires fv == Fold(F, Side(g.edges[e], f), Wf)
    requires F != GapFunction && fv.Fin? ==> forall h :: h in Side(g.edges[e], !f) ==> BConnected(g, f, s, h)
    ensures RelaxInv(g, f, F, s, W', pv', q', Wf, W1, q1)
  {
    W', pv', q' := W, pv, q;
    var todo := Side(g.edges[e], !f);
    while todo != {}
      invariant todo <= Side(g.edges[e], !f)
      invariant RelaxInv(g, f, F, s, W', pv', q', Wf, W1, q1)
      decreases todo
    {
      var h :| h in todo;
      todo := todo - {h};
      W', pv', q' := RelaxHead(less, g, f, F, s, W', pv', q', e, h, fv, Wf, W1, q1);
    }
  }

  /**
   One hyperedge `e` of the star of the dequeued node `cur`: its count goes up
   by one, and when the count equals the tail size the hyperedge fires.
   */
  method CountAndFire<N(!new)>(less: (N, N) -> bool, g: Graph<N>, f: bool, F: TailFunction, s: N, W: map<N, ExtNat>, pv: map<N, Option<nat>>, q: PQ.PQ<N>,
                               k: map<nat, nat>, cur: N, e: nat, ghost W1: map<N, ExtNat>, ghost q1: PQ.PQ<N>)
    returns (W': map<N, ExtNat>, pv': map<N, Option<nat>>, q': PQ.PQ<N>, k': map<nat, nat>)
    requires Oriented(g, f) && Inv(g, f, F, s, W, pv, q) && k.Keys == g.edges.Keys
    requires e in g.edges && cur in Side(g.edges[e], f)
    requires W1.Keys == g.nodes.Keys && Kept(g.nodes.Keys, W1, q1, W, q) && NoHigher(g.nodes.Keys, W, W1)
    ensures Inv(g, f, F, s, W', pv', q') && k'.Keys == g.edges.Keys
    ensures Kept(g.nodes.Keys, W1, q1, W', q') && NoHigher(g.nodes.Keys, W', W1)
  {
    W', pv', q', k' := W, pv, q, k[e := k[e] + 1];
    if k'[e] == |Side(g.edges[e], f)| {
      var tail := Side(g.edges[e], f);
      var fr := Apply(F, tail, W);
      var fv := fr.value;
      HeadsReached(g, f, F, s, W, e, fv);
      forall n | n in g.nodes.Keys
        ensures W[n].Le(W[n])
      {
      }
      assert RelaxInv(g, f, F, s, W, pv, q, W, W1, q1);
      W', pv', q' := RelaxHeads(less, g, f, F, s, W, pv, q, e, fv, W, W1, q1);
    }
  }

  /** The star loop of a dequeued node `cur`. */
  method RelaxStar<N(!new)>(less: (N, N) -> bool, g: Graph<N>, f: bool, F: TailFunction, s: N, W: map<N, ExtNat>, pv: map<N, Option<nat>>, q: PQ.PQ<N>,
                            k: map<nat, nat>, cur: N)
    returns (W': map<N, ExtNat>, pv': map<N, Option<nat>>, q': PQ.PQ<N>, k': map<nat, nat>)
    requires Oriented(g, f) && Inv(g, f, F, s, W, pv, q) && k.Keys == g.edges.Keys && cur in g.nodes
    ensures Inv(g, f, F, s, W', pv', q') && k'.Keys == g.edges.Keys
    ensures Kept(g.nodes.Keys, W, q, W', q') && NoHigher(g.nodes.Keys, W', W)
  {
    W', pv', q', k' := W, pv, q, k;
    var todo := Star(g, f)[cur];
    while todo != {}
      invariant todo <= Star(g, f)[cur]
      invariant Inv(g, f, F, s, W', pv', q') && k'.Keys == g.edges.Keys
      invariant Kept(g.nodes.Keys, W, q, W', q') && NoHigher(g.nodes.Keys, W', W)
      decreases todo
    {
      var e :| e in todo;
      todo := todo - {e};
      assert e in g.edges && cur in Side(g.edges[e], f);
      W', pv', q', k' := CountAndFire(less, g, f, F, s, W', pv', q', k', cur, e, W, q);
    }
  }

  /** Weight 0 for the source and infinity for every other node. */
  function StartWeights<N>(g: Graph<N>, s: N): map<N, ExtNat> {
    (map n | n in g.nodes :: Inf)[s := Fin(0)]
  }

  /** No predecessor for any node. */
  function NoPreds<N>(g: Graph<N>): map<N, Option<nat>> {
    map n | n in g.nodes :: None
  }

  /** A zero tail counter for every hyperedge. */
  function ZeroCounts<N>(g: Graph<N>): map<nat, nat> {
    map e | e in g.edges :: 0
  }

  /** The state before the first dequeue: weight 0 and a queue entry for the source, infinity elsewhere. */
  lemma StartFacts<N(!new)>(less: (N, N) -> bool, g: Graph<N>, f: bool, F: TailFunction, s: N, W: map<N, ExtNat>, pv: map<N, Option<nat>>, q: PQ.PQ<N>)
    requires s in g.nodes
    requires W == StartWeights(g, s) && pv == NoPreds(g)
    requires q == PQ.AddElement(less, PQ.Empty(), 0, s, None)
    ensures Inv(g, f, F, s, W, pv, q)
    ensures PQ.Live(q) != {} && forall i :: i in PQ.Live(q) ==> q.store[i].element == s
  {
    PQ.AddElementFresh(less, PQ.Empty<N>(), 0, s);
    assert q.store == [Heapq.Entry(0, 1, s)];
    assert PQ.Live(q) == {0};
    if F != GapFunction {
      forall n | n in g.nodes && n in W && W[n].Fin?
        ensures BConnected(g, f, s, n)
      {
        assert n == s;
      }
    }
  }

  /** Popping or purging the queue rewrites no entry, so the invariant carries over. */
  lemma InvSameStore<N(!new)>(g: Graph<N>, f: bool, F: TailFunction, s: N, W: map<N, ExtNat>, pv: map<N, Option<nat>>, q: PQ.PQ<N>, q': PQ.PQ<N>)
    requires Inv(g, f, F, s, W, pv, q) && PQ.Valid(q') && q'.store == q.store
    ensures Inv(g, f, F, s, W, pv, q')
  {
  }

  /** The dequeued node joins the ordering; lowered weights stay finite. */
  lemma OrderingStep<N(!new)>(g: Graph<N>, s: N, W: map<N, ExtNat>, W': map<N, ExtNat>, ordering: seq<N>, cur: N)
    requires OrderingOk(g, s, W, ordering) && W.Keys == g.nodes.Keys && W'.Keys == g.nodes.Keys
    requires NoHigher(g.nodes.Keys, W', W)
    requires cur in g.nodes && W[cur].Fin? && (ordering == [] ==> cur == s)
    ensures OrderingOk(g, s, W', ordering + [cur])
  {
    var o := ordering + [cur];
    forall i | 0 <= i < |o|
      ensures o[i] in g.nodes && o[i] in W' && W'[o[i]].Fin?
    {
      assert o[i] in g.nodes && W[o[i]].Fin?;
    }
  }

  /** The number of nodes not yet reached; 0 outside the invariant. */
  ghost function UnreachedCount<N>(g: Graph<N>, W: map<N, ExtNat>): nat {
    if g.nodes.Keys <= W.Keys then |Unreached(g.nodes.Keys, W)| else 0
  }

  /** The sum of the finite weights; 0 outside the invariant. */
  ghost function WeightTotal<N>(g: Graph<N>, W: map<N, ExtNat>): nat {
    if g.nodes.Keys <= W.Keys then FinTotal(g.nodes.Keys, W) else 0
  }

  /** The number of valid queue entries; 0 outside the invariant. */
  ghost function LiveCount<N>(q: PQ.PQ<N>): nat {
    if PQ.Valid(q) then |PQ.Live(q)| else 0
  }

  /** The termination order of the main loop: (unreached count, finite total, valid queue entries), lexicographically. */
  ghost predicate Decreased<N>(g: Graph<N>, W: map<N, ExtNat>, q: PQ.PQ<N>, W': map<N, ExtNat>, q': PQ.PQ<N>) {
    || UnreachedCount(g, W') < UnreachedCount(g, W)
    || (UnreachedCount(g, W') == UnreachedCount(g, W) && WeightTotal(g, W') < WeightTotal(g, W))
    || (UnreachedCount(g, W') == UnreachedCount(g, W) && WeightTotal(g, W') == WeightTotal(g, W) && LiveCount(q') < LiveCount(q))
  }

  lemma RoundDecreases<N>(g: Graph<N>, W: map<N, ExtNat>, q: PQ.PQ<N>, q1: PQ.PQ<N>, W': map<N, ExtNat>, q2: PQ.PQ<N>, q': PQ.PQ<N>, t: nat)
    requires W.Keys == g.nodes.Keys && W'.Keys == g.nodes.Keys && PQ.Valid(q) && PQ.Valid(q1) && PQ.Valid(q2) && PQ.Valid(q')
    requires t in PQ.Live(q) && PQ.Live(q1) == PQ.Live(q) - {t} && PQ.Live(q') == PQ.Live(q2)
    requires Kept(g.nodes.Keys, W, q1, W', q2)
    ensures Decreased(g, W, q, W', q')
  {
    if W' == W && q2 == q1 {
      assert PQ.Live(q') < PQ.Live(q);
    }
  }

  /** What the main loop keeps: the invariant, the edge counters, the ordering, and the emptiness flag. */
  ghost predicate LoopInv<N(!new)>(g: Graph<N>, f: bool, F: TailFunction, s: N, W: map<N, ExtNat>, pv: map<N, Option<nat>>, q: PQ.PQ<N>,
                                   k: map<nat, nat>, ordering: seq<N>, empty: bool) {
    && Inv(g, f, F, s, W, pv, q) && k.Keys == g.edges.Keys && OrderingOk(g, s, W, ordering)
    && (empty <==> PQ.Live(q) == {})
    && (ordering == [] ==> forall i :: i in PQ.Live(q) ==> q.store[i].element == s)
    && (!empty || ordering != [])
  }

  /** One round of the main loop: pop the top node, append it to the ordering, and relax its star. */
  method Round<N(!new)>(less: (N, N) -> bool, g: Graph<N>, f: bool, F: TailFunction, s: N, W: map<N, ExtNat>, pv: map<N, Option<nat>>, q: PQ.PQ<N>,
                        k: map<nat, nat>, ordering: seq<N>)
    returns (W': map<N, ExtNat>, pv': map<N, Option<nat>>, q': PQ.PQ<N>, k': map<nat, nat>, ordering': seq<N>, empty: bool)
    requires Oriented(g, f) && LoopInv(g, f, F, s, W, pv, q, k, ordering, false)
    ensures LoopInv(g, f, F, s, W', pv', q', k', ordering', empty)
    ensures Decreased(g, W, q, W', q')
  {
    var top := PQ.GetTopPriority(less, q);
    ghost var t := Dequeued(less, g, f, F, s, W, pv, q, k, ordering, top.0, top.1);
    var cur := top.0.value;
    W', pv', q', k' := RelaxStar(less, g, f, F, s, W, pv, top.1, k, cur);
    ordering' := ordering + [cur];
    var p := PQ.IsEmpty(less, q');
    RoundEnd(g, f, F, s, W, q, top.1, W', pv', q', k', ordering, cur, p.1, p.0, t);
    empty, q' := p.0, p.1;
  }

  /** The dequeued node: a node of finite weight, the source in the first round; its entry `t` leaves the valid ones. */
  lemma Dequeued<N(!new)>(less: (N, N) -> bool, g: Graph<N>, f: bool, F: TailFunction, s: N, W: map<N, ExtNat>, pv: map<N, Option<nat>>, q: PQ.PQ<N>,
                          k: map<nat, nat>, ordering: seq<N>, x: Result<N>, q1: PQ.PQ<N>)
    returns (t: nat)
    requires LoopInv(g, f, F, s, W, pv, q, k, ordering, false) && (x, q1) == PQ.GetTopPriority(less, q)
    ensures x.Ok? && x.value in g.nodes && W[x.value].Fin? && (ordering == [] ==> x.value == s)
    ensures Inv(g, f, F, s, W, pv, q1) && k.Keys == g.edges.Keys && OrderingOk(g, s, W, ordering)
    ensures PQ.Valid(q) && PQ.Valid(q1) && t in PQ.Live(q) && PQ.Live(q1) == PQ.Live(q) - {t}
  {
    PQ.GetTopPrioritySpec(less, q, x, q1);
    t :| t in PQ.Live(q) && q.store[t].element == x.value && PQ.Live(q1) == PQ.Live(q) - {t};
    InvSameStore(g, f, F, s, W, pv, q, q1);
  }

  /** After the star of the dequeued node is relaxed and the queue purged, the loop invariant holds again and the state went down. */
  lemma RoundEnd<N(!new)>(g: Graph<N>, f: bool, F: TailFunction, s: N, W: map<N, ExtNat>, q: PQ.PQ<N>, q1: PQ.PQ<N>,
                          W': map<N, ExtNat>, pv': map<N, Option<nat>>, q2: PQ.PQ<N>, k': map<nat, nat>, ordering: seq<N>, cur: N,
                          q3: PQ.PQ<N>, empty: bool, t: nat)
    requires cur in g.nodes && W.Keys == g.nodes.Keys && W[cur].Fin? && (ordering == [] ==> cur == s) && OrderingOk(g, s, W, ordering)
    requires PQ.Valid(q) && PQ.Valid(q1) && t in PQ.Live(q) && PQ.Live(q1) == PQ.Live(q) - {t}
    requires Inv(g, f, F, s, W', pv', q2) && k'.Keys == g.edges.Keys
    requires Kept(g.nodes.Keys, W, q1, W', q2) && NoHigher(g.nodes.Keys, W', W)
    requires PQ.Valid(q3) && q3.store == q2.store && PQ.Live(q3) == PQ.Live(q2) && (empty <==> PQ.Live(q2) == {})
    ensures LoopInv(g, f, F, s, W', pv', q3, k', ordering + [cur], empty)
    ensures Decreased(g, W, q, W', q3)
  {
    OrderingStep(g, s, W, W', ordering, cur);
    InvSameStore(g, f, F, s, W', pv', q2, q3);
    RoundDecreases(g, W, q, q1, W', q2, q3, t);
  }

  /** The state before the first dequeue: weight 0 and a queue entry for the source, infinity elsewhere. */
  method Start<N(!new)>(less: (N, N) -> bool, g: Graph<N>, f: bool, F: TailFunction, s: N)
    returns (W: map<N, ExtNat>, pv: map<N, Option<nat>>, q: PQ.PQ<N>, k: map<nat, nat>, empty: bool)
    requires s in g.nodes
    ensures LoopInv(g, f, F, s, W, pv, q, k, [], empty)
  {
    W := StartWeights(g, s);
    pv := NoPreds(g);
    var q0 := PQ.AddElement(less, PQ.Empty(), 0, s, None);
    k := ZeroCounts(g);
    var p := PQ.IsEmpty(less, q0);
    StartInv(less, g, f, F, s, W, pv, q0, k, p);
    empty, q := p.0, p.1;
  }

  lemma StartInv<N(!new)>(less: (N, N) -> bool, g: Graph<N>, f: bool, F: TailFunction, s: N, W: map<N, ExtNat>, pv: map<N, Option<nat>>,
                          q0: PQ.PQ<N>, k: map<nat, nat>, p: (bool, PQ.PQ<N>))
    requires s in g.nodes
    requires W == StartWeights(g, s) && pv == NoPreds(g)
    requires q0 == PQ.AddElement(less, PQ.Empty(), 0, s, None) && p == PQ.IsEmpty(less, q0)
    requires k == ZeroCounts(g)
    ensures LoopInv(g, f, F, s, W, pv, p.1, k, [], p.0)
  {
    StartFacts(less, g, f, F, s, W, pv, q0);
    InvSameStore(g, f, F, s, W, pv, q0, p.1);
  }

  /** When the loop ends, the result describes a shortest-tree state. */
  lemma LoopEnd<N(!new)>(g: Graph<N>, f: bool, F: TailFunction, s: N, W: map<N, ExtNat>, pv: map<N, Option<nat>>, q: PQ.PQ<N>,
                         k: map<nat, nat>, ordering: seq<N>)
    requires LoopInv(g, f, F, s, W, pv, q, k, ordering, true)
    ensures Shape(g, s, W, pv)
    ensures forall n :: n in g.nodes && pv[n].Some? ==> PredAt(g, f, F, W, pv, n)
    ensures F != GapFunction ==> forall n :: n in g.nodes && W[n].Fin? ==> BConnected(g, f, s, n)
    ensures |ordering| > 0 && OrderingOk(g, s, W, ordering)
  {
    forall n | n in g.nodes && pv[n].Some?
      ensures PredAt(g, f, F, W, pv, n)
    {
      assert Preds(g, f, F, W, pv);
    }
  }

  /**
   `_shortest_x_tree`: `ValueError` when the source is not a node (its star
   cannot be read); otherwise the predecessor map, the weights and the order
   in which nodes were dequeued.
   */
  method ShortestXTree<N(!new)>(less: (N, N) -> bool, g: Graph<N>, s: N, f: bool, F: TailFunction) returns (r: Result<TreeResult<N>>)
    requires Oriented(g, f)
    ensures r.Err? <==> s !in g.nodes
    ensures r.Err? ==> r.error == ValueError
    ensures r.Ok? ==> Shape(g, s, r.value.W, r.value.pv)
    ensures r.Ok? ==> forall n :: n in g.nodes && r.value.pv[n].Some? ==> PredAt(g, f, F, r.value.W, r.value.pv, n)
    ensures r.Ok? && F != GapFunction ==> forall n :: n in g.nodes && r.value.W[n].Fin? ==> BConnected(g, f, s, n)
    ensures r.Ok? ==> |r.value.ordering| > 0 && OrderingOk(g, s, r.value.W, r.value.ordering)
  {
    if s !in g.nodes {
      return Err(ValueError);
    }
    var W, pv, q, k, empty := Start(less, g, f, F, s);
    var ordering := [];
    while !empty
      invariant LoopInv(g, f, F, s, W, pv, q, k, ordering, empty)
      decreases UnreachedCount(g, W), WeightTotal(g, W), LiveCount(q)
    {
      ghost var W0, q1 := W, q;
      W, pv, q, k, ordering, empty := Round(less, g, f, F, s, W, pv, q, k, ordering);
      assert Decreased(g, W0, q1, W, q);
    }
    LoopEnd(g, f, F, s, W, pv, q, k, ordering);
    return Ok(TreeResult(pv, W, ordering));
  }

  /** What `shortest_b_tree` and `shortest_f_tree` return: the ordering only when it was asked for. */
  datatype TreeOutput<N> = TreeOutput(pv: map<N, Option<nat>>, W: map<N, ExtNat>, ordering: Option<seq<N>>)

  method Output<N>(t: TreeResult<N>, validOrdering: bool) returns (r: TreeOutput<N>)
    ensures r.pv == t.pv && r.W == t.W
    ensures r.ordering.Some? <==> validOrdering
    ensures r.ordering.Some? ==> r.ordering.value == t.ordering
  {
    r := TreeOutput(t.pv, t.W, if validOrdering then Some(t.ordering) else None);
  }

  /**
   `shortest_b_tree`: the shortest B-tree from `s` along forward stars; for the
   sum and distance functions every node of finite weight is B-connected to `s`.
   */
  method ShortestBTree<N(!new)>(less: (N, N) -> bool, g: Graph<N>, s: N, F: TailFunction, validOrdering: bool) returns (r: Result<TreeOutput<N>>)
    requires Oriented(g, true)
    ensures r.Err? <==> s !in g.nodes
    ensures r.Err? ==> r.error == ValueError
    ensures r.Ok? ==> Shape(g, s, r.value.W, r.value.pv) && (r.value.ordering.Some? <==> validOrdering)
    ensures r.Ok? ==> forall n :: n in g.nodes && r.value.pv[n].Some? ==> PredAt(g, true, F, r.value.W, r.value.pv, n)
    ensures r.Ok? && F != GapFunction ==> forall n :: n in g.nodes && r.value.W[n].Fin? ==> BConnected(g, true, s, n)
  {
    var t := ShortestXTree(less, g, s, true, F);
    if t.Err? {
      return Err(t.error);
    }
    var o := Output(t.value, validOrdering);
    return Ok(o);
  }

  /** F-connectivity on `g` is B-connectivity on its symmetric image. */
  lemma BConnectedImage<N(!new)>(g: Graph<N>, s: N, n: N)
    ensures BConnected(g, false, s, n) <==> BConnected(SymmetricImage(g), true, s, n)
  {
    forall S
      ensures BClosed(g, false, S) <==> BClosed(SymmetricImage(g), true, S)
    {
      BClosedImage(g, S);
    }
  }

  /**
   `shortest_f_tree`: the shortest-tree procedure along backward stars with
   tail and head exchanged; for the sum and distance functions every node of
   finite weight is B-connected to `s` in the symmetric image.
   */
  method ShortestFTree<N(!new)>(less: (N, N) -> bool, g: Graph<N>, s: N, F: TailFunction, validOrdering: bool) returns (r: Result<TreeOutput<N>>)
    requires Oriented(g, false)
    ensures r.Err? <==> s !in g.nodes
    ensures r.Err? ==> r.error == ValueError
    ensures r.Ok? ==> Shape(g, s, r.value.W, r.value.pv) && (r.value.ordering.Some? <==> validOrdering)
    ensures r.Ok? ==> forall n :: n in g.nodes && r.value.pv[n].Some? ==> PredAt(g, false, F, r.value.W, r.value.pv, n)
    ensures r.Ok? && F != GapFunction ==> forall n :: n in g.nodes && r.value.W[n].Fin? ==> BConnected(SymmetricImage(g), true, s, n)
  {
    var t := ShortestXTree(less, g, s, false, F);
    if t.Err? {
      return Err(t.error);
    }
    if F != GapFunction {
      forall n | n in g.nodes && t.value.W[n].Fin?
        ensures BConnected(SymmetricImage(g), true, s, n)
      {
        BConnectedImage(g, s, n);
      }
    }
    var o := Output(t.value, validOrdering);
    return Ok(o);
  }
}

=== FILE: stars.dfy ===
/**
 Updates of a star map, the per-node set of hyperedge ids both registries keep
 (the forward and backward stars of the directed registry, the star of the
 undirected one).
 */
module Stars {

  // The update functions below carry no postconditions of their own: what
  // they compute is stated by the `...Facts` lemma next to each, so that a
  // proof pays for those facts only where it asks for them.

  /** Gives every node of `missing` an empty star (what `add_node` does for a new node). */
  function AddEmptyStars<N>(star: map<N, set<nat>>, missing: set<N>): map<N, set<nat>> {
    map n | n in star.Keys + missing :: if n in missing then {} else star[n]
  }

  lemma AddEmptyStarsFacts<N>(star: map<N, set<nat>>, missing: set<N>)
    ensures var r := AddEmptyStars(star, missing);
      && r.Keys == star.Keys + missing
      && (forall n :: n in missing ==> r[n] == {})
      && (forall n :: n in star && n !in missing ==> r[n] == star[n])
  {
  }

  /** For a single node, giving it an empty star is a plain map update. */
  lemma AddEmptyStarsOne<N>(star: map<N, set<nat>>, n: N)
    ensures AddEmptyStars(star, {n}) == star[n := {}]
  {
  }

  function AddToStar<N>(star: map<N, set<nat>>, side: set<N>, id: nat): map<N, set<nat>> {
    map n | n in star.Keys :: if n in side then star[n] + {id} else star[n]
  }

  lemma AddToStarFacts<N>(star: map<N, set<nat>>, side: set<N>, id: nat)
    ensures var r := AddToStar(star, side, id);
      && r.Keys == star.Keys
      && (forall n :: n in star && n in side ==> r[n] == star[n] + {id})
      && (forall n :: n in star && n !in side ==> r[n] == star[n])
  {
  }

  function RemoveFromStar<N>(star: map<N, set<nat>>, side: set<N>, id: nat): map<N, set<nat>> {
    map n | n in star.Keys :: if n in side then star[n] - {id} else star[n]
  }

  lemma RemoveFromStarFacts<N>(star: map<N, set<nat>>, side: set<N>, id: nat)
    ensures var r := RemoveFromStar(star, side, id);
      && r.Keys == star.Keys
      && (forall n :: n in star && n in side ==> r[n] == star[n] - {id})
      && (forall n :: n in star && n !in side ==> r[n] == star[n])
  {
  }
}

=== FILE: tail_weights.dfy ===
/**
 The additive tail-weight functions of the shortest-tree algorithms
 (`sum_function`, `distance_function`, `gap_function` in
 `halp/algorithms/directed_paths.py`): the sum, maximum and minimum of the
 weights of a hyperedge's tail nodes. Weights are extended naturals so that
 the infinite weight of an unreached node takes part as in Python.

 The reference value is a fold over the tail set; the fold does not depend on
 the order in which the set is taken apart (`FoldRemove`), which is why the
 loops below, which take the set apart in an arbitrary order as Python's set
 iteration does, compute it.
 */
module TailWeights {
  import opened Wrappers

  datatype TailFunction = SumFunction | DistanceFunction | GapFunction

  /** The binary operation the tail function folds with. */
  function Combine(F: TailFunction, a: ExtNat, b: ExtNat): ExtNat {
    match F
    case SumFunction => a.Plus(b)
    case DistanceFunction => a.Max(b)
    case GapFunction => a.Min(b)
  }

  lemma CombineComm(F: TailFunction, a: ExtNat, b: ExtNat)
    ensures Combine(F, a, b) == Combine(F, b, a)
  {
  }

  lemma CombineAssoc(F: TailFunction, a: ExtNat, b: ExtNat, c: ExtNat)
    ensures Combine(F, a, Combine(F, b, c)) == Combine(F, Combine(F, a, b), c)
  {
  }

  lemma CombineMono(F: TailFunction, a1: ExtNat, a2: ExtNat, b1: ExtNat, b2: ExtNat)
    requires a1.Le(a2) && b1.Le(b2)
    ensures Combine(F, a1, b1).Le(Combine(F, a2, b2))
  {
  }

  /** The tail function is defined on `tail`: every tail node has a weight, and `max`/`min` need a non-empty tail. */
  ghost predicate Defined<N>(F: TailFunction, tail: set<N>, W: map<N, ExtNat>) {
    tail <= W.Keys && (tail == {} ==> F == SumFunction)
  }

  /** The reference value: the weights of `tail` folded with `Combine`, the sum of no weights being 0. */
  ghost function Fold<N>(F: TailFunction, tail: set<N>, W: map<N, ExtNat>): ExtNat
    requires Defined(F, tail, W)
    decreases tail
  {
    if tail == {} then Fin(0)
    else
      var x :| x in tail;
      if tail - {x} == {} && F != SumFunction then W[x]
      else Combine(F, W[x], Fold(F, tail - {x}, W))
  }

  /** The fold may take out any element first: it does not depend on the order the tail is iterated in. */
  lemma {:induction false} FoldRemove<N>(F: TailFunction, tail: set<N>, W: map<N, ExtNat>, y: N)
    requires Defined(F, tail, W) && y in tail && (tail - {y} == {} ==> F == SumFunction)
    ensures Fold(F, tail, W) == Combine(F, W[y], Fold(F, tail - {y}, W))
    decreases tail
  {
    forall z | z in tail
      ensures tail - {z} != {} || F == SumFunction
    {
      if tail - {z} == {} {
        assert y !in tail - {z};
        assert tail - {y} == {};
      }
    }
    var x :| x in tail && Fold(F, tail, W) == Combine(F, W[x], Fold(F, tail - {x}, W));
    if x != y {
      var rest := tail - {x} - {y};
      assert tail - {x} - {y} == tail - {y} - {x};
      if rest == {} && F != SumFunction {
        assert tail - {x} == {y} && tail - {y} == {x};
        assert Fold(F, tail - {x}, W) == W[y];
        assert Fold(F, tail - {y}, W) == W[x];
        CombineComm(F, W[x], W[y]);
      } else {
        FoldRemove(F, tail - {x}, W, y);
        FoldRemove(F, tail - {y}, W, x);
        CombineAssoc(F, W[x], W[y], Fold(F, rest, W));
        CombineAssoc(F, W[y], W[x], Fold(F, rest, W));
        CombineComm(F, W[x], W[y]);
      }
    }
  }

  /** The fold of a single weight is that weight. */
  lemma FoldSingle<N>(F: TailFunction, W: map<N, ExtNat>, y: N)
    requires y in W
    ensures Fold(F, {y}, W) == W[y]
  {
    var x :| x in {y} && Fold(F, {y}, W) == (if {y} - {x} == {} && F != SumFunction then W[x] else Combine(F, W[x], Fold(F, {y} - {x}, W)));
    assert x == y && {y} - {x} == {};
  }

  /** Lowering weights never raises the fold. */
  lemma {:induction false} FoldMono<N>(F: TailFunction, tail: set<N>, W1: map<N, ExtNat>, W2: map<N, ExtNat>)
    requires Defined(F, tail, W1) && Defined(F, tail, W2)
    requires forall x :: x in tail ==> W1[x].Le(W2[x])
    ensures Fold(F, tail, W1).Le(Fold(F, tail, W2))
    decreases tail
  {
    if tail != {} {
      var y :| y in tail;
      if tail - {y} == {} && F != SumFunction {
        assert tail == {y};
        FoldSingle(F, W1, y);
        FoldSingle(F, W2, y);
      } else {
        FoldRemove(F, tail, W1, y);
        FoldRemove(F, tail, W2, y);
        FoldMono(F, tail - {y}, W1, W2);
        CombineMono(F, W1[y], W2[y], Fold(F, tail - {y}, W1), Fold(F, tail - {y}, W2));
      }
    }
  }

  /** A finite sum or maximum means every tail weight is finite (not so for the minimum). */
  lemma FoldFinite<N>(F: TailFunction, tail: set<N>, W: map<N, ExtNat>, y: N)
    requires Defined(F, tail, W) && F != GapFunction && y in tail
    requires Fold(F, tail, W).Fin?
    ensures W[y].Fin?
  {
    if tail - {y} == {} && F != SumFunction {
      assert tail == {y};
      FoldSingle(F, W, y);
    } else {
      FoldRemove(F, tail, W, y);
    }
  }

  /** `x` is a tail node whose weight is at least (`upper`) or at most (`!upper`) that of every tail node. */
  ghost predicate Extreme<N>(tail: set<N>, W: map<N, ExtNat>, x: N, upper: bool)
    requires tail <= W.Keys
  {
    x in tail && forall y :: y in tail ==> if upper then W[y].Le(W[x]) else W[x].Le(W[y])
  }

  /** The fold of `max` is the greatest tail weight, the fold of `min` the least. */
  lemma {:induction false} FoldExtreme<N>(F: TailFunction, tail: set<N>, W: map<N, ExtNat>)
    requires Defined(F, tail, W) && F != SumFunction
    ensures exists x :: Extreme(tail, W, x, F == DistanceFunction) && Fold(F, tail, W) == W[x]
    decreases tail
  {
    var y :| y in tail;
    if tail - {y} == {} {
      assert tail == {y};
      FoldSingle(F, W, y);
      assert Extreme(tail, W, y, F == DistanceFunction);
    } else {
      FoldRemove(F, tail, W, y);
      FoldExtreme(F, tail - {y}, W);
      var z :| Extreme(tail - {y}, W, z, F == DistanceFunction) && Fold(F, tail - {y}, W) == W[z];
      if Fold(F, tail, W) == W[y] {
        assert Extreme(tail, W, y, F == DistanceFunction);
      } else {
        assert Extreme(tail, W, z, F == DistanceFunction);
      }
    }
  }

  /** `sum_function`: the sum of the tail weights; `KeyError` when a tail node has no weight. */
  method Sum<N>(tail: set<N>, W: map<N, ExtNat>) returns (r: Result<ExtNat>)
    ensures r.Err? <==> !(tail <= W.Keys)
    ensures r.Err? ==> r.error == KeyError
    ensures r.Ok? ==> r.value == Fold(SumFunction, tail, W)
  {
    if !(tail <= W.Keys) {
      return Err(KeyError);
    }
    var acc := Fin(0);
    var rest := tail;
    while rest != {}
      invariant rest <= tail
      invariant Combine(SumFunction, acc, Fold(SumFunction, rest, W)) == Fold(SumFunction, tail, W)
      decreases rest
    {
      var x :| x in rest;
      FoldRemove(SumFunction, rest, W, x);
      CombineAssoc(SumFunction, acc, W[x], Fold(SumFunction, rest - {x}, W));
      acc := acc.Plus(W[x]);
      rest := rest - {x};
    }
    return Ok(acc);
  }

  /** The loop of `max`/`min` over a non-empty tail whose nodes all have weights. */
  method Extremum<N>(F: TailFunction, tail: set<N>, W: map<N, ExtNat>) returns (r: ExtNat)
    requires F != SumFunction && tail != {} && tail <= W.Keys
    ensures r == Fold(F, tail, W)
  {
    var x0 :| x0 in tail;
    var acc := W[x0];
    var rest := tail - {x0};
    if rest == {} {
      assert tail == {x0};
      FoldSingle(F, W, x0);
    } else {
      FoldRemove(F, tail, W, x0);
    }
    while rest != {}
      invariant rest <= tail
      invariant rest == {} ==> acc == Fold(F, tail, W)
      invariant rest != {} ==> Combine(F, acc, Fold(F, rest, W)) == Fold(F, tail, W)
      decreases rest
    {
      var x :| x in rest;
      if rest - {x} == {} {
        assert rest == {x};
        FoldSingle(F, W, x);
      } else {
        FoldRemove(F, rest, W, x);
        CombineAssoc(F, acc, W[x], Fold(F, rest - {x}, W));
      }
      acc := Combine(F, acc, W[x]);
      rest := rest - {x};
    }
    return acc;
  }

  /** `distance_function`: the greatest tail weight; `ValueError` for an empty tail, `KeyError` when a tail node has no weight. */
  method Distance<N>(tail: set<N>, W: map<N, ExtNat>) returns (r: Result<ExtNat>)
    ensures r.Err? <==> tail == {} || !(tail <= W.Keys)
    ensures r.Err? ==> r.error == (if tail == {} then ValueError else KeyError)
    ensures r.Ok? ==> exists x :: Extreme(tail, W, x, true) && r.value == W[x]
    ensures r.Ok? ==> r.value == Fold(DistanceFunction, tail, W)
  {
    if !(tail <= W.Keys) {
      return Err(KeyError);
    }
    if tail == {} {
      return Err(ValueError);
    }
    var m := Extremum(DistanceFunction, tail, W);
    FoldExtreme(DistanceFunction, tail, W);
    return Ok(m);
  }

  /** `gap_function`: the least tail weight; `ValueError` for an empty tail, `KeyError` when a tail node has no weight. */
  method Gap<N>(tail: set<N>, W: map<N, ExtNat>) returns (r: Result<ExtNat>)
    ensures r.Err? <==> tail == {} || !(tail <= W.Keys)
    ensures r.Err? ==> r.error == (if tail == {} then ValueError else KeyError)
    ensures r.Ok? ==> exists x :: Extreme(tail, W, x, false) && r.value == W[x]
    ensures r.Ok? ==> r.value == Fold(GapFunction, tail, W)
  {
    if !(tail <= W.Keys) {
      return Err(KeyError);
    }
    if tail == {} {
      return Err(ValueError);
    }
    var m := Extremum(GapFunction, tail, W);
    FoldExtreme(GapFunction, tail, W);
    return Ok(m);
  }

  /** Calling the tail function `F`, as `F(hyperedge_tail(e), W)` does. */
  method Apply<N>(F: TailFunction, tail: set<N>, W: map<N, ExtNat>) returns (r: Result<ExtNat>)
    ensures r.Ok? <==> Defined(F, tail, W)
    ensures r.Err? ==> r.error == if tail <= W.Keys then ValueError else KeyError
    ensures r.Ok? ==> r.value == Fold(F, tail, W)
  {
    match F
    case SumFunction => r := Sum(tail, W);
    case DistanceFunction => r := Distance(tail, W);
    case GapFunction => r := Gap(tail, W);
  }
}

=== FILE: traversal.dfy ===
/**
 Reachability in a directed hypergraph, after Gallo, Longo, Pallottino and
 Nguyen, "Directed hypergraphs and applications" (1993). `visit` fires a
 hyperedge as soon as any node of its tail is dequeued; B-visit fires it once
 its whole tail has been dequeued, counting dequeued tail nodes per hyperedge;
 F-visit is B-visit with tails and heads exchanged. Each traversal is specified
 against an independent reference: the least set of nodes that contains the
 source and is closed under the traversal's firing rule.
 */
module Traversal {
  import opened Wrappers
  import opened Collections
  import opened DirectedIndex
  import opened DirectedHypergraph

  /** The star a traversal leaves a node by: the forward star for B-visit, the backward star for F-visit. */
  function Star<N(!new)>(g: Graph<N>, forward: bool): map<N, set<nat>> {
    if forward then g.fstar else g.bstar
  }

  /** The parts of the registry a traversal in direction `forward` reads are consistent. */
  ghost predicate Oriented<N(!new)>(g: Graph<N>, forward: bool) {
    StarExact(g.nodes.Keys, g.edges, Star(g, forward), forward) && SidesWithin(g.nodes.Keys, g.edges)
  }

  lemma ValidOriented<N(!new)>(g: Graph<N>, forward: bool)
    requires Valid(g)
    ensures Oriented(g, forward)
  {
  }

  // ---------------------------------------------------------------------------
  // Reference definitions
  // ---------------------------------------------------------------------------

  /** `S` is closed under the rule of `visit`: a node of `S` in a tail brings the whole head into `S`. */
  ghost predicate VisitClosed<N(!new)>(g: Graph<N>, S: set<N>) {
    forall e, m :: e in g.edges && m in g.edges[e].tail && m in S ==> g.edges[e].head <= S
  }

  /** `S` is closed under the rule of B-visit in direction `forward`: a non-empty tail inside `S` brings the whole head into `S`. */
  ghost predicate BClosed<N(!new)>(g: Graph<N>, forward: bool, S: set<N>) {
    forall e :: e in g.edges && Side(g.edges[e], forward) != {} && Side(g.edges[e], forward) <= S ==> Side(g.edges[e], !forward) <= S
  }

  ghost predicate BelowVisitClosed<N(!new)>(g: Graph<N>, s: N, R: set<N>) {
    forall S :: s in S && VisitClosed(g, S) ==> R <= S
  }

  ghost predicate BelowBClosed<N(!new)>(g: Graph<N>, forward: bool, s: N, R: set<N>) {
    forall S :: s in S && BClosed(g, forward, S) ==> R <= S
  }

  /** `R` is the least set that contains `s` and is closed under the rule of `visit`. */
  ghost predicate LeastVisitClosed<N(!new)>(g: Graph<N>, s: N, R: set<N>) {
    s in R && VisitClosed(g, R) && BelowVisitClosed(g, s, R)
  }

  /** `R` is the least set that contains `s` and is closed under the rule of B-visit in direction `forward`. */
  ghost predicate LeastBClosed<N(!new)>(g: Graph<N>, forward: bool, s: N, R: set<N>) {
    s in R && BClosed(g, forward, R) && BelowBClosed(g, forward, s, R)
  }

  /** `t` is connected to `s`: it lies in every set containing `s` that is closed under the rule of `visit`. */
  ghost predicate Connected<N(!new)>(g: Graph<N>, s: N, t: N) {
    forall S :: s in S && VisitClosed(g, S) ==> t in S
  }

  /**
   `t` is B-connected to `s` (F-connected when `forward` is false): `t` is `s`,
   or some hyperedge into `t` has a non-empty tail of nodes B-connected to `s`.
   As a least fixpoint: `t` lies in every closed set containing `s`.
   */
  ghost predicate BConnected<N(!new)>(g: Graph<N>, forward: bool, s: N, t: N) {
    forall S :: s in S && BClosed(g, forward, S) ==> t in S
  }

  // ---------------------------------------------------------------------------
  // The FIFO queue shared by the traversals
  // ---------------------------------------------------------------------------

  /**
   The queue of a traversal: entries before `qi` have been dequeued and form
   `done`; the entries from `qi` on are visited, not yet dequeued and distinct;
   every visited node is dequeued or waiting, and each was enqueued once.
   */
  ghost predicate QueueShape<N(!new)>(visited: set<N>, queue: seq<N>, qi: nat, done: set<N>) {
    && qi <= |queue| == |visited|
    && done <= visited
    && (forall i :: qi <= i < |queue| ==> queue[i] in visited && queue[i] !in done)
    && (forall i, j :: qi <= i < j < |queue| ==> queue[i] != queue[j])
    && (forall x :: x in visited && x !in done ==> exists i :: qi <= i < |queue| && queue[i] == x)
  }

  lemma Enqueue<N(!new)>(visited: set<N>, queue: seq<N>, qi: nat, done: set<N>, h: N)
    requires QueueShape(visited, queue, qi, done) && h !in visited
    ensures QueueShape(visited + {h}, queue + [h], qi, done)
  {
    var q := queue + [h];
    forall x | x in visited + {h} && x !in done
      ensures exists i :: qi <= i < |q| && q[i] == x
    {
      if x == h {
        assert q[|queue|] == x;
      } else {
        var i :| qi <= i < |queue| && queue[i] == x;
        assert q[i] == x;
      }
    }
  }

  lemma Dequeue<N(!new)>(visited: set<N>, queue: seq<N>, qi: nat, done: set<N>)
    requires QueueShape(visited, queue, qi, done) && qi < |queue|
    ensures queue[qi] in visited && queue[qi] !in done
    ensures QueueShape(visited, queue, qi + 1, done + {queue[qi]})
  {
    forall x | x in visited && x !in done + {queue[qi]}
      ensures exists i :: qi + 1 <= i < |queue| && queue[i] == x
    {
      var i :| qi <= i < |queue| && queue[i] == x;
      assert i != qi;
    }
  }

  lemma QueueDrained<N(!new)>(visited: set<N>, queue: seq<N>, done: set<N>)
    requires QueueShape(visited, queue, |queue|, done)
    ensures done == visited
  {
  }

  /** The part of a tail processed so far: `done`, plus the current node once the hyperedge has been handled for it. */
  function Processed<N(!new)>(done: set<N>, cur: N, todo: set<nat>, e: nat): set<N> {
    if e in todo then done else done + {cur}
  }

  // ---------------------------------------------------------------------------
  // visit
  // ---------------------------------------------------------------------------

  /** What `visit` returns: the visited nodes, each node's predecessor hyperedge and each hyperedge's predecessor node. */
  datatype VisitResult<N> = VisitResult(visited: set<N>, pv: map<N, Option<nat>>, pe: map<nat, Option<N>>)

  /** Every non-source visited node, and only those, has a predecessor hyperedge that fired and holds it in its head. */
  ghost predicate VisitPreds<N(!new)>(g: Graph<N>, s: N, r: VisitResult<N>) {
    && r.pv.Keys == g.nodes.Keys
    && r.visited <= g.nodes.Keys && s in r.visited
    && (forall n :: n in g.nodes ==> (r.pv[n].Some? <==> n in r.visited && n != s))
    && (forall n :: n in g.nodes && r.pv[n].Some? ==>
          r.pv[n].value in g.edges && n in g.edges[r.pv[n].value].head && r.pv[n].value in r.pe && r.pe[r.pv[n].value].Some?)
  }

  /** A hyperedge has fired exactly when a node of its tail has been processed; its head is then visited. */
  ghost predicate VisitFired<N(!new)>(g: Graph<N>, r: VisitResult<N>, done: set<N>, cur: N, todo: set<nat>) {
    && r.pe.Keys == g.edges.Keys
    && (forall e :: e in g.edges ==> (r.pe[e].Some? <==> g.edges[e].tail * Processed(done, cur, todo, e) != {}))
    && (forall e :: e in g.edges && r.pe[e].Some? ==>
          r.pe[e].value in g.edges[e].tail && r.pe[e].value in r.visited && g.edges[e].head <= r.visited)
  }

  /** The state the head loop of `visit` keeps: the queue, the predecessor facts and the reached set below every closed set. */
  ghost predicate VisitHeadsState<N(!new)>(g: Graph<N>, s: N, r: VisitResult<N>, queue: seq<N>, qi: nat, done: set<N>) {
    QueueShape(r.visited, queue, qi, done) && VisitPreds(g, s, r) && BelowVisitClosed(g, s, r.visited)
  }

  /** One head node of a fired hyperedge in `visit`: recorded and enqueued unless already visited. */
  method VisitHead<N(!new)>(g: Graph<N>, s: N, r: VisitResult<N>, queue: seq<N>, qi: nat, ghost done: set<N>, e: nat, h: N)
    returns (r': VisitResult<N>, queue': seq<N>)
    requires e in g.edges && h in g.edges[e].head && h in g.nodes
    requires VisitHeadsState(g, s, r, queue, qi, done) && e in r.pe && r.pe[e].Some?
    requires forall S :: s in S && VisitClosed(g, S) ==> g.edges[e].head <= S
    ensures r'.visited == r.visited + {h} && r'.pe == r.pe
    ensures VisitHeadsState(g, s, r', queue', qi, done)
  {
    r', queue' := r, queue;
    if h !in r.visited {
      Enqueue(r.visited, queue, qi, done, h);
      VisitRecordHead(g, s, r, e, h);
      BelowVisitAdd(g, s, r.visited, g.edges[e].head, h);
      r' := r.(visited := r.visited + {h}, pv := r.pv[h := Some(e)]);
      queue' := queue + [h];
    }
  }

  /** `visit`'s inner loop over a fired hyperedge's head: each head node in `todo` not yet visited is recorded and enqueued. */
  method VisitHeads<N(!new)>(g: Graph<N>, s: N, r: VisitResult<N>, queue: seq<N>, qi: nat, ghost done: set<N>, e: nat, todo: set<N>)
    returns (r': VisitResult<N>, queue': seq<N>)
    requires e in g.edges && todo <= g.edges[e].head <= g.nodes.Keys
    requires VisitHeadsState(g, s, r, queue, qi, done) && e in r.pe && r.pe[e].Some?
    requires forall S :: s in S && VisitClosed(g, S) ==> g.edges[e].head <= S
    ensures r'.visited == r.visited + todo && r'.pe == r.pe
    ensures VisitHeadsState(g, s, r', queue', qi, done)
    decreases todo
  {
    if todo == {} {
      r', queue' := r, queue;
    } else {
      var h :| h in todo;
      var r1, queue1 := VisitHead(g, s, r, queue, qi, done, e, h);
      r', queue' := VisitHeads(g, s, r1, queue1, qi, done, e, todo - {h});
      AddThenRest(r.visited, r1.visited, r'.visited, todo, h);
    }
  }

  lemma VisitRecordHead<N(!new)>(g: Graph<N>, s: N, r: VisitResult<N>, e: nat, h: N)
    requires VisitPreds(g, s, r) && e in g.edges && h in g.edges[e].head && h in g.nodes && h !in r.visited
    requires e in r.pe && r.pe[e].Some?
    ensures VisitPreds(g, s, r.(visited := r.visited + {h}, pv := r.pv[h := Some(e)]))
  {
  }

  lemma BelowVisitAdd<N(!new)>(g: Graph<N>, s: N, R: set<N>, head: set<N>, h: N)
    requires BelowVisitClosed(g, s, R) && h in head
    requires forall S :: s in S && VisitClosed(g, S) ==> head <= S
    ensures BelowVisitClosed(g, s, R + {h})
  {
  }

  /** A hyperedge that fires brings its whole head into every closed set containing the source. */
  lemma VisitForced<N(!new)>(g: Graph<N>, s: N, R: set<N>, e: nat, cur: N)
    requires BelowVisitClosed(g, s, R) && cur in R && e in g.edges && cur in g.edges[e].tail
    ensures forall S :: s in S && VisitClosed(g, S) ==> g.edges[e].head <= S
  {
    forall S | s in S && VisitClosed(g, S) ensures g.edges[e].head <= S {
      assert cur in S;
    }
  }

  lemma VisitPredsFire<N(!new)>(g: Graph<N>, s: N, r: VisitResult<N>, e: nat, cur: N)
    requires VisitPreds(g, s, r) && e in r.pe
    ensures VisitPreds(g, s, r.(pe := r.pe[e := Some(cur)]))
  {
  }

  /** `visit`'s loop over the forward star of the dequeued node `cur`. */
  method VisitStar<N(!new)>(g: Graph<N>, s: N, r: VisitResult<N>, queue: seq<N>, qi: nat, ghost done: set<N>, cur: N)
    returns (r': VisitResult<N>, queue': seq<N>)
    requires Oriented(g, true) && cur in g.nodes && cur in r.visited
    requires QueueShape(r.visited, queue, qi, done + {cur})
    requires VisitPreds(g, s, r) && VisitFired(g, r, done, cur, g.edges.Keys)
    requires BelowVisitClosed(g, s, r.visited)
    ensures r.visited <= r'.visited
    ensures QueueShape(r'.visited, queue', qi, done + {cur})
    ensures VisitPreds(g, s, r') && VisitFired(g, r', done, cur, {})
    ensures BelowVisitClosed(g, s, r'.visited)
  {
    r', queue' := r, queue;
    VisitEnterStar(g, r, done, cur);
    var todo := g.fstar[cur];
    while todo != {}
      invariant todo <= g.fstar[cur]
      invariant r.visited <= r'.visited
      invariant QueueShape(r'.visited, queue', qi, done + {cur})
      invariant VisitPreds(g, s, r') && VisitFired(g, r', done, cur, todo)
      invariant BelowVisitClosed(g, s, r'.visited)
      decreases todo
    {
      var e :| e in todo;
      assert cur in Side(g.edges[e], true);
      if r'.pe[e] == None {
        ghost var before := r';
        VisitForced(g, s, r'.visited, e, cur);
        VisitPredsFire(g, s, r', e, cur);
        r' := r'.(pe := r'.pe[e := Some(cur)]);
        r', queue' := VisitHeads(g, s, r', queue', qi, done + {cur}, e, g.edges[e].head);
        VisitFiredFire(g, before, r', done, cur, todo, e);
      } else {
        VisitFiredSkip(g, r', done, cur, todo, e);
      }
      todo := todo - {e};
    }
  }

  /**
   `visit`: breadth-first from `s`, firing each hyperedge the first time a node
   of its tail is dequeued. The visited set is the least set containing `s` and
   closed under that rule, whatever order the stars are iterated in.
   */
  method Visit<N(!new)>(g: Graph<N>, s: N) returns (r: Result<VisitResult<N>>)
    requires Oriented(g, true)
    ensures r.Err? <==> s !in g.nodes
    ensures r.Err? ==> r.error == ValueError
    ensures r.Ok? ==> LeastVisitClosed(g, s, r.value.visited)
    ensures r.Ok? ==> VisitPreds(g, s, r.value) && r.value.pv[s] == None
    ensures r.Ok? ==> r.value.pe.Keys == g.edges.Keys
    ensures r.Ok? ==> forall e :: e in g.edges ==> (r.value.pe[e].Some? <==> g.edges[e].tail * r.value.visited != {})
    ensures r.Ok? ==> forall e :: e in g.edges && r.value.pe[e].Some? ==> r.value.pe[e].value in g.edges[e].tail * r.value.visited
  {
    if s !in g.nodes {
      return Err(ValueError);
    }
    var st := VisitResult({s}, map n | n in g.nodes :: None, map e | e in g.edges :: None);
    var queue := [s];
    var qi := 0;
    ghost var done: set<N> := {};
    assert queue[0] == s;
    while qi < |queue|
      invariant QueueShape(st.visited, queue, qi, done)
      invariant VisitPreds(g, s, st) && VisitFired(g, st, done, s, g.edges.Keys)
      invariant BelowVisitClosed(g, s, st.visited)
      decreases |g.nodes.Keys| - qi
    {
      SubsetCard(st.visited, g.nodes.Keys);
      Dequeue(st.visited, queue, qi, done);
      var cur := queue[qi];
      VisitFiredSameCur(g, st, done, s, cur);
      st, queue := VisitStar(g, s, st, queue, qi + 1, done, cur);
      VisitFiredRebase(g, st, done, cur, s);
      done := done + {cur};
      qi := qi + 1;
    }
    QueueDrained(st.visited, queue, done);
    VisitFiredFinal(g, st, s);
    return Ok(st);
  }

  lemma VisitFiredSameCur<N(!new)>(g: Graph<N>, st: VisitResult<N>, done: set<N>, c1: N, c2: N)
    requires VisitFired(g, st, done, c1, g.edges.Keys)
    ensures VisitFired(g, st, done, c2, g.edges.Keys)
  {
  }

  lemma VisitEnterStar<N(!new)>(g: Graph<N>, st: VisitResult<N>, done: set<N>, cur: N)
    requires StarExact(g.nodes.Keys, g.edges, g.fstar, true) && cur in g.nodes
    requires VisitFired(g, st, done, cur, g.edges.Keys)
    ensures VisitFired(g, st, done, cur, g.fstar[cur])
  {
    forall e | e in g.edges && e !in g.fstar[cur]
      ensures g.edges[e].tail * (done + {cur}) == g.edges[e].tail * done
    {
      assert cur !in Side(g.edges[e], true);
    }
  }

  lemma VisitFiredSkip<N(!new)>(g: Graph<N>, st: VisitResult<N>, done: set<N>, cur: N, todo: set<nat>, e: nat)
    requires VisitFired(g, st, done, cur, todo) && e in todo && e in g.edges && st.pe[e].Some?
    ensures VisitFired(g, st, done, cur, todo - {e})
  {
    var x :| x in g.edges[e].tail * done;
    assert x in g.edges[e].tail * (done + {cur});
  }

  lemma VisitFiredFire<N(!new)>(g: Graph<N>, st: VisitResult<N>, st': VisitResult<N>, done: set<N>, cur: N, todo: set<nat>, e: nat)
    requires VisitFired(g, st, done, cur, todo) && e in todo && e in g.edges && st.pe[e] == None
    requires cur in g.edges[e].tail && cur in st.visited
    requires st'.pe == st.pe[e := Some(cur)] && st.visited <= st'.visited && g.edges[e].head <= st'.visited
    ensures VisitFired(g, st', done, cur, todo - {e})
  {
    assert cur in g.edges[e].tail * (done + {cur});
  }

  /** After the star loop every hyperedge has been handled for `cur`, so `cur` joins `done`. */
  lemma VisitFiredRebase<N(!new)>(g: Graph<N>, st: VisitResult<N>, done: set<N>, cur: N, s: N)
    requires VisitFired(g, st, done, cur, {})
    ensures VisitFired(g, st, done + {cur}, s, g.edges.Keys)
  {
  }

  lemma VisitFiredFinal<N(!new)>(g: Graph<N>, st: VisitResult<N>, s: N)
    requires VisitFired(g, st, st.visited, s, g.edges.Keys)
    ensures forall e :: e in g.edges ==> (st.pe[e].Some? <==> g.edges[e].tail * st.visited != {})
    ensures forall e :: e in g.edges && st.pe[e].Some? ==> st.pe[e].value in g.edges[e].tail * st.visited
    ensures VisitClosed(g, st.visited)
  {
    forall e, m | e in g.edges && m in g.edges[e].tail && m in st.visited
      ensures g.edges[e].head <= st.visited
    {
      assert m in g.edges[e].tail * Processed(st.visited, s, g.edges.Keys, e);
    }
  }

  // ---------------------------------------------------------------------------
  // B-visit and F-visit
  // ---------------------------------------------------------------------------

  /** What B-visit and F-visit return; `v` maps each node to the cardinality of its path from the source (infinite when unreached). */
  datatype XVisitResult<N> = XVisitResult(visited: set<N>, pv: map<N, Option<nat>>, pe: map<nat, Option<N>>, v: map<N, ExtNat>)

  /**
   Every non-source visited node, and only those, has a predecessor hyperedge
   holding it in its head; that hyperedge fired at node `pe[e]`, and the node's
   cardinality is one more than that node's. Exactly the visited nodes have a
   finite cardinality, and the source's is 0.
   */
  ghost predicate XPreds<N(!new)>(g: Graph<N>, f: bool, s: N, r: XVisitResult<N>) {
    XShape(g, s, r) && XSteps(g, f, r)
  }

  ghost predicate XShape<N(!new)>(g: Graph<N>, s: N, r: XVisitResult<N>) {
    && r.pv.Keys == g.nodes.Keys && r.v.Keys == g.nodes.Keys
    && r.visited <= g.nodes.Keys && s in r.visited
    && r.v[s] == Fin(0)
    && (forall n :: n in g.nodes ==> (r.v[n].Fin? <==> n in r.visited))
    && (forall n :: n in g.nodes ==> (r.pv[n].Some? <==> n in r.visited && n != s))
  }

  ghost predicate XSteps<N(!new)>(g: Graph<N>, f: bool, r: XVisitResult<N>) {
    forall n {:trigger XStepAt(g, f, r, n)} :: n in g.nodes && n in r.pv && r.pv[n].Some? ==> XStepAt(g, f, r, n)
  }

  /**
   Node `n` entered through hyperedge `pv[n]`, which fired at a node whose
   cardinality is one less than `n`'s. The quantifier over it in `XPreds` is
   triggered only on this predicate, so that the solver does not follow
   predecessor chains on its own.
   */
  ghost predicate XStepAt<N(!new)>(g: Graph<N>, f: bool, r: XVisitResult<N>, n: N) {
    && n in r.pv && r.pv[n].Some? && n in r.v
    && var e := r.pv[n].value;
    && e in g.edges && n in Side(g.edges[e], !f)
    && e in r.pe && r.pe[e].Some? && r.pe[e].value in r.v
    && r.v[n] == r.v[r.pe[e].value].Plus(Fin(1))
  }

  /** Each hyperedge's counter holds the number of its tail nodes processed so far. */
  ghost predicate XCounted<N(!new)>(g: Graph<N>, f: bool, k: map<nat, nat>, done: set<N>, cur: N, todo: set<nat>) {
    && k.Keys == g.edges.Keys
    && forall e :: e in g.edges ==> k[e] == |Side(g.edges[e], f) * Processed(done, cur, todo, e)|
  }

  /** A hyperedge has fired exactly when its tail is non-empty and wholly processed; its head is then visited. */
  ghost predicate XFired<N(!new)>(g: Graph<N>, f: bool, r: XVisitResult<N>, done: set<N>, cur: N, todo: set<nat>) {
    && r.pe.Keys == g.edges.Keys
    && (forall e :: e in g.edges ==>
          (r.pe[e].Some? <==> Side(g.edges[e], f) != {} && Side(g.edges[e], f) <= Processed(done, cur, todo, e)))
    && (forall e :: e in g.edges && r.pe[e].Some? ==>
          r.pe[e].value in Side(g.edges[e], f) && r.pe[e].value in r.visited && Side(g.edges[e], !f) <= r.visited)
  }

  lemma XRecordShape<N(!new)>(g: Graph<N>, s: N, r: XVisitResult<N>, r': XVisitResult<N>, e: nat, h: N, d: ExtNat)
    requires XShape(g, s, r) && h in g.nodes && h !in r.visited && d.Fin?
    requires r'.visited == r.visited + {h} && r'.pv == r.pv[h := Some(e)] && r'.v == r.v[h := d]
    ensures XShape(g, s, r')
  {
    forall n | n in g.nodes
      ensures (r'.v[n].Fin? <==> n in r'.visited) && (r'.pv[n].Some? <==> n in r'.visited && n != s)
    {
    }
  }

  lemma XRecordSteps<N(!new)>(g: Graph<N>, f: bool, s: N, r: XVisitResult<N>, r': XVisitResult<N>, e: nat, cur: N, h: N)
    requires XPreds(g, f, s, r) && e in g.edges && h in Side(g.edges[e], !f) && h in g.nodes && h !in r.visited
    requires e in r.pe && r.pe[e] == Some(cur) && cur in r.visited
    requires r'.pv == r.pv[h := Some(e)] && r'.pe == r.pe && r'.v == r.v[h := r.v[cur].Plus(Fin(1))]
    ensures XSteps(g, f, r')
  {
    forall n | n in g.nodes && n in r'.pv && r'.pv[n].Some?
      ensures XStepAt(g, f, r', n)
    {
      if n != h {
        assert XStepAt(g, f, r, n);
        var m := r.pe[r.pv[n].value].value;
        assert m in g.nodes && r.v[n].Fin?;
        assert r.v[m].Fin?;
        assert m != h;
      } else {
        assert cur != h && cur in r.v;
      }
    }
  }

  lemma BelowBAdd<N(!new)>(g: Graph<N>, f: bool, s: N, R: set<N>, head: set<N>, h: N)
    requires BelowBClosed(g, f, s, R) && h in head
    requires forall S :: s in S && BClosed(g, f, S) ==> head <= S
    ensures BelowBClosed(g, f, s, R + {h})
  {
  }

  /** The state after head node `h` of hyperedge `e`, fired at `cur`, is first visited. */
  function XRecord<N>(r: XVisitResult<N>, e: nat, cur: N, h: N): XVisitResult<N>
    requires cur in r.v
  {
    r.(visited := r.visited + {h}, pv := r.pv[h := Some(e)], v := r.v[h := r.v[cur].Plus(Fin(1))])
  }

  lemma XHeadStep<N(!new)>(g: Graph<N>, f: bool, s: N, r: XVisitResult<N>, queue: seq<N>, qi: nat, done: set<N>, e: nat, cur: N, h: N)
    requires e in g.edges && h in Side(g.edges[e], !f) && h in g.nodes && h !in r.visited
    requires QueueShape(r.visited, queue, qi, done)
    requires XPreds(g, f, s, r) && e in r.pe && r.pe[e] == Some(cur) && cur in r.visited
    requires BelowBClosed(g, f, s, r.visited)
    requires forall S :: s in S && BClosed(g, f, S) ==> Side(g.edges[e], !f) <= S
    ensures cur in r.v
    ensures QueueShape(XRecord(r, e, cur, h).visited, queue + [h], qi, done)
    ensures XPreds(g, f, s, XRecord(r, e, cur, h)) && BelowBClosed(g, f, s, XRecord(r, e, cur, h).visited)
  {
    Enqueue(r.visited, queue, qi, done, h);
    var next := XRecord(r, e, cur, h);
    XRecordShape(g, s, r, next, e, h, r.v[cur].Plus(Fin(1)));
    XRecordSteps(g, f, s, r, next, e, cur, h);
    BelowBAdd(g, f, s, r.visited, Side(g.edges[e], !f), h);
  }

  /** The state the head loop of `b_visit` keeps: the queue, the predecessor facts and the reached set below every B-closed set. */
  ghost predicate XHeadsState<N(!new)>(g: Graph<N>, f: bool, s: N, r: XVisitResult<N>, queue: seq<N>, qi: nat, done: set<N>) {
    QueueShape(r.visited, queue, qi, done) && XPreds(g, f, s, r) && BelowBClosed(g, f, s, r.visited)
  }

  /** One head node of a fired hyperedge: recorded and enqueued unless already visited. */
  method XHead<N(!new)>(g: Graph<N>, f: bool, s: N, r: XVisitResult<N>, queue: seq<N>, qi: nat, ghost done: set<N>, e: nat, cur: N, h: N)
    returns (r': XVisitResult<N>, queue': seq<N>)
    requires e in g.edges && h in Side(g.edges[e], !f) && h in g.nodes
    requires XHeadsState(g, f, s, r, queue, qi, done) && e in r.pe && r.pe[e] == Some(cur) && cur in r.visited
    requires forall S :: s in S && BClosed(g, f, S) ==> Side(g.edges[e], !f) <= S
    ensures r'.visited == r.visited + {h} && r'.pe == r.pe
    ensures XHeadsState(g, f, s, r', queue', qi, done)
  {
    r', queue' := r, queue;
    if h !in r.visited {
      XHeadStep(g, f, s, r, queue, qi, done, e, cur, h);
      r' := XRecord(r, e, cur, h);
      queue' := queue + [h];
    }
  }

  /** The inner loop over a fired hyperedge's head: each head node in `todo` not yet visited is recorded, given its cardinality and enqueued. */
  method XHeads<N(!new)>(g: Graph<N>, f: bool, s: N, r: XVisitResult<N>, queue: seq<N>, qi: nat, ghost done: set<N>, e: nat, cur: N, todo: set<N>)
    returns (r': XVisitResult<N>, queue': seq<N>)
    requires e in g.edges && todo <= Side(g.edges[e], !f) <= g.nodes.Keys
    requires XHeadsState(g, f, s, r, queue, qi, done) && e in r.pe && r.pe[e] == Some(cur) && cur in r.visited
    requires forall S :: s in S && BClosed(g, f, S) ==> Side(g.edges[e], !f) <= S
    ensures r'.visited == r.visited + todo && r'.pe == r.pe
    ensures XHeadsState(g, f, s, r', queue', qi, done)
    decreases todo
  {
    if todo == {} {
      r', queue' := r, queue;
    } else {
      var h :| h in todo;
      var r1, queue1 := XHead(g, f, s, r, queue, qi, done, e, cur, h);
      r', queue' := XHeads(g, f, s, r1, queue1, qi, done, e, cur, todo - {h});
      AddThenRest(r.visited, r1.visited, r'.visited, todo, h);
    }
  }

  lemma XEnterStar<N(!new)>(g: Graph<N>, f: bool, r: XVisitResult<N>, k: map<nat, nat>, done: set<N>, cur: N)
    requires StarExact(g.nodes.Keys, g.edges, Star(g, f), f) && cur in g.nodes
    requires XFired(g, f, r, done, cur, g.edges.Keys) && XCounted(g, f, k, done, cur, g.edges.Keys)
    ensures XFired(g, f, r, done, cur, Star(g, f)[cur]) && XCounted(g, f, k, done, cur, Star(g, f)[cur])
  {
    forall e | e in g.edges
      ensures Side(g.edges[e], f) * Processed(done, cur, Star(g, f)[cur], e) == Side(g.edges[e], f) * Processed(done, cur, g.edges.Keys, e)
      ensures Side(g.edges[e], f) <= Processed(done, cur, Star(g, f)[cur], e) <==> Side(g.edges[e], f) <= Processed(done, cur, g.edges.Keys, e)
    {
      if e !in Star(g, f)[cur] {
        assert cur !in Side(g.edges[e], f);
      }
    }
  }

  lemma XCountStep<N(!new)>(g: Graph<N>, f: bool, k: map<nat, nat>, done: set<N>, cur: N, todo: set<nat>, e: nat)
    requires XCounted(g, f, k, done, cur, todo) && e in todo && e in g.edges
    requires cur in Side(g.edges[e], f) && cur !in done
    ensures XCounted(g, f, k[e := k[e] + 1], done, cur, todo - {e})
    ensures k[e] + 1 == |Side(g.edges[e], f)| <==> Side(g.edges[e], f) <= done + {cur}
  {
    IntersectGrow(Side(g.edges[e], f), done, cur);
    FullPart(Side(g.edges[e], f), done + {cur});
  }

  lemma XFiredFire<N(!new)>(g: Graph<N>, f: bool, st: XVisitResult<N>, st': XVisitResult<N>, done: set<N>, cur: N, todo: set<nat>, e: nat)
    requires XFired(g, f, st, done, cur, todo) && e in todo && e in g.edges
    requires cur in Side(g.edges[e], f) && cur !in done && Side(g.edges[e], f) <= done + {cur} && cur in st.visited
    requires st'.pe == st.pe[e := Some(cur)] && st.visited <= st'.visited && Side(g.edges[e], !f) <= st'.visited
    ensures XFired(g, f, st', done, cur, todo - {e})
  {
  }

  lemma XFiredWait<N(!new)>(g: Graph<N>, f: bool, st: XVisitResult<N>, done: set<N>, cur: N, todo: set<nat>, e: nat)
    requires XFired(g, f, st, done, cur, todo) && e in todo && e in g.edges
    requires !(Side(g.edges[e], f) <= done + {cur})
    ensures st.pe[e] == None
    ensures XFired(g, f, st, done, cur, todo - {e})
  {
  }

  /** A hyperedge about to fire has not fired before. */
  lemma XNotYetFired<N(!new)>(g: Graph<N>, f: bool, st: XVisitResult<N>, done: set<N>, cur: N, todo: set<nat>, e: nat)
    requires XFired(g, f, st, done, cur, todo) && e in todo && e in g.edges
    requires cur in Side(g.edges[e], f) && cur !in done
    ensures st.pe[e] == None
  {
  }

  lemma XPredsFire<N(!new)>(g: Graph<N>, f: bool, s: N, r: XVisitResult<N>, e: nat, cur: N)
    requires XPreds(g, f, s, r) && e in r.pe && r.pe[e] == None
    ensures XPreds(g, f, s, r.(pe := r.pe[e := Some(cur)]))
  {
    var r' := r.(pe := r.pe[e := Some(cur)]);
    forall n | n in g.nodes && n in r'.pv && r'.pv[n].Some?
      ensures XStepAt(g, f, r', n)
    {
      assert XStepAt(g, f, r, n);
    }
  }

  lemma BForced<N(!new)>(g: Graph<N>, f: bool, s: N, R: set<N>, e: nat, side: set<N>)
    requires BelowBClosed(g, f, s, R) && e in g.edges && side == Side(g.edges[e], f) && side != {} && side <= R
    ensures forall S :: s in S && BClosed(g, f, S) ==> Side(g.edges[e], !f) <= S
  {
  }

  /** The loop over the star of the dequeued node `cur`: count `cur` for each hyperedge and fire those whose tail is complete. */
  method XStar<N(!new)>(g: Graph<N>, f: bool, s: N, r: XVisitResult<N>, k: map<nat, nat>, queue: seq<N>, qi: nat, ghost done: set<N>, cur: N)
    returns (r': XVisitResult<N>, k': map<nat, nat>, queue': seq<N>)
    requires Oriented(g, f) && cur in g.nodes && cur in r.visited && cur !in done
    requires QueueShape(r.visited, queue, qi, done + {cur})
    requires XPreds(g, f, s, r) && XFired(g, f, r, done, cur, g.edges.Keys) && XCounted(g, f, k, done, cur, g.edges.Keys)
    requires BelowBClosed(g, f, s, r.visited)
    ensures r.visited <= r'.visited
    ensures QueueShape(r'.visited, queue', qi, done + {cur})
    ensures XPreds(g, f, s, r') && XFired(g, f, r', done, cur, {}) && XCounted(g, f, k', done, cur, {})
    ensures BelowBClosed(g, f, s, r'.visited)
  {
    r', k', queue' := r, k, queue;
    XEnterStar(g, f, r, k, done, cur);
    var todo := Star(g, f)[cur];
    while todo != {}
      invariant todo <= Star(g, f)[cur]
      invariant r.visited <= r'.visited
      invariant QueueShape(r'.visited, queue', qi, done + {cur})
      invariant XPreds(g, f, s, r') && XFired(g, f, r', done, cur, todo) && XCounted(g, f, k', done, cur, todo)
      invariant BelowBClosed(g, f, s, r'.visited)
      decreases todo
    {
      var e :| e in todo;
      assert cur in Side(g.edges[e], f);
      XCountStep(g, f, k', done, cur, todo, e);
      k' := k'[e := k'[e] + 1];
      if k'[e] == |Side(g.edges[e], f)| {
        ghost var before := r';
        XNotYetFired(g, f, r', done, cur, todo, e);
        BForced(g, f, s, r'.visited, e, Side(g.edges[e], f));
        XPredsFire(g, f, s, r', e, cur);
        r' := r'.(pe := r'.pe[e := Some(cur)]);
        r', queue' := XHeads(g, f, s, r', queue', qi, done + {cur}, e, cur, Side(g.edges[e], !f));
        XFiredFire(g, f, before, r', done, cur, todo, e);
      } else {
        XFiredWait(g, f, r', done, cur, todo, e);
      }
      todo := todo - {e};
    }
  }

  lemma XFiredSameCur<N(!new)>(g: Graph<N>, f: bool, st: XVisitResult<N>, k: map<nat, nat>, done: set<N>, c1: N, c2: N)
    requires XFired(g, f, st, done, c1, g.edges.Keys) && XCounted(g, f, k, done, c1, g.edges.Keys)
    ensures XFired(g, f, st, done, c2, g.edges.Keys) && XCounted(g, f, k, done, c2, g.edges.Keys)
  {
  }

  lemma XFiredRebase<N(!new)>(g: Graph<N>, f: bool, st: XVisitResult<N>, k: map<nat, nat>, done: set<N>, cur: N, s: N)
    requires XFired(g, f, st, done, cur, {}) && XCounted(g, f, k, done, cur, {})
    ensures XFired(g, f, st, done + {cur}, s, g.edges.Keys) && XCounted(g, f, k, done + {cur}, s, g.edges.Keys)
  {
  }

  lemma XFiredFinal<N(!new)>(g: Graph<N>, f: bool, st: XVisitResult<N>, s: N)
    requires XFired(g, f, st, st.visited, s, g.edges.Keys)
    ensures forall e :: e in g.edges ==> (st.pe[e].Some? <==> Side(g.edges[e], f) != {} && Side(g.edges[e], f) <= st.visited)
    ensures BClosed(g, f, st.visited)
  {
  }

  /** The state before the first dequeue: only `s` is visited, at cardinality 0. */
  function XStart<N>(g: Graph<N>, s: N): XVisitResult<N> {
    XVisitResult({s}, map n | n in g.nodes :: None, map e | e in g.edges :: None, (map n | n in g.nodes :: Inf)[s := Fin(0)])
  }

  lemma XStartFacts<N(!new)>(g: Graph<N>, f: bool, s: N, k: map<nat, nat>)
    requires s in g.nodes && k == map e | e in g.edges :: 0
    ensures QueueShape(XStart(g, s).visited, [s], 0, {})
    ensures XPreds(g, f, s, XStart(g, s)) && XFired(g, f, XStart(g, s), {}, s, g.edges.Keys) && XCounted(g, f, k, {}, s, g.edges.Keys)
    ensures BelowBClosed(g, f, s, XStart(g, s).visited)
  {
    var queue := [s];
    assert queue[0] == s;
  }

  /**
   `_x_visit`: breadth-first from `s` in direction `forward`, counting for each
   hyperedge the dequeued nodes of its tail and firing it when the count
   reaches the tail's size. The visited set is the least set containing `s`
   and closed under the B-visit rule, whatever order the stars are iterated in.
   */
  method XVisit<N(!new)>(g: Graph<N>, s: N, forward: bool) returns (r: Result<XVisitResult<N>>)
    requires Oriented(g, forward)
    ensures r.Err? <==> s !in g.nodes
    ensures r.Err? ==> r.error == ValueError
    ensures r.Ok? ==> LeastBClosed(g, forward, s, r.value.visited)
    ensures r.Ok? ==> XPreds(g, forward, s, r.value) && r.value.pv[s] == None
    ensures r.Ok? ==> r.value.pe.Keys == g.edges.Keys
    ensures r.Ok? ==> forall e :: e in g.edges ==>
      (r.value.pe[e].Some? <==> Side(g.edges[e], forward) != {} && Side(g.edges[e], forward) <= r.value.visited)
  {
    if s !in g.nodes {
      return Err(ValueError);
    }
    var st := XStart(g, s);
    var k := map e | e in g.edges :: 0;
    var queue := [s];
    var qi := 0;
    ghost var done: set<N> := {};
    XStartFacts(g, forward, s, k);
    while qi < |queue|
      invariant QueueShape(st.visited, queue, qi, done)
      invariant XPreds(g, forward, s, st) && XFired(g, forward, st, done, s, g.edges.Keys) && XCounted(g, forward, k, done, s, g.edges.Keys)
      invariant BelowBClosed(g, forward, s, st.visited)
      decreases |g.nodes.Keys| - qi
    {
      SubsetCard(st.visited, g.nodes.Keys);
      Dequeue(st.visited, queue, qi, done);
      var cur := queue[qi];
      XFiredSameCur(g, forward, st, k, done, s, cur);
      st, k, queue := XStar(g, forward, s, st, k, queue, qi + 1, done, cur);
      XFiredRebase(g, forward, st, k, done, cur, s);
      done := done + {cur};
      qi := qi + 1;
    }
    QueueDrained(st.visited, queue, done);
    XFiredFinal(g, forward, st, s);
    return Ok(st);
  }

  /** `b_visit`: `_x_visit` along forward stars, firing a hyperedge once its whole tail is reached. */
  method BVisit<N(!new)>(g: Graph<N>, s: N) returns (r: Result<XVisitResult<N>>)
    requires Oriented(g, true)
    ensures r.Err? <==> s !in g.nodes
    ensures r.Ok? ==> r.value.v.Keys == g.nodes.Keys && r.value.pv.Keys == g.nodes.Keys
    ensures r.Ok? ==> LeastBClosed(g, true, s, r.value.visited) && r.value.v[s] == Fin(0) && r.value.pv[s] == None
    ensures r.Ok? ==> forall n :: n in g.nodes ==> (r.value.v[n] == Inf <==> n !in r.value.visited)
  {
    r := XVisit(g, s, true);
  }

  /** `f_visit`: `_x_visit` along backward stars with tail and head exchanged, i.e. a B-visit of the symmetric image. */
  method FVisit<N(!new)>(g: Graph<N>, s: N) returns (r: Result<XVisitResult<N>>)
    requires Oriented(g, false)
    ensures r.Err? <==> s !in g.nodes
    ensures r.Ok? ==> r.value.v.Keys == g.nodes.Keys && r.value.pv.Keys == g.nodes.Keys
    ensures r.Ok? ==> LeastBClosed(SymmetricImage(g), true, s, r.value.visited)
    ensures r.Ok? ==> r.value.v[s] == Fin(0) && r.value.pv[s] == None
  {
    r := XVisit(g, s, false);
    if r.Ok? {
      LeastBClosedImage(g, s, r.value.visited);
    }
  }

  /** The F-rule on `g` is the B-rule on its symmetric image. */
  lemma BClosedImage<N(!new)>(g: Graph<N>, S: set<N>)
    ensures BClosed(g, false, S) <==> BClosed(SymmetricImage(g), true, S)
  {
    var h := SymmetricImage(g);
    forall e | e in g.edges
      ensures Side(g.edges[e], false) == Side(h.edges[e], true) && Side(g.edges[e], true) == Side(h.edges[e], false)
    {
    }
  }

  lemma LeastBClosedImage<N(!new)>(g: Graph<N>, s: N, R: set<N>)
    ensures LeastBClosed(g, false, s, R) <==> LeastBClosed(SymmetricImage(g), true, s, R)
  {
    forall S
      ensures BClosed(g, false, S) <==> BClosed(SymmetricImage(g), true, S)
    {
      BClosedImage(g, S);
    }
  }

  /** `is_connected`: whether `t` is reached by `visit` from `s`; a `t` outside the hypergraph is simply not connected. */
  method IsConnected<N(!new)>(g: Graph<N>, s: N, t: N) returns (r: Result<bool>)
    requires Oriented(g, true)
    ensures r.Err? <==> s !in g.nodes
    ensures r.Ok? ==> (r.value <==> Connected(g, s, t))
  {
    var v := Visit(g, s);
    if v.Err? {
      return Err(v.error);
    }
    return Ok(t in v.value.visited);
  }

  /** `is_b_connected`: whether `t` is reached by `b_visit` from `s`. */
  method IsBConnected<N(!new)>(g: Graph<N>, s: N, t: N) returns (r: Result<bool>)
    requires Oriented(g, true)
    ensures r.Err? <==> s !in g.nodes
    ensures r.Ok? ==> (r.value <==> BConnected(g, true, s, t))
    ensures s in g.nodes && t == s ==> r == Ok(true)
  {
    var v := BVisit(g, s);
    if v.Err? {
      return Err(v.error);
    }
    return Ok(t in v.value.visited);
  }

  /** `is_f_connected`: whether `t` is reached by `f_visit` from `s`, i.e. B-connected to `s` in the symmetric image. */
  method IsFConnected<N(!new)>(g: Graph<N>, s: N, t: N) returns (r: Result<bool>)
    requires Oriented(g, false)
    ensures r.Err? <==> s !in g.nodes
    ensures r.Ok? ==> (r.value <==> BConnected(g, false, s, t))
    ensures r.Ok? ==> (r.value <==> BConnected(SymmetricImage(g), true, s, t))
  {
    var v := XVisit(g, s, false);
    if v.Err? {
      return Err(v.error);
    }
    LeastBClosedImage(g, s, v.value.visited);
    return Ok(t in v.value.visited);
  }

  /** Whatever order the stars are iterated in, the reached set is the same: least closed sets are unique. */
  lemma LeastBClosedUnique<N(!new)>(g: Graph<N>, forward: bool, s: N, R1: set<N>, R2: set<N>)
    requires LeastBClosed(g, forward, s, R1) && LeastBClosed(g, forward, s, R2)
    ensures R1 == R2
  {
    assert R1 <= R2;
    assert R2 <= R1;
  }

  lemma LeastVisitClosedUnique<N(!new)>(g: Graph<N>, s: N, R1: set<N>, R2: set<N>)
    requires LeastVisitClosed(g, s, R1) && LeastVisitClosed(g, s, R2)
    ensures R1 == R2
  {
    assert R1 <= R2;
    assert R2 <= R1;
  }

  /** A set closed under the `visit` rule is closed under the B-rule, so B-visit reaches no more than visit. */
  lemma BVisitWithinVisit<N(!new)>(g: Graph<N>, s: N, RB: set<N>, RV: set<N>)
    requires LeastBClosed(g, true, s, RB) && LeastVisitClosed(g, s, RV)
    ensures RB <= RV
  {
    forall e | e in g.edges && Side(g.edges[e], true) != {} && Side(g.edges[e], true) <= RV
      ensures Side(g.edges[e], false) <= RV
    {
      var m :| m in g.edges[e].tail;
      assert m in g.edges[e].tail * RV;
    }
    assert BClosed(g, true, RV);
  }

  /** B-connected implies connected. */
  lemma BConnectedConnected<N(!new)>(g: Graph<N>, s: N, t: N)
    requires BConnected(g, true, s, t)
    ensures Connected(g, s, t)
  {
    forall S | s in S && VisitClosed(g, S)
      ensures t in S
    {
      forall e | e in g.edges && Side(g.edges[e], true) != {} && Side(g.edges[e], true) <= S
        ensures Side(g.edges[e], false) <= S
      {
        var m :| m in g.edges[e].tail;
        assert m in g.edges[e].tail * S;
      }
      assert BClosed(g, true, S);
    }
  }

  /** One hyperedge 1 -> 2 on nodes 1 and 2. */
  function OneArrow(): Graph<int> {
    Graph(map[1 := map[], 2 := map[]], map[1 := Edge({1}, {2}, map["weight" := 1])],
          map[1 := {1}, 2 := {}], map[1 := {}, 2 := {1}],
          map[{1} := map[{2} := 1]], map[{2} := map[{1} := 1]], 1)
  }

  /**
   F-visit does not reach a superset of what B-visit reaches: from node 1 of
   `OneArrow`, B-visit reaches {1, 2} while F-visit reaches only {1}.
   */
  lemma FVisitNotSuperset(RB: set<int>, RF: set<int>)
    requires LeastBClosed(OneArrow(), true, 1, RB) && LeastBClosed(OneArrow(), false, 1, RF)
    ensures RB == {1, 2} && RF == {1}
    ensures !(RB <= RF)
  {
    var g := OneArrow();
    assert g.edges.Keys == {1};
    assert BClosed(g, false, {1});
    assert RF <= {1};
    assert {1} <= RB && Side(g.edges[1], true) <= RB;
    assert 2 in RB;
    assert BClosed(g, true, {1, 2});
    assert RB <= {1, 2};
  }
}

=== FILE: undirected_graph_transformations.dfy ===
/**
 `to_graph_decomposition` of `halp/utilities/undirected_graph_transformations.py`:
 every hyperedge of an undirected hypergraph is replaced by the two-node
 hyperedges {a, b} for each pair of distinct nodes a, b it contains (its
 clique, the "2-section"), entered with `add_hyperedges` into a fresh
 registry. Both orders (a, b) and (b, a) are entered, and a node set already
 present only merges the empty attribute set, so each pair ends up once.

 The node list the function builds iterates the new, still empty registry, so
 it adds no node: the result's nodes are exactly the nodes of the pairs, with
 no attributes. The order in which the sets are iterated is left to the
 method.
 */
module UndirectedGraphTransformations {
  import opened Wrappers
  import opened Collections
  import opened Attributes
  import opened UndirectedHypergraph

  /** Some hyperedge of `g` contains both `a` and `b`, and they differ. */
  ghost predicate Linked<N>(g: Graph<N>, a: N, b: N) {
    a != b && exists e :: e in g.edges && a in g.edges[e].members && b in g.edges[e].members
  }

  /** Every pair {a, b} of distinct nodes with `a` in `xs` and `b` in `ys`. */
  ghost function Pairs<N>(xs: set<N>, ys: set<N>): set<set<N>> {
    set a, b | a in xs && b in ys && a != b :: {a, b}
  }

  /** The pairs of distinct nodes of the hyperedges `ids`. */
  ghost function PairsOf<N>(g: Graph<N>, ids: set<nat>): set<set<N>> {
    set e, a, b | e in ids && e in g.edges && a in g.edges[e].members && b in g.edges[e].members && a != b :: {a, b}
  }

  /** The nodes of the pairs of `pairs`. */
  ghost function Covered<N>(pairs: set<set<N>>): set<N> {
    set s, n | s in pairs && n in s :: n
  }

  /** Every hyperedge of `r` is one of the pairs of `pairs`, with the default attributes. */
  ghost predicate LinkEdges<N>(r: Graph<N>, pairs: set<set<N>>) {
    forall e :: e in r.edges ==> r.edges[e].members in pairs && r.edges[e].attrs == DefaultEdgeAttrs
  }

  /** Every pair of `pairs` is a hyperedge of `r`. */
  ghost predicate LinksPresent<N>(r: Graph<N>, pairs: set<set<N>>) {
    forall s :: s in pairs ==> HasHyperedge(r, s)
  }

  /** The nodes of `r` are the nodes of the pairs, without attributes. */
  ghost predicate LinkNodes<N>(r: Graph<N>, pairs: set<set<N>>) {
    r.nodes.Keys == Covered(pairs) && forall n :: n in r.nodes ==> r.nodes[n] == map[]
  }

  /** `r` holds exactly the hyperedges `pairs`, each once with the default attributes, and their nodes. */
  ghost predicate LinksOf<N>(r: Graph<N>, pairs: set<set<N>>) {
    LinkEdges(r, pairs) && LinksPresent(r, pairs) && LinkNodes(r, pairs)
  }

  /** A consistent registry holding exactly the pairs `pairs`: the state of the decomposition between two pairs. */
  ghost predicate Decomposing<N>(r: Graph<N>, pairs: set<set<N>>) {
    Valid(r) && LinksOf(r, pairs)
  }

  lemma LinksOfEmpty<N>()
    ensures Decomposing(Empty<N>(), {})
  {
    assert Covered<N>({}) == {};
  }

  /** Merging no attributes is the identity. */
  lemma MergeNothing<N>(g: Graph<N>, id: nat)
    requires id in g.edges
    ensures MergeEdgeAttrs(g, id, map[]) == g
  {
    var x := g.edges[id];
    assert x.attrs + map[] == x.attrs;
    assert x.(attrs := x.attrs + map[]) == x;
    assert g.edges[id := x] == g.edges;
  }

  /** A pair already present changes nothing: `add_hyperedge` merges no attributes into it. */
  lemma LinkStepExisting<N>(r: Graph<N>, pairs: set<set<N>>, a: N, b: N)
    requires Valid(r) && LinkEdges(r, pairs) && HasHyperedge(r, {a, b})
    ensures AddHyperedge(r, {a, b}, map[]).Ok? && AddHyperedge(r, {a, b}, map[]).value.graph == r
  {
    var id := r.index[{a, b}];
    assert id in r.edges;
    MergeNothing(r, id);
  }

  /** The new hyperedge is the pair {a, b} with the default attributes. */
  lemma NewLinkEdges<N>(r: Graph<N>, edges': map<nat, UEdge<N>>, pairs: set<set<N>>, id: nat, a: N, b: N)
    requires LinkEdges(r, pairs) && a != b
    requires edges' == r.edges[id := UEdge({a, b}, DefaultEdgeAttrs + map[])]
    ensures forall e :: e in edges' ==> edges'[e].members in pairs + {{a, b}} && edges'[e].attrs == DefaultEdgeAttrs
  {
    assert DefaultEdgeAttrs + map[] == DefaultEdgeAttrs;
  }

  /** A pair of `r` stays a hyperedge once another hyperedge is inserted. */
  lemma OldLinkKept<N>(r: Graph<N>, r': Graph<N>, s: set<N>, x: set<N>)
    requires r'.index.Keys == r.index.Keys + {x}
    requires HasHyperedge(r, s)
    ensures HasHyperedge(r', s)
  {
  }

  /** The old pairs stay and the new one joins them. */
  lemma NewLinksPresent<N>(r: Graph<N>, r': Graph<N>, pairs: set<set<N>>, x: set<N>)
    requires LinksPresent(r, pairs) && r'.index.Keys == r.index.Keys + {x}
    ensures LinksPresent(r', pairs + {x})
  {
    forall s | s in pairs + {x}
      ensures HasHyperedge(r', s)
    {
      if s in pairs {
        OldLinkKept(r, r', s, x);
      }
    }
  }

  lemma CoveredAdd<N>(pairs: set<set<N>>, a: N, b: N)
    ensures Covered(pairs + {{a, b}}) == Covered(pairs) + {a, b}
  {
    assert a in {a, b} && b in {a, b};
    assert {a, b} in pairs + {{a, b}};
  }

  /** The nodes of the new pair join the nodes, without attributes. */
  lemma NewLinkNodes<N>(r: Graph<N>, r': Graph<N>, pairs: set<set<N>>, a: N, b: N)
    requires LinkNodes(r, pairs)
    requires r'.nodes.Keys == r.nodes.Keys + {a, b}
    requires forall n :: n in r.nodes ==> r'.nodes[n] == r.nodes[n]
    requires forall n :: n in {a, b} && n !in r.nodes ==> r'.nodes[n] == map[]
    ensures LinkNodes(r', pairs + {{a, b}})
  {
    CoveredAdd(pairs, a, b);
  }

  /** Adding a new pair enters one hyperedge with the default attributes and adds its missing nodes. */
  lemma LinkStepNew<N>(r: Graph<N>, pairs: set<set<N>>, a: N, b: N)
    requires LinksOf(r, pairs) && !HasHyperedge(r, {a, b}) && a != b
    ensures AddHyperedge(r, {a, b}, map[]).Ok?
    ensures LinksOf(AddHyperedge(r, {a, b}, map[]).value.graph, pairs + {{a, b}})
  {
    var id := r.counter + 1;
    var x := UEdge({a, b}, DefaultEdgeAttrs + map[]);
    AddHyperedgeInserts(r, {a, b}, map[]);
    InsertEdgeFacts(r, id, x);
    var r' := InsertEdge(r, id, x);
    assert r'.edges == r.edges[id := x];
    NewLinkEdges(r, r'.edges, pairs, id, a, b);
    NewLinksPresent(r, r', pairs, {a, b});
    NewLinkNodes(r, r', pairs, a, b);
  }

  /** A present pair is one of `pairs`. */
  lemma LinkSound<N>(r: Graph<N>, pairs: set<set<N>>, s: set<N>)
    requires Valid(r) && LinkEdges(r, pairs) && HasHyperedge(r, s)
    ensures s in pairs
  {
    var id := r.index[s];
    assert id in r.edges && r.edges[id].members == s;
  }

  /** One pair entered with `add_hyperedge`. */
  method AddLink<N>(r: Graph<N>, ghost pairs: set<set<N>>, a: N, b: N) returns (r': Graph<N>)
    requires Decomposing(r, pairs) && a != b
    ensures Decomposing(r', pairs + {{a, b}})
  {
    AddHyperedgeValid(r, {a, b}, map[]);
    if HasHyperedge(r, {a, b}) {
      LinkStepExisting(r, pairs, a, b);
      LinkSound(r, pairs, {a, b});
      AddPresent(pairs, {a, b});
    } else {
      LinkStepNew(r, pairs, a, b);
    }
    var added := AddHyperedge(r, {a, b}, map[]);
    r' := added.value.graph;
  }

  lemma PairsNone<N>(pairs: set<set<N>>, xs: set<N>, ys: set<N>)
    ensures pairs == pairs + Pairs(xs - xs, ys) && pairs == pairs + Pairs(xs, ys - ys)
  {
    assert Pairs(xs - xs, ys) == {};
    assert Pairs(xs, ys - ys) == {};
  }

  lemma PairsStep<N>(pairs: set<set<N>>, xs: set<N>, ys: set<N>, todo: set<N>, a: N, b: N)
    requires xs == {a} && b in todo && todo <= ys && a != b
    ensures pairs + Pairs(xs, ys - todo) + {{a, b}} == pairs + Pairs(xs, ys - (todo - {b}))
  {
    assert Pairs(xs, ys - (todo - {b})) == Pairs(xs, ys - todo) + {{a, b}};
  }

  lemma PairsSkip<N>(pairs: set<set<N>>, xs: set<N>, ys: set<N>, todo: set<N>, a: N)
    requires xs == {a} && a in todo && todo <= ys
    ensures pairs + Pairs(xs, ys - todo) == pairs + Pairs(xs, ys - (todo - {a}))
  {
    assert Pairs(xs, ys - (todo - {a})) == Pairs(xs, ys - todo);
  }

  lemma PairsAll<N>(pairs: set<set<N>>, xs: set<N>, ys: set<N>, todo: set<N>)
    requires todo == {}
    ensures pairs + Pairs(xs, ys - todo) == pairs + Pairs(xs, ys)
    ensures pairs + Pairs(xs - todo, ys) == pairs + Pairs(xs, ys)
  {
    assert ys - todo == ys && xs - todo == xs;
  }

  lemma PairsRow<N>(pairs: set<set<N>>, xs: set<N>, ys: set<N>, todo: set<N>, a: N)
    requires a in todo && todo <= xs
    ensures pairs + Pairs(xs - todo, ys) + Pairs({a}, ys) == pairs + Pairs(xs - (todo - {a}), ys)
  {
    assert Pairs(xs - (todo - {a}), ys) == Pairs(xs - todo, ys) + Pairs({a}, ys);
  }

  /** The pairs of node `a` with every other node of `ys`; the tuple (a, a) is skipped. */
  method AddLinksFrom<N>(r: Graph<N>, ghost pairs: set<set<N>>, a: N, ys: set<N>) returns (r': Graph<N>)
    requires Decomposing(r, pairs)
    ensures Decomposing(r', pairs + Pairs({a}, ys))
  {
    r' := r;
    ghost var done := pairs;
    var todo := ys;
    PairsNone(pairs, {a}, ys);
    while todo != {}
      invariant todo <= ys
      invariant done == pairs + Pairs({a}, ys - todo)
      invariant Decomposing(r', done)
      decreases todo
    {
      var b :| b in todo;
      if a != b {
        r' := AddLink(r', done, a, b);
        PairsStep(pairs, {a}, ys, todo, a, b);
        done := done + {{a, b}};
      } else {
        PairsSkip(pairs, {a}, ys, todo, a);
      }
      todo := todo - {b};
    }
    PairsAll(pairs, {a}, ys, todo);
  }

  /** The pairs of distinct nodes with one in `xs` and the other in `ys`. */
  method AddLinks<N>(r: Graph<N>, ghost pairs: set<set<N>>, xs: set<N>, ys: set<N>) returns (r': Graph<N>)
    requires Decomposing(r, pairs)
    ensures Decomposing(r', pairs + Pairs(xs, ys))
  {
    r' := r;
    ghost var done := pairs;
    var todo := xs;
    PairsNone(pairs, xs, ys);
    while todo != {}
      invariant todo <= xs
      invariant done == pairs + Pairs(xs - todo, ys)
      invariant Decomposing(r', done)
      decreases todo
    {
      var a :| a in todo;
      r' := AddLinksFrom(r', done, a, ys);
      PairsRow(pairs, xs, ys, todo, a);
      done := done + Pairs({a}, ys);
      todo := todo - {a};
    }
    PairsAll(pairs, xs, ys, todo);
  }

  /** The pairs of one more hyperedge. */
  lemma PairsOfStep<N>(g: Graph<N>, todo: set<nat>, e: nat)
    requires e in todo && todo <= g.edges.Keys
    ensures PairsOf(g, g.edges.Keys - todo) + Pairs(g.edges[e].members, g.edges[e].members) == PairsOf(g, g.edges.Keys - (todo - {e}))
  {
    assert g.edges.Keys - (todo - {e}) == g.edges.Keys - todo + {e};
  }

  lemma PairsOfNone<N>(g: Graph<N>)
    ensures PairsOf(g, g.edges.Keys - g.edges.Keys) == {}
  {
  }

  lemma PairsOfAllIds<N>(g: Graph<N>, todo: set<nat>)
    requires todo == {}
    ensures PairsOf(g, g.edges.Keys - todo) == PairsOf(g, g.edges.Keys)
  {
    assert g.edges.Keys - todo == g.edges.Keys;
  }

  /** The pairs of all hyperedges are the linked pairs; their nodes are the nodes linked to another. */
  lemma PairsOfAll<N>(g: Graph<N>)
    ensures forall a, b :: {a, b} in PairsOf(g, g.edges.Keys) && a != b <==> Linked(g, a, b)
    ensures forall n :: n in Covered(PairsOf(g, g.edges.Keys)) <==> exists m :: Linked(g, n, m)
  {
    var all := PairsOf(g, g.edges.Keys);
    forall a, b | {a, b} in all && a != b
      ensures Linked(g, a, b)
    {
      PairMembers(g, all, a, b);
    }
    forall a, b | Linked(g, a, b)
      ensures {a, b} in all
    {
      var e :| e in g.edges && a in g.edges[e].members && b in g.edges[e].members;
    }
    forall n | n in Covered(all)
      ensures exists m :: Linked(g, n, m)
    {
      var s :| s in all && n in s;
      var e, x, y :| e in g.edges && x in g.edges[e].members && y in g.edges[e].members && x != y && s == {x, y};
      if n == x {
        assert Linked(g, n, y);
      } else {
        assert Linked(g, n, x);
      }
    }
    forall n | exists m :: Linked(g, n, m)
      ensures n in Covered(all)
    {
      var m :| Linked(g, n, m);
      assert {n, m} in all;
      assert n in {n, m};
    }
  }

  /** A pair {a, b} of the hyperedges comes from one hyperedge holding both. */
  lemma PairMembers<N>(g: Graph<N>, all: set<set<N>>, a: N, b: N)
    requires all == PairsOf(g, g.edges.Keys) && {a, b} in all && a != b
    ensures Linked(g, a, b)
  {
    var e, x, y :| e in g.edges && x in g.edges[e].members && y in g.edges[e].members && x != y && {a, b} == {x, y};
    assert a in {x, y} && b in {x, y};
  }

  /**
   `out` is the graph decomposition of `g`: its hyperedges are pairs of
   weight 1, it has the hyperedge {a, b} for distinct a and b exactly when
   some hyperedge of `g` holds both, and its nodes, without attributes, are
   exactly the nodes sharing a hyperedge with another node.
   */
  ghost predicate Decomposes<N(!new)>(g: Graph<N>, out: Graph<N>) {
    UnitPairs(out) && PairsLink(g, out) && NodesOnPairs(g, out)
  }

  /** Every hyperedge has two nodes and weight 1, and no other attribute. */
  ghost predicate UnitPairs<N>(out: Graph<N>) {
    forall e :: e in out.edges ==> |out.edges[e].members| == 2 && out.edges[e].attrs == DefaultEdgeAttrs
  }

  /** `out` has the hyperedge {a, b}, for a and b distinct, exactly when some hyperedge of `g` holds both. */
  ghost predicate PairsLink<N(!new)>(g: Graph<N>, out: Graph<N>) {
    forall a, b :: a != b ==> (HasHyperedge(out, {a, b}) <==> Linked(g, a, b))
  }

  /** The nodes of `out`, without attributes, are exactly the nodes sharing a hyperedge of `g` with another node. */
  ghost predicate NodesOnPairs<N(!new)>(g: Graph<N>, out: Graph<N>) {
    && (forall n :: n in out.nodes <==> exists m :: Linked(g, n, m))
    && (forall n :: n in out.nodes ==> out.nodes[n] == map[])
  }

  /** The pairs of all hyperedges: the guarantees of the decomposition. */
  lemma Finish<N(!new)>(g: Graph<N>, out: Graph<N>)
    requires Decomposing(out, PairsOf(g, g.edges.Keys))
    ensures Decomposes(g, out)
  {
    var all := PairsOf(g, g.edges.Keys);
    FinishEdges(g, out, all);
    FinishPairs(g, out, all);
    FinishNodes(g, out, all);
  }

  lemma FinishEdges<N>(g: Graph<N>, out: Graph<N>, all: set<set<N>>)
    requires all == PairsOf(g, g.edges.Keys) && LinkEdges(out, all)
    ensures UnitPairs(out)
  {
    forall e | e in out.edges
      ensures |out.edges[e].members| == 2 && out.edges[e].attrs == DefaultEdgeAttrs
    {
      var s := out.edges[e].members;
      assert s in all;
      var d, a, b :| d in g.edges && a in g.edges[d].members && b in g.edges[d].members && a != b && s == {a, b};
      assert |{a, b}| == 2;
    }
  }

  lemma FinishPairs<N(!new)>(g: Graph<N>, out: Graph<N>, pairs: set<set<N>>)
    requires pairs == PairsOf(g, g.edges.Keys)
    requires Valid(out) && LinkEdges(out, pairs) && LinksPresent(out, pairs)
    ensures PairsLink(g, out)
  {
    PairsOfAll(g);
    forall a, b | a != b
      ensures HasHyperedge(out, {a, b}) <==> {a, b} in pairs
    {
      if HasHyperedge(out, {a, b}) {
        LinkSound(out, pairs, {a, b});
      }
    }
  }

  lemma FinishNodes<N(!new)>(g: Graph<N>, out: Graph<N>, pairs: set<set<N>>)
    requires pairs == PairsOf(g, g.edges.Keys)
    requires LinkNodes(out, pairs)
    ensures NodesOnPairs(g, out)
  {
    PairsOfAll(g);
  }

  /**
   `to_graph_decomposition`: TypeError for anything but an undirected
   hypergraph; otherwise a consistent registry that is the graph
   decomposition of the input.
   */
  method ToGraphDecomposition<N(!new)>(a: Checked<Graph<N>>) returns (r: Result<Graph<N>>)
    ensures r.Err? <==> a.NotInstance?
    ensures r.Err? ==> r.error == TypeError
    ensures r.Ok? ==> Valid(r.value) && Decomposes(a.value, r.value)
  {
    if a.NotInstance? {
      return Err(TypeError);
    }
    var g := a.value;
    var out := Empty<N>();
    LinksOfEmpty<N>();
    ghost var done: set<set<N>> := {};
    var todo := g.edges.Keys;
    PairsOfNone(g);
    while todo != {}
      invariant todo <= g.edges.Keys
      invariant done == PairsOf(g, g.edges.Keys - todo)
      invariant Decomposing(out, done)
      decreases todo
    {
      var e :| e in todo;
      out := AddLinks(out, done, g.edges[e].members, g.edges[e].members);
      PairsOfStep(g, todo, e);
      done := done + Pairs(g.edges[e].members, g.edges[e].members);
      todo := todo - {e};
    }
    PairsOfAllIds(g, todo);
    Finish(g, out);
    return Ok(out);
  }
}

=== FILE: undirected_hypergraph.dfy ===
/**
 The undirected hypergraph registry. A hyperedge is a non-empty node set with a
 numeric id issued by a counter that only grows. Besides the hyperedge table
 the registry keeps the star of every node (the ids of the hyperedges it
 belongs to) and a map from node set to id. `Valid` is the consistency the
 registry keeps between them.
 */
module UndirectedHypergraph {
  import opened Wrappers
  import opened Attributes
  import opened Stars
  import opened Collections

  /** A hyperedge: its node set and its attributes. */
  datatype UEdge<N> = UEdge(members: set<N>, attrs: Attrs)

  datatype Graph<N> = Graph(
    nodes: map<N, Attrs>,
    edges: map<nat, UEdge<N>>,
    star: map<N, set<nat>>,
    index: map<set<N>, nat>,
    counter: nat)

  /** Result of adding a hyperedge: the new registry and the id of the hyperedge. */
  datatype Added<N> = Added(graph: Graph<N>, id: nat)

  function Empty<N>(): (g: Graph<N>)
    ensures Valid(g) && g.nodes == map[] && g.edges == map[] && g.counter == 0
  {
    Graph(map[], map[], map[], map[], 0)
  }

  // ---------------------------------------------------------------------------
  // Consistency
  // ---------------------------------------------------------------------------

  /** Every id in a star names a hyperedge that contains the star's node. */
  ghost predicate StarSound<N>(edges: map<nat, UEdge<N>>, star: map<N, set<nat>>) {
    forall n, e {:trigger e in star[n]} :: n in star && e in star[n] ==> e in edges && n in edges[e].members
  }

  /** Every hyperedge is in the star of each of its nodes. */
  ghost predicate StarCovers<N>(edges: map<nat, UEdge<N>>, star: map<N, set<nat>>) {
    forall e, n {:trigger n in edges[e].members} :: e in edges && n in edges[e].members ==> n in star && e in star[n]
  }

  /** There is one star per node, holding exactly the hyperedges that contain the node. */
  ghost predicate StarExact<N>(keys: set<N>, edges: map<nat, UEdge<N>>, star: map<N, set<nat>>) {
    star.Keys == keys && StarSound(edges, star) && StarCovers(edges, star)
  }

  /** The node-set map sends the node set of every hyperedge to its id, and holds nothing else. */
  ghost predicate IndexExact<N>(edges: map<nat, UEdge<N>>, index: map<set<N>, nat>) {
    && (forall e :: e in edges ==> edges[e].members in index && index[edges[e].members] == e)
    && (forall s :: s in index ==> index[s] in edges && edges[index[s]].members == s)
  }

  /** Every id was issued by the counter, and every hyperedge is non-empty and carries a weight. */
  ghost predicate EdgesIssued<N>(edges: map<nat, UEdge<N>>, counter: nat) {
    forall e :: e in edges ==> 1 <= e <= counter && edges[e].members != {} && WeightKey in edges[e].attrs
  }

  ghost predicate Valid<N>(g: Graph<N>) {
    && StarExact(g.nodes.Keys, g.edges, g.star)
    && IndexExact(g.edges, g.index)
    && EdgesIssued(g.edges, g.counter)
  }

  /** In a valid registry every node of a hyperedge is a registered node. */
  lemma MembersRegistered<N>(g: Graph<N>, e: nat)
    requires Valid(g) && e in g.edges
    ensures g.edges[e].members <= g.nodes.Keys
  {
    forall n | n in g.edges[e].members
      ensures n in g.nodes
    {
    }
  }

  /** No two hyperedges have the same node set. */
  lemma NodeSetsUnique<N>(g: Graph<N>, e1: nat, e2: nat)
    requires Valid(g) && e1 in g.edges && e2 in g.edges
    requires g.edges[e1].members == g.edges[e2].members
    ensures e1 == e2
  {
    assert g.index[g.edges[e1].members] == e1;
  }

  // ---------------------------------------------------------------------------
  // Star maps
  // ---------------------------------------------------------------------------

  lemma StarAddNodes<N>(keys: set<N>, edges: map<nat, UEdge<N>>, star: map<N, set<nat>>, missing: set<N>)
    requires StarExact(keys, edges, star)
    requires missing !! keys
    ensures StarExact(keys + missing, edges, AddEmptyStars(star, missing))
  {
    AddEmptyStarsFacts(star, missing);
  }

  lemma StarAddEdge<N>(keys: set<N>, edges: map<nat, UEdge<N>>, star: map<N, set<nat>>, id: nat, x: UEdge<N>)
    requires StarExact(keys, edges, star)
    requires id !in edges && x.members <= keys
    ensures StarExact(keys, edges[id := x], AddToStar(star, x.members, id))
  {
    var edges' := edges[id := x];
    var star' := AddToStar(star, x.members, id);
    AddToStarFacts(star, x.members, id);
    forall n, e {:trigger e in star'[n]} | n in star' && e in star'[n]
      ensures e in edges' && n in edges'[e].members
    {
      if e != id {
        assert e in star[n];
      }
    }
  }

  lemma StarRemoveEdge<N>(keys: set<N>, edges: map<nat, UEdge<N>>, star: map<N, set<nat>>, id: nat)
    requires StarExact(keys, edges, star)
    requires id in edges
    ensures StarExact(keys, edges - {id}, RemoveFromStar(star, edges[id].members, id))
  {
    var star' := RemoveFromStar(star, edges[id].members, id);
    RemoveFromStarFacts(star, edges[id].members, id);
    forall n, e {:trigger e in star'[n]} | n in star' && e in star'[n]
      ensures e in edges - {id} && n in edges[e].members
    {
      assert e in star[n];
    }
  }

  // ---------------------------------------------------------------------------
  // Nodes
  // ---------------------------------------------------------------------------

  /** `add_node`: a new node gets its attributes and an empty star; an existing node only has its attributes updated. */
  function AddNode<N>(g: Graph<N>, n: N, attrs: Attrs): (r: Graph<N>)
    ensures r.nodes.Keys == g.nodes.Keys + {n}
    ensures n !in g.nodes ==> r.nodes[n] == attrs && n in r.star && r.star[n] == {}
    ensures n in g.nodes ==> r.nodes[n] == g.nodes[n] + attrs && r.star == g.star
    ensures forall m :: m in g.nodes && m != n ==> r.nodes[m] == g.nodes[m]
    ensures r.edges == g.edges && r.index == g.index && r.counter == g.counter
  {
    if n !in g.nodes then
      g.(nodes := g.nodes[n := attrs], star := g.star[n := {}])
    else
      g.(nodes := g.nodes[n := g.nodes[n] + attrs])
  }

  lemma AddNodeValid<N>(g: Graph<N>, n: N, attrs: Attrs)
    requires Valid(g)
    ensures Valid(AddNode(g, n, attrs))
  {
    if n !in g.nodes {
      AddEmptyStarsOne(g.star, n);
      StarAddNodes(g.nodes.Keys, g.edges, g.star, {n});
    }
  }

  /** `add_nodes`: `add_node` for each element in order; a per-node dictionary overrides the shared one. */
  function AddNodes<N>(g: Graph<N>, args: seq<NodeArg<N>>, shared: Attrs): (r: Graph<N>)
    ensures r.nodes.Keys == g.nodes.Keys + ArgNodes(args)
    ensures r.edges == g.edges && r.index == g.index && r.counter == g.counter
    ensures r.nodes == AddAllToTable(g.nodes, args, shared)
    decreases |args|
  {
    if args == [] then g
    else
      var g1 := AddNodes(g, args[..|args| - 1], shared);
      var a := args[|args| - 1];
      var r := AddNode(g1, NodeOf(a), NodeArgAttrs(a, shared));
      AddToTableIntro(g1.nodes, r.nodes, NodeOf(a), NodeArgAttrs(a, shared));
      r
  }

  /** The same fold as the directed registry's `AddNodesValid`, over this registry's `add_node` and `Valid`. */
  lemma {:induction false} AddNodesValid<N>(g: Graph<N>, args: seq<NodeArg<N>>, shared: Attrs)
    requires Valid(g)
    ensures Valid(AddNodes(g, args, shared))
    decreases |args|
  {
    if args != [] {
      AddNodesValid(g, args[..|args| - 1], shared);
      var a := args[|args| - 1];
      AddNodeValid(AddNodes(g, args[..|args| - 1], shared), NodeOf(a), NodeArgAttrs(a, shared));
    }
  }

  // ---------------------------------------------------------------------------
  // Queries
  // ---------------------------------------------------------------------------

  /** `has_hyperedge`: is there a hyperedge with exactly this node set (order and repeats of the argument do not matter)? */
  predicate HasHyperedge<N>(g: Graph<N>, members: set<N>) {
    members in g.index
  }

  lemma HasHyperedgeMeaning<N>(g: Graph<N>, members: set<N>)
    requires Valid(g)
    ensures HasHyperedge(g, members) <==> exists e :: e in g.edges && g.edges[e].members == members
  {
    if e :| e in g.edges && g.edges[e].members == members {
      assert members in g.index;
    }
  }

  /** `get_hyperedge_id`: the id of the hyperedge with this node set; ValueError when there is none. */
  function GetHyperedgeId<N>(g: Graph<N>, members: set<N>): (r: Result<nat>)
    ensures r.Err? <==> !HasHyperedge(g, members)
    ensures r.Err? ==> r.error == ValueError
    ensures Valid(g) && r.Ok? ==> r.value in g.edges && g.edges[r.value].members == members
  {
    if !HasHyperedge(g, members) then Err(ValueError) else Ok(g.index[members])
  }

  /** `get_star`: the ids of the hyperedges the node belongs to; ValueError for an absent node. */
  function GetStar<N>(g: Graph<N>, n: N): (r: Result<set<nat>>)
    ensures n !in g.nodes <==> r == Err(ValueError)
    ensures Valid(g) ==> (r.Ok? <==> n in g.nodes)
    ensures Valid(g) && r.Ok? ==> forall e :: e in r.value <==> e in g.edges && n in g.edges[e].members
  {
    if n !in g.nodes then Err(ValueError) else if n !in g.star then Err(KeyError) else Ok(g.star[n])
  }

  /** `get_node_attribute`: ValueError for an absent node or an absent attribute. */
  function GetNodeAttribute<N>(g: Graph<N>, n: N, key: string): (r: Result<nat>)
    ensures r.Ok? <==> n in g.nodes && key in g.nodes[n]
    ensures r.Err? ==> r.error == ValueError
    ensures r.Ok? ==> r.value == g.nodes[n][key]
  {
    if n !in g.nodes then Err(ValueError)
    else if key !in g.nodes[n] then Err(ValueError)
    else Ok(g.nodes[n][key])
  }

  /** `get_hyperedge_attribute`: ValueError for an unknown id or an absent attribute. */
  function GetHyperedgeAttribute<N>(g: Graph<N>, id: nat, key: string): (r: Result<nat>)
    ensures r.Ok? <==> id in g.edges && key in g.edges[id].attrs
    ensures r.Err? ==> r.error == ValueError
    ensures r.Ok? ==> r.value == g.edges[id].attrs[key]
  {
    if id !in g.edges then Err(ValueError)
    else if key !in g.edges[id].attrs then Err(ValueError)
    else Ok(g.edges[id].attrs[key])
  }

  /** `get_hyperedge_weight`: in a valid registry it fails exactly for an unknown id. */
  function GetHyperedgeWeight<N>(g: Graph<N>, id: nat): (r: Result<nat>)
    ensures Valid(g) ==> (r.Ok? <==> id in g.edges)
    ensures r.Err? ==> r.error == ValueError
    ensures r.Ok? ==> id in g.edges && WeightKey in g.edges[id].attrs && r.value == g.edges[id].attrs[WeightKey]
  {
    GetHyperedgeAttribute(g, id, WeightKey)
  }

  /** `get_hyperedge_nodes`: the node set of a hyperedge; ValueError for an unknown id. */
  function GetHyperedgeNodes<N>(g: Graph<N>, id: nat): (r: Result<set<N>>)
    ensures r.Ok? <==> id in g.edges
    ensures r.Err? ==> r.error == ValueError
    ensures Valid(g) && r.Ok? ==> r.value != {} && GetHyperedgeId(g, r.value) == Ok(id)
  {
    if id !in g.edges then Err(ValueError) else Ok(g.edges[id].members)
  }

  /** `copy`: the same nodes, hyperedges, stars, node-set map and id counter (attribute values are copied shallowly). */
  function Copy<N>(g: Graph<N>): (r: Graph<N>)
    ensures r == g
  {
    Graph(g.nodes, g.edges, g.star, g.index, g.counter)
  }

  // ---------------------------------------------------------------------------
  // Adding hyperedges
  // ---------------------------------------------------------------------------

  /** The registry after entering a new hyperedge `x` under id `id`, its missing nodes added first. */
  function InsertEdge<N>(g: Graph<N>, id: nat, x: UEdge<N>): Graph<N> {
    var missing := x.members - g.nodes.Keys;
    Graph(
      WithNodes(g.nodes, missing),
      g.edges[id := x],
      AddToStar(AddEmptyStars(g.star, missing), x.members, id),
      g.index[x.members := id],
      id)
  }

  /** The registry with the attributes of hyperedge `id` updated by `attrs`, the new values winning. */
  function MergeEdgeAttrs<N>(g: Graph<N>, id: nat, attrs: Attrs): Graph<N>
    requires id in g.edges
  {
    var x := g.edges[id];
    g.(edges := g.edges[id := x.(attrs := x.attrs + attrs)])
  }

  /**
   `add_hyperedge`: an empty node set is a ValueError; an existing node set
   keeps its id and only merges attributes; a new node set adds its missing
   nodes, takes the next id and enters every star and the node-set map.
   */
  function AddHyperedge<N>(g: Graph<N>, members: set<N>, attrs: Attrs): (r: Result<Added<N>>)
    ensures members == {} ==> r == Err(ValueError)
    ensures r.Ok? ==> r.value.id in r.value.graph.edges
  {
    if members == {} then
      Err(ValueError)
    else if HasHyperedge(g, members) then
      var id := g.index[members];
      if id !in g.edges then Err(KeyError) else Ok(Added(MergeEdgeAttrs(g, id, attrs), id))
    else
      var id := g.counter + 1;
      Ok(Added(InsertEdge(g, id, UEdge(members, DefaultEdgeAttrs + attrs)), id))
  }

  /** The outcome of `add_hyperedge` for a new node set, as an equation. */
  lemma AddHyperedgeInserts<N>(g: Graph<N>, members: set<N>, attrs: Attrs)
    requires members != {} && !HasHyperedge(g, members)
    ensures AddHyperedge(g, members, attrs) == Ok(Added(InsertEdge(g, g.counter + 1, UEdge(members, DefaultEdgeAttrs + attrs)), g.counter + 1))
  {
  }

  /** What entering a new hyperedge changes: its id is issued, its missing nodes are added, nothing else moves. */
  lemma InsertEdgeFacts<N>(g: Graph<N>, id: nat, x: UEdge<N>)
    ensures var r := InsertEdge(g, id, x);
      && r.counter == id
      && r.edges.Keys == g.edges.Keys + {id}
      && r.edges[id] == x
      && (forall e :: e in g.edges && e != id ==> r.edges[e] == g.edges[e])
      && r.nodes.Keys == g.nodes.Keys + x.members
      && (forall n :: n in g.nodes ==> r.nodes[n] == g.nodes[n])
      && (forall n :: n in x.members && n !in g.nodes ==> r.nodes[n] == map[])
      && r.index.Keys == g.index.Keys + {x.members}
  {
    var missing := x.members - g.nodes.Keys;
    WithNodesFacts(g.nodes, missing);
    assert g.nodes.Keys + missing == g.nodes.Keys + x.members;
  }

  /**
   A new node set gets the next id, weight 1 unless `attrs` gives one, the
   given attributes, and its missing nodes with empty attributes; every other
   hyperedge is unchanged.
   */
  lemma AddHyperedgeNew<N>(g: Graph<N>, members: set<N>, attrs: Attrs)
    requires members != {} && !HasHyperedge(g, members)
    ensures var r := AddHyperedge(g, members, attrs);
      && r.Ok?
      && r.value.id == g.counter + 1 == r.value.graph.counter
      && r.value.graph.edges.Keys == g.edges.Keys + {g.counter + 1}
      && r.value.graph.edges[r.value.id].members == members
      && r.value.graph.edges[r.value.id].attrs.Keys == attrs.Keys + {WeightKey}
      && r.value.graph.edges[r.value.id].attrs[WeightKey] == (if WeightKey in attrs then attrs[WeightKey] else 1)
      && (forall k :: k in attrs ==> r.value.graph.edges[r.value.id].attrs[k] == attrs[k])
      && (forall e :: e in g.edges && e != g.counter + 1 ==> r.value.graph.edges[e] == g.edges[e])
      && r.value.graph.nodes.Keys == g.nodes.Keys + members
      && (forall n :: n in members && n !in g.nodes ==> r.value.graph.nodes[n] == map[])
  {
    AddHyperedgeInserts(g, members, attrs);
    InsertEdgeFacts(g, g.counter + 1, UEdge(members, DefaultEdgeAttrs + attrs));
  }

  /** Merging attributes touches only the attributes of hyperedge `id`; the new values win. */
  lemma MergeEdgeAttrsFacts<N>(g: Graph<N>, id: nat, attrs: Attrs)
    requires id in g.edges
    ensures var r := MergeEdgeAttrs(g, id, attrs);
      && r.nodes == g.nodes && r.counter == g.counter && r.star == g.star && r.index == g.index
      && r.edges.Keys == g.edges.Keys
      && (forall e :: e in g.edges && e != id ==> r.edges[e] == g.edges[e])
      && r.edges[id].members == g.edges[id].members
      && r.edges[id].attrs.Keys == g.edges[id].attrs.Keys + attrs.Keys
      && (forall k :: k in attrs ==> r.edges[id].attrs[k] == attrs[k])
      && (forall k :: k in g.edges[id].attrs && k !in attrs ==> r.edges[id].attrs[k] == g.edges[id].attrs[k])
  {
  }

  /**
   Re-adding an existing node set returns its id, creates no hyperedge and
   changes nothing but that hyperedge's attributes: given values overwrite
   (the weight included), other keys are kept.
   */
  lemma AddHyperedgeExisting<N>(g: Graph<N>, members: set<N>, attrs: Attrs)
    requires Valid(g) && members != {} && HasHyperedge(g, members)
    ensures var r := AddHyperedge(g, members, attrs);
      && r.Ok?
      && r.value.id == g.index[members]
      && r.value.graph.nodes == g.nodes && r.value.graph.counter == g.counter
      && r.value.graph.edges.Keys == g.edges.Keys
      && r.value.graph.edges[r.value.id].members == members
      && (forall k :: k in attrs ==> r.value.graph.edges[r.value.id].attrs[k] == attrs[k])
      && (forall k :: k in g.edges[r.value.id].attrs && k !in attrs ==>
            r.value.graph.edges[r.value.id].attrs[k] == g.edges[r.value.id].attrs[k])
      && (forall e :: e in g.edges && e != r.value.id ==> r.value.graph.edges[e] == g.edges[e])
  {
    var id := g.index[members];
    assert id in g.edges;
    MergeEdgeAttrsFacts(g, id, attrs);
  }

  lemma InsertEdgeStar<N>(g: Graph<N>, id: nat, x: UEdge<N>)
    requires StarExact(g.nodes.Keys, g.edges, g.star) && id !in g.edges
    ensures StarExact(InsertEdge(g, id, x).nodes.Keys, InsertEdge(g, id, x).edges, InsertEdge(g, id, x).star)
  {
    var missing := x.members - g.nodes.Keys;
    WithNodesFacts(g.nodes, missing);
    StarAddNodes(g.nodes.Keys, g.edges, g.star, missing);
    StarAddEdge(g.nodes.Keys + missing, g.edges, AddEmptyStars(g.star, missing), id, x);
  }

  lemma InsertEdgeIndex<N>(g: Graph<N>, id: nat, x: UEdge<N>)
    requires IndexExact(g.edges, g.index) && id !in g.edges && x.members !in g.index
    ensures IndexExact(InsertEdge(g, id, x).edges, InsertEdge(g, id, x).index)
  {
  }

  lemma InsertEdgeIssued<N>(g: Graph<N>, id: nat, x: UEdge<N>)
    requires EdgesIssued(g.edges, g.counter) && id == g.counter + 1
    requires x.members != {} && WeightKey in x.attrs
    ensures EdgesIssued(InsertEdge(g, id, x).edges, InsertEdge(g, id, x).counter)
  {
  }

  lemma MergeAttrsValid<N>(g: Graph<N>, id: nat, attrs: Attrs)
    requires Valid(g) && id in g.edges
    ensures Valid(MergeEdgeAttrs(g, id, attrs))
  {
    MergeEdgeAttrsFacts(g, id, attrs);
    var r := MergeEdgeAttrs(g, id, attrs);
    assert StarSound(r.edges, r.star) by {
      forall n, e {:trigger e in r.star[n]} | n in r.star && e in r.star[n]
        ensures e in r.edges && n in r.edges[e].members
      {
        assert e in g.star[n];
      }
    }
  }

  /** `add_hyperedge` keeps the registry valid. */
  lemma AddHyperedgeValid<N>(g: Graph<N>, members: set<N>, attrs: Attrs)
    requires Valid(g)
    ensures AddHyperedge(g, members, attrs).Ok? <==> members != {}
    ensures AddHyperedge(g, members, attrs).Ok? ==> Valid(AddHyperedge(g, members, attrs).value.graph)
  {
    if members == {} {
    } else if HasHyperedge(g, members) {
      AddHyperedgeExisting(g, members, attrs);
      MergeAttrsValid(g, g.index[members], attrs);
    } else {
      var x := UEdge(members, DefaultEdgeAttrs + attrs);
      AddHyperedgeInserts(g, members, attrs);
      InsertEdgeStar(g, g.counter + 1, x);
      InsertEdgeIndex(g, g.counter + 1, x);
      InsertEdgeIssued(g, g.counter + 1, x);
    }
  }

  /** `add_hyperedges`: `add_hyperedge` for each node set in order, with the shared attributes; the ids in order. */
  function AddHyperedges<N>(g: Graph<N>, sets: seq<set<N>>, shared: Attrs): (r: Result<(Graph<N>, seq<nat>)>)
    ensures r.Ok? ==> |r.value.1| == |sets|
    ensures r.Ok? ==> forall i :: 0 <= i < |sets| ==> sets[i] != {}
    decreases |sets|
  {
    if sets == [] then Ok((g, []))
    else
      var prev := AddHyperedges(g, sets[..|sets| - 1], shared);
      if prev.Err? then Err(prev.error)
      else
        var step := AddHyperedge(prev.value.0, sets[|sets| - 1], shared);
        if step.Err? then Err(step.error)
        else
          assert forall i :: 0 <= i < |sets| - 1 ==> sets[..|sets| - 1][i] == sets[i];
          Ok((step.value.graph, prev.value.1 + [step.value.id]))
  }

  /** In a valid registry `add_hyperedges` fails exactly when some node set is empty. */
  lemma {:induction false} AddHyperedgesValid<N>(g: Graph<N>, sets: seq<set<N>>, shared: Attrs)
    requires Valid(g)
    ensures AddHyperedges(g, sets, shared).Ok? <==> forall i :: 0 <= i < |sets| ==> sets[i] != {}
    ensures AddHyperedges(g, sets, shared).Ok? ==> Valid(AddHyperedges(g, sets, shared).value.0)
    decreases |sets|
  {
    if sets != [] {
      var init := sets[..|sets| - 1];
      AddHyperedgesValid(g, init, shared);
      assert forall i :: 0 <= i < |init| ==> init[i] == sets[i];
      match AddHyperedges(g, init, shared)
      case Err(_) =>
      case Ok((g1, ids)) =>
        AddHyperedgeValid(g1, sets[|sets| - 1], shared);
    }
  }

  /** Every hyperedge of `g` is in `g'` under the same id with the same node set. */
  ghost predicate MembersKept<N>(g: Graph<N>, g': Graph<N>) {
    forall e :: e in g.edges ==> e in g'.edges && g'.edges[e].members == g.edges[e].members
  }

  /** An added hyperedge's id names its node set, and every hyperedge already there keeps its id and node set. */
  lemma AddHyperedgeMembers<N>(g: Graph<N>, members: set<N>, attrs: Attrs)
    requires Valid(g)
    ensures var r := AddHyperedge(g, members, attrs);
      r.Ok? ==> r.value.graph.edges[r.value.id].members == members && MembersKept(g, r.value.graph)
  {
    if members == {} {
    } else if HasHyperedge(g, members) {
      AddHyperedgeExisting(g, members, attrs);
    } else {
      NewMembersKept(g, members, attrs);
    }
  }

  lemma NewMembersKept<N>(g: Graph<N>, members: set<N>, attrs: Attrs)
    requires EdgesIssued(g.edges, g.counter) && members != {} && !HasHyperedge(g, members)
    ensures var r := AddHyperedge(g, members, attrs).value;
      r.graph.edges[r.id].members == members && MembersKept(g, r.graph)
  {
    AddHyperedgeNew(g, members, attrs);
    assert g.counter + 1 !in g.edges;
  }

  /**
   `add_hyperedges` returns the ids in the order of its arguments: the i-th
   id names a hyperedge whose node set is the i-th set, and the node-set map
   sends that set to it, whether the set was new or already registered.
   */
  lemma {:induction false} AddHyperedgesIds<N>(g: Graph<N>, sets: seq<set<N>>, shared: Attrs)
    requires Valid(g)
    ensures var r := AddHyperedges(g, sets, shared);
      r.Ok? ==>
        && (forall i :: 0 <= i < |sets| ==>
              (r.value.1[i] in r.value.0.edges && r.value.0.edges[r.value.1[i]].members == sets[i]
               && sets[i] in r.value.0.index && r.value.0.index[sets[i]] == r.value.1[i]))
        && MembersKept(g, r.value.0)
    decreases |sets|
  {
    AddHyperedgesValid(g, sets, shared);
    if sets != [] {
      var init := sets[..|sets| - 1];
      AddHyperedgesIds(g, init, shared);
      AddHyperedgesValid(g, init, shared);
      var prev := AddHyperedges(g, init, shared);
      if prev.Ok? {
        AddHyperedgeMembers(prev.value.0, sets[|sets| - 1], shared);
        MembersStep(g, sets, shared, prev.value.0, prev.value.1);
      }
    }
  }

  /** One more node set: its id joins the ids so far, which stay right. */
  lemma MembersStep<N>(g: Graph<N>, sets: seq<set<N>>, shared: Attrs, g1: Graph<N>, ids: seq<nat>)
    requires |sets| > 0 && AddHyperedges(g, sets[..|sets| - 1], shared) == Ok((g1, ids))
    requires forall i :: 0 <= i < |sets| - 1 ==> ids[i] in g1.edges && g1.edges[ids[i]].members == sets[..|sets| - 1][i]
    requires MembersKept(g, g1)
    requires var r := AddHyperedge(g1, sets[|sets| - 1], shared);
      r.Ok? ==> r.value.graph.edges[r.value.id].members == sets[|sets| - 1] && MembersKept(g1, r.value.graph)
    requires AddHyperedges(g, sets, shared).Ok? ==>
      IndexExact(AddHyperedges(g, sets, shared).value.0.edges, AddHyperedges(g, sets, shared).value.0.index)
    ensures var r := AddHyperedges(g, sets, shared);
      r.Ok? ==>
        && (forall i :: 0 <= i < |sets| ==>
              (r.value.1[i] in r.value.0.edges && r.value.0.edges[r.value.1[i]].members == sets[i]
               && sets[i] in r.value.0.index && r.value.0.index[sets[i]] == r.value.1[i]))
        && MembersKept(g, r.value.0)
  {
    var added := AddHyperedge(g1, sets[|sets| - 1], shared);
    if added.Ok? {
      assert AddHyperedges(g, sets, shared) == Ok((added.value.graph, ids + [added.value.id]));
      assert forall i :: 0 <= i < |sets| - 1 ==> sets[..|sets| - 1][i] == sets[i];
      MemberIdsExtend(sets, ids, g1, added.value.graph, added.value.id);
    }
  }

  /** The ids of all but the last set stay right when the last one's id is appended; in a valid registry the node-set map agrees. */
  lemma MemberIdsExtend<N>(sets: seq<set<N>>, ids: seq<nat>, g1: Graph<N>, g2: Graph<N>, id: nat)
    requires |sets| > 0 && |ids| == |sets| - 1 && IndexExact(g2.edges, g2.index)
    requires forall i :: 0 <= i < |ids| ==> ids[i] in g1.edges && g1.edges[ids[i]].members == sets[i]
    requires MembersKept(g1, g2) && id in g2.edges && g2.edges[id].members == sets[|sets| - 1]
    ensures forall i :: 0 <= i < |sets| ==>
      ((ids + [id])[i] in g2.edges && g2.edges[(ids + [id])[i]].members == sets[i]
       && sets[i] in g2.index && g2.index[sets[i]] == (ids + [id])[i])
  {
    forall i | 0 <= i < |sets|
      ensures (ids + [id])[i] in g2.edges && g2.edges[(ids + [id])[i]].members == sets[i]
    {
    }
  }

  /**
   Distinct fresh node sets get consecutive ids in insertion order: the i-th
   gets counter + 1 + i ("e1", "e2", ... on an empty registry).
   */
  lemma {:induction false} FreshIdsConsecutive<N>(g: Graph<N>, sets: seq<set<N>>, shared: Attrs)
    requires Distinct(sets)
    requires forall i :: 0 <= i < |sets| ==> sets[i] != {} && !HasHyperedge(g, sets[i])
    ensures FreshOutcome(g, sets, AddHyperedges(g, sets, shared))
    decreases |sets|
  {
    if sets != [] {
      var init := sets[..|sets| - 1];
      var last := sets[|sets| - 1];
      assert forall i :: 0 <= i < |init| ==> init[i] == sets[i];
      DistinctSnoc(sets);
      FreshIdsConsecutive(g, init, shared);
      assert last !in Elems(init) by {
        ElemsMeaning(init);
      }
      FreshStep(g, sets, shared);
    }
  }

  /** The outcome `FreshIdsConsecutive` promises for adding the fresh node sets `sets` to `g`. */
  ghost predicate FreshOutcome<N>(g: Graph<N>, sets: seq<set<N>>, r: Result<(Graph<N>, seq<nat>)>) {
    && r.Ok?
    && |r.value.1| == |sets|
    && (forall i :: 0 <= i < |sets| ==> r.value.1[i] == g.counter + 1 + i)
    && r.value.0.counter == g.counter + |sets|
    && r.value.0.index.Keys == g.index.Keys + Elems(sets)
  }

  /** A fresh node set gets the next id and becomes a key of the node-set map. */
  lemma FreshInsert<N>(g: Graph<N>, members: set<N>, attrs: Attrs)
    requires members != {} && !HasHyperedge(g, members)
    ensures var r := AddHyperedge(g, members, attrs);
      && r.Ok? && r.value.id == g.counter + 1 == r.value.graph.counter
      && r.value.graph.index.Keys == g.index.Keys + {members}
  {
    AddHyperedgeInserts(g, members, attrs);
    var g2 := InsertEdge(g, g.counter + 1, UEdge(members, DefaultEdgeAttrs + attrs));
    assert g2.index.Keys == g.index.Keys + {members};
  }

  lemma FreshStep<N>(g: Graph<N>, sets: seq<set<N>>, shared: Attrs)
    requires |sets| > 0
    requires FreshOutcome(g, sets[..|sets| - 1], AddHyperedges(g, sets[..|sets| - 1], shared))
    requires sets[|sets| - 1] != {} && !HasHyperedge(g, sets[|sets| - 1]) && sets[|sets| - 1] !in Elems(sets[..|sets| - 1])
    ensures FreshOutcome(g, sets, AddHyperedges(g, sets, shared))
  {
    var init := sets[..|sets| - 1];
    var last := sets[|sets| - 1];
    var r1 := AddHyperedges(g, init, shared).value;
    var g1 := r1.0;
    assert !HasHyperedge(g1, last);
    FreshInsert(g1, last, shared);
    AddHyperedgesSnoc(g, sets, shared);
    var step := AddHyperedge(g1, last, shared).value;
    assert AddHyperedges(g, sets, shared) == Ok((step.graph, r1.1 + [step.id]));
    FreshOutcomeSnoc(g, sets, g1, r1.1, step.graph, step.id);
  }

  /** The bookkeeping of one fresh insertion after a fresh prefix, stated on the registries alone. */
  lemma FreshOutcomeSnoc<N>(g: Graph<N>, sets: seq<set<N>>, g1: Graph<N>, ids: seq<nat>, g2: Graph<N>, id: nat)
    requires |sets| > 0
    requires FreshOutcome(g, sets[..|sets| - 1], Ok((g1, ids)))
    requires id == g1.counter + 1 == g2.counter && g2.index.Keys == g1.index.Keys + {sets[|sets| - 1]}
    ensures FreshOutcome(g, sets, Ok((g2, ids + [id])))
  {
    ElemsSnoc(sets);
    UnionStep(g2.index.Keys, g1.index.Keys, g.index.Keys, Elems(sets[..|sets| - 1]), Elems(sets), sets[|sets| - 1]);
    ConsecutiveSnoc(ids, g.counter, id);
  }

  /** `add_hyperedges` of one more node set: the outcome of `add_hyperedge` on the registry built so far. */
  lemma AddHyperedgesSnoc<N>(g: Graph<N>, sets: seq<set<N>>, shared: Attrs)
    requires |sets| > 0
    requires AddHyperedges(g, sets[..|sets| - 1], shared).Ok?
    requires AddHyperedge(AddHyperedges(g, sets[..|sets| - 1], shared).value.0, sets[|sets| - 1], shared).Ok?
    ensures var r1 := AddHyperedges(g, sets[..|sets| - 1], shared).value;
      var step := AddHyperedge(r1.0, sets[|sets| - 1], shared).value;
      && AddHyperedges(g, sets, shared).Ok?
      && AddHyperedges(g, sets, shared).value.0 == step.graph
      && AddHyperedges(g, sets, shared).value.1 == r1.1 + [step.id]
  {
  }

  // ---------------------------------------------------------------------------
  // Removing hyperedges
  // ---------------------------------------------------------------------------

  /**
   `remove_hyperedge`: an unknown id is a ValueError; otherwise the hyperedge
   leaves the table, the star of each of its nodes and the node-set map.
   */
  function RemoveHyperedge<N>(g: Graph<N>, id: nat): (r: Result<Graph<N>>)
    ensures id !in g.edges <==> r == Err(ValueError)
    ensures r.Ok? ==> r.value.edges.Keys == g.edges.Keys - {id}
    ensures r.Ok? ==> forall e :: e in r.value.edges ==> r.value.edges[e] == g.edges[e]
    ensures r.Ok? ==> r.value.nodes == g.nodes && r.value.counter == g.counter
    ensures r.Ok? ==> !HasHyperedge(r.value, g.edges[id].members)
  {
    if id !in g.edges then
      Err(ValueError)
    else
      var x := g.edges[id];
      Ok(Graph(g.nodes, g.edges - {id}, RemoveFromStar(g.star, x.members, id), g.index - {x.members}, g.counter))
  }

  lemma IndexRemoveEdge<N>(edges: map<nat, UEdge<N>>, index: map<set<N>, nat>, id: nat)
    requires IndexExact(edges, index) && id in edges
    ensures IndexExact(edges - {id}, index - {edges[id].members})
  {
    forall e | e in edges - {id}
      ensures edges[e].members != edges[id].members
    {
      assert index[edges[e].members] == e;
    }
  }

  /** Removing a hyperedge keeps the registry valid. */
  lemma RemoveHyperedgeValid<N>(g: Graph<N>, id: nat)
    requires Valid(g) && id in g.edges
    ensures Valid(RemoveHyperedge(g, id).value)
  {
    StarRemoveEdge(g.nodes.Keys, g.edges, g.star, id);
    IndexRemoveEdge(g.edges, g.index, id);
  }

  /** `remove_hyperedges`: `remove_hyperedge` for each id in order, the same fold as the directed registry's. */
  function RemoveHyperedges<N>(g: Graph<N>, ids: seq<nat>): (r: Result<Graph<N>>)
    ensures r.Ok? ==> r.value.nodes == g.nodes && r.value.counter == g.counter
    ensures r.Ok? ==> r.value.edges.Keys == g.edges.Keys - Elems(ids)
    decreases |ids|
  {
    if ids == [] then Ok(g)
    else
      match RemoveHyperedges(g, ids[..|ids| - 1])
      case Err(err) => Err(err)
      case Ok(g1) => RemoveHyperedge(g1, ids[|ids| - 1])
  }

  /** `remove_hyperedges` succeeds exactly when the ids are distinct hyperedges of the registry. */
  lemma {:induction false} RemoveHyperedgesSucceeds<N>(g: Graph<N>, ids: seq<nat>)
    requires Valid(g)
    ensures RemoveHyperedges(g, ids).Ok? <==> (forall e :: e in ids ==> e in g.edges) && Distinct(ids)
    ensures RemoveHyperedges(g, ids).Ok? ==> Valid(RemoveHyperedges(g, ids).value)
    decreases |ids|
  {
    if ids != [] {
      var init := ids[..|ids| - 1];
      var last := ids[|ids| - 1];
      RemoveHyperedgesSucceeds(g, init);
      DistinctSnoc(ids);
      ElemsMeaning(init);
      var rest := RemoveHyperedges(g, init);
      if rest.Ok? {
        var g1 := rest.value;
        assert last in g1.edges <==> last in g.edges && last !in init;
        if last in g1.edges {
          RemoveHyperedgeValid(g1, last);
        }
      }
    }
  }

  // ---------------------------------------------------------------------------
  // Removing nodes
  // ---------------------------------------------------------------------------

  /** The node-set map without the entries naming a hyperedge of `gone`. */
  function IndexWithout<N>(index: map<set<N>, nat>, gone: set<nat>): map<set<N>, nat> {
    map s | s in index && index[s] !in gone :: index[s]
  }

  /** The registry without `node` and without the hyperedges `gone`, the other stars left as they were. */
  function DropNodeAsWritten<N>(g: Graph<N>, node: N, gone: set<nat>): Graph<N> {
    Graph(g.nodes - {node}, g.edges - gone, g.star - {node}, IndexWithout(g.index, gone), g.counter)
  }

  /**
   `remove_node` as written: an absent node is a ValueError; otherwise every
   hyperedge in the node's star leaves the table and the node-set map, and the
   node and its star are deleted. The ids of those hyperedges stay in the
   stars of their other nodes. A stale id met in the node's own star is the
   KeyError the lookup of its attributes raises.
   */
  function RemoveNodeAsWritten<N>(g: Graph<N>, node: N): (r: Result<Graph<N>>)
    ensures node !in g.nodes <==> r == Err(ValueError)
    ensures r.Ok? ==> r.value.nodes.Keys == g.nodes.Keys - {node} && r.value.counter == g.counter
    ensures r.Ok? ==> forall m :: m in r.value.star ==> m in g.star && r.value.star[m] == g.star[m]
  {
    if node !in g.nodes then Err(ValueError)
    else if node !in g.star || !(g.star[node] <= g.edges.Keys) then Err(KeyError)
    else Ok(DropNodeAsWritten(g, node, g.star[node]))
  }

  /** Every star except that of `node`, with the ids of `gone` taken out. */
  function ScrubStars<N>(star: map<N, set<nat>>, node: N, gone: set<nat>): map<N, set<nat>> {
    map m | m in star && m != node :: star[m] - gone
  }

  /** The registry without `node` and the hyperedges `gone`, whose ids also leave every other star. */
  function DropNode<N>(g: Graph<N>, node: N, gone: set<nat>): Graph<N> {
    Graph(g.nodes - {node}, g.edges - gone, ScrubStars(g.star, node, gone), IndexWithout(g.index, gone), g.counter)
  }

  /**
   `remove_node` with the evident intent of its docstring: as written, except
   that the removed hyperedges also leave the stars of their other nodes.
   */
  function RemoveNode<N>(g: Graph<N>, node: N): (r: Result<Graph<N>>)
    ensures node !in g.nodes <==> r == Err(ValueError)
    ensures r.Ok? ==> r.value.nodes.Keys == g.nodes.Keys - {node} && r.value.counter == g.counter
  {
    if node !in g.nodes then Err(ValueError)
    else if node !in g.star || !(g.star[node] <= g.edges.Keys) then Err(KeyError)
    else Ok(DropNode(g, node, g.star[node]))
  }

  /** In a valid registry the star of a node is exactly the set of hyperedges containing it. */
  lemma StarIsContaining<N>(g: Graph<N>, node: N)
    requires StarExact(g.nodes.Keys, g.edges, g.star) && node in g.nodes
    ensures forall e :: e in g.star[node] <==> e in g.edges && node in g.edges[e].members
  {
  }

  lemma DropNodeStar<N>(g: Graph<N>, node: N)
    requires StarExact(g.nodes.Keys, g.edges, g.star) && node in g.nodes
    ensures var r := DropNode(g, node, g.star[node]);
      StarExact(r.nodes.Keys, r.edges, r.star)
  {
    var gone := g.star[node];
    var r := DropNode(g, node, gone);
    assert r.star.Keys == r.nodes.Keys;
    forall m, e {:trigger e in r.star[m]} | m in r.star && e in r.star[m]
      ensures e in r.edges && m in r.edges[e].members
    {
      assert e in g.star[m];
    }
    forall e, m {:trigger m in r.edges[e].members} | e in r.edges && m in r.edges[e].members
      ensures m in r.star && e in r.star[m]
    {
      assert e in g.star[m];
    }
  }

  lemma DropNodeIndex<N>(g: Graph<N>, node: N, gone: set<nat>)
    requires IndexExact(g.edges, g.index)
    ensures IndexExact(g.edges - gone, IndexWithout(g.index, gone))
  {
  }

  lemma DropNodeIssued<N>(g: Graph<N>, node: N, gone: set<nat>)
    requires EdgesIssued(g.edges, g.counter)
    ensures EdgesIssued(g.edges - gone, g.counter)
  {
  }

  /** Removing a present node succeeds and keeps the registry valid. */
  lemma RemoveNodeValid<N>(g: Graph<N>, node: N)
    requires Valid(g) && node in g.nodes
    ensures RemoveNode(g, node).Ok? && Valid(RemoveNode(g, node).value)
  {
    assert g.star[node] <= g.edges.Keys;
    DropNodeStar(g, node);
    DropNodeIndex(g, node, g.star[node]);
    DropNodeIssued(g, node, g.star[node]);
  }

  /**
   Removing a node deletes exactly the hyperedges that contain it and keeps
   every other hyperedge and every other node as they were.
   */
  lemma RemoveNodeRemovesContaining<N>(g: Graph<N>, node: N)
    requires Valid(g) && node in g.nodes
    ensures var r := RemoveNode(g, node);
      && r.Ok?
      && (forall m :: m in r.value.nodes ==> r.value.nodes[m] == g.nodes[m])
      && (forall e :: e in r.value.edges <==> e in g.edges && node !in g.edges[e].members)
      && (forall e :: e in r.value.edges ==> r.value.edges[e] == g.edges[e])
  {
    StarIsContaining(g, node);
  }

  /**
   As written, `remove_node` removes the same nodes and hyperedges as the
   corrected form and keeps the node-set map and the id discipline, but leaves
   every other star untouched, so ids of deleted hyperedges stay in them.
   */
  lemma RemoveNodeAsWrittenKeepsStars<N>(g: Graph<N>, node: N)
    requires Valid(g) && node in g.nodes
    ensures var r := RemoveNodeAsWritten(g, node);
      && r.Ok?
      && r.value.nodes == RemoveNode(g, node).value.nodes
      && r.value.edges == RemoveNode(g, node).value.edges
      && r.value.index == RemoveNode(g, node).value.index
      && r.value.star.Keys == r.value.nodes.Keys
      && StarCovers(r.value.edges, r.value.star)
      && IndexExact(r.value.edges, r.value.index)
      && EdgesIssued(r.value.edges, r.value.counter)
  {
    assert g.star[node] <= g.edges.Keys;
    DropNodeIndex(g, node, g.star[node]);
    DropNodeIssued(g, node, g.star[node]);
  }

  /**
   The defect of `remove_node` on any two nodes sharing a hyperedge: after
   removing `a` the hyperedge is gone, yet the star of `b` still holds its id,
   the registry is no longer consistent, and removing `b` next raises KeyError.
   */
  lemma StaleStar<N>(g: Graph<N>, a: N, b: N, e: nat)
    requires Valid(g) && a != b && e in g.edges && a in g.edges[e].members && b in g.edges[e].members
    ensures var r := RemoveNodeAsWritten(g, a);
      && r.Ok?
      && e !in r.value.edges
      && b in r.value.star && e in r.value.star[b]
      && !Valid(r.value)
      && RemoveNodeAsWritten(r.value, b) == Err(KeyError)
  {
    StarIsContaining(g, a);
    StarIsContaining(g, b);
    RemoveNodeAsWrittenKeepsStars(g, a);
  }

  /** Adding the node set {a, b} to a new registry: one hyperedge, id 1, in the stars of both nodes. */
  lemma PairRegistry<N>(a: N, b: N)
    requires a != b
    ensures var g := AddHyperedge(Empty<N>(), {a, b}, map[]);
      && g.Ok? && Valid(g.value.graph)
      && g.value.graph.nodes.Keys == {a, b}
      && g.value.graph.edges.Keys == {1} && g.value.graph.edges[1].members == {a, b}
      && g.value.graph.star[a] == {1} && g.value.graph.star[b] == {1}
  {
    var g := AddHyperedge(Empty<N>(), {a, b}, map[]).value.graph;
    AddHyperedgeValid(Empty<N>(), {a, b}, map[]);
    AddHyperedgeNew(Empty<N>(), {a, b}, map[]);
    StarIsContaining(g, a);
    StarIsContaining(g, b);
  }

  /**
   The defect of `remove_node` on the smallest registry that shows it, one
   hyperedge {a, b}: `get_star(b)` still reports hyperedge 1 after `a` is
   removed, and removing `b` next raises KeyError. The corrected form leaves
   `b` with an empty star and removes it.
   */
  lemma StaleStarCounterexample<N>(a: N, b: N)
    requires a != b
    ensures var g := AddHyperedge(Empty<N>(), {a, b}, map[]);
      && g.Ok?
      && RemoveNodeAsWritten(g.value.graph, a).Ok?
      && 1 !in RemoveNodeAsWritten(g.value.graph, a).value.edges
      && GetStar(RemoveNodeAsWritten(g.value.graph, a).value, b) == Ok({1})
      && !Valid(RemoveNodeAsWritten(g.value.graph, a).value)
      && RemoveNodeAsWritten(RemoveNodeAsWritten(g.value.graph, a).value, b) == Err(KeyError)
      && RemoveNode(g.value.graph, a).Ok?
      && GetStar(RemoveNode(g.value.graph, a).value, b) == Ok({})
      && RemoveNode(RemoveNode(g.value.graph, a).value, b).Ok?
  {
    PairRegistry(a, b);
    var g := AddHyperedge(Empty<N>(), {a, b}, map[]).value.graph;
    StaleStar(g, a, b, 1);
    CorrectedEmptiesStar(g, a, b);
  }

  /** With the corrected `remove_node`, the other node of the only hyperedge is left with an empty star and can be removed. */
  lemma CorrectedEmptiesStar<N>(g: Graph<N>, a: N, b: N)
    requires Valid(g) && a != b && g.nodes.Keys == {a, b}
    requires forall e :: e in g.edges ==> a in g.edges[e].members
    ensures var c := RemoveNode(g, a);
      && c.Ok? && GetStar(c.value, b) == Ok({})
      && RemoveNode(c.value, b).Ok?
  {
    RemoveNodeValid(g, a);
    RemoveNodeRemovesContaining(g, a);
    var c := RemoveNode(g, a).value;
    assert c.edges.Keys == {};
    assert b in c.nodes;
    StarIsContaining(c, b);
    assert c.star[b] == {};
    RemoveNodeValid(c, b);
  }

  /** `r` is `g` without the nodes `gone` and exactly the hyperedges that touch them; nothing else changed. */
  ghost predicate WithoutNodes<N>(g: Graph<N>, r: Graph<N>, gone: set<N>) {
    && r.nodes.Keys == g.nodes.Keys - gone
    && (forall m :: m in r.nodes ==> r.nodes[m] == g.nodes[m])
    && (forall e :: e in r.edges <==> e in g.edges && g.edges[e].members !! gone)
    && (forall e :: e in r.edges ==> r.edges[e] == g.edges[e])
    && r.counter == g.counter
  }

  /** `remove_nodes`: `remove_node` for each node in order (the corrected form). */
  function RemoveNodes<N>(g: Graph<N>, ns: seq<N>): (r: Result<Graph<N>>)
    decreases |ns|
  {
    if ns == [] then Ok(g)
    else
      var prev := RemoveNodes(g, ns[..|ns| - 1]);
      if prev.Err? then prev else RemoveNode(prev.value, ns[|ns| - 1])
  }

  lemma WithoutNothing<N>(g: Graph<N>)
    ensures WithoutNodes(g, g, Elems<N>([]))
  {
  }

  lemma WithoutNodesStep<N>(g: Graph<N>, h: Graph<N>, done: set<N>, n: N)
    requires WithoutNodes(g, h, done) && Valid(h) && n in h.nodes
    ensures WithoutNodes(g, RemoveNode(h, n).value, done + {n})
  {
    RemoveNodeRemovesContaining(h, n);
  }

  /**
   `remove_nodes` succeeds exactly when the nodes are distinct nodes of the
   registry, and then removes them and exactly the hyperedges touching them.
   */
  lemma {:induction false} RemoveNodesMeaning<N>(g: Graph<N>, ns: seq<N>)
    requires Valid(g)
    ensures RemoveNodes(g, ns).Ok? <==> (forall n :: n in ns ==> n in g.nodes) && Distinct(ns)
    ensures RemoveNodes(g, ns).Ok? ==> Valid(RemoveNodes(g, ns).value) && WithoutNodes(g, RemoveNodes(g, ns).value, Elems(ns))
    decreases |ns|
  {
    if ns == [] {
      WithoutNothing(g);
    } else {
      var init := ns[..|ns| - 1];
      var last := ns[|ns| - 1];
      RemoveNodesMeaning(g, init);
      DistinctSnoc(ns);
      ElemsSnoc(ns);
      var prev := RemoveNodes(g, init);
      if prev.Ok? {
        var h := prev.value;
        assert last in h.nodes <==> last in g.nodes && last !in init by {
          ElemsMeaning(init);
        }
        if last in h.nodes {
          RemoveNodeValid(h, last);
          WithoutNodesStep(g, h, Elems(init), last);
        }
      }
    }
  }

  // ---------------------------------------------------------------------------
  // Sequences of operations
  // ---------------------------------------------------------------------------

  /** One call of a mutating method of the registry. */
  datatype Op<N> =
    | AddNodeOp(node: N, attrs: Attrs)
    | AddEdgeOp(members: set<N>, attrs: Attrs)
    | RemoveEdgeOp(id: nat)
    | RemoveNodeOp(node: N)

  function Apply<N>(g: Graph<N>, op: Op<N>): Result<Graph<N>> {
    match op
    case AddNodeOp(n, a) => Ok(AddNode(g, n, a))
    case AddEdgeOp(s, a) =>
      var r := AddHyperedge(g, s, a);
      if r.Err? then Err(r.error) else Ok(r.value.graph)
    case RemoveEdgeOp(id) => RemoveHyperedge(g, id)
    case RemoveNodeOp(n) => RemoveNode(g, n)
  }

  /** The registry after the calls `ops` in order; the first exception ends the run. */
  function Run<N>(g: Graph<N>, ops: seq<Op<N>>): Result<Graph<N>>
    decreases |ops|
  {
    if ops == [] then Ok(g)
    else
      var prev := Run(g, ops[..|ops| - 1]);
      if prev.Err? then prev else Apply(prev.value, ops[|ops| - 1])
  }

  /** `add_hyperedge` keeps the registry valid and never lowers the id counter. */
  lemma AddHyperedgeStep<N>(g: Graph<N>, members: set<N>, attrs: Attrs)
    requires Valid(g)
    ensures var r := AddHyperedge(g, members, attrs);
      r.Ok? ==> Valid(r.value.graph) && r.value.graph.counter >= g.counter
  {
    AddHyperedgeValid(g, members, attrs);
    if members != {} && !HasHyperedge(g, members) {
      AddHyperedgeNew(g, members, attrs);
    } else if members != {} {
      AddHyperedgeExisting(g, members, attrs);
    }
  }

  lemma ApplyValid<N>(g: Graph<N>, op: Op<N>)
    requires Valid(g)
    ensures Apply(g, op).Ok? ==> Valid(Apply(g, op).value) && Apply(g, op).value.counter >= g.counter
  {
    match op
    case AddNodeOp(n, a) => AddNodeValid(g, n, a);
    case AddEdgeOp(s, a) => AddHyperedgeStep(g, s, a);
    case RemoveEdgeOp(id) =>
      if id in g.edges {
        RemoveHyperedgeValid(g, id);
      }
    case RemoveNodeOp(n) =>
      if n in g.nodes {
        RemoveNodeValid(g, n);
      }
  }

  /** Any run of the mutating methods keeps the registry valid, and the id counter never decreases. */
  lemma {:induction false} RunValid<N>(g: Graph<N>, ops: seq<Op<N>>)
    requires Valid(g)
    ensures Run(g, ops).Ok? ==> Valid(Run(g, ops).value) && Run(g, ops).value.counter >= g.counter
    decreases |ops|
  {
    if ops != [] {
      RunValid(g, ops[..|ops| - 1]);
      var prev := Run(g, ops[..|ops| - 1]);
      if prev.Ok? {
        ApplyValid(prev.value, ops[|ops| - 1]);
      }
    }
  }

  /**
   After any sequence of `add_node`, `add_hyperedge`, `remove_hyperedge` and
   `remove_node` calls on a new registry, `get_star(n)` is exactly the set of
   ids of the hyperedges containing `n`, and a ValueError for an absent node.
   */
  lemma StarExactAfterAnyRun<N>(ops: seq<Op<N>>, n: N)
    requires Run(Empty<N>(), ops).Ok?
    ensures var r := Run(Empty<N>(), ops).value;
      && (GetStar(r, n).Ok? <==> n in r.nodes)
      && (GetStar(r, n).Ok? ==> forall e :: e in GetStar(r, n).value <==> e in r.edges && n in r.edges[e].members)
  {
    RunValid(Empty<N>(), ops);
  }

  /** Ids are never reused: after removing a hyperedge, adding any node set gets a different id. */
  lemma IdsNeverReused<N>(g: Graph<N>, id: nat, members: set<N>, attrs: Attrs)
    requires Valid(g) && id in g.edges
    requires AddHyperedge(RemoveHyperedge(g, id).value, members, attrs).Ok?
    ensures AddHyperedge(RemoveHyperedge(g, id).value, members, attrs).value.id != id
  {
    var g1 := RemoveHyperedge(g, id).value;
    RemoveHyperedgeValid(g, id);
    if HasHyperedge(g1, members) {
      assert g1.index[members] in g1.edges;
    }
  }

  /** A copy continues the id sequence of the original: its next new hyperedge gets the original's next id. */
  lemma CopyContinuesIds<N>(g: Graph<N>, members: set<N>, attrs: Attrs)
    requires members != {} && !HasHyperedge(g, members)
    ensures AddHyperedge(Copy(g), members, attrs).Ok?
    ensures AddHyperedge(Copy(g), members, attrs).value.id == g.counter + 1
  {
    AddHyperedgeInserts(g, members, attrs);
  }
}

=== FILE: wrappers.dfy ===
/**
 Shared result types for the hypergraph model: an `Option`, a `Result` whose
 failures are the Python exception kinds the library raises, and the extended
 naturals used for node weights that may be infinite.
 */
module Wrappers {

  datatype Option<+T> = None | Some(value: T)

  /** The exception kinds the library raises (or lets escape). */
  datatype Error =
    | ValueError
    | KeyError
    | IndexError
    | TypeError
    | AttributeError

  datatype Result<+T> = Ok(value: T) | Err(error: Error) {
    predicate IsFailure() {
      Err?
    }

    function PropagateFailure<U>(): Result<U>
      requires Err?
    {
      Err(error)
    }

    function Extract(): T
      requires Ok?
    {
      value
    }
  }

  /** An argument checked with `isinstance`: an instance of the expected class, or anything else. */
  datatype Checked<+T> = Instance(value: T) | NotInstance

  /** A natural number or positive infinity (Python's `float("inf")`). */
  datatype ExtNat = Fin(n: nat) | Inf {

    predicate Le(other: ExtNat) {
      match (this, other)
      case (_, Inf) => true
      case (Inf, Fin(_)) => false
      case (Fin(a), Fin(b)) => a <= b
    }

    predicate Lt(other: ExtNat) {
      this.Le(other) && this != other
    }

    function Plus(other: ExtNat): ExtNat {
      match (this, other)
      case (Fin(a), Fin(b)) => Fin(a + b)
      case _ => Inf
    }

    function Min(other: ExtNat): ExtNat {
      if this.Le(other) then this else other
    }

    function Max(other: ExtNat): ExtNat {
      if this.Le(other) then other else this
    }
  }

  lemma LeTransitive(a: ExtNat, b: ExtNat, c: ExtNat)
    requires a.Le(b) && b.Le(c)
    ensures a.Le(c)
  {
  }
}
